=== FILE: README.md ===
# tsv-quote-converters in Dafny

A model of the quote-conversion core of unfoldingWord's tsv-quote-converters. Translation
notes are stored as TSV rows that quote the Bible. The repository rewrites those quotes
between a translation, such as the English ULT or another gateway-language (GL) Bible, and
the original-language Bible (the Hebrew UHB or the Greek UGNT). It does this through the word
alignments recorded in the translation's USFM.

The model is written over strings (`seq<char>`), sequences, maps and immutable datatypes, with
pure functions and lemmas. The modules follow the repository's files:

| module | models |
|---|---|
| `Base` | result and option types, small sequence facts |
| `Text` | the JavaScript string operations the code relies on: `indexOf`, `includes`, `split`, `join`, `replace`, `trim`, `toLowerCase`, `toUpperCase`, `parseInt` and number formatting |
| `Tokens` | verse tokens, the per-payload occurrence numbering and `slimSourceTokens` (src/utils/tokens.js) |
| `AlignedQuote` | the source half of `getAlignedQuote`: quote groups, `findConsecutiveTokens` and finding the requested occurrence of each group (src/core/getAlignedQuote.js) |
| `Projection` | the target half of `getAlignedQuote`: token selection through alignment scopes, run building and the reported occurrence |
| `QuoteCombinations` | `generateNextQuoteCombination`, as the finite sequence it yields |
| `SplitString` | `splitStringBySpaces` (src/splitString.js) |
| `PhraseOccurrence` | `findPhraseOccurrenceInSentence`, over tokenised sentences |
| `Search` | `searchWordRecords` and `contentForSearchWords` (src/utils/search.js) |
| `UltToOrig` | `searchULTWordRecords`, `origLFromGLQuote` and `getTidiedData` (src/core/TSV7ULTQuotesToOrigLQuotes.js) |
| `References` | `parseBibleReference`, `getSingleCVsFromReference` and `getAllCVsFromReference` |
| `Tsv` | the TSV row parser and the TSV7/TSV9 writers (src/utils/tsv.js) |
| `Rejig` | `rejigAlignment`, as a left-to-right scanner |
| `AlignmentQuery` | the transform from an alignment query result to the token lookup (src/core/doAlignmentQuery.js) |
| `QuotePrep`, `RowVerses` | what the TSV drivers share: the Hebrew/Greek test, quote clean-up, the `QUOTE_NOT_FOUND` sentinel, verse lists, lookup keys and token gathering |
| `Resolver`, `TsvConverters` | the first-success-wins verse loops of `convertULTQuotes2OL` and `addGLQuoteCols` (src/core/tsvQuoteConverters.js) |
| `GlRows`, `GlColumns`, `GlQuoteCols`, `GlToOl` | the row logic of `addGLQuoteCols` (src/core/addGLQuoteCols.js) and `convertGLQuotes2OLQuotes` (src/core/convertGLQuotes2OLQuotes.js) |

Parts of the model that are parameters rather than code:
- In the row drivers the resolver is a function parameter of type `Resolver.Resolve`. It returns a `Resolver.Attempt`: a placed quote, a failure, or a call that never returns.
- The token lookup is the input of the row loops.
- The testament of the book is `Option<Testament>`; `None` is an unknown book.
- Every driver looks its tokens up under the upper-cased book code, so `tit` and `TIT` convert alike (`TsvConverters.BookCodeCaseIgnored`).

Two behaviours are modelled as explicit outcomes rather than excluded by preconditions:
- A call that never returns. In `getAlignedQuote`, an empty word group with a first-group occurrence below 1 loops forever while tokens remain. This appears as the `Diverges` outcome of `Projection.Outcome`, and the drivers turn it into a pending conversion.
- A throw. A reference without `:` or an undefined quote rejects the conversion, and so does a lookup that misses the repository or the book. A missing verse rejects it only in the GL drivers, which spread the `undefined` tokens. In the TSV7/TSV9 drivers the `undefined` is caught inside the verse loop and only that verse fails (`RowVerses.FetchStrict`, `Resolver.AlignedQuoteAttempt`).

Where the code and its documentation disagree, the model follows the code. Occurrence numbers
are counted over the whole token array of a lookup entry, not per `chapter:verse`.

Several quirks are modelled as written:
- `convertULTQuotes2OL` strips the sentinel only from the copy handed to the resolver. A quote that fails twice therefore carries the sentinel twice (`TsvConverters.ToOrigPrefixDoubles`). The GL drivers strip it before prefixing, so their prefix never doubles (`QuotePrep.MarkNotFoundIdempotent`).
- With three Bible links, `addGLQuoteCols` puts the column pairs in the order first, third, second (`GlColumns.ThreeLinksOrder`).
- A row whose quote already holds `QUOTE_NOT_FOUND` has it copied to the plain `GLQuote` column even when there are several links and the other columns are named `GLQuote:repo` (`GlQuoteCols.GlRow`).
- `getSingleCVsFromReference` returns inside its `;` loop, so only the first `;` part counts (`References.SingleIsFirstPart`).
- In `getAllCVsFromReference`, the branch that re-splits a comma part on `:` is dead (`References.VerseTextHasNoColon`).
- The TSV7/TSV9 drivers read each comma part with `parseInt`. The GL drivers key a single-verse part with its untrimmed text. So for `1:2, 3` they look up `1:2` and then `1: 3` (`RowVerses.UntrimmedPartKey`).
- `doAlignmentQuery` registers a range label `verses/3-5` under its two ends only (`AlignmentQuery.RangeLabelKeys`). When no word-like token is empty or a lone `’`, its tokens end up merged once and labelled with the last verse (`AlignmentQuery.PassesSettle`).

## Model

| member | source | states |
|---|---|---|
| AlignedQuote.QuoteGroups | src/core/getAlignedQuote.js:12 | one group per `' & '` piece of the quote; every word is non-empty and holds no white space, punctuation or symbol character |
| AlignedQuote.QuoteGroupsOfRendered | src/core/getAlignedQuote.js:12 | groups of proper words written out with spaces and `' & '` split back into exactly those groups |
| AlignedQuote.WordLikeIndicesIn | src/core/getAlignedQuote.js:152-166 | the word-like positions a scan passes lie in its range, on word-like tokens, in increasing order |
| AlignedQuote.Scan | src/core/getAlignedQuote.js:152-183 | a successful scan consumed every word; with no words it ends where it started, otherwise strictly after and within the tokens |
| AlignedQuote.FindConsecutiveTokens | src/core/getAlignedQuote.js:138-183 | a match starts at the start index and pairs one token with each word; `endIndex` is at most the token count and, for a non-empty group, beyond the start |
| AlignedQuote.ScanSound | src/core/getAlignedQuote.js:152-183 | what the scan returns is a declarative match: exactly the word-like tokens up to `endIndex`, equal to the words ignoring case, only non-word tokens skipped |
| AlignedQuote.FindConsecutiveTokensSound | src/core/getAlignedQuote.js:138-183 | every match returned is a genuine match of the words |
| AlignedQuote.MatchSkip | src/core/getAlignedQuote.js:162-166 | a token that is not word-like in front of a match is skipped by it |
| AlignedQuote.MatchHead | src/core/getAlignedQuote.js:168-174 | a match from a word-like token begins with that token, equal to the first word, and continues with the rest |
| AlignedQuote.MatchExtendSkip | src/core/getAlignedQuote.js:162-166 | a non-word token in front of a match extends it backwards |
| AlignedQuote.MatchExtendWord | src/core/getAlignedQuote.js:168-174 | a word-like token equal to the first word in front of a match of the rest extends it |
| Text.LowerIdempotent | src/core/getAlignedQuote.js:168 | lowering twice equals lowering once, so comparing lowered words is stable |
| Text.LowerExamples | src/core/getAlignedQuote.js:168 | accented Latin, Greek tonos and Greek Extended capitals match their small letters; a word-final capital sigma becomes ς and a non-final one σ |
| AlignedQuote.ScanComplete | src/core/getAlignedQuote.js:152-183 | whenever the words occur from an index, the scan returns exactly that match (null only at a word-like mismatch or when tokens run out) |
| AlignedQuote.ScanWordStep | src/core/getAlignedQuote.js:168-174 | the scan over a word-like token equal to the first word continues with the remaining words |
| AlignedQuote.FindConsecutiveTokensComplete | src/core/getAlignedQuote.js:138-183 | `findConsecutiveTokens` succeeds exactly when the words occur from its start index, and returns that match |
| AlignedQuote.FindOccurrence | src/core/getAlignedQuote.js:22-45 | the found group is what `findConsecutiveTokens` returns at a position at or after the cursor; a wanted occurrence already passed is never found; the loop hangs only for an empty group |
| AlignedQuote.OccurrenceShift | src/core/getAlignedQuote.js:22-45 | matches already counted only shift the wanted occurrence |
| AlignedQuote.FirstOccurrenceIsLeftmost | src/core/getAlignedQuote.js:27-44 | the first occurrence is the leftmost match at or after the cursor |
| AlignedQuote.FirstOccurrenceExists | src/core/getAlignedQuote.js:27-44 | if any position at or after the cursor starts a match, the first occurrence is found |
| AlignedQuote.OccurrenceAfterFirst | src/core/getAlignedQuote.js:30-41 | the (k+1)-th match is the k-th match after the end of the first one |
| AlignedQuote.OccurrencesOrdered | src/core/getAlignedQuote.js:30-41 | when the (k+1)-th match exists so does the k-th, and it ends before the (k+1)-th starts |
| AlignedQuote.ResolveGroups | src/core/getAlignedQuote.js:18-50 | one match per group; a failure names the requested first-group occurrence; the call hangs only for an empty first group with an occurrence below 1 |
| AlignedQuote.ResolvedInOrder | src/core/getAlignedQuote.js:18-45 | group 0 is its requested occurrence, each later group the first match from the previous group's `endIndex`, so groups are in increasing, non-overlapping positions |
| AlignedQuote.ResolveRejectsLowOccurrence | src/core/getAlignedQuote.js:20-49 | a first-group occurrence below 1 for a group with words always throws |
| AlignedQuote.ResolvedGroupsAreMatches | src/core/getAlignedQuote.js:29-36 | every accepted group is a genuine match of its words |
| Projection.SelectionFor | src/core/getAlignedQuote.js:54-95 | the selection the resolved groups induce covers every target token |
| Projection.MatchedIndicesWithin | src/core/getAlignedQuote.js:54-84 | the matched source indices are all indices of the source |
| Projection.ResolvedSelection | src/core/getAlignedQuote.js:54-95 | the selection of a fully resolved quote covers every target token |
| Projection.FirstSelectedFrom | src/core/getAlignedQuote.js:97-100 | the first selected word at or after an index is word-like and selected |
| Projection.WalkGroups | src/core/getAlignedQuote.js:64-125 | the loop from any consistent state ends with the predicted groups and the predicted occurrence |
| Projection.StepConsistent | src/core/getAlignedQuote.js:97-121 | one loop turn keeps the invariant: a run is open exactly when the previous word is selected |
| Projection.StepGroups | src/core/getAlignedQuote.js:97-121 | one loop turn preserves the predicted groups |
| Projection.StepFirst | src/core/getAlignedQuote.js:97-109 | one loop turn preserves the predicted occurrence |
| Projection.WalkWithoutSelection | src/core/getAlignedQuote.js:62-128 | with no selected word the loop makes no group and reports occurrence 1 |
| Projection.WalkFromStart | src/core/getAlignedQuote.js:58-125 | the loop builds exactly the maximal runs of selected words and reports the expected occurrence |
| Projection.GetAlignedQuote | src/core/getAlignedQuote.js:9-129 | an occurrence below 1 never resolves; a throw is the group-not-found error with the requested occurrence; only an empty first group can hang |
| Projection.AlignedQuoteIsRuns | src/core/getAlignedQuote.js:97-128 | when every selected word has a non-empty payload, the quote is the maximal runs of selected words, inner non-word text collapsed to single spaces, joined by `' & '`; the occurrence is the first run's single word's, else 1; no selection gives `''` and 1 |
| Tokens.CountWordLikeMonotone | src/core/getAlignedQuote.js:67-73 | the per-payload count of word-like tokens never drops along the list |
| Tokens.OccurrenceIdentifiesToken | src/core/getAlignedQuote.js:67-73 | a word-like token's occurrence is at least 1 and two tokens with the same payload never share one |
| Tokens.TallyCounts | src/utils/tokens.js:12-17 | the running tally holds exactly how often each normalised payload has been seen |
| Tokens.SlimStep | src/utils/tokens.js:10-19 | one loop turn makes the slim token for the index and advances the tally by its payload |
| Tokens.SlimSourceTokens | src/utils/tokens.js:3-22 | null exactly for a missing list; otherwise same length and order, payload white-space runs collapsed to one space, occurrence the 1-based count of equal payloads so far, scopes dropped |
| PhraseOccurrence.FirstWord | src/utils/findPhraseInSentence.js:22 | the phrase's first token, absent exactly for an empty phrase |
| PhraseOccurrence.Window | src/utils/findPhraseInSentence.js:38 | the slice is the phrase length, cut short at the end of the sentence |
| PhraseOccurrence.LastRecorded | src/utils/findPhraseInSentence.js:38-41 | the index whose record the map keeps lies below the bound |
| PhraseOccurrence.LastRecordedIsLast | src/utils/findPhraseInSentence.js:38-41 | the kept entry records under the key and no later index does: later matches overwrite |
| PhraseOccurrence.LastRecordedComplete | src/utils/findPhraseInSentence.js:38-41 | the entry is missing only if no index recorded under the key |
| PhraseOccurrence.ScanIndex | src/utils/findPhraseInSentence.js:34-41 | one loop turn: the starter count goes up before the match test, overlapping matches count, the map keeps the last record per starter count |
| PhraseOccurrence.OccurrenceEntryStep | src/utils/findPhraseInSentence.js:38-41 | a match at the index overwrites its starter count's entry and touches no other |
| PhraseOccurrence.FindPhraseOccurrence | src/utils/findPhraseInSentence.js:29-44 | the loop returns the map's entry for the requested starter occurrence |
| PhraseOccurrence.PhraseOccurrenceSpec | src/utils/findPhraseInSentence.js:33-44 | the result is defined iff some index records under the requested count, and is then the match count at the last such index |
| PhraseOccurrence.MatchStartsWithFirstWord | src/utils/findPhraseInSentence.js:34-38 | with space-free tokens, a match starts with the phrase's first word |
| PhraseOccurrence.MatchesAtMostStarters | src/utils/findPhraseInSentence.js:33-41 | no prefix holds more matches than starter words |
| PhraseOccurrence.MatchesMonotone | src/utils/findPhraseInSentence.js:38-39 | the match count never drops along the sentence |
| PhraseOccurrence.RecordedBounds | src/utils/findPhraseInSentence.js:38-40 | a recorded match number lies between 1 and its starter count and within the total matches |
| PhraseOccurrence.PhraseOccurrenceBounds | src/utils/findPhraseInSentence.js:33-44 | a defined result lies between 1 and the requested starter occurrence and never exceeds the total number of matches |
| SplitString.Reverse | src/splitString.js:23 | the reverse has the same length with entry k taken from the mirrored place |
| SplitString.GenerateSplitsRendersCompositions | src/splitString.js:10-20 | the recursion renders every composition of the remaining words, in enumeration order |
| SplitString.SplitLoopRendersCompositions | src/splitString.js:16-19 | the loop renders exactly the compositions whose first chunk is at least the current length |
| SplitString.SplitsAreCompositions | src/splitString.js:7-22 | before the reverse, the results are all compositions of the words rendered with `' & '` |
| SplitString.CompositionsCount | src/splitString.js:10-20 | n words have 2^(n-1) compositions |
| SplitString.SplitCount | src/splitString.js:7-23 | the result has 2^(n-1) entries for n space-separated words |
| SplitString.CompositionsAreCompositions | src/splitString.js:16-19 | every enumerated entry cuts the words into consecutive non-empty chunks |
| SplitString.CompositionsDistinct | src/splitString.js:16-19 | no composition is enumerated twice |
| SplitString.DecodeRendering | src/splitString.js:12-17 | a rendering of plain words splits back into its composition |
| SplitString.GroupingAt | src/splitString.js:7-23 | entry k of the result renders the grouping k places from the end of the enumeration |
| SplitString.RenderingInjective | src/splitString.js:12-17 | different groupings of the same plain words give different strings |
| SplitString.SplitsRenderGroupings | src/splitString.js:7-23 | the result renders the groupings of the words, last first |
| SplitString.SplitsDistinct | src/splitString.js:10-20 | for a string without `&`, no two results are equal |
| SplitString.SplitsRoundTrip | src/splitString.js:12-17 | for a string without `&`, every `' & '` of any result turned back into a space gives the input |
| SplitString.RenderingRoundTrip | src/splitString.js:12-17 | a grouping of plain words with `' & '` replaced by spaces joins the words |
| SplitString.SplitsFirstAndLast | src/splitString.js:16-23 | after the reverse the first result is the unsplit input and the last puts `' & '` between every two words |
| QuoteCombinations.Consecutive | src/utils/generateNextQuoteCombination.js:35-38 | the initial positions `0..k-1` |
| QuoteCombinations.YieldIfNew | src/utils/generateNextQuoteCombination.js:52-54 | a candidate is yielded only when it differs from the input |
| QuoteCombinations.SinglePhase | src/utils/generateNextQuoteCombination.js:23-30 | the single-separator loop never yields the input |
| QuoteCombinations.NextPosIndex | src/utils/generateNextQuoteCombination.js:57-60 | `posIndex` stops at the first index from the right whose position is below `n - k + posIndex`, or at -1 |
| QuoteCombinations.AdvanceMovesLast | src/utils/generateNextQuoteCombination.js:40-66 | from every reachable state that passes the guard only the last position moves, by one; the `break` is never taken |
| QuoteCombinations.MultiRun | src/utils/generateNextQuoteCombination.js:40-67 | the inner `while` never yields the input |
| QuoteCombinations.MultiPhase | src/utils/generateNextQuoteCombination.js:33-68 | the multi-separator phase never yields the input |
| QuoteCombinations.QuoteCombinations | src/utils/generateNextQuoteCombination.js:5-69 | the input is yielded first and never again; an input of at most one word yields only itself |
| QuoteCombinations.JoinIsRender | src/utils/generateNextQuoteCombination.js:17 | the words joined by spaces are the candidate without separators |
| QuoteCombinations.SingleAmpersandIsRender | src/utils/generateNextQuoteCombination.js:24-26 | the single-separator candidate for gap i is the rendering with `' & '` at gap i alone |
| QuoteCombinations.SinglePhaseIsFresh | src/utils/generateNextQuoteCombination.js:23-30 | the single-separator loop yields the candidates for gaps i, i+1, ... that differ from the input, in order |
| QuoteCombinations.MultiRunIsFresh | src/utils/generateNextQuoteCombination.js:40-67 | with positions `0..k-2, j` the loop yields the candidates whose last separator walks from j to the end |
| QuoteCombinations.MultiPhaseIsFresh | src/utils/generateNextQuoteCombination.js:33-68 | the multi-separator phase yields, for k = 2 .. n-1, the candidates with separators at `0..k-2` and one walking gap |
| QuoteCombinations.CombinationsAreCandidates | src/utils/generateNextQuoteCombination.js:14-68 | after the input come exactly the reference candidates that differ from it: no separator, each single gap left to right, then the multi-separator placements |
| QuoteCombinations.WordsOfRender | src/utils/generateNextQuoteCombination.js:42-51 | a candidate's words with separators dropped are the words it was built from |
| QuoteCombinations.CombinationsKeepWords | src/utils/generateNextQuoteCombination.js:7-68 | every yielded string has the input's word sequence once white space and `&` are dropped |
| QuoteCombinations.FourWordsTwoSeparators | src/utils/generateNextQuoteCombination.js:40-67 | for k = 2 the loop from `[0, 1]` tries only gaps {0,1} and {0,2}, whatever the words |
| Search.EllipsisTuples | src/utils/search.js:9-15 | a piece's first part is unflagged, every later part flagged; no part holds `…`; more than one part iff the piece contains `…` |
| Search.EllipsisTuplesRoundTrip | src/utils/search.js:9-15 | joining a piece's parts with `…` gives the piece back |
| Search.DropPaseq | src/utils/search.js:17 | an entry survives the filter iff its word is not `׀`; with no `׀` the list is unchanged |
| Search.DropPaseqConcat | src/utils/search.js:17 | filtering a concatenation filters each half, so the survivors keep their order |
| Search.SearchWordRecords | src/utils/search.js:5-18 | no search word is the paseq or contains `…` |
| Search.PlainPiecesTuples | src/utils/search.js:7-17 | plain pieces pass through cleaning and filtering as unflagged tuples of themselves |
| Search.SearchPlainWords | src/utils/search.js:5-18 | plain words separated by single spaces search as themselves, in order, none flagged |
| Search.Consumed | src/utils/search.js:26-36 | a match uses at least one token per search word and no more tokens than there are |
| Search.MatchFromConsumes | src/utils/search.js:22-37 | `lfsw1` succeeds iff the list matches at the front, and returns the accumulated content followed by the (payload, occurrence) entries of exactly the tokens the match uses, skipped ones included |
| Search.ConsumedEndsOnLastWord | src/utils/search.js:26-31 | a match of a non-empty list ends on a token equal to its last word |
| Search.ConsumedWithoutWildcards | src/utils/search.js:30-35 | without wildcards a match is exactly the words, payload for payload, at the front |
| Search.ContentForSearchWords | src/utils/search.js:20-43 | null for no tokens; `[]` for an empty list over tokens |
| Search.ContentIsFirstMatch | src/utils/search.js:39-42 | null iff no start position matches; otherwise the content of the first start that does |
| UltToOrig.UltSearchList | src/core/TSV7ULTQuotesToOrigLQuotes.js:123-138 | the search list, split on hyphen, white space and maqaf, stripped and split on `…`, holds no paseq |
| UltToOrig.FirstWordIndex | src/core/TSV7ULTQuotesToOrigLQuotes.js:143-149 | the first index from `startAt` whose payload is the word, or -1 when none is |
| UltToOrig.FindStart | src/core/TSV7ULTQuotesToOrigLQuotes.js:150-164 | a start found lies within the tokens at or after where the search began |
| UltToOrig.ComparesFromMeans | src/core/TSV7ULTQuotesToOrigLQuotes.js:155-161 | the comparison holds iff every later word that still has a token to pair with equals that token's payload (running out of tokens counts as found) |
| UltToOrig.FindStartIsLeast | src/core/TSV7ULTQuotesToOrigLQuotes.js:143-168 | the loops find the least start where the first word occurs and the rest compares, or none when there is none |
| UltToOrig.AttachScopes | src/core/TSV7ULTQuotesToOrigLQuotes.js:172-173 | one tuple per search word; only tuples paired with a token get its scopes |
| UltToOrig.SearchUltWordRecordsSpec | src/core/TSV7ULTQuotesToOrigLQuotes.js:118-176 | `[]` exactly when no start exists; otherwise the list with scopes attached from the least start |
| UltToOrig.NamedBy | src/core/TSV7ULTQuotesToOrigLQuotes.js:204-220 | the inner loop reports a word iff some tuple's scopes array of length 1 or 2 contains `/<word>:` |
| UltToOrig.IncludedWords | src/core/TSV7ULTQuotesToOrigLQuotes.js:201-221 | every word kept is named by a tuple and is an original-language word |
| UltToOrig.IncludedWordsCount | src/core/TSV7ULTQuotesToOrigLQuotes.js:202-221 | inclusion depends only on the payload: an included word keeps all its occurrences, any other word none |
| UltToOrig.IncludedWordsConcat | src/core/TSV7ULTQuotesToOrigLQuotes.js:202-221 | the words come out in original-language token order, not in quote order |
| UltToOrig.OrigLFromGLQuote | src/core/TSV7ULTQuotesToOrigLQuotes.js:190-236 | returned words are non-empty in number and each a word-like original-language payload |
| UltToOrig.NoMatchExactly | src/core/TSV7ULTQuotesToOrigLQuotes.js:223-235 | `{error}` exactly when no original-language word is named by a tuple, `{data}` otherwise |
| UltToOrig.TidiedWithoutEllipsis | src/core/TSV7ULTQuotesToOrigLQuotes.js:248 | without an ellipsis word the words are only joined by single spaces |
| UltToOrig.TidiedFirstEllipsis | src/core/TSV7ULTQuotesToOrigLQuotes.js:248 | for any word list whose first `…`-bearing word is a lone `…` between two words, that ellipsis closes up onto its neighbours and the rest, later ellipses included, keeps its spaces |
| UltToOrig.TidiedFirstEllipsisOnly | src/core/TSV7ULTQuotesToOrigLQuotes.js:248 | the five-word instance: `a … b … c` becomes `a…b … c` |
| References.LabelParts | src/utils/parseBibleReference.js:22 | a label splits on `:` into its chapter and verse again |
| References.NoColonInNumber | src/utils/parseBibleReference.js:29 | a printed verse number holds no `:` |
| References.RangeItemsLength | src/utils/parseBibleReference.js:28-30 | a range `a-b` gives b-a+1 labels, none when a > b |
| References.RangeItemAt | src/utils/parseBibleReference.js:28-30 | the k-th label of a range is verse a+k: inclusive and ascending |
| References.RangeLabelReadBack | src/utils/parseBibleReference.js:28-30 | each printed range label reads back as its chapter and verse a+k |
| References.ReadRange | src/utils/parseBibleReference.js:27 | `split('-').map(parseInt)` read as a range |
| References.VerseItems | src/utils/parseBibleReference.js:26-33 | a single verse is pushed as its text without `parseInt`; a NaN bound pushes nothing |
| References.ReadVerse | src/utils/parseBibleReference.js:26 | a verse is read as a range iff it includes `-`, else kept as its text |
| References.ReadCommaPart | src/utils/parseBibleReference.js:20-22 | a part names a chapter iff it contains `:`; the chapter has no `:`; a bare part is read trimmed |
| References.PartItems | src/utils/parseBibleReference.js:20-50 | a part throws iff it is bare and no chapter is held; otherwise it pushes its verses under its own or the held chapter |
| References.ParseBibleReference | src/utils/parseBibleReference.js:10-12 | an empty reference or one without `:` gives `[]`; the rest of its behaviour is stated by `References.ExpandFails`, `References.ChapterInForceIsHeld`, `References.ParsePlainList` and `References.ParseRangeReference` |
| References.ExpandAll | src/utils/parseBibleReference.js:15-55 | the loop throws iff the expansion of the parts does |
| References.ChapterInForceUnique | src/utils/parseBibleReference.js:23 | at most one chapter is in force at a time |
| References.ChapterCarriesForward | src/utils/parseBibleReference.js:15-50 | a chapter part sets the chapter, which carries forward over later bare parts across comma and semicolon boundaries |
| References.ChapterInForceIsHeld | src/utils/parseBibleReference.js:23-36 | the chapter the loop holds is exactly the chapter in force |
| References.ExpandPrefix | src/utils/parseBibleReference.js:17-53 | output order follows input order: a prefix's labels come first |
| References.ExpandFailsAt | src/utils/parseBibleReference.js:36-38 | the expansion throws iff some part throws |
| References.ExpandFails | src/utils/parseBibleReference.js:36-38 | it throws exactly when a bare part is read while no chapter is in force |
| References.GetSingleCVsFromReference | src/utils/getSingleCVsFromReference.js:5-7 | an empty reference or one without `:` gives `[]`; otherwise it is parseBibleReference of the first `;` part (`References.SingleIsFirstPart`, `References.SinglePlainList`) |
| References.FirstPartAlone | src/utils/getSingleCVsFromReference.js:10-12 | the first `;` part is its own only `;` part |
| References.SingleIsFirstPart | src/utils/getSingleCVsFromReference.js:12-50 | the result is `parseBibleReference` of the first `;` part: the `return` inside the loop ends it there |
| References.SingleIgnoresLaterParts | src/utils/getSingleCVsFromReference.js:12-50 | whatever follows the first `;` is ignored |
| References.ReadSemicolonPart | src/utils/getAllCVsFromReference.js:6 | `[chapter, verseRef]` defined iff the part has `:`; neither holds `:` |
| References.ReadAllVerse | src/utils/getAllCVsFromReference.js:12-21 | a comma part with `-` is read trimmed as a range; any other is kept verbatim, untrimmed |
| References.ReadAllPart | src/utils/getAllCVsFromReference.js:6-7 | a `;` part yields a verse list iff it holds `:` |
| References.SemicolonItems | src/utils/getAllCVsFromReference.js:5-23 | the loop throws iff some `;` part has no `:` (`.trim()` of undefined) |
| References.GetAllCVsFromReference | src/utils/getAllCVsFromReference.js:1-25 | a blank reference throws, unlike the other two expanders |
| References.ShowItems | src/utils/getAllCVsFromReference.js:16-20 | printing keeps an error as it is |
| References.AllFails | src/utils/getAllCVsFromReference.js:4-7 | the call throws exactly when some `;` part of the trimmed reference has no `:` |
| References.SemicolonPartsFail | src/utils/getAllCVsFromReference.js:5-7 | the `;` loop throws exactly when one of its parts lacks `:` |
| References.VerseTextHasNoColon | src/utils/getAllCVsFromReference.js:9-11 | verse text never contains `:`, so the reassignment branch is dead |
| References.ShowWrittens | src/utils/parseBibleReference.js:32 | plain labels pushed as text print back as themselves |
| References.PlainCommaRead | src/utils/parseBibleReference.js:20-23 | a plain label is read back as its chapter and single verse |
| References.PlainSemicolonRead | src/utils/getAllCVsFromReference.js:6-7 | a plain label is read back as its chapter and single verse |
| References.ExpandPlain | src/utils/parseBibleReference.js:17-53 | plain labels expand to themselves, one each |
| References.ExpandPlainAll | src/utils/parseBibleReference.js:17-55 | plain chapter parts print back as written |
| References.ParsePlainList | src/utils/parseBibleReference.js:6-56 | a `;`-separated list of plain single references expands to itself |
| References.SinglePlainList | src/utils/getSingleCVsFromReference.js:1-51 | on the same list `getSingleCVsFromReference` keeps only the first reference |
| References.SemicolonPlain | src/utils/getAllCVsFromReference.js:5-23 | plain `;` parts push one label each |
| References.AllPlainList | src/utils/getAllCVsFromReference.js:1-25 | a plain list also expands to itself here |
| References.RangeCommaPart | src/utils/parseBibleReference.js:20-27 | `c:a-b` is read as a chapter part holding the range of the two numerals |
| References.RangeReferenceParts | src/utils/parseBibleReference.js:15-27 | `c:a-b` is one chapter part holding that range |
| References.ParseRangeReference | src/utils/parseBibleReference.js:6-56 | `c:a-b` with canonical numerals expands to verses a..b of chapter c |
| References.ExpandOneRange | src/utils/parseBibleReference.js:26-30 | one range part expands to the labels of that range |
| Tsv.At | src/utils/tsv.js:5-13 | `row[k]` is the k-th field when there is one and `undefined` otherwise |
| Tsv.PadRow | src/utils/tsv.js:23-27 | a 7-field row gets `''` and `0` spliced in at positions 6 and 7; any other row is left alone |
| Tsv.OccurrenceOf | src/utils/tsv.js:10-12 | a missing or non-numeric field gives 0, otherwise the number read |
| Tsv.ParseRow | src/utils/tsv.js:22 | a record keeps its line number and its first tab-separated field as `ref` |
| Tsv.NonBlankLines | src/utils/tsv.js:20 | only lines that are not wholly white space are kept, each one a line of the input |
| Tsv.ParseTsvToObjects | src/utils/tsv.js:17-32 | the k-th record is numbered k |
| Tsv.Tsv7Fields | src/utils/tsv.js:34-36 | the TSV7 writer prints seven columns |
| Tsv.Tsv9Fields | src/utils/tsv.js:38-40 | the TSV9 writer prints nine columns |
| Tsv.Tsv9ExtendsTsv7 | src/utils/tsv.js:34-40 | TSV9 is TSV7 with the GL quote and GL occurrence inserted after the occurrence |
| Tsv.TabSplitJoin | src/utils/tsv.js:22 | splitting tab-free parts joined by tabs recovers the parts |
| Tsv.WrittenColumns | src/utils/tsv.js:34-40 | a written line splits back on tabs into its columns |
| Tsv.LeadingColumns | src/utils/tsv.js:5-9 | columns 0 to 4 become ref, id, tags, supportReference and quote in every row |
| Tsv.SevenFieldRow | src/utils/tsv.js:23-26 | in a 7-field row the note moves to column 8, after an empty GL quote and a GL occurrence of 0 |
| Tsv.OtherRow | src/utils/tsv.js:11-13 | any other row keeps glQuote at 6, glOccurrence at 7 and note at 8; later fields are ignored |
| Tsv.NonBlankAround | src/utils/tsv.js:20 | a blank line is dropped wherever it stands |
| Tsv.NonBlankKeepsAll | src/utils/tsv.js:20 | lines none of which is blank are all kept |
| Tsv.ParseLines | src/utils/tsv.js:17-32 | a file of newline-free lines is read line by line, blank ones skipped, the rest numbered from 0 |
| Tsv.NewlineFreeAround | src/utils/tsv.js:19 | removing or keeping a newline-free line keeps the file newline-free |
| Tsv.BlankLineIgnored | src/utils/tsv.js:18-31 | inserting a blank line anywhere changes no record, not even the numbering |
| Tsv.IntegerTextValue | src/utils/tsv.js:10 | a canonical integer field is read back as the number it prints |
| Tsv.IntegerTextNotBlank | src/utils/tsv.js:20 | a canonical integer field is never blank |
| Tsv.JoinNotBlank | src/utils/tsv.js:20 | a line holding a non-blank cell is not blank |
| Tsv.SevenFieldColumns | src/utils/tsv.js:23-36 | the columns the TSV7 writer prints for a parsed 7-field row |
| Tsv.NineFieldColumns | src/utils/tsv.js:1-40 | the columns the TSV9 writer prints for a parsed 9-field row |
| Tsv.ParseJoinedRow | src/utils/tsv.js:21-31 | a tab-joined row is read back column for column |
| Tsv.Tsv7ColumnsBack | src/utils/tsv.js:1-36 | the TSV7 writer prints the columns of a TSV7 data row back unchanged |
| Tsv.Tsv9ColumnsBack | src/utils/tsv.js:1-40 | the TSV9 writer prints the columns of a TSV9 data row back unchanged |
| Tsv.Tsv7RowRoundTrip | src/utils/tsv.js:17-36 | a TSV7 line parsed and written again is the same line |
| Tsv.Tsv9RowRoundTrip | src/utils/tsv.js:17-40 | a TSV9 line parsed and written again is the same line |
| Tsv.RowLines | src/utils/tsv.js:19 | a file's lines are its rows joined with tabs |
| Tsv.Tsv7Line | src/utils/tsv.js:20 | a TSV7 data line is newline-free and not blank, so the filter keeps it |
| Tsv.Tsv7FileRoundTrip | src/utils/tsv.js:17-36 | a file of TSV7 rows parses to records the TSV7 writer prints back as the file's lines, in order |
| Rejig.DigitRun | src/utils/rejig_alignment.js:6 | greedy `\d+`: the longest digit prefix, stopped only by a non-digit or the end |
| Rejig.NonQuoteRun | src/utils/rejig_alignment.js:6 | greedy `[^"]+`: the longest prefix without `"`, stopped only by `"` or the end |
| Rejig.MatchContent | src/utils/rejig_alignment.js:6 | a content group is non-empty, holds no `"` and is followed by the closing `"` |
| Rejig.MatchOccurrences | src/utils/rejig_alignment.js:6 | the occurrences group is non-empty digits and the content group a non-empty run without `"`, both present in the text |
| Rejig.MatchOccurrence | src/utils/rejig_alignment.js:6 | the three captured groups are well-formed and the text they match is there |
| Rejig.MatchPrefix | src/utils/rejig_alignment.js:6 | a match at the front of the text captures well-formed groups and consumes exactly their attribute text |
| Rejig.DigitRunOf | src/utils/rejig_alignment.js:6 | a digit run stops at the first non-digit |
| Rejig.NonQuoteRunOf | src/utils/rejig_alignment.js:6 | a run without `"` stops at the first `"` |
| Rejig.ContentComplete | src/utils/rejig_alignment.js:6 | a well-formed content group followed by `"` is always matched, with that group |
| Rejig.OccurrencesComplete | src/utils/rejig_alignment.js:6 | well-formed occurrences and content groups are always matched, with those groups |
| Rejig.OccurrenceComplete | src/utils/rejig_alignment.js:6 | well-formed triples are always matched, with those groups |
| Rejig.MatchComplete | src/utils/rejig_alignment.js:6 | text beginning with the attributes of well-formed groups matches with exactly those groups |
| Rejig.RejigSkip | src/utils/rejig_alignment.js:3-8 | where no match starts, one character is copied and the scan moves on |
| Rejig.NoMatchStep | src/utils/rejig_alignment.js:3-8 | a character that starts no match is copied, and the rest of such a stretch starts none either |
| Rejig.RejigKeeps | src/utils/rejig_alignment.js:3-8 | text in which no match starts is copied unchanged |
| Rejig.RejigRewrites | src/utils/rejig_alignment.js:4-7 | a match becomes ` x-align="content:occurrence:occurrences"` and the scan resumes right after it |
| Rejig.RejigNoMatch | src/utils/rejig_alignment.js:3-8 | input without ` x-occurrence="` is returned unchanged |
| Rejig.SpaceFreeNoMatch | src/utils/rejig_alignment.js:6 | space-free text cannot start a match, since the pattern begins with a space |
| Rejig.DocumentStep | src/utils/rejig_alignment.js:3-8 | space-free text followed by a triple: the text is kept and the triple rewritten |
| Rejig.RejigDocument | src/utils/rejig_alignment.js:3-8 | the global replace rewrites every triple, in order, and keeps the text between them when that text holds no space |
| AlignmentQuery.LabelValue | src/core/doAlignmentQuery.js:41 | `split('/')[1]` of a label holds no `/` |
| AlignmentQuery.ScopeValue | src/core/doAlignmentQuery.js:41-44 | the lookup throws iff no label has the `kind/` prefix |
| AlignmentQuery.ScopeValueAt | src/core/doAlignmentQuery.js:41-44 | the first label with the prefix decides the value: `filter(...)[0]` |
| AlignmentQuery.GroupVerses | src/core/doAlignmentQuery.js:41-45 | a verses label yields at least one verse piece |
| AlignmentQuery.LabelValueOf | src/core/doAlignmentQuery.js:41 | the value of `kind/v` is `v` |
| AlignmentQuery.GroupVersesOf | src/core/doAlignmentQuery.js:41-45 | a group's chapter and verse pieces come from its first chapter and verses labels |
| AlignmentQuery.RangeLabelKeys | src/core/doAlignmentQuery.js:41-55 | a range label `verses/a-b` registers its two ends and nothing between them |
| AlignmentQuery.ChapterLabel | src/core/doAlignmentQuery.js:41 | the first `chapter/` label gives the chapter |
| AlignmentQuery.VersesLabel | src/core/doAlignmentQuery.js:42-44 | the first `verses/` label gives the verse text |
| AlignmentQuery.MergeApostrophes | src/core/doAlignmentQuery.js:47-51 | each token takes the `’` that follows a word-like token, and that follower is emptied |
| AlignmentQuery.VersePass | src/core/doAlignmentQuery.js:46-54 | the in-place loop over the tokens computes the merged and labelled array |
| AlignmentQuery.VerseStep | src/core/doAlignmentQuery.js:47-53 | one loop body settles token i, prepares token i+1 and leaves the rest alone |
| AlignmentQuery.PassAt | src/core/doAlignmentQuery.js:47-53 | what one step leaves at positions i and i+1: the merge only for the Greek Bible |
| AlignmentQuery.Passes | src/core/doAlignmentQuery.js:42-57 | the passes share one array: the sub-types stay, and every token ends labelled with the last verse piece |
| AlignmentQuery.MergeKeepsPlain | src/core/doAlignmentQuery.js:47-51 | merging keeps word-like tokens non-empty and never a lone `’` |
| AlignmentQuery.NoApostropheAfterWord | src/core/doAlignmentQuery.js:47-51 | after a merge no lone `’` follows a word-like token |
| AlignmentQuery.MergeIdempotent | src/core/doAlignmentQuery.js:47-51 | a second merge changes nothing |
| AlignmentQuery.MergeAnnotate | src/core/doAlignmentQuery.js:47-53 | merging and labelling commute |
| AlignmentQuery.PassesSettle | src/core/doAlignmentQuery.js:42-57 | when no word-like token is empty or a lone `’`, however many verse pieces, the shared tokens end merged once and labelled with the last piece |
| AlignmentQuery.GroupEntries | src/core/doAlignmentQuery.js:41-55 | a group registers at least one key, all for its tokens |
| AlignmentQuery.Register | src/core/doAlignmentQuery.js:55 | the group's keys are set to its tokens; other keys keep their entries |
| AlignmentQuery.Collect | src/core/doAlignmentQuery.js:40-58 | all entries in order, or the error of the first bad group |
| AlignmentQuery.RegisterAll | src/core/doAlignmentQuery.js:55 | registering never removes a key |
| AlignmentQuery.LastEntryWins | src/core/doAlignmentQuery.js:55 | a key holds the tokens of the last entry that lists it |
| AlignmentQuery.UnlistedKept | src/core/doAlignmentQuery.js:55 | a key no entry lists keeps its entry or stays absent |
| AlignmentQuery.AddGroups | src/core/doAlignmentQuery.js:40-58 | the lookup keeps earlier keys and throws iff some group lacks a scope label |
| AlignmentQuery.LastGroupWins | src/core/doAlignmentQuery.js:40-58 | a key holds the tokens of the last group that registers it |
| AlignmentQuery.UnregisteredKept | src/core/doAlignmentQuery.js:40-58 | a key no group registers keeps its entry or stays absent |
| AlignmentQuery.AddDocuments | src/core/doAlignmentQuery.js:38-59 | each book is added without losing earlier ones |
| AlignmentQuery.AddDocSets | src/core/doAlignmentQuery.js:36-60 | every repository of the result gets an entry; earlier ones stay |
| AlignmentQuery.DoAlignmentQuery | src/core/doAlignmentQuery.js:30-61 | query errors throw; otherwise every repository of the result has a lookup |
| Resolver.AlignedQuoteAttempt | src/core/tsvQuoteConverters.js:194-202 | an undefined source throws; an occurrence below 1 or `NaN` never resolves; a success needs a target and is what the projection resolves |
| Resolver.ScanFrom | src/core/tsvQuoteConverters.js:184-222 | from verse i the loop ends at the first verse that does not fail, every verse before it having failed, or reports that all failed |
| Resolver.FirstSuccess | src/core/tsvQuoteConverters.js:184-222 | no verses means no line; otherwise the verdict names the first verse that does not fail, or all failed |
| Resolver.ScanStopsAt | src/core/tsvQuoteConverters.js:204-214 | the scan stops at the first verse that does not fail |
| Resolver.ScanExhausts | src/core/tsvQuoteConverters.js:211-221 | when every remaining verse fails the scan reports that all failed |
| Resolver.FirstSuccessWins | src/core/tsvQuoteConverters.js:204-210 | the first verse that does not fail decides; later verses are never looked at |
| Resolver.AllFailedExactly | src/core/tsvQuoteConverters.js:211-221 | the failure line is written exactly when there are verses and all of them failed |
| Resolver.LaterVersesIgnored | src/core/tsvQuoteConverters.js:208-210 | changing the verses after the deciding one changes nothing |
| TsvConverters.CallOccurrenceIsParseInt | src/core/tsvQuoteConverters.js:195-198 | the special case for the text `'1'` changes nothing: the occurrence passed is `parseInt` of the field |
| TsvConverters.RawOccurrence | src/core/tsvQuoteConverters.js:297 | `addGLQuoteCols` passes a number as itself and text as something never equal to a count |
| TsvConverters.VerseList | src/core/tsvQuoteConverters.js:165-182 | the verses list is defined iff the reference has `:`, built from its verse parts |
| TsvConverters.VerseTokens | src/core/tsvQuoteConverters.js:187-189 | the original-language lookup throws without its repository or book; the ULT lookup only without the book |
| TsvConverters.VerseStep | src/core/tsvQuoteConverters.js:185-202 | a verse crashes the loop exactly when a token lookup throws outside the `try` |
| TsvConverters.RolesSwapped | src/core/tsvQuoteConverters.js:199-297 | the two drivers make the same call with the resolver's roles exchanged |
| TsvConverters.Settle | src/core/tsvQuoteConverters.js:204-221 | success updates the record; the last verse failing writes it once with an error naming that verse; a throw or a call that never returns ends the run |
| TsvConverters.ToOrigRecord | src/core/tsvQuoteConverters.js:154-222 | skipped rows are written back; a reference without `:` throws; a written record keeps its reference, ID and note |
| TsvConverters.ToOrigHeaderRow | src/core/tsvQuoteConverters.js:156-162 | the header row is written with `Occurrence` as its occurrence |
| TsvConverters.ToOrigSteps | src/core/tsvQuoteConverters.js:184-202 | one try per verse of the list |
| TsvConverters.ToOrigFirstSuccess | src/core/tsvQuoteConverters.js:204-210 | the first verse that resolves gives the record its quote and occurrence, whatever later verses would give |
| TsvConverters.ToOrigAllFail | src/core/tsvQuoteConverters.js:211-221 | when every verse fails the record is written once, its quote behind `QUOTE_NOT_FOUND: `, and the error names the last verse |
| TsvConverters.ToOrigPrefixDoubles | src/core/tsvQuoteConverters.js:164-215 | a quote already carrying the sentinel gets a second one when it fails again |
| TsvConverters.PrefixTwice | src/core/tsvQuoteConverters.js:215 | prefixing a prefixed quote gives the sentinel twice |
| TsvConverters.ToOrigNoVerses | src/core/tsvQuoteConverters.js:175-184 | a descending range lists no verse, and the record writes no line at all |
| TsvConverters.GlRecord | src/core/tsvQuoteConverters.js:254-320 | with a reference, an undefined quote throws; skipped rows are written back; a written record keeps its reference, ID, quote and note |
| TsvConverters.GlSteps | src/core/tsvQuoteConverters.js:286-300 | one try per verse of the list |
| TsvConverters.GlFirstSuccess | src/core/tsvQuoteConverters.js:302-308 | on success the GL columns hold the resolved quote and occurrence; the source columns are left alone |
| TsvConverters.GlRecordSettles | src/core/tsvQuoteConverters.js:286-320 | a record that is resolved ends as its verse loop does |
| TsvConverters.GlAllFail | src/core/tsvQuoteConverters.js:309-319 | when every verse fails the GL quote is the source quote behind the sentinel and the error names the last verse |
| TsvConverters.Assemble | src/core/tsvQuoteConverters.js:153-224 | the run settles iff no record throws or hangs; at most one line per record and one error per line |
| TsvConverters.AssembleAllEmit | src/core/tsvQuoteConverters.js:154-224 | records writing one line each come out one per record, in order |
| TsvConverters.ConvertUltQuotes2Ol | src/core/tsvQuoteConverters.js:138-143 | an unknown book rejects |
| TsvConverters.BookCodeCaseIgnored | src/core/tsvQuoteConverters.js:188-189 | both drivers look tokens up under `book.toUpperCase()`, so a book code converts exactly as its upper-case form |
| TsvConverters.AddGlQuoteCols | src/core/tsvQuoteConverters.js:238-243 | an unknown book rejects |
| TsvConverters.SkippedRecordsPassThrough | src/core/tsvQuoteConverters.js:153-163 | when every record is skipped each is written back in order, only the header's occurrence changed |
| TsvConverters.NoErrorsWhenSkipped | src/core/tsvQuoteConverters.js:161-224 | records written without errors leave the error list empty |
| RowVerses.RangeNumbers | src/core/tsvQuoteConverters.js:175-177 | the inclusive loop lists a+k at position k, nothing when a bound is `NaN` |
| RowVerses.RangeMembers | src/core/tsvQuoteConverters.js:175-177 | a number is listed iff both bounds are numbers and it lies between them |
| RowVerses.ReadPart | src/core/tsvQuoteConverters.js:172-181 | a part is read as a range iff it has `-`; otherwise it stays as it is, untrimmed |
| RowVerses.RangeTestHolds | src/core/tsvQuoteConverters.js:173-174 | `verseRange.length > 1` never fails, since trimming keeps the `-` |
| RowVerses.VerseParts | src/core/tsvQuoteConverters.js:168-181 | one read part per comma part of the trimmed verse text; part k is a single verse iff the k-th comma part has no `-`, and then holds that comma part untrimmed |
| RowVerses.VersePartsWithoutRange | src/core/tsvQuoteConverters.js:168-181 | without a `-` every part is a single verse, and the parts joined by `,` give the trimmed verse text back |
| RowVerses.PartNumbers | src/core/tsvQuoteConverters.js:172-181 | a single part gives `parseInt` of its text; a range gives its numbers in order |
| RowVerses.PartKeys | src/core/addGLQuoteCols.js:60-70 | along a range the key is `chapter:i`; a single part keys `chapter:part` untrimmed |
| RowVerses.CvKeysAppend | src/core/tsvQuoteConverters.js:184-186 | keys of a joined list are the joined keys |
| RowVerses.NumeralLabel | src/core/tsvQuoteConverters.js:180-186 | a plain numeral read and printed again is itself |
| RowVerses.KeysAgree | src/core/addGLQuoteCols.js:59-70 | with plain numerals the GL drivers look up the same keys the TSV7/TSV9 drivers build |
| RowVerses.UntrimmedPartKey | src/core/addGLQuoteCols.js:69 | after `1, 3` the GL drivers look up `c: 3` while the TSV7/TSV9 drivers read verse 3 |
| RowVerses.ColonSpace | src/core/addGLQuoteCols.js:69 | the key of a part with a leading space keeps the space after the colon |
| RowVerses.SpaceBeforeNumeral | src/core/tsvQuoteConverters.js:180 | `parseInt` skips a leading space |
| RowVerses.FetchStrict | src/core/tsvQuoteConverters.js:188 | a missing repository or book throws; a missing verse gives `undefined` |
| RowVerses.FetchOptional | src/core/tsvQuoteConverters.js:189 | a missing repository gives `undefined` |
| RowVerses.FetchOptionalThrows | src/core/tsvQuoteConverters.js:188-189 | the optional chain throws only for a present repository without the book, and otherwise reads alike |
| RowVerses.Gather | src/core/addGLQuoteCols.js:84-88 | spreading `undefined` throws, so gathering succeeds iff every key is present, or there is no key |
| RowVerses.GatherOne | src/core/addGLQuoteCols.js:88 | one key gathers that verse's tokens |
| RowVerses.GatherAppend | src/core/addGLQuoteCols.js:79-90 | gathering a list concatenates the verses' tokens in reference order |
| QuotePrep.ContainsHebrewOrGreek | src/core/convertGLQuotes2OLQuotes.js:8 | true iff some character lies in the Hebrew, Hebrew presentation, Greek or Greek Extended blocks |
| QuotePrep.NoHebrewOrGreekIn | src/core/convertGLQuotes2OLQuotes.js:8 | a piece of a string without Hebrew or Greek has none |
| QuotePrep.NoHebrewOrGreekJoined | src/core/convertGLQuotes2OLQuotes.js:8 | two such strings joined have none |
| QuotePrep.MarkEnd | src/core/convertGLQuotes2OLQuotes.js:63 | a match of the ellipsis pattern is non-empty and lies within the text |
| QuotePrep.MarkSkip | src/core/convertGLQuotes2OLQuotes.js:63 | where no match starts one character is kept |
| QuotePrep.NoMarkStep | src/core/convertGLQuotes2OLQuotes.js:63 | a character that starts no match is kept, and the rest of such a stretch starts none |
| QuotePrep.MarkedKeeps | src/core/convertGLQuotes2OLQuotes.js:63 | text in which no match starts is kept as it is |
| QuotePrep.NoMarkAhead | src/core/convertGLQuotes2OLQuotes.js:63 | white space followed by a character that cannot start the marker starts no match |
| QuotePrep.NoMarkWithout | src/core/convertGLQuotes2OLQuotes.js:63 | without the marker's first character no match can start |
| QuotePrep.PlainNoMark | src/core/convertGLQuotes2OLQuotes.js:63 | a text not ending in white space and without the marker's first character starts no match |
| QuotePrep.MarkFree | src/core/convertGLQuotes2OLQuotes.js:63 | a quote without the marker is returned unchanged |
| QuotePrep.MarkedSeparator | src/core/convertGLQuotes2OLQuotes.js:63 | one separator ` M ` before a part is replaced by ` & ` |
| QuotePrep.MarkedJoin | src/core/convertGLQuotes2OLQuotes.js:63 | parts joined by ` M ` come out joined by ` & `: an elided quote becomes word groups |
| QuotePrep.MarkedJoinStep | src/core/convertGLQuotes2OLQuotes.js:63 | one part, a separator and the rest: the part is kept and the separator replaced |
| QuotePrep.MarkNotFound | src/core/convertGLQuotes2OLQuotes.js:116 | a failed quote starts with the sentinel |
| QuotePrep.MarkNotFoundIdempotent | src/core/convertGLQuotes2OLQuotes.js:116 | marking twice is marking once: the prefix never doubles |
| QuotePrep.MarkNotFoundPlain | src/core/convertGLQuotes2OLQuotes.js:116 | a quote without the sentinel just gains the prefix |
| QuotePrep.MarkedStaysPending | src/core/convertGLQuotes2OLQuotes.js:50-56 | a marked quote is not blank and holds no Hebrew or Greek when the quote held none, so a later run tries it again |
| QuotePrep.StrippedNoHebrewOrGreek | src/core/convertGLQuotes2OLQuotes.js:63 | stripping the sentinel adds no Hebrew or Greek |
| QuotePrep.SentinelNoHebrewOrGreek | src/core/convertGLQuotes2OLQuotes.js:116 | the sentinel is plain ASCII |
| QuotePrep.ChapterAndVerses | src/core/convertGLQuotes2OLQuotes.js:64 | `verseRef` is undefined iff there is no `:`; otherwise the chapter and verse text hold no `:` and stand at the front |
| QuotePrep.JoinPrefix | src/core/convertGLQuotes2OLQuotes.js:64 | a join of two or more parts starts with the first two and the separator |
| QuotePrep.JoinFirstTwo | src/core/convertGLQuotes2OLQuotes.js:47 | a join starts with its first part |
| GlRows.OrigRepo | src/core/addGLQuoteCols.js:56 | the Greek Bible exactly for the New Testament, the Hebrew one otherwise |
| GlRows.LinkRepo | src/core/addGLQuoteCols.js:76 | `split('/')[1]` has no `/`; a link without `/` gives the text `undefined` |
| GlRows.LinkRepoOf | src/core/convertGLQuotes2OLQuotes.js:39 | the repository is read back from an `owner/repo/ref` link |
| GlRows.RowKeys | src/core/addGLQuoteCols.js:54-71 | the keys are defined iff the reference has `:`, and are the keys of its verse parts |
| GlRows.NoSentinelWord | src/core/addGLQuoteCols.js:49 | a quote without the word `QUOTE_NOT_FOUND` holds no sentinel |
| GlRows.HeaderColumns | src/core/addGLQuoteCols.js:25 | at least one column; the tab-joined names are the start of the file and hold no line break |
| GlColumns.QuoteColumn | src/core/addGLQuoteCols.js:116 | a GL column, plain `GLQuote` for a single link |
| GlColumns.OccurrenceColumn | src/core/addGLQuoteCols.js:117 | a `GLOccurrence…` column, plain `GLOccurrence` for a single link |
| GlColumns.ColumnsPerRepo | src/core/addGLQuoteCols.js:116-117 | with several links, different repositories get different columns; a link's two columns differ |
| GlColumns.FindFrom | src/core/addGLQuoteCols.js:119-121 | `findIndex`: the first index that satisfies the test, or -1 when none does |
| GlColumns.Anchor | src/core/addGLQuoteCols.js:119-122 | the first `GLOccurrence…` column, else `Occurrence`, else -1 exactly when neither exists |
| GlColumns.Slot | src/core/addGLQuoteCols.js:123-129 | the pair lands within the header |
| GlColumns.InsertPair | src/core/addGLQuoteCols.js:118-130 | a header that has the quote column is unchanged; otherwise the pair is spliced in at the slot |
| GlColumns.InsertPairIdempotent | src/core/addGLQuoteCols.js:118 | adding the pair again changes nothing |
| GlColumns.InsertPairAdjacent | src/core/addGLQuoteCols.js:124-125 | a new pair sits side by side at its slot; removing it gives the header back |
| GlColumns.PairSplice | src/core/addGLQuoteCols.js:124-125 | a pair spliced between two pieces stands at their seam, and the pieces are recovered around it |
| GlColumns.InsertPairMembers | src/core/addGLQuoteCols.js:118-130 | insertion keeps every column and adds only the pair |
| GlColumns.ThreeLinksOrder | src/core/addGLQuoteCols.js:116-130 | with three links the pairs stand in the order first, third, second |
| GlColumns.ThreePairs | src/core/addGLQuoteCols.js:124-125 | three pairs in a row form one block of six |
| GlColumns.FirstPair | src/core/addGLQuoteCols.js:119-125 | the first pair goes after `Occurrence`, and its occurrence column becomes the anchor |
| GlColumns.AnchorAt | src/core/addGLQuoteCols.js:119 | the first `GLOccurrence…` column is the anchor |
| GlColumns.NextPair | src/core/addGLQuoteCols.js:119-125 | a later pair goes right after the anchor, which stays the anchor |
| GlQuoteCols.LinkStep | src/core/addGLQuoteCols.js:73-147 | a finished row is left alone; one link reports at most one failure |
| GlQuoteCols.LinkSteps | src/core/addGLQuoteCols.js:73 | a throw or a hang ends the row |
| GlQuoteCols.LinkPasses | src/core/addGLQuoteCols.js:131-138 | a passing link writes the resolved quote and occurrence, -1 kept as -1, and reports nothing |
| GlQuoteCols.LinkFails | src/core/addGLQuoteCols.js:139-146 | a failing link writes the quote behind one sentinel and the row's own occurrence, and reports the row |
| GlQuoteCols.GlWrite | src/core/addGLQuoteCols.js:133-141 | writing two GL cells leaves the row outside the GL columns as it was |
| GlQuoteCols.InsertPairGrows | src/core/addGLQuoteCols.js:118-130 | inserting the pair keeps the header and adds only GL columns |
| GlQuoteCols.LinkStepKeeps | src/core/addGLQuoteCols.js:73-147 | one link writes only GL cells and adds only GL columns |
| GlQuoteCols.LinkStepsKeep | src/core/addGLQuoteCols.js:73-147 | all links together write only GL cells and add only GL columns |
| GlQuoteCols.GlRow | src/core/addGLQuoteCols.js:44-52 | with a reference, a missing quote throws; skipped rows pass untouched; a quote with `QUOTE_NOT_FOUND` is copied to `GLQuote` |
| GlQuoteCols.RowCells | src/core/addGLQuoteCols.js:53 | a row's links read its quote, its occurrence and the quote with ellipses made ` & ` |
| GlQuoteCols.GlRowKeeps | src/core/addGLQuoteCols.js:44-148 | a row keeps every cell outside the GL columns and the header only gains GL columns |
| GlQuoteCols.GlRowsFrom | src/core/addGLQuoteCols.js:44-148 | a finished run keeps one row per input row |
| GlQuoteCols.AddGlQuoteCols | src/core/addGLQuoteCols.js:17-32 | an unknown book rejects; a finished run has one row per input row |
| GlQuoteCols.AddGlQuoteColsBookCase | src/core/addGLQuoteCols.js:65-88 | lookups use `bookCode.toUpperCase()`, so a book code converts exactly as its upper-case form |
| GlQuoteCols.GlRowsGrow | src/core/addGLQuoteCols.js:44-149 | across the file the header keeps its columns and only gains GL columns |
| GlQuoteCols.GlRowsKeep | src/core/addGLQuoteCols.js:44-149 | across the file every row keeps its cells outside the GL columns |
| GlQuoteCols.ColumnsGrowTransitive | src/core/addGLQuoteCols.js:118-130 | growing the header twice is growing it once |
| GlQuoteCols.GlRowsFromStep | src/core/addGLQuoteCols.js:44-148 | the first row goes through and the rest finish from the header it leaves |
| GlToOl.LinkOrDefault | src/core/convertGLQuotes2OLQuotes.js:23-25 | a given link is used as it is; a missing or empty one falls back to the `en_ult` link |
| GlToOl.DefaultRepo | src/core/convertGLQuotes2OLQuotes.js:24-39 | the default link's repository is `en_ult` |
| GlToOl.SkippedRow | src/core/convertGLQuotes2OLQuotes.js:57-59 | a skipped header row gets `Occurrence` as its occurrence; any other skipped row is untouched |
| GlToOl.OccurrenceArgIsParseInt | src/core/convertGLQuotes2OLQuotes.js:90-93 | the shortcut for the text `1` gives what `parseInt` gives |
| GlToOl.RowTokens | src/core/convertGLQuotes2OLQuotes.js:70-84 | the row throws iff either token list cannot be gathered; otherwise the link's and the original-language tokens, verse by verse |
| GlToOl.Rewrite | src/core/convertGLQuotes2OLQuotes.js:109-121 | a call that never returns hangs the row; a kept row changes only its quote and occurrence |
| GlToOl.GlToOlRow | src/core/convertGLQuotes2OLQuotes.js:48-122 | a skipped row is written back as the skip leaves it and reports nothing; any other row is resolved |
| GlToOl.Resolved | src/core/convertGLQuotes2OLQuotes.js:63-121 | a resolved row keeps every cell other than its quote and occurrence |
| GlToOl.ResolvedRewrites | src/core/convertGLQuotes2OLQuotes.js:86-121 | a row with its tokens gathered is written as its resolver call says |
| GlToOl.RewriteFound | src/core/convertGLQuotes2OLQuotes.js:109-114 | a placed quote is written with its occurrence, unless the row's occurrence is -1 |
| GlToOl.RewriteFailed | src/core/convertGLQuotes2OLQuotes.js:115-121 | a quote that cannot be placed is marked, and the row reports its reference and ID |
| GlToOl.RowFound | src/core/convertGLQuotes2OLQuotes.js:109-114 | a row the resolver places gets the resolved quote, and the resolved occurrence unless its own is -1, and reports nothing |
| GlToOl.RowFails | src/core/convertGLQuotes2OLQuotes.js:115-121 | a row that cannot be placed keeps its occurrence, gets exactly one sentinel, and reports its reference and ID |
| GlToOl.RetryStable | src/core/convertGLQuotes2OLQuotes.js:50-121 | converting a failed row again makes the same call, fails again and writes the same row |
| GlToOl.FailedRow | src/core/convertGLQuotes2OLQuotes.js:115-121 | a row whose call fails is written with its quote marked and a failure |
| GlToOl.NotSkippedAgain | src/core/convertGLQuotes2OLQuotes.js:50-56 | marking the quote of a row that is not skipped leaves it not skipped |
| GlToOl.SentinelRestripped | src/core/convertGLQuotes2OLQuotes.js:63 | the resolver sees the same quote for a marked quote as for the quote itself |
| GlToOl.FailsAgain | src/core/convertGLQuotes2OLQuotes.js:116 | failing again on a marked row writes the row unchanged and reports the same failure |
| GlToOl.GlToOlRows | src/core/convertGLQuotes2OLQuotes.js:47-123 | a finished conversion writes the header as read and one row per input row |
| GlToOl.GlToOlRowsKept | src/core/convertGLQuotes2OLQuotes.js:48-123 | a finished conversion wrote every row as its own conversion left it, in input order |
| GlToOl.GlToOlRowsDone | src/core/convertGLQuotes2OLQuotes.js:48-124 | the conversion finishes when no row throws or hangs |
| GlToOl.GlToOlRowsStep | src/core/convertGLQuotes2OLQuotes.js:48-122 | the first row was kept and the rest finished |
| GlToOl.ConvertGlQuotes2OlQuotes | src/core/convertGLQuotes2OLQuotes.js:27-47 | an unknown book rejects; a finished run writes the file's own header and one row per input row |
| GlToOl.ConvertGlQuotes2OlQuotesBookCase | src/core/convertGLQuotes2OLQuotes.js:76-82 | lookups use `bookCode.toUpperCase()`, so a book code converts exactly as its upper-case form |

## Left out

- Downloading and importing documents is not modelled: `getDocuments` in src/core/tsvQuoteConverters.js and src/core/TSV7ULTQuotesToOrigLQuotes.js, and `loadResourceFilesIntoProskomma`. These are HTTP, base64 decoding and document-engine I/O.
- The document engine is not modelled: query execution, src/core/uw-proskomma.js and src/utils/query.js. The query result is the input of `AlignmentQuery.DoAlignmentQuery`.
- The second alignment-query transform in src/core/tsvQuoteConverters.js:84-129 is not modelled separately. It is keyed by abbreviation and has no annotation or apostrophe merge. Its lookup-cache check at lines 148-150 is also left out. The row loops take the token lookup as a parameter.
- Promises, `resolve`/`reject` timing, console output and the module-level caches are not modelled. A rejection is `Rejected`, and a resolver call that never returns is `Pending`.
- The counters `nRecords` and `counts` are left out: they are written but never read.
- src/common/books is not part of this model. `BibleBookData` lookups become an `Option<Testament>` parameter.
- The text of error messages is left out. A failed row is reported as its reference and ID (the datatypes `GlRows.Failure` and `TsvConverters.RowError`), not as the formatted string.
- CSV parsing and writing are modelled as maps from column name to cell and as a table of cells (`GlRows.Table`). The CSV library's quoting, its handling of ragged rows and the trailing newline are left out.
- `addGLQuoteCols` wraps a non-array `bibleLinks` in an array. This is left out: links are always a sequence.
- The resolver the GL drivers call is a parameter. The calls at src/core/addGLQuoteCols.js:104 and src/core/convertGLQuotes2OLQuotes.js:103 pass an object, while `getAlignedQuote` takes positional arguments. `getAlignedQuoteTryingDifferentSeparators` is imported but not defined in the repository. So the `trySeparatorsAndOccurrences` branch is the same parameter.
- `gl4Source` and `highlightedAlignedGlText` in src/utils/search.js are left out. They call `slimGLTokens` and `pruneTokens`, which src/utils/tokens.js does not define.
- src/utils/render.js is left out: it only upper-cases and joins.
- The tokeniser library (string-punctuation-tokenizer) is not modelled. `findPhraseOccurrenceInSentence` is modelled over already tokenised sequences.
- QuoteCombinations.QuoteCombinations: the NFKC normalisation (Unicode Standard Annex #15) of the input is not modelled. The model describes inputs already in that form.
- AlignedQuote.IsPunctuationOrSymbol: the Unicode classes `\p{P}` and `\p{S}` are written out only for the blocks the quotes use: Basic Latin, Latin-1 Supplement, Greek and Coptic, Greek Extended (the spacing accents such as the koronis U+1FBD), Hebrew, Hebrew presentation forms (U+FB29), General Punctuation, Currency Symbols, Arrows and Mathematical Operators. Punctuation and symbols of other blocks do not split words in the model.
- Text.Lower: `toLowerCase` is modelled for the capitals of Basic Latin, Latin-1 Supplement, Latin Extended-A, the Greek capitals with and without tonos or dialytika (U+0386–03AB) and Greek Extended, plus the final-sigma rule judged on the direct neighbours only. Not covered: U+0130 (which lowers to two characters), Latin Extended-B and the later Latin blocks, the archaic Greek and Coptic capitals (U+0370–0376, U+037F, U+03CF–03FF), every other script, and the final-sigma rule's skipping of case-ignorable characters such as combining marks; those characters keep their case.
- Text.Upper: `toUpperCase` is modelled for the ASCII letters only; it is applied only to book codes.
- AlignedQuote.FindConsecutiveTokens: the per-payload counter of `findConsecutiveTokens` gives `NaN` for a token that is not word-like. That quirk is left out: the model assumes punctuation payloads never equal word payloads, so the count only covers word-like tokens.
- GlRows.LooseMinusOne: the loose comparison `row['Occurrence'] != -1` is modelled as "the trimmed cell is `-1`". Other spellings JavaScript reads as -1, such as `-1.0` or `-01`, are left out.
- Text.ParseInt: `parseInt` is exact on unbounded integers. Values beyond 2^53, where JavaScript loses precision, are not modelled.
- SplitString.SplitsDistinct: distinctness and the round trip (SplitString.SplitsRoundTrip) are proved for strings with no `&` character. That is a stronger hypothesis than "no `&` word", and simpler to state.
- Rejig.RejigDocument: the whole-document statement assumes the text between the attribute triples holds no space. The general facts are per step: `Rejig.RejigKeeps` for text where no match starts and `Rejig.RejigRewrites` for a match.
- The GL drivers build lookup keys from a reference that has `:`. Whether that reference is well formed beyond the `:` is not checked by the code and is not modelled further.
- Configuration, tests and the top-level `console.log` in src/splitString.js are left out.

=== FILE: aligned_quote.dfy ===
/** The source half of `getAlignedQuote` (src/core/getAlignedQuote.js): splitting a quote into
    word groups, finding a group as consecutive word-like tokens, and locating the requested
    occurrence of each group in order. */
module AlignedQuote {
  import opened Base
  import opened Text
  import opened Tokens

  // ------------------------------------------------------------------ quote groups

  /** Punctuation and symbol characters (`\p{P}` and `\p{S}`) of the blocks the quotes are
      written in: Basic Latin, Latin-1, Greek and Coptic, Greek Extended (its spacing accents,
      the koronis U+1FBD among them), Hebrew and the Hebrew presentation forms, General
      Punctuation, Currency Symbols, Arrows and Mathematical Operators. */
  predicate IsPunctuationOrSymbol(c: char) {
    var n := c as int;
    || (0x21 <= n <= 0x2F) || (0x3A <= n <= 0x40) || (0x5B <= n <= 0x60) || (0x7B <= n <= 0x7E)
    || (0xA1 <= n <= 0xA9) || n == 0xAB || n == 0xAC || (0xAE <= n <= 0xB1) || n == 0xB4
    || (0xB6 <= n <= 0xB8) || n == 0xBB || n == 0xBF || n == 0xD7 || n == 0xF7
    || n == 0x375 || n == 0x37E || n == 0x384 || n == 0x385 || n == 0x387 || n == 0x3F6
    || n == 0x1FBD || (0x1FBF <= n <= 0x1FC1) || (0x1FCD <= n <= 0x1FCF) || (0x1FDD <= n <= 0x1FDF)
    || (0x1FED <= n <= 0x1FEF) || n == 0x1FFD || n == 0x1FFE
    || n == 0x5BE || n == 0x5C0 || n == 0x5C3 || n == 0x5C6 || n == 0x5F3 || n == 0x5F4
    || (0x2010 <= n <= 0x2027) || (0x2030 <= n <= 0x205E) || (0x20A0 <= n <= 0x20C0)
    || (0x2190 <= n <= 0x22FF) || n == 0xFB29
  }

  /** The class `[\s\p{P}\p{S}]` that separates the words of a group. */
  predicate IsWordBreak(c: char) {
    IsSpace(c) || IsPunctuationOrSymbol(c)
  }

  /** The separator between the groups of a quote. */
  const GroupSeparator: string := " & "

  /** `sourceQuote.split(' & ')` with every group cut into its words. */
  function QuoteGroups(quote: string): (groups: seq<seq<string>>)
    ensures |groups| == |Split(quote, GroupSeparator)| >= 1
    ensures forall g, k :: 0 <= g < |groups| && 0 <= k < |groups[g]| ==> groups[g][k] != ""
    ensures forall g, k, j :: 0 <= g < |groups| && 0 <= k < |groups[g]| && 0 <= j < |groups[g][k]| ==>
      !IsWordBreak(groups[g][k][j])
  {
    var parts := Split(quote, GroupSeparator);
    seq(|parts|, g requires 0 <= g < |parts| => Words(parts[g], IsWordBreak))
  }

  /** A quote written from groups of words: words joined by a space, groups by `" & "`. */
  function RenderGroups(groups: seq<seq<string>>): string {
    Join(seq(|groups|, g requires 0 <= g < |groups| => Join(groups[g], " ")), GroupSeparator)
  }

  /** Writing groups of proper words out and splitting the quote again gives the groups
      back: the grouping loses nothing but the separators. */
  lemma QuoteGroupsOfRendered(groups: seq<seq<string>>)
    requires |groups| >= 1
    requires forall g, k :: 0 <= g < |groups| && 0 <= k < |groups[g]| ==> groups[g][k] != ""
    requires forall g, k, j :: 0 <= g < |groups| && 0 <= k < |groups[g]| && 0 <= j < |groups[g][k]| ==>
      !IsWordBreak(groups[g][k][j])
    ensures QuoteGroups(RenderGroups(groups)) == groups
  {
    var parts := seq(|groups|, g requires 0 <= g < |groups| => Join(groups[g], " "));
    forall g | 0 <= g < |groups|
      ensures '&' !in parts[g]
      ensures Words(parts[g], IsWordBreak) == groups[g]
    {
      assert forall k :: 0 <= k < |groups[g]| ==> '&' !in groups[g][k];
      CharNotInJoin(groups[g], " ", '&');
      WordsOfJoin(groups[g], ' ', IsWordBreak);
    }
    assert GroupSeparator[1] == '&' && '&' !in GroupSeparator[..1];
    SplitJoin(parts, GroupSeparator, 1);
  }

  // ------------------------------------------------------------------ consecutive tokens

  /** A found group: where the search started, the indices of the matched word-like tokens,
      and the index just past the last of them. */
  datatype Match = Match(start: nat, indices: seq<nat>, endIndex: nat)

  /** The indices of the word-like tokens from `from` up to, not including, `to`, in order. */
  function WordLikeIndices(tokens: seq<Token>, from: nat, to: nat): seq<nat>
    decreases if from < to then to - from else 0
  {
    if from >= to then []
    else (if from < |tokens| && IsWordLike(tokens[from]) then [from] else []) + WordLikeIndices(tokens, from + 1, to)
  }

  /** `r` lists, in increasing order, indices of word-like tokens within `[from, to)`. */
  predicate IncreasingWordLikeIn(tokens: seq<Token>, r: seq<nat>, from: nat, to: nat) {
    && (forall k :: 0 <= k < |r| ==> from <= r[k] < to && r[k] < |tokens| && IsWordLike(tokens[r[k]]))
    && (forall k, l :: 0 <= k < l < |r| ==> r[k] < r[l])
  }

  /** The indices listed lie in the range, on word-like tokens, in increasing order. */
  lemma {:induction false} WordLikeIndicesIn(tokens: seq<Token>, from: nat, to: nat)
    ensures IncreasingWordLikeIn(tokens, WordLikeIndices(tokens, from, to), from, to)
    decreases if from < to then to - from else 0
  {
    if from < to {
      WordLikeIndicesIn(tokens, from + 1, to);
      var head := if from < |tokens| && IsWordLike(tokens[from]) then [from] else [];
      var rest := WordLikeIndices(tokens, from + 1, to);
      assert forall k :: |head| <= k < |head| + |rest| ==> (head + rest)[k] == rest[k - |head|];
    }
  }

  /** Declarative reading of a match: starting at `start`, the word-like tokens before
      `endIndex` are exactly the tokens at `indices`, the last of them sits just before
      `endIndex`, and their payloads equal the words ignoring case. */
  predicate IsMatchFrom(tokens: seq<Token>, words: seq<string>, start: nat, indices: seq<nat>, endIndex: nat) {
    && indices == WordLikeIndices(tokens, start, endIndex)
    && |indices| == |words|
    && (|words| == 0 ==> endIndex == start)
    && (|words| > 0 ==> endIndex == indices[|indices| - 1] + 1)
    && (forall k :: 0 <= k < |indices| ==>
          indices[k] < |tokens| && Lower(tokens[indices[k]].payload) == Lower(words[k]))
  }

  predicate IsMatch(tokens: seq<Token>, words: seq<string>, m: Match) {
    IsMatchFrom(tokens, words, m.start, m.indices, m.endIndex)
  }

  /** The scan of `findConsecutiveTokens` from index `i`: skip tokens that are not word-like,
      and stop at the first word-like token that differs from the next word. */
  function Scan(tokens: seq<Token>, words: seq<string>, i: nat): (r: Option<(seq<nat>, nat)>)
    ensures r.Some? ==> |r.value.0| == |words|
    ensures r.Some? && |words| == 0 ==> r.value.1 == i
    ensures r.Some? && |words| > 0 ==> i < r.value.1 <= |tokens|
    decreases |tokens| - i
  {
    if |words| == 0 then Some(([], i))
    else if i >= |tokens| then None
    else if !IsWordLike(tokens[i]) then Scan(tokens, words, i + 1)
    else if Lower(tokens[i].payload) != Lower(words[0]) then None
    else match Scan(tokens, words[1..], i + 1)
      case None => None
      case Some(rest) => Some(([i] + rest.0, rest.1))
  }

  /** `findConsecutiveTokens(tokens, words, startIndex)`: the group's words matched from
      `start` on, or nothing. A match of at least one word ends past its start. */
  function FindConsecutiveTokens(tokens: seq<Token>, words: seq<string>, start: nat): (r: Option<Match>)
    ensures r.Some? ==> r.value.start == start && |r.value.indices| == |words|
    ensures r.Some? && |words| == 0 ==> r.value.endIndex == start
    ensures r.Some? && |words| > 0 ==> start < r.value.endIndex <= |tokens|
  {
    match Scan(tokens, words, start)
    case None => None
    case Some(found) => Some(Match(start, found.0, found.1))
  }

  /** Everything the scan returns is a match in the declarative sense. */
  lemma {:induction false} ScanSound(tokens: seq<Token>, words: seq<string>, i: nat)
    requires Scan(tokens, words, i).Some?
    ensures IsMatchFrom(tokens, words, i, Scan(tokens, words, i).value.0, Scan(tokens, words, i).value.1)
    decreases |tokens| - i
  {
    if |words| > 0 {
      if !IsWordLike(tokens[i]) {
        assert Scan(tokens, words, i) == Scan(tokens, words, i + 1);
        ScanSound(tokens, words, i + 1);
        var r := Scan(tokens, words, i + 1).value;
        MatchExtendSkip(tokens, words, i, r.0, r.1);
      } else {
        var rest := Scan(tokens, words[1..], i + 1).value;
        assert Scan(tokens, words, i) == Some(([i] + rest.0, rest.1));
        ScanSound(tokens, words[1..], i + 1);
        MatchExtendWord(tokens, words, i, rest.0, rest.1);
      }
    }
  }

  /** A token that is not word-like in front of a match extends it backwards. */
  lemma MatchExtendSkip(tokens: seq<Token>, words: seq<string>, i: nat, indices: seq<nat>, endIndex: nat)
    requires |words| > 0 && i < |tokens| && !IsWordLike(tokens[i])
    requires IsMatchFrom(tokens, words, i + 1, indices, endIndex)
    ensures IsMatchFrom(tokens, words, i, indices, endIndex)
  {
    assert WordLikeIndices(tokens, i, endIndex) == WordLikeIndices(tokens, i + 1, endIndex);
  }

  /** A word-like token equal to the first word in front of a match of the other words
      extends it to a match of all of them. */
  lemma MatchExtendWord(tokens: seq<Token>, words: seq<string>, i: nat, rest: seq<nat>, endIndex: nat)
    requires |words| > 0 && i < |tokens| && IsWordLike(tokens[i])
    requires Lower(tokens[i].payload) == Lower(words[0])
    requires IsMatchFrom(tokens, words[1..], i + 1, rest, endIndex)
    ensures IsMatchFrom(tokens, words, i, [i] + rest, endIndex)
  {
    assert i < endIndex;
    assert WordLikeIndices(tokens, i, endIndex) == [i] + WordLikeIndices(tokens, i + 1, endIndex);
    var indices := [i] + rest;
    forall k | 0 <= k < |indices|
      ensures Lower(tokens[indices[k]].payload) == Lower(words[k])
    {
      if k > 0 {
        assert indices[k] == rest[k - 1] && words[k] == words[1..][k - 1];
      }
    }
  }

  /** `findConsecutiveTokens` returns only genuine matches. */
  lemma FindConsecutiveTokensSound(tokens: seq<Token>, words: seq<string>, start: nat)
    requires FindConsecutiveTokens(tokens, words, start).Some?
    ensures IsMatch(tokens, words, FindConsecutiveTokens(tokens, words, start).value)
  {
    ScanSound(tokens, words, start);
  }

  /** A match from a token that is not word-like is a match from the next token. */
  lemma MatchSkip(tokens: seq<Token>, words: seq<string>, i: nat, indices: seq<nat>, endIndex: nat)
    requires |words| > 0 && IsMatchFrom(tokens, words, i, indices, endIndex)
    requires i < |tokens| && !IsWordLike(tokens[i])
    ensures IsMatchFrom(tokens, words, i + 1, indices, endIndex)
  {
    assert i < endIndex;
    assert WordLikeIndices(tokens, i, endIndex) == WordLikeIndices(tokens, i + 1, endIndex);
  }

  /** A match from a word-like token starts with that token, which equals the first word,
      and continues, for the remaining words, from the next index. */
  lemma MatchHead(tokens: seq<Token>, words: seq<string>, i: nat, indices: seq<nat>, endIndex: nat)
    requires |words| > 0 && IsMatchFrom(tokens, words, i, indices, endIndex)
    requires i < |tokens| && IsWordLike(tokens[i])
    ensures indices[0] == i && Lower(tokens[i].payload) == Lower(words[0])
    ensures IsMatchFrom(tokens, words[1..], i + 1, indices[1..], endIndex)
  {
    assert i < endIndex;
    assert WordLikeIndices(tokens, i, endIndex) == [i] + WordLikeIndices(tokens, i + 1, endIndex);
    var rest := indices[1..];
    assert forall k :: 0 <= k < |rest| ==> rest[k] == indices[k + 1];
  }

  /** The scan finds every match: whenever the words do occur from index `i` on, the scan
      returns exactly that match. */
  lemma {:induction false} ScanComplete(tokens: seq<Token>, words: seq<string>, i: nat, indices: seq<nat>, endIndex: nat)
    requires IsMatchFrom(tokens, words, i, indices, endIndex)
    ensures Scan(tokens, words, i) == Some((indices, endIndex))
    decreases |tokens| - i, 1
  {
    if |words| > 0 {
      WordLikeIndicesIn(tokens, i, endIndex);
      assert i <= indices[0] < |tokens|;
      if !IsWordLike(tokens[i]) {
        ScanCompleteSkip(tokens, words, i, indices, endIndex);
      } else {
        ScanCompleteWord(tokens, words, i, indices, endIndex);
      }
    }
  }

  lemma {:induction false} ScanCompleteSkip(tokens: seq<Token>, words: seq<string>, i: nat, indices: seq<nat>, endIndex: nat)
    requires |words| > 0 && i < |tokens| && !IsWordLike(tokens[i])
    requires IsMatchFrom(tokens, words, i, indices, endIndex)
    ensures Scan(tokens, words, i) == Some((indices, endIndex))
    decreases |tokens| - i, 0
  {
    MatchSkip(tokens, words, i, indices, endIndex);
    ScanComplete(tokens, words, i + 1, indices, endIndex);
    assert Scan(tokens, words, i) == Scan(tokens, words, i + 1);
  }

  lemma {:induction false} ScanCompleteWord(tokens: seq<Token>, words: seq<string>, i: nat, indices: seq<nat>, endIndex: nat)
    requires |words| > 0 && i < |tokens| && IsWordLike(tokens[i])
    requires IsMatchFrom(tokens, words, i, indices, endIndex)
    ensures Scan(tokens, words, i) == Some((indices, endIndex))
    decreases |tokens| - i, 0
  {
    MatchHead(tokens, words, i, indices, endIndex);
    ScanComplete(tokens, words[1..], i + 1, indices[1..], endIndex);
    ScanWordStep(tokens, words, i, indices[1..], endIndex);
    assert indices == [i] + indices[1..];
  }

  /** The scan over a word-like token equal to the first word continues with the rest. */
  lemma ScanWordStep(tokens: seq<Token>, words: seq<string>, i: nat, rest: seq<nat>, endIndex: nat)
    requires |words| > 0 && i < |tokens| && IsWordLike(tokens[i])
    requires Lower(tokens[i].payload) == Lower(words[0])
    requires Scan(tokens, words[1..], i + 1) == Some((rest, endIndex))
    ensures Scan(tokens, words, i) == Some(([i] + rest, endIndex))
  {
  }

  /** `findConsecutiveTokens` succeeds exactly when the words occur from `start` on. */
  lemma FindConsecutiveTokensComplete(tokens: seq<Token>, words: seq<string>, m: Match)
    requires IsMatch(tokens, words, m)
    ensures FindConsecutiveTokens(tokens, words, m.start) == Some(m)
  {
    ScanComplete(tokens, words, m.start, m.indices, m.endIndex);
  }

  // ------------------------------------------------------------------ occurrences

  /** The search for one group: the match found, no match left before the end of the
      tokens, or a search that never returns (an empty group whose count is already past
      the wanted occurrence). */
  datatype GroupSearch = Found(m: Match) | NotFound | Hangs

  /** The `while` loop of `getAlignedQuote` for one group: `seen` matches are behind us,
      the search goes on from `cursor`, and the `target`-th match is wanted. */
  function FindOccurrence(tokens: seq<Token>, words: seq<string>, cursor: nat, seen: nat, target: int): (r: GroupSearch)
    ensures r.Found? ==> FindConsecutiveTokens(tokens, words, r.m.start) == Some(r.m)
    ensures r.Found? ==> cursor <= r.m.start < |tokens| && |r.m.indices| == |words|
    ensures r.Found? && |words| > 0 ==> r.m.start < r.m.endIndex <= |tokens|
    ensures r.Hangs? ==> |words| == 0 && target <= seen && cursor < |tokens|
    ensures |words| > 0 && target <= seen ==> r == NotFound
    decreases |tokens| - cursor
  {
    if cursor >= |tokens| then NotFound
    else match FindConsecutiveTokens(tokens, words, cursor)
      case None => FindOccurrence(tokens, words, cursor + 1, seen, target)
      case Some(m) =>
        if seen + 1 == target then Found(m)
        else if |words| == 0 then (if target > seen + 1 then Found(m) else Hangs)
        else FindOccurrence(tokens, words, m.endIndex, seen + 1, target)
  }

  /** The count of matches already behind the search only shifts the wanted occurrence. */
  lemma {:induction false} OccurrenceShift(tokens: seq<Token>, words: seq<string>, cursor: nat, seen: nat, target: int)
    requires |words| > 0
    ensures FindOccurrence(tokens, words, cursor, seen, target) == FindOccurrence(tokens, words, cursor, 0, target - seen)
    decreases |tokens| - cursor, 1
  {
    if cursor < |tokens| {
      var found := FindConsecutiveTokens(tokens, words, cursor);
      if found.None? {
        assert FindOccurrence(tokens, words, cursor, seen, target) == FindOccurrence(tokens, words, cursor + 1, seen, target);
        assert FindOccurrence(tokens, words, cursor, 0, target - seen) == FindOccurrence(tokens, words, cursor + 1, 0, target - seen);
        OccurrenceShift(tokens, words, cursor + 1, seen, target);
      } else if seen + 1 != target {
        OccurrenceShiftPast(tokens, words, cursor, seen, target);
      }
    }
  }

  /** The shift, when the match at the cursor is not yet the wanted one. */
  lemma {:induction false} OccurrenceShiftPast(tokens: seq<Token>, words: seq<string>, cursor: nat, seen: nat, target: int)
    requires |words| > 0 && cursor < |tokens| && seen + 1 != target
    requires FindConsecutiveTokens(tokens, words, cursor).Some?
    ensures FindOccurrence(tokens, words, cursor, seen, target) == FindOccurrence(tokens, words, cursor, 0, target - seen)
    decreases |tokens| - cursor, 0
  {
    var m := FindConsecutiveTokens(tokens, words, cursor).value;
    assert FindOccurrence(tokens, words, cursor, seen, target) == FindOccurrence(tokens, words, m.endIndex, seen + 1, target);
    assert FindOccurrence(tokens, words, cursor, 0, target - seen) == FindOccurrence(tokens, words, m.endIndex, 1, target - seen);
    OccurrenceShift(tokens, words, m.endIndex, seen + 1, target);
    OccurrenceShift(tokens, words, m.endIndex, 1, target - seen);
  }

  /** The first occurrence is the leftmost match at or after the cursor: no position before
      it starts a match. */
  lemma {:induction false} FirstOccurrenceIsLeftmost(tokens: seq<Token>, words: seq<string>, cursor: nat)
    requires FindOccurrence(tokens, words, cursor, 0, 1).Found?
    ensures var m := FindOccurrence(tokens, words, cursor, 0, 1).m;
      forall q :: cursor <= q < m.start ==> FindConsecutiveTokens(tokens, words, q).None?
    decreases |tokens| - cursor
  {
    if FindConsecutiveTokens(tokens, words, cursor).None? {
      assert FindOccurrence(tokens, words, cursor, 0, 1) == FindOccurrence(tokens, words, cursor + 1, 0, 1);
      FirstOccurrenceIsLeftmost(tokens, words, cursor + 1);
    }
  }

  /** Conversely, when some position at or after the cursor starts a match, the first
      occurrence is found. */
  lemma {:induction false} FirstOccurrenceExists(tokens: seq<Token>, words: seq<string>, cursor: nat, q: nat)
    requires cursor <= q < |tokens| && FindConsecutiveTokens(tokens, words, q).Some?
    ensures FindOccurrence(tokens, words, cursor, 0, 1).Found?
    decreases q - cursor
  {
    if FindConsecutiveTokens(tokens, words, cursor).None? {
      assert FindOccurrence(tokens, words, cursor, 0, 1) == FindOccurrence(tokens, words, cursor + 1, 0, 1);
      FirstOccurrenceExists(tokens, words, cursor + 1, q);
    }
  }

  /** The `k`-th match after the end of the first match from `cursor`. */
  function AfterFirst(tokens: seq<Token>, words: seq<string>, cursor: nat, k: int): GroupSearch {
    var first := FindOccurrence(tokens, words, cursor, 0, 1);
    if first.Found? then FindOccurrence(tokens, words, first.m.endIndex, 0, k) else first
  }

  /** The occurrence after the first: the `(k+1)`-th match is the `k`-th match after the end
      of the first one. */
  lemma OccurrenceAfterFirst(tokens: seq<Token>, words: seq<string>, cursor: nat, k: int)
    requires |words| > 0 && k >= 1
    ensures FindOccurrence(tokens, words, cursor, 0, k + 1) == AfterFirst(tokens, words, cursor, k)
  {
    OccurrenceAfterFirstFrom(tokens, words, cursor, k);
  }

  lemma {:induction false} OccurrenceAfterFirstFrom(tokens: seq<Token>, words: seq<string>, cursor: nat, k: int)
    requires |words| > 0 && k >= 1
    ensures FindOccurrence(tokens, words, cursor, 0, k + 1) == AfterFirst(tokens, words, cursor, k)
    decreases |tokens| - cursor
  {
    if cursor < |tokens| {
      match FindConsecutiveTokens(tokens, words, cursor)
      case None =>
        OccurrenceAfterFirstFrom(tokens, words, cursor + 1, k);
      case Some(m) =>
        OccurrenceShift(tokens, words, m.endIndex, 1, k + 1);
    }
  }

  /** Occurrences come in order: when the `(k+1)`-th match exists, so does the `k`-th, and
      it ends before the `(k+1)`-th begins. */
  lemma {:induction false} OccurrencesOrdered(tokens: seq<Token>, words: seq<string>, cursor: nat, k: int)
    requires |words| > 0 && k >= 1
    requires FindOccurrence(tokens, words, cursor, 0, k + 1).Found?
    ensures FindOccurrence(tokens, words, cursor, 0, k).Found?
    ensures FindOccurrence(tokens, words, cursor, 0, k).m.endIndex
      <= FindOccurrence(tokens, words, cursor, 0, k + 1).m.start
    decreases k
  {
    OccurrenceAfterFirst(tokens, words, cursor, k);
    var first := FindOccurrence(tokens, words, cursor, 0, 1);
    if k > 1 {
      OccurrenceAfterFirst(tokens, words, cursor, k - 1);
      OccurrencesOrdered(tokens, words, first.m.endIndex, k - 1);
    }
  }

  // ------------------------------------------------------------------ all groups

  /** What `getAlignedQuote` throws when a group is missing: the requested first-group
      occurrence, the group's words and the position the search began. A search that never
      returns is kept apart from a throw. */
  datatype ResolveFailure = OccurrenceNotFound(occurrence: int, group: seq<string>, position: nat) | NeverReturns

  /** The groups located one after the other: the first at its requested occurrence counted
      from `cursor`, every later one at its first match after the end of the one before
      (`ResolvedInOrder`). */
  function ResolveGroups(tokens: seq<Token>, groups: seq<seq<string>>, firstOccurrence: int, cursor: nat, isFirst: bool)
    : (r: Result<seq<Match>, ResolveFailure>)
    ensures r.Ok? ==> |r.value| == |groups|
    ensures r.Err? && r.error.OccurrenceNotFound? ==> r.error.occurrence == firstOccurrence
    ensures r == Err(NeverReturns) ==> isFirst && |groups| > 0 && groups[0] == [] && firstOccurrence <= 0 && cursor < |tokens|
    decreases |groups|
  {
    if |groups| == 0 then Ok([])
    else
      var target := if isFirst then firstOccurrence else 1;
      match FindOccurrence(tokens, groups[0], cursor, 0, target)
      case NotFound => Err(OccurrenceNotFound(firstOccurrence, groups[0], cursor))
      case Hangs => Err(NeverReturns)
      case Found(m) =>
        match ResolveGroups(tokens, groups[1..], firstOccurrence, m.endIndex, false)
        case Err(e) => Err(e)
        case Ok(rest) => Ok([m] + rest)
  }

  /** The located groups: the first is the requested occurrence from the cursor, each later
      one is the first match after the end of the one before, every one is what
      `findConsecutiveTokens` returns at its start, and they follow each other without
      overlapping. */
  lemma {:induction false} ResolvedInOrder(tokens: seq<Token>, groups: seq<seq<string>>, firstOccurrence: int, cursor: nat, isFirst: bool)
    requires ResolveGroups(tokens, groups, firstOccurrence, cursor, isFirst).Ok?
    ensures var ms := ResolveGroups(tokens, groups, firstOccurrence, cursor, isFirst).value;
      && (|groups| > 0 ==>
            FindOccurrence(tokens, groups[0], cursor, 0, if isFirst then firstOccurrence else 1) == Found(ms[0]))
      && (forall k :: 1 <= k < |groups| ==>
            FindOccurrence(tokens, groups[k], ms[k - 1].endIndex, 0, 1) == Found(ms[k]))
      && (forall k :: 0 <= k < |groups| ==>
            FindConsecutiveTokens(tokens, groups[k], ms[k].start) == Some(ms[k]))
      && (|groups| > 0 ==> cursor <= ms[0].start)
      && (forall k :: 1 <= k < |groups| ==> ms[k - 1].endIndex <= ms[k].start)
    decreases |groups|
  {
    if |groups| > 0 {
      var target := if isFirst then firstOccurrence else 1;
      var m := FindOccurrence(tokens, groups[0], cursor, 0, target).m;
      var rest := ResolveGroups(tokens, groups[1..], firstOccurrence, m.endIndex, false).value;
      ResolvedInOrder(tokens, groups[1..], firstOccurrence, m.endIndex, false);
      var ms := [m] + rest;
      assert ResolveGroups(tokens, groups, firstOccurrence, cursor, isFirst).value == ms;
      assert forall k :: 1 <= k < |groups| ==> ms[k] == rest[k - 1] && groups[k] == groups[1..][k - 1];
    }
  }

  /** The groups after the first are each searched for their first match, so an occurrence
      below 1 for a group that has words is never found. */
  lemma ResolveRejectsLowOccurrence(tokens: seq<Token>, groups: seq<seq<string>>, firstOccurrence: int)
    requires |groups| > 0 && |groups[0]| > 0 && firstOccurrence < 1
    ensures ResolveGroups(tokens, groups, firstOccurrence, 0, true)
      == Err(OccurrenceNotFound(firstOccurrence, groups[0], 0))
  {
  }

  /** Every group located by the resolver is a genuine match of its words. */
  lemma ResolvedGroupsAreMatches(tokens: seq<Token>, groups: seq<seq<string>>, firstOccurrence: int)
    requires ResolveGroups(tokens, groups, firstOccurrence, 0, true).Ok?
    ensures var ms := ResolveGroups(tokens, groups, firstOccurrence, 0, true).value;
      forall k :: 0 <= k < |groups| ==> IsMatch(tokens, groups[k], ms[k])
  {
    var ms := ResolveGroups(tokens, groups, firstOccurrence, 0, true).value;
    ResolvedInOrder(tokens, groups, firstOccurrence, 0, true);
    forall k | 0 <= k < |groups|
      ensures IsMatch(tokens, groups[k], ms[k])
    {
      FindConsecutiveTokensSound(tokens, groups[k], ms[k].start);
    }
  }
}

=== FILE: alignment_query.dfy ===
/** The transform from the document engine's alignment query result to the token lookup
    `repo -> book -> "chapter:verse" -> tokens` (src/core/doAlignmentQuery.js). The query
    itself is not modelled: its result is the input. */
module AlignmentQuery {
  import opened Base
  import opened Text
  import opened Tokens

  /** The Greek New Testament repository, whose tokenizer separates a closing `’`. */
  const UgntRepo := "el-x-koine_ugnt"
  /** U+2019 RIGHT SINGLE QUOTATION MARK. */
  const Apostrophe := "’"

  datatype ItemGroup = ItemGroup(scopeLabels: seq<string>, tokens: seq<Token>)
  datatype Document = Document(book: string, itemGroups: seq<ItemGroup>)
  datatype DocSet = DocSet(repo: string, documents: seq<Document>)
  /** `errors` is present (even as an empty list) exactly when the engine reported errors. */
  datatype QueryResult = QueryResult(errors: Option<seq<string>>, docSets: seq<DocSet>)

  datatype QueryError =
    | QueryFailed(errors: seq<string>)
      /** No scope label of a group starts with `prefix`: `[0]` is undefined. */
    | MissingScopeLabel(prefix: string)

  type VerseLookup = map<string, seq<Token>>
  type BookLookup = map<string, VerseLookup>
  type TokenLookup = map<string, BookLookup>
  /** The keys one group registers and the token array they share. */
  type Entry = (seq<string>, seq<Token>)

  // ------------------------------------------------------------------ scope labels

  /** The text between the first and the second `/` of a label: `split('/')[1]`. */
  function LabelValue(scope: string): (r: string)
    requires '/' in scope
    ensures '/' !in r
  {
    var parts := Split(scope, "/");
    assert |parts| >= 2 by { SplitOnChar(scope, '/'); }
    CharContains(parts[1], '/');
    parts[1]
  }

  /** The value of the first label from index `i` on that starts with `kind + "/"`:
      `filter(...)[0].split('/')[1]`. */
  function ScopeValue(labels: seq<string>, kind: string, i: nat): (r: Result<string, QueryError>)
    requires i <= |labels|
    ensures r.Err? <==> forall j :: i <= j < |labels| ==> !(kind + "/" <= labels[j])
    ensures r.Err? ==> r.error == MissingScopeLabel(kind + "/")
    decreases |labels| - i
  {
    if i == |labels| then Err(MissingScopeLabel(kind + "/"))
    else if kind + "/" <= labels[i] then
      assert labels[i][|kind|] == '/';
      Ok(LabelValue(labels[i]))
    else ScopeValue(labels, kind, i + 1)
  }

  /** The first label with the prefix decides the scope value. */
  lemma {:induction false} ScopeValueAt(labels: seq<string>, kind: string, i: nat, first: nat)
    requires i <= first < |labels| && kind + "/" <= labels[first]
    requires forall j :: i <= j < first ==> !(kind + "/" <= labels[j])
    ensures '/' in labels[first]
    ensures ScopeValue(labels, kind, i) == Ok(LabelValue(labels[first]))
    decreases first - i
  {
    assert labels[first][|kind|] == '/';
    if i < first {
      ScopeValueAt(labels, kind, i + 1, first);
    }
  }

  /** A group's chapter and the verse pieces of its `verses/` label split on `-`. */
  function GroupVerses(g: ItemGroup): (r: Result<(string, seq<string>), QueryError>)
    ensures r.Ok? ==> |r.value.1| >= 1
  {
    var chapter :- ScopeValue(g.scopeLabels, "chapter", 0);
    var verses :- ScopeValue(g.scopeLabels, "verses", 0);
    Ok((chapter, Split(verses, "-")))
  }

  function VerseKeys(chapter: string, verses: seq<string>): (keys: seq<string>)
    ensures |keys| == |verses|
    ensures forall i :: 0 <= i < |verses| ==> keys[i] == chapter + ":" + verses[i]
  {
    seq(|verses|, i requires 0 <= i < |verses| => chapter + ":" + verses[i])
  }

  /** The value of `kind/v` is `v` when neither part holds a `/`. */
  lemma LabelValueOf(kind: string, v: string)
    requires '/' !in kind && '/' !in v
    ensures '/' in kind + "/" + v
    ensures LabelValue(kind + "/" + v) == v
  {
    assert (kind + "/" + v)[|kind|] == '/';
    SplitAtFirstSeparator(kind, "/", v, 0);
    SplitWithoutSeparator(v, "/", 0);
  }

  /** A group whose first chapter and verses labels hold `c` and `v`. */
  lemma GroupVersesOf(g: ItemGroup, c: string, v: string)
    requires ScopeValue(g.scopeLabels, "chapter", 0) == Ok(c)
    requires ScopeValue(g.scopeLabels, "verses", 0) == Ok(v)
    ensures GroupVerses(g) == Ok((c, Split(v, "-")))
  {
  }

  /** A range label registers its two ends and nothing between them. */
  lemma RangeLabelKeys(before: seq<string>, c: string, a: string, b: string, tokens: seq<Token>)
    requires forall j :: 0 <= j < |before| ==> !("chapter/" <= before[j]) && !("verses/" <= before[j])
    requires '/' !in c && '/' !in a && '/' !in b && '-' !in a && '-' !in b
    ensures var g := ItemGroup(before + ["chapter/" + c, "verses/" + a + "-" + b], tokens);
      GroupVerses(g) == Ok((c, [a, b]))
      && VerseKeys(c, [a, b]) == [c + ":" + a, c + ":" + b]
  {
    var labels := before + ["chapter/" + c, "verses/" + a + "-" + b];
    var range := a + "-" + b;
    assert "verses/" + a + "-" + b == "verses" + "/" + range;
    assert labels[|before|][0] == 'c';
    ChapterLabel(labels, |before|, c);
    VersesLabel(labels, |before| + 1, range);
    SplitAtFirstSeparator(a, "-", b, 0);
    SplitWithoutSeparator(b, "-", 0);
    assert Split(range, "-") == [a, b];
    GroupVersesOf(ItemGroup(labels, tokens), c, range);
  }

  lemma ChapterLabel(labels: seq<string>, i: nat, c: string)
    requires i + 1 < |labels| && labels[i] == "chapter/" + c && '/' !in c
    requires forall j :: 0 <= j < i ==> !("chapter/" <= labels[j])
    ensures ScopeValue(labels, "chapter", 0) == Ok(c)
  {
    assert "chapter/" + c == "chapter" + "/" + c;
    assert "chapter" + "/" == "chapter/";
    ScopeValueAt(labels, "chapter", 0, i);
    LabelValueOf("chapter", c);
  }

  lemma VersesLabel(labels: seq<string>, i: nat, v: string)
    requires 0 < i < |labels| && labels[i] == "verses" + "/" + v && '/' !in v
    requires forall j :: 0 <= j < i ==> !("verses/" <= labels[j])
    ensures ScopeValue(labels, "verses", 0) == Ok(v)
  {
    assert "verses" + "/" == "verses/";
    ScopeValueAt(labels, "verses", 0, i);
    LabelValueOf("verses", v);
  }

  // ------------------------------------------------------------------ one pass over a group

  /** Token `i` is word-like and followed by a lone `’`. */
  predicate MergesAt(ts: seq<Token>, i: int) {
    0 <= i < |ts| - 1 && IsWordLike(ts[i]) && ts[i + 1].payload == Apostrophe
  }

  /** The payload of token `i` once its own `’` follower is absorbed and, if it is itself
      such a follower, emptied. */
  function MergedPayload(ts: seq<Token>, i: nat): string
    requires i < |ts|
  {
    (if MergesAt(ts, i - 1) then "" else ts[i].payload)
    + (if MergesAt(ts, i) then Apostrophe else "")
  }

  /** The Greek apostrophe merge of one pass, position by position. */
  function MergeApostrophes(ts: seq<Token>): (r: seq<Token>)
    ensures |r| == |ts|
    ensures forall i :: 0 <= i < |ts| ==> r[i] == ts[i].(payload := MergedPayload(ts, i))
  {
    seq(|ts|, i requires 0 <= i < |ts| => ts[i].(payload := MergedPayload(ts, i)))
  }

  function MergeFor(repo: string, ts: seq<Token>): seq<Token> {
    if repo == UgntRepo then MergeApostrophes(ts) else ts
  }

  /** Every token labelled with the chapter and verse of the current pass. */
  function Annotate(ts: seq<Token>, chapter: string, verse: string): (r: seq<Token>)
    ensures |r| == |ts|
    ensures forall i :: 0 <= i < |ts| ==> r[i] == ts[i].(chapter := chapter, verse := verse)
  {
    seq(|ts|, i requires 0 <= i < |ts| => ts[i].(chapter := chapter, verse := verse))
  }

  /** One pass over a group's tokens for one verse piece, as a functional definition. */
  function Pass(repo: string, ts: seq<Token>, chapter: string, verse: string): seq<Token> {
    Annotate(MergeFor(repo, ts), chapter, verse)
  }

  /** The loop of one verse pass, mutating the token array in place from left to right. */
  method VersePass(repo: string, ts: seq<Token>, chapter: string, verse: string) returns (r: seq<Token>)
    ensures r == Pass(repo, ts, chapter, verse)
  {
    r := ts;
    var i := 0;
    while i < |r|
      invariant 0 <= i <= |r| == |ts|
      invariant forall k :: 0 <= k < i ==> r[k] == Pass(repo, ts, chapter, verse)[k]
      invariant i < |r| ==> r[i] == Reached(repo, ts, i)
      invariant forall k :: i < k < |r| ==> r[k] == ts[k]
    {
      r := VerseStep(repo, ts, chapter, verse, r, i);
      i := i + 1;
    }
  }

  /** The body of the loop at index `i`: absorb a following `’`, then label the token. */
  method VerseStep(repo: string, ts: seq<Token>, chapter: string, verse: string, r: seq<Token>, i: nat)
    returns (r': seq<Token>)
    requires i < |r| == |ts|
    requires r[i] == Reached(repo, ts, i)
    requires forall k :: i < k < |r| ==> r[k] == ts[k]
    ensures |r'| == |r|
    ensures forall k :: 0 <= k < i ==> r'[k] == r[k]
    ensures r'[i] == Pass(repo, ts, chapter, verse)[i]
    ensures i + 1 < |r| ==> r'[i + 1] == Reached(repo, ts, i + 1)
    ensures forall k :: i + 1 < k < |r| ==> r'[k] == ts[k]
  {
    r' := r;
    if repo == UgntRepo && i < |r'| - 1 && IsWordLike(r'[i]) && r'[i + 1].payload == Apostrophe {
      r' := r'[i := r'[i].(payload := r'[i].payload + Apostrophe)];
      r' := r'[i + 1 := r'[i + 1].(payload := "")];
    }
    r' := r'[i := r'[i].(chapter := chapter, verse := verse)];
    PassAt(repo, ts, chapter, verse, i);
  }

  /** Token `i` as the loop finds it: emptied if the previous step absorbed it. */
  function Reached(repo: string, ts: seq<Token>, i: nat): Token
    requires i < |ts|
  {
    if repo == UgntRepo && MergesAt(ts, i - 1) then ts[i].(payload := "") else ts[i]
  }

  /** What one loop step leaves at positions `i` and `i + 1`. */
  lemma PassAt(repo: string, ts: seq<Token>, chapter: string, verse: string, i: nat)
    requires i < |ts|
    ensures var t := Reached(repo, ts, i);
      var m := repo == UgntRepo && MergesAt(ts, i);
      Pass(repo, ts, chapter, verse)[i]
        == (if m then t.(payload := t.payload + Apostrophe) else t).(chapter := chapter, verse := verse)
    ensures i + 1 < |ts| ==>
      Reached(repo, ts, i + 1) == (if repo == UgntRepo && MergesAt(ts, i) then ts[i + 1].(payload := "") else ts[i + 1])
  {
    if repo != UgntRepo {
      assert Pass(repo, ts, chapter, verse) == Annotate(ts, chapter, verse);
    } else {
      assert Pass(repo, ts, chapter, verse) == Annotate(MergeApostrophes(ts), chapter, verse);
      if !MergesAt(ts, i) {
        assert MergedPayload(ts, i) == Reached(repo, ts, i).payload;
      }
    }
  }

  /** The passes for every verse piece in turn; the array is shared, so each pass sees the
      previous one's changes. */
  function Passes(repo: string, ts: seq<Token>, chapter: string, verses: seq<string>): (r: seq<Token>)
    ensures |r| == |ts|
    ensures forall i :: 0 <= i < |ts| ==> r[i].subType == ts[i].subType
    ensures |verses| > 0 ==>
      forall i :: 0 <= i < |ts| ==> r[i].chapter == chapter && r[i].verse == verses[|verses| - 1]
    decreases |verses|
  {
    if |verses| == 0 then ts
    else Passes(repo, Pass(repo, ts, chapter, verses[0]), chapter, verses[1..])
  }

  // ------------------------------------------------------------------ repeated passes settle

  /** No word-like token is empty or a lone `’`. */
  predicate PlainWords(ts: seq<Token>) {
    forall i :: 0 <= i < |ts| && IsWordLike(ts[i]) ==> ts[i].payload != "" && ts[i].payload != Apostrophe
  }

  lemma MergeKeepsPlain(ts: seq<Token>)
    requires PlainWords(ts)
    ensures PlainWords(MergeApostrophes(ts))
  {
    var r := MergeApostrophes(ts);
    forall i | 0 <= i < |r| && IsWordLike(r[i])
      ensures r[i].payload != "" && r[i].payload != Apostrophe
    {
      assert !MergesAt(ts, i - 1);
      assert |r[i].payload| >= |ts[i].payload|;
      if MergesAt(ts, i) {
        assert r[i].payload == ts[i].payload + Apostrophe;
        assert |r[i].payload| >= 2;
      }
    }
  }

  /** After a merge, the token after a word-like token is never a lone `’`. */
  lemma NoApostropheAfterWord(ts: seq<Token>, i: nat)
    requires PlainWords(ts) && i + 1 < |ts| && IsWordLike(ts[i])
    ensures MergedPayload(ts, i + 1) != Apostrophe
  {
  }

  /** Once merged, no `’` follows a word-like token any more. */
  lemma MergeIdempotent(ts: seq<Token>)
    requires PlainWords(ts)
    ensures MergeApostrophes(MergeApostrophes(ts)) == MergeApostrophes(ts)
  {
    var r := MergeApostrophes(ts);
    forall i | 0 <= i < |r|
      ensures !MergesAt(r, i)
    {
      if 0 <= i < |r| - 1 && IsWordLike(r[i]) {
        NoApostropheAfterWord(ts, i);
      }
    }
    var rr := MergeApostrophes(r);
    forall i | 0 <= i < |r|
      ensures rr[i] == r[i]
    {
      assert MergedPayload(r, i) == r[i].payload;
    }
  }

  lemma MergeAnnotate(ts: seq<Token>, chapter: string, verse: string)
    ensures MergeApostrophes(Annotate(ts, chapter, verse)) == Annotate(MergeApostrophes(ts), chapter, verse)
  {
    var a := Annotate(ts, chapter, verse);
    forall i | 0 <= i < |ts|
      ensures MergedPayload(a, i) == MergedPayload(ts, i)
    {
      assert MergesAt(a, i - 1) == MergesAt(ts, i - 1);
      assert MergesAt(a, i) == MergesAt(ts, i);
    }
  }

  /** However many verse pieces a label lists, the tokens end up merged once and labelled
      with the last piece. */
  lemma {:induction false} PassesSettle(repo: string, ts: seq<Token>, chapter: string, verses: seq<string>)
    requires |verses| > 0 && PlainWords(ts)
    ensures Passes(repo, ts, chapter, verses) == Annotate(MergeFor(repo, ts), chapter, verses[|verses| - 1])
    decreases |verses|
  {
    var p := Pass(repo, ts, chapter, verses[0]);
    if |verses| > 1 {
      var m := MergeFor(repo, ts);
      if repo == UgntRepo {
        MergeKeepsPlain(ts);
      }
      assert PlainWords(p);
      PassesSettle(repo, p, chapter, verses[1..]);
      var last := verses[|verses| - 1];
      assert verses[1..][|verses[1..]| - 1] == last;
      if repo == UgntRepo {
        MergeAnnotate(m, chapter, verses[0]);
        MergeIdempotent(ts);
      }
      assert MergeFor(repo, p) == Annotate(m, chapter, verses[0]);
      assert Annotate(Annotate(m, chapter, verses[0]), chapter, last) == Annotate(m, chapter, last);
    }
  }

  // ------------------------------------------------------------------ the lookup

  /** The keys a group registers and the token array they all share. */
  function GroupEntries(repo: string, g: ItemGroup): (r: Result<Entry, QueryError>)
    ensures r.Ok? ==> |r.value.0| >= 1 && |r.value.1| == |g.tokens|
  {
    var (chapter, verses) :- GroupVerses(g);
    Ok((VerseKeys(chapter, verses), Passes(repo, g.tokens, chapter, verses)))
  }

  function Register(m: VerseLookup, keys: seq<string>, ts: seq<Token>): (r: VerseLookup)
    ensures forall k :: k in r <==> k in m || k in keys
    ensures forall k :: k in keys ==> r[k] == ts
    ensures forall k :: k in m && k !in keys ==> r[k] == m[k]
    decreases |keys|
  {
    if |keys| == 0 then m
    else Register(m[keys[0] := ts], keys[1..], ts)
  }

  /** Every group's entry, in order. */
  function GroupResults(repo: string, groups: seq<ItemGroup>): (rs: seq<Result<Entry, QueryError>>)
    ensures |rs| == |groups|
    ensures forall i :: 0 <= i < |groups| ==> rs[i] == GroupEntries(repo, groups[i])
  {
    seq(|groups|, i requires 0 <= i < |groups| => GroupEntries(repo, groups[i]))
  }

  /** The entries in order, or the first error: the loop throws at the first bad group. */
  function Collect(results: seq<Result<Entry, QueryError>>): (r: Result<seq<Entry>, QueryError>)
    ensures r.Ok? ==> |r.value| == |results|
    ensures r.Ok? ==> forall i :: 0 <= i < |results| ==> results[i] == Ok(r.value[i])
    ensures r.Err? ==>
      exists i :: 0 <= i < |results| && results[i] == Err(r.error) && (forall j :: 0 <= j < i ==> results[j].Ok?)
    ensures (forall i :: 0 <= i < |results| ==> results[i].Ok?) ==> r.Ok?
    decreases |results|
  {
    if |results| == 0 then Ok([])
    else
      var e :- results[0];
      var es :- Collect(results[1..]);
      Ok([e] + es)
  }

  /** Each entry's keys are set to its tokens, later entries overwriting earlier ones. */
  function RegisterAll(m: VerseLookup, entries: seq<Entry>): (r: VerseLookup)
    ensures forall k :: k in m ==> k in r
    decreases |entries|
  {
    if |entries| == 0 then m
    else RegisterAll(Register(m, entries[0].0, entries[0].1), entries[1..])
  }

  /** A key holds the tokens of the last entry that lists it. */
  lemma {:induction false} LastEntryWins(m: VerseLookup, entries: seq<Entry>, i: nat, k: string)
    requires i < |entries| && k in entries[i].0
    requires forall j :: i < j < |entries| ==> k !in entries[j].0
    ensures k in RegisterAll(m, entries) && RegisterAll(m, entries)[k] == entries[i].1
    decreases |entries|
  {
    var m' := Register(m, entries[0].0, entries[0].1);
    if i == 0 {
      forall j | 0 <= j < |entries[1..]| ensures k !in entries[1..][j].0 {
        assert entries[1..][j] == entries[j + 1];
      }
      UnlistedKept(m', entries[1..], k);
    } else {
      assert entries[1..][i - 1] == entries[i];
      forall j | i - 1 < j < |entries[1..]| ensures k !in entries[1..][j].0 {
        assert entries[1..][j] == entries[j + 1];
      }
      LastEntryWins(m', entries[1..], i - 1, k);
    }
  }

  /** A key no entry lists keeps its earlier value, or stays absent. */
  lemma {:induction false} UnlistedKept(m: VerseLookup, entries: seq<Entry>, k: string)
    requires forall j :: 0 <= j < |entries| ==> k !in entries[j].0
    ensures k in RegisterAll(m, entries) <==> k in m
    ensures k in m ==> RegisterAll(m, entries)[k] == m[k]
    decreases |entries|
  {
    if |entries| > 0 {
      var m' := Register(m, entries[0].0, entries[0].1);
      forall j | 0 <= j < |entries[1..]| ensures k !in entries[1..][j].0 {
        assert entries[1..][j] == entries[j + 1];
      }
      UnlistedKept(m', entries[1..], k);
    }
  }

  /** The item groups of one document, in order; a group without its scope labels throws,
      which discards the whole lookup. */
  function AddGroups(repo: string, m: VerseLookup, groups: seq<ItemGroup>): (r: Result<VerseLookup, QueryError>)
    ensures r.Ok? ==> forall k :: k in m ==> k in r.value
    ensures r.Err? <==> exists i :: 0 <= i < |groups| && GroupEntries(repo, groups[i]).Err?
  {
    var entries :- Collect(GroupResults(repo, groups));
    Ok(RegisterAll(m, entries))
  }

  predicate Registers(repo: string, g: ItemGroup, k: string) {
    GroupEntries(repo, g).Ok? && k in GroupEntries(repo, g).value.0
  }

  /** A key holds the tokens of the last group that registers it. */
  lemma LastGroupWins(repo: string, m: VerseLookup, groups: seq<ItemGroup>, i: nat, k: string)
    requires AddGroups(repo, m, groups).Ok?
    requires i < |groups| && Registers(repo, groups[i], k)
    requires forall j :: i < j < |groups| ==> !Registers(repo, groups[j], k)
    ensures k in AddGroups(repo, m, groups).value
    ensures AddGroups(repo, m, groups).value[k] == GroupEntries(repo, groups[i]).value.1
  {
    var entries := Collect(GroupResults(repo, groups)).value;
    LastEntryWins(m, entries, i, k);
  }

  /** A key no group registers keeps its earlier entry, or stays absent. */
  lemma UnregisteredKept(repo: string, m: VerseLookup, groups: seq<ItemGroup>, k: string)
    requires AddGroups(repo, m, groups).Ok?
    requires forall j :: 0 <= j < |groups| ==> !Registers(repo, groups[j], k)
    ensures k in AddGroups(repo, m, groups).value <==> k in m
    ensures k in m ==> AddGroups(repo, m, groups).value[k] == m[k]
  {
    var entries := Collect(GroupResults(repo, groups)).value;
    UnlistedKept(m, entries, k);
  }

  /** The documents of one repository, in order; a repeated book code starts afresh. */
  function AddDocuments(repo: string, m: BookLookup, docs: seq<Document>): (r: Result<BookLookup, QueryError>)
    ensures r.Ok? ==> forall b :: b in m ==> b in r.value
    decreases |docs|
  {
    if |docs| == 0 then Ok(m)
    else
      var verses :- AddGroups(repo, map[], docs[0].itemGroups);
      AddDocuments(repo, m[docs[0].book := verses], docs[1..])
  }

  /** The document sets, in order; a repeated repository starts afresh. */
  function AddDocSets(m: TokenLookup, sets: seq<DocSet>): (r: Result<TokenLookup, QueryError>)
    ensures r.Ok? ==> forall p :: p in m ==> p in r.value
    ensures r.Ok? ==> forall j :: 0 <= j < |sets| ==> sets[j].repo in r.value
    decreases |sets|
  {
    if |sets| == 0 then Ok(m)
    else
      var books :- AddDocuments(sets[0].repo, map[], sets[0].documents);
      var r := AddDocSets(m[sets[0].repo := books], sets[1..]);
      assert r.Ok? ==> forall j :: 1 <= j < |sets| ==> sets[j].repo in r.value by {
        if r.Ok? {
          forall j | 1 <= j < |sets| ensures sets[j].repo in r.value {
            assert sets[1..][j - 1] == sets[j];
          }
        }
      }
      r
  }

  /** `doAlignmentQuery` after the query: errors throw, otherwise the nested lookup. */
  function DoAlignmentQuery(result: QueryResult): (r: Result<TokenLookup, QueryError>)
    ensures result.errors.Some? ==> r == Err(QueryFailed(result.errors.value))
    ensures r.Ok? ==> forall j :: 0 <= j < |result.docSets| ==> result.docSets[j].repo in r.value
  {
    if result.errors.Some? then Err(QueryFailed(result.errors.value))
    else AddDocSets(map[], result.docSets)
  }
}

=== FILE: base.dfy ===
/** Failure-carrying result types and small sequence facts shared by every module of the
    model. */
module Base {

  /** A value that may be absent: JavaScript's `undefined`/`null`, or `NaN` from `parseInt`. */
  datatype Option<+T> = None | Some(value: T) {

    /** Returns the value, or `default` when it is absent. */
    function GetOr(default: T): T {
      match this
      case Some(v) => v
      case None => default
    }
  }

  /** The outcome of an operation that may throw: `Err` carries what was thrown. */
  datatype Result<+T, +E> = Ok(value: T) | Err(error: E) {

    predicate IsFailure() {
      Err?
    }

    function PropagateFailure<U>(): Result<U, E>
      requires Err?
    {
      Err(error)
    }

    function Extract(): T
      requires Ok?
    {
      value
    }
  }

  /** A suffix is its first element followed by the next suffix. */
  lemma DropCons<T>(s: seq<T>, i: nat)
    requires i < |s|
    ensures s[i..] == [s[i]] + s[i + 1..]
  {
  }

  lemma AppendAssoc<T>(a: seq<T>, b: seq<T>, c: seq<T>)
    ensures a + (b + c) == (a + b) + c
  {
  }
}

=== FILE: gl_columns.dfy ===
/** The header columns `addGLQuoteCols` writes: the `GLQuote`/`GLOccurrence` column names
    of a link and where a new pair of them goes in the header (src/core/addGLQuoteCols.js). */
module GlColumns {
  import opened Base

  // ------------------------------------------------------------------ column names

  /** The quote column of a link: `GLQuote:repo` when there are several links. */
  function QuoteColumn(repo: string, many: bool): (name: string)
    ensures IsGlColumn(name)
    ensures !many ==> name == "GLQuote"
  {
    if many then "GLQuote:" + repo else "GLQuote"
  }

  /** The occurrence column of a link: `GLOccurrence:repo` when there are several links. */
  function OccurrenceColumn(repo: string, many: bool): (name: string)
    ensures IsGlColumn(name) && "GLOccurrence" <= name
    ensures !many ==> name == "GLOccurrence"
  {
    if many then "GLOccurrence:" + repo else "GLOccurrence"
  }

  /** The columns a row's cells may change in: those named after `GLQuote` or
      `GLOccurrence`. */
  predicate IsGlColumn(c: string) {
    "GLQuote" <= c || "GLOccurrence" <= c
  }

  /** With several links, different repositories get different columns, and a link's two
      columns differ. */
  lemma ColumnsPerRepo(a: string, b: string, many: bool)
    ensures QuoteColumn(a, many) != OccurrenceColumn(b, many)
    ensures many && a != b ==> QuoteColumn(a, many) != QuoteColumn(b, many)
    ensures many && a != b ==> OccurrenceColumn(a, many) != OccurrenceColumn(b, many)
  {
    assert QuoteColumn(a, many)[2] == 'Q' && OccurrenceColumn(b, many)[2] == 'O';
    if many && a != b {
      assert QuoteColumn(a, many)[|"GLQuote:"|..] == a;
      assert QuoteColumn(b, many)[|"GLQuote:"|..] == b;
      assert OccurrenceColumn(a, many)[|"GLOccurrence:"|..] == a;
      assert OccurrenceColumn(b, many)[|"GLOccurrence:"|..] == b;
    }
  }

  // ------------------------------------------------------------------ inserting the pair

  /** `columns.findIndex(p)` from index `k` on. */
  function FindFrom(columns: seq<string>, p: string -> bool, k: nat): (i: int)
    requires k <= |columns|
    ensures i == -1 || (k <= i < |columns| && p(columns[i]))
    ensures i == -1 ==> forall j :: k <= j < |columns| ==> !p(columns[j])
    ensures i >= 0 ==> forall j :: k <= j < i ==> !p(columns[j])
    decreases |columns| - k
  {
    if k == |columns| then -1
    else if p(columns[k]) then k
    else FindFrom(columns, p, k + 1)
  }

  /** The index the new pair goes after: the first `GLOccurrence...` column, else the
      `Occurrence` column, else none (-1). */
  function Anchor(columns: seq<string>): (i: int)
    ensures -1 <= i < |columns|
    ensures (exists j :: 0 <= j < |columns| && "GLOccurrence" <= columns[j]) ==>
      0 <= i && "GLOccurrence" <= columns[i] && forall j :: 0 <= j < i ==> !("GLOccurrence" <= columns[j])
    ensures (forall j :: 0 <= j < |columns| ==> !("GLOccurrence" <= columns[j])) && "Occurrence" in columns ==>
      0 <= i && columns[i] == "Occurrence" && "Occurrence" !in columns[..i]
    ensures i == -1 <==> (forall j :: 0 <= j < |columns| ==> !("GLOccurrence" <= columns[j])) && "Occurrence" !in columns
  {
    var g := FindFrom(columns, c => "GLOccurrence" <= c, 0);
    if g != -1 then g
    else
      var o := FindFrom(columns, c => c == "Occurrence", 0);
      assert o >= 0 ==> "Occurrence" !in columns[..o];
      o
  }

  /** Where the quote column lands: right after the anchor, or at the end. */
  function Slot(columns: seq<string>): (s: nat)
    ensures s <= |columns|
  {
    if Anchor(columns) >= 0 then Anchor(columns) + 1 else |columns|
  }

  /** The two `splice` calls, or the two `push` calls, run only when the quote column is not
      in the header yet. */
  function InsertPair(columns: seq<string>, q: string, o: string): (r: seq<string>)
    ensures q in r
    ensures q in columns ==> r == columns
    ensures q !in columns ==> r == columns[..Slot(columns)] + [q, o] + columns[Slot(columns)..]
  {
    if q in columns then columns
    else
      var at := Anchor(columns);
      if at != -1 then
        var r := columns[..at + 1] + [q, o] + columns[at + 1..];
        assert r[at + 1] == q;
        r
      else
        var r := columns + [q, o];
        assert columns[..|columns|] == columns && columns[|columns|..] == [];
        assert r[|columns|] == q;
        r
  }

  /** Adding the pair a second time changes nothing. */
  lemma InsertPairIdempotent(columns: seq<string>, q: string, o: string)
    ensures InsertPair(InsertPair(columns, q, o), q, o) == InsertPair(columns, q, o)
  {
  }

  /** A new pair sits side by side at its slot, and taking it out gives the header back. */
  lemma InsertPairAdjacent(columns: seq<string>, q: string, o: string)
    requires q !in columns
    ensures var r := InsertPair(columns, q, o); var s := Slot(columns);
      |r| == |columns| + 2 && r[s] == q && r[s + 1] == o && r[..s] + r[s + 2..] == columns
  {
    var s := Slot(columns);
    PairSplice(columns[..s], q, o, columns[s..]);
    assert columns[..s] + columns[s..] == columns;
  }

  lemma PairSplice<T>(a: seq<T>, q: T, o: T, b: seq<T>)
    ensures var r := a + [q, o] + b;
      |r| == |a| + |b| + 2 && r[|a|] == q && r[|a| + 1] == o && r[..|a|] + r[|a| + 2..] == a + b
  {
    var r := a + [q, o] + b;
    assert r[..|a|] == a;
    assert r[|a| + 2..] == b;
  }

  /** Insertion keeps every column and adds only the pair. */
  lemma InsertPairMembers(columns: seq<string>, q: string, o: string, c: string)
    ensures c in InsertPair(columns, q, o) <==> c in columns || (q !in columns && (c == q || c == o))
  {
    if q !in columns {
      var s := Slot(columns);
      assert columns == columns[..s] + columns[s..];
    }
  }

  /** With three links the pairs end up in the order first, third, second: every pair after
      the first goes right after the first `GLOccurrence...` column, which is the first
      link's. */
  lemma ThreeLinksOrder(columns: seq<string>, i: nat, a: string, b: string, c: string)
    requires i < |columns| && columns[i] == "Occurrence" && "Occurrence" !in columns[..i]
    requires forall j :: 0 <= j < |columns| ==> !IsGlColumn(columns[j])
    requires a != b && b != c && a != c
    ensures var c1 := InsertPair(columns, QuoteColumn(a, true), OccurrenceColumn(a, true));
      var c2 := InsertPair(c1, QuoteColumn(b, true), OccurrenceColumn(b, true));
      var c3 := InsertPair(c2, QuoteColumn(c, true), OccurrenceColumn(c, true));
      c3 == columns[..i + 1]
            + [QuoteColumn(a, true), OccurrenceColumn(a, true), QuoteColumn(c, true), OccurrenceColumn(c, true),
               QuoteColumn(b, true), OccurrenceColumn(b, true)]
            + columns[i + 1..]
  {
    var qa, oa := QuoteColumn(a, true), OccurrenceColumn(a, true);
    var qb, ob := QuoteColumn(b, true), OccurrenceColumn(b, true);
    var qc, oc := QuoteColumn(c, true), OccurrenceColumn(c, true);
    ColumnsPerRepo(a, b, true);
    ColumnsPerRepo(b, c, true);
    ColumnsPerRepo(a, c, true);
    ColumnsPerRepo(b, a, true);
    ColumnsPerRepo(c, a, true);
    ColumnsPerRepo(c, b, true);
    assert qb !in columns && qc !in columns;
    var pre, post := columns[..i + 1], columns[i + 1..];
    FirstPair(columns, i, qa, oa);
    var a1 := pre + [qa, oa];
    var c1 := a1 + post;
    assert InsertPair(columns, qa, oa) == c1;
    assert qb !in c1 by {
      InsertPairMembers(columns, qa, oa, qb);
    }
    NextPair(a1, post, qb, ob);
    var c2 := a1 + ([qb, ob] + post);
    assert qc !in c2 by {
      InsertPairMembers(columns, qa, oa, qc);
      InsertPairMembers(c1, qb, ob, qc);
    }
    NextPair(a1, [qb, ob] + post, qc, oc);
    var six := [qa, oa, qc, oc, qb, ob];
    calc {
      a1 + ([qc, oc] + ([qb, ob] + post));
      { AppendAssoc([qc, oc], [qb, ob], post); }
      a1 + (([qc, oc] + [qb, ob]) + post);
      { AppendAssoc(a1, [qc, oc] + [qb, ob], post); }
      (a1 + ([qc, oc] + [qb, ob])) + post;
      { AppendAssoc(pre, [qa, oa], [qc, oc] + [qb, ob]); ThreePairs(qa, oa, qc, oc, qb, ob); }
      pre + six + post;
    }
  }

  lemma ThreePairs<T>(a: T, b: T, c: T, d: T, e: T, f: T)
    ensures [a, b] + ([c, d] + [e, f]) == [a, b, c, d, e, f]
  {
  }

  /** The first pair goes after `Occurrence` and its occurrence column becomes the anchor. */
  lemma FirstPair(columns: seq<string>, i: nat, q: string, o: string)
    requires i < |columns| && columns[i] == "Occurrence" && "Occurrence" !in columns[..i]
    requires forall j :: 0 <= j < |columns| ==> !IsGlColumn(columns[j])
    requires "GLQuote" <= q && "GLOccurrence" <= o
    ensures InsertPair(columns, q, o) == columns[..i + 1] + [q, o] + columns[i + 1..]
    ensures Anchor(InsertPair(columns, q, o)) == i + 2
  {
    assert Anchor(columns) == i;
    assert q !in columns;
    var pre := columns[..i + 1];
    var r := pre + [q, o] + columns[i + 1..];
    assert !("GLOccurrence" <= q) by { assert q[2] == 'Q'; }
    forall j | 0 <= j < i + 2 ensures !("GLOccurrence" <= r[j]) {
      if j <= i {
        assert r[j] == pre[j] == columns[j];
      } else {
        assert r[j] == q;
      }
    }
    assert r[i + 2] == o;
    AnchorAt(r, i + 2);
  }

  /** The first `GLOccurrence...` column is the anchor. */
  lemma AnchorAt(columns: seq<string>, k: nat)
    requires k < |columns| && "GLOccurrence" <= columns[k]
    requires forall j :: 0 <= j < k ==> !("GLOccurrence" <= columns[j])
    ensures Anchor(columns) == k
  {
  }

  /** A later new pair goes right after the anchor, the last column of `front`, which stays
      the anchor. */
  lemma NextPair(front: seq<string>, back: seq<string>, q: string, o: string)
    requires |front| > 0 && Anchor(front + back) == |front| - 1 && "GLOccurrence" <= front[|front| - 1]
    requires q !in front + back
    ensures InsertPair(front + back, q, o) == front + ([q, o] + back)
    ensures Anchor(front + ([q, o] + back)) == |front| - 1
  {
    var columns := front + back;
    var k := |front| - 1;
    assert columns[..k + 1] == front && columns[k + 1..] == back;
    var r := front + ([q, o] + back);
    assert forall j :: 0 <= j <= k ==> r[j] == columns[j];
    assert forall j :: 0 <= j < k ==> !("GLOccurrence" <= r[j]);
  }
}

=== FILE: gl_quote_cols.dfy ===
/** `addGLQuoteCols` of src/core/addGLQuoteCols.js: for every row with a reference, a quote
    and an occurrence, resolve the original-language quote into each gateway-language Bible
    and write the result into a `GLQuote`/`GLOccurrence` column pair per Bible, inserting
    the pair into the header the first time it is needed. */
module GlQuoteCols {
  import opened Base
  import opened Text
  import opened Tokens
  import AlignmentQuery
  import opened QuotePrep
  import opened RowVerses
  import opened Resolver
  import opened GlRows
  import opened GlColumns

  // ------------------------------------------------------------------ one row

  /** A row on its way through the links: the header so far, the row and the failures
      reported; or a throw, which rejects the conversion; or a call that never returns. */
  datatype Progress = Going(columns: seq<string>, row: Row, failures: seq<Failure>) | Throws | Hangs

  /** The GL occurrence written on success: -1 stays -1, anything else takes the resolved
      occurrence. */
  function GlOccurrence(cell: string, occurrence: int): string {
    if LooseMinusOne(cell) then "-1" else IntToString(occurrence)
  }

  /** A resolver result the code counts as a pass: a non-empty quote and a non-zero
      occurrence. */
  predicate Passes(a: Attempt) {
    a.Found? && a.quote != "" && a.occurrence != 0
  }

  /** The row's cells every link reads: the reference, the ID, the quote and occurrence, and
      the quote prepared for the resolver. A link writes only GL columns, so these stay as
      they were read. */
  datatype Cells = Cells(failure: Failure, quote: string, occurrence: string, prepared: string)

  /** One pass of `for (const link of bibleLinks)`: gather the link's tokens, call the
      resolver, insert the column pair if needed, and write the pass or the failure. */
  function LinkStep(resolve: Resolve, lookup: AlignmentQuery.TokenLookup, book: string, keys: seq<string>,
                    source: seq<Token>, cells: Cells, many: bool, p: Progress, link: string): (r: Progress)
    ensures !p.Going? ==> r == p
    ensures p.Going? && r.Going? ==> |r.failures| <= |p.failures| + 1
  {
    if !p.Going? then p
    else
      var repo := LinkRepo(link);
      match Gather(lookup, repo, book, keys)
      case None => Throws
      case Some(target) =>
        var attempt := resolve(Some(source), Some(target), cells.prepared, ParseInt(cells.occurrence));
        if attempt.Loops? then Hangs
        else
          var qc := QuoteColumn(repo, many);
          var oc := OccurrenceColumn(repo, many);
          var columns := InsertPair(p.columns, qc, oc);
          if Passes(attempt) then
            Going(columns, p.row[qc := attempt.quote][oc := GlOccurrence(cells.occurrence, attempt.occurrence)], p.failures)
          else
            Going(columns, p.row[qc := MarkNotFound(cells.quote)][oc := cells.occurrence], p.failures + [cells.failure])
  }

  /** The links in order; a throw or a hang ends the row. */
  function LinkSteps(resolve: Resolve, lookup: AlignmentQuery.TokenLookup, book: string, keys: seq<string>,
                     source: seq<Token>, cells: Cells, many: bool, p: Progress, links: seq<string>): (r: Progress)
    ensures !p.Going? ==> r == p
    decreases |links|
  {
    if |links| == 0 then p
    else LinkSteps(resolve, lookup, book, keys, source, cells, many, LinkStep(resolve, lookup, book, keys, source, cells, many, p, links[0]), links[1..])
  }

  /** The row before any link: the quote has no `QUOTE_NOT_FOUND`, so its failed form is the
      sentinel in front of it. */
  predicate Fresh(cells: Cells) {
    !Contains(cells.quote, "QUOTE_NOT_FOUND")
  }

  /** A link the resolver passes writes the resolved quote and occurrence (-1 kept as -1)
      into the link's columns and reports nothing. */
  lemma LinkPasses(resolve: Resolve, lookup: AlignmentQuery.TokenLookup, book: string, keys: seq<string>,
                   source: seq<Token>, cells: Cells, many: bool, p: Progress, link: string)
    requires p.Going?
    requires Gather(lookup, LinkRepo(link), book, keys).Some?
    requires Passes(resolve(Some(source), Some(Gather(lookup, LinkRepo(link), book, keys).value), cells.prepared, ParseInt(cells.occurrence)))
    ensures var r := LinkStep(resolve, lookup, book, keys, source, cells, many, p, link);
      var a := resolve(Some(source), Some(Gather(lookup, LinkRepo(link), book, keys).value), cells.prepared, ParseInt(cells.occurrence));
      r.Going? && r.failures == p.failures
      && r.row[QuoteColumn(LinkRepo(link), many)] == a.quote
      && r.row[OccurrenceColumn(LinkRepo(link), many)] == (if LooseMinusOne(cells.occurrence) then "-1" else IntToString(a.occurrence))
  {
    ColumnsPerRepo(LinkRepo(link), LinkRepo(link), many);
  }

  /** A link the resolver does not pass writes the quote behind one sentinel and the row's
      own occurrence, and reports the row. */
  lemma LinkFails(resolve: Resolve, lookup: AlignmentQuery.TokenLookup, book: string, keys: seq<string>,
                  source: seq<Token>, cells: Cells, many: bool, p: Progress, link: string)
    requires p.Going? && Fresh(cells)
    requires Gather(lookup, LinkRepo(link), book, keys).Some?
    requires var a := resolve(Some(source), Some(Gather(lookup, LinkRepo(link), book, keys).value), cells.prepared, ParseInt(cells.occurrence));
      !a.Loops? && !Passes(a)
    ensures var r := LinkStep(resolve, lookup, book, keys, source, cells, many, p, link);
      r.Going? && r.failures == p.failures + [cells.failure]
      && r.row[QuoteColumn(LinkRepo(link), many)] == NotFoundPrefix + cells.quote
      && r.row[OccurrenceColumn(LinkRepo(link), many)] == cells.occurrence
  {
    ColumnsPerRepo(LinkRepo(link), LinkRepo(link), many);
    NoSentinelWord(cells.quote);
    MarkNotFoundPlain(cells.quote);
  }

  /** `tsvRecord` outside the GL columns: the same cells, no more, no fewer. */
  ghost predicate SameOutsideGl(before: Row, after: Row) {
    forall c :: !IsGlColumn(c) ==> (c in after <==> c in before) && (c in before ==> after[c] == before[c])
  }

  /** The header keeps its columns and gains only GL columns. */
  ghost predicate ColumnsGrow(before: seq<string>, after: seq<string>) {
    (forall c :: c in before ==> c in after) && (forall c :: c in after && c !in before ==> IsGlColumn(c))
  }

  /** Writing two GL cells leaves the row outside the GL columns as it was. */
  lemma GlWrite(row: Row, qc: string, oc: string, x: string, y: string)
    requires IsGlColumn(qc) && IsGlColumn(oc)
    ensures SameOutsideGl(row, row[qc := x][oc := y])
  {
  }

  /** Inserting a pair of GL columns keeps the header's columns and adds only GL columns. */
  lemma InsertPairGrows(columns: seq<string>, q: string, o: string)
    requires IsGlColumn(q) && IsGlColumn(o)
    ensures ColumnsGrow(columns, InsertPair(columns, q, o))
  {
    forall c ensures c in InsertPair(columns, q, o) ==> c in columns || IsGlColumn(c) {
      InsertPairMembers(columns, q, o, c);
    }
    forall c | c in columns ensures c in InsertPair(columns, q, o) {
      InsertPairMembers(columns, q, o, c);
    }
  }

  /** One link writes only into GL columns and adds only GL columns. */
  lemma LinkStepKeeps(resolve: Resolve, lookup: AlignmentQuery.TokenLookup, book: string, keys: seq<string>,
                      source: seq<Token>, cells: Cells, many: bool, p: Progress, link: string)
    requires p.Going?
    ensures var r := LinkStep(resolve, lookup, book, keys, source, cells, many, p, link);
      r.Going? ==> SameOutsideGl(p.row, r.row) && ColumnsGrow(p.columns, r.columns) && p.failures <= r.failures
  {
    var repo := LinkRepo(link);
    if Gather(lookup, repo, book, keys).Some? {
      var attempt := resolve(Some(source), Some(Gather(lookup, repo, book, keys).value), cells.prepared, ParseInt(cells.occurrence));
      if !attempt.Loops? {
        var qc := QuoteColumn(repo, many);
        var oc := OccurrenceColumn(repo, many);
        InsertPairGrows(p.columns, qc, oc);
        if Passes(attempt) {
          GlWrite(p.row, qc, oc, attempt.quote, GlOccurrence(cells.occurrence, attempt.occurrence));
        } else {
          GlWrite(p.row, qc, oc, MarkNotFound(cells.quote), cells.occurrence);
        }
      }
    }
  }

  /** All links together write only into GL columns and add only GL columns. */
  lemma {:induction false} LinkStepsKeep(resolve: Resolve, lookup: AlignmentQuery.TokenLookup, book: string, keys: seq<string>,
                                         source: seq<Token>, cells: Cells, many: bool, p: Progress, links: seq<string>)
    requires p.Going?
    ensures var r := LinkSteps(resolve, lookup, book, keys, source, cells, many, p, links);
      r.Going? ==> SameOutsideGl(p.row, r.row) && ColumnsGrow(p.columns, r.columns) && p.failures <= r.failures
    decreases |links|
  {
    if |links| > 0 {
      var q := LinkStep(resolve, lookup, book, keys, source, cells, many, p, links[0]);
      if q.Going? {
        LinkStepKeeps(resolve, lookup, book, keys, source, cells, many, p, links[0]);
        LinkStepsKeep(resolve, lookup, book, keys, source, cells, many, q, links[1..]);
      }
    }
  }

  /** Rows the loop `continue`s past before resolving: no reference, a blank quote or no
      occurrence. The quote must be present once there is a reference. */
  predicate Skipped(row: Row)
    requires !Falsy(row, "Reference") ==> "Quote" in row
  {
    Falsy(row, "Reference") || Trim(row["Quote"]) == "" || Falsy(row, "Occurrence")
  }

  /** The body of `for (const tsvRecord of tsvRecords)`. */
  function GlRow(resolve: Resolve, t: Testament, lookup: AlignmentQuery.TokenLookup, book: string,
                 links: seq<string>, columns: seq<string>, row: Row): (r: Progress)
    ensures !Falsy(row, "Reference") && "Quote" !in row ==> r == Throws
    ensures (Falsy(row, "Reference") || "Quote" in row) && Skipped(row) ==> r == Going(columns, row, [])
    ensures (Falsy(row, "Reference") || "Quote" in row) && !Skipped(row) && Contains(row["Quote"], "QUOTE_NOT_FOUND")
      ==> r == Going(columns, row["GLQuote" := row["Quote"]], [])
  {
    if Falsy(row, "Reference") then Going(columns, row, [])
    else if "Quote" !in row then Throws
    else if Skipped(row) then Going(columns, row, [])
    else if Contains(row["Quote"], "QUOTE_NOT_FOUND") then Going(columns, row["GLQuote" := row["Quote"]], [])
    else
      match RowKeys(row["Reference"])
      case None => Throws
      case Some(keys) =>
        match Gather(lookup, OrigRepo(t), book, keys)
        case None => Throws
        case Some(source) =>
          LinkSteps(resolve, lookup, book, keys, source, RowCells(row), |links| > 1, Going(columns, row, []), links)
  }

  /** The cells a resolved row's links read. */
  function RowCells(row: Row): (cells: Cells)
    requires "Reference" in row && "Quote" in row && "Occurrence" in row
    ensures cells.quote == row["Quote"] && cells.occurrence == row["Occurrence"]
    ensures cells.failure == FailureOf(row)
    ensures cells.prepared == ReplaceMarked(row["Quote"], MisencodedEllipsis)
  {
    Cells(FailureOf(row), row["Quote"], row["Occurrence"], ReplaceMarked(row["Quote"], MisencodedEllipsis))
  }

  /** Whatever the links give, a row keeps every cell outside the GL columns, the header
      keeps its columns, and only GL columns are added. */
  lemma GlRowKeeps(resolve: Resolve, t: Testament, lookup: AlignmentQuery.TokenLookup, book: string,
                   links: seq<string>, columns: seq<string>, row: Row)
    ensures var r := GlRow(resolve, t, lookup, book, links, columns, row);
      r.Going? ==> SameOutsideGl(row, r.row) && ColumnsGrow(columns, r.columns)
  {
    var r := GlRow(resolve, t, lookup, book, links, columns, row);
    if r.Going? && !Falsy(row, "Reference") && "Quote" in row && !Skipped(row) && !Contains(row["Quote"], "QUOTE_NOT_FOUND") {
      var keys := RowKeys(row["Reference"]).value;
      var source := Gather(lookup, OrigRepo(t), book, keys).value;
      LinkStepsKeep(resolve, lookup, book, keys, source, RowCells(row), |links| > 1, Going(columns, row, []), links);
    }
  }

  // ------------------------------------------------------------------ the whole file

  /** The rows in order, the header growing as links add their columns. */
  function GlRowsFrom(resolve: Resolve, t: Testament, lookup: AlignmentQuery.TokenLookup, book: string,
                      links: seq<string>, columns: seq<string>, rows: seq<Row>): (r: Conversion)
    ensures r.Done? ==> |r.sheet.rows| == |rows|
    decreases |rows|
  {
    if |rows| == 0 then Done(Sheet(columns, [], []))
    else
      match GlRow(resolve, t, lookup, book, links, columns, rows[0])
      case Throws => Rejected
      case Hangs => Pending
      case Going(c, row, failures) =>
        match GlRowsFrom(resolve, t, lookup, book, links, c, rows[1..])
        case Done(s) => Done(Sheet(s.columns, [row] + s.rows, failures + s.failures))
        case other => other
  }

  /** `addGLQuoteCols({ bibleLinks, bookCode, tsvContent })` once the token lookup is built,
      with the parsed rows: an unknown book (no testament) rejects; the lookups use the
      upper-cased book code. */
  function AddGlQuoteCols(resolve: Resolve, testament: Option<Testament>, lookup: AlignmentQuery.TokenLookup, book: string,
                          links: seq<string>, content: string, rows: seq<Row>): (r: Conversion)
    ensures testament.None? ==> r == Rejected
    ensures r.Done? ==> |r.sheet.rows| == |rows|
  {
    if testament.None? then Rejected
    else GlRowsFrom(resolve, testament.value, lookup, Upper(book), links, HeaderColumns(content), rows)
  }

  /** A lower-case book code converts exactly as its upper-case form does. */
  lemma AddGlQuoteColsBookCase(resolve: Resolve, testament: Option<Testament>, lookup: AlignmentQuery.TokenLookup, book: string,
                               links: seq<string>, content: string, rows: seq<Row>)
    ensures AddGlQuoteCols(resolve, testament, lookup, book, links, content, rows)
            == AddGlQuoteCols(resolve, testament, lookup, Upper(book), links, content, rows)
  {
    UpperIdempotent(book);
  }

  /** Across the file, the header keeps its columns and only gains GL columns. */
  lemma {:induction false} GlRowsGrow(resolve: Resolve, t: Testament, lookup: AlignmentQuery.TokenLookup, book: string,
                                      links: seq<string>, columns: seq<string>, rows: seq<Row>)
    requires GlRowsFrom(resolve, t, lookup, book, links, columns, rows).Done?
    ensures ColumnsGrow(columns, GlRowsFrom(resolve, t, lookup, book, links, columns, rows).sheet.columns)
    decreases |rows|
  {
    if |rows| > 0 {
      GlRowsFromStep(resolve, t, lookup, book, links, columns, rows);
      GlRowKeeps(resolve, t, lookup, book, links, columns, rows[0]);
      var first := GlRow(resolve, t, lookup, book, links, columns, rows[0]);
      GlRowsGrow(resolve, t, lookup, book, links, first.columns, rows[1..]);
      ColumnsGrowTransitive(columns, first.columns, GlRowsFrom(resolve, t, lookup, book, links, first.columns, rows[1..]).sheet.columns);
    }
  }

  /** Across the file, every row keeps its cells outside the GL columns. */
  lemma {:induction false} GlRowsKeep(resolve: Resolve, t: Testament, lookup: AlignmentQuery.TokenLookup, book: string,
                                      links: seq<string>, columns: seq<string>, rows: seq<Row>, k: nat)
    requires GlRowsFrom(resolve, t, lookup, book, links, columns, rows).Done? && k < |rows|
    ensures SameOutsideGl(rows[k], GlRowsFrom(resolve, t, lookup, book, links, columns, rows).sheet.rows[k])
    decreases |rows|
  {
    GlRowsFromStep(resolve, t, lookup, book, links, columns, rows);
    var first := GlRow(resolve, t, lookup, book, links, columns, rows[0]);
    if k == 0 {
      GlRowKeeps(resolve, t, lookup, book, links, columns, rows[0]);
    } else {
      GlRowsKeep(resolve, t, lookup, book, links, first.columns, rows[1..], k - 1);
      assert rows[1..][k - 1] == rows[k];
    }
  }

  lemma ColumnsGrowTransitive(a: seq<string>, b: seq<string>, c: seq<string>)
    requires ColumnsGrow(a, b) && ColumnsGrow(b, c)
    ensures ColumnsGrow(a, c)
  {
  }

  /** A finished file of one or more rows: the first row went through and the rest finished
      from the header it left. */
  lemma GlRowsFromStep(resolve: Resolve, t: Testament, lookup: AlignmentQuery.TokenLookup, book: string,
                       links: seq<string>, columns: seq<string>, rows: seq<Row>)
    requires GlRowsFrom(resolve, t, lookup, book, links, columns, rows).Done? && |rows| > 0
    ensures var first := GlRow(resolve, t, lookup, book, links, columns, rows[0]);
      var r := GlRowsFrom(resolve, t, lookup, book, links, columns, rows);
      first.Going? && GlRowsFrom(resolve, t, lookup, book, links, first.columns, rows[1..]).Done?
      && r.sheet.rows == [first.row] + GlRowsFrom(resolve, t, lookup, book, links, first.columns, rows[1..]).sheet.rows
      && r.sheet.columns == GlRowsFrom(resolve, t, lookup, book, links, first.columns, rows[1..]).sheet.columns
  {
  }
}

=== FILE: gl_rows.dfy ===
/** What the two gateway-language drivers share: rows read as maps from column name to
    cell, the link that names the gateway-language repository, the occurrence tests and the
    error a failed row reports (src/core/addGLQuoteCols.js and
    src/core/convertGLQuotes2OLQuotes.js). */
module GlRows {
  import opened Base
  import opened Text
  import opened Tokens
  import AlignmentQuery
  import opened QuotePrep
  import opened RowVerses

  /** A TSV row as the CSV parser gives it with `columns: true`: cell text by column name.
      A column the row lacks reads as `undefined`. */
  type Row = map<string, string>

  /** `!row[col]`: the cell is absent or empty. */
  predicate Falsy(row: Row, col: string) {
    col !in row || row[col] == ""
  }

  /** The lookup entry of the original-language Bible of a testament. */
  function OrigRepo(t: Testament): (repo: string)
    ensures repo == AlignmentQuery.UgntRepo <==> t.New?
  {
    if t.Old? then "hbo_uhb" else AlignmentQuery.UgntRepo
  }

  /** `link.split('/')[1]`: the repository of an `owner/repo/ref` link. A link without `/`
      has no second piece, and `undefined` used as a property key or in a template is the
      text `undefined`. */
  function LinkRepo(link: string): (repo: string)
    ensures '/' !in link ==> repo == "undefined"
    ensures '/' in link ==> '/' !in repo
  {
    var parts := Split(link, "/");
    SplitOnChar(link, '/');
    if |parts| > 1 then
      CharContains(parts[1], '/');
      parts[1]
    else "undefined"
  }

  /** The repository is read back from a link built of an owner, a repository and a ref. */
  lemma LinkRepoOf(owner: string, repo: string, ref: string)
    requires '/' !in owner && '/' !in repo
    ensures LinkRepo(owner + "/" + repo + "/" + ref) == repo
  {
    SplitAtFirstSeparator(owner, "/", repo + "/" + ref, 0);
    SplitAtFirstSeparator(repo, "/", ref, 0);
    AppendAssoc(owner + "/", repo, "/" + ref);
    AppendAssoc(owner, "/", repo + "/" + ref);
    AppendAssoc(repo, "/", ref);
    assert owner + "/" + repo + "/" + ref == owner + "/" + (repo + "/" + ref);
  }

  /** `row['Occurrence'] != -1` compared loosely: the cell, read as a number, is -1. Only
      the plain spelling `-1` with white space around it is recognised here. */
  predicate LooseMinusOne(cell: string) {
    Trim(cell) == "-1"
  }

  /** What a failed resolution reports: the row's reference and its `ID` cell. */
  datatype Failure = Failure(reference: string, id: Option<string>)

  function FailureOf(row: Row): Failure
    requires "Reference" in row
  {
    Failure(row["Reference"], if "ID" in row then Some(row["ID"]) else None)
  }

  /** `const [chapter, verseRef] = row['Reference'].split(':')` and the lookup keys its verse
      part lists; `None` when there is no `:`, where `verseRef.trim()` throws. */
  function RowKeys(reference: string): (r: Option<seq<string>>)
    ensures r.None? <==> ':' !in reference
    ensures r.Some? ==> r.value == VerseKeys(ChapterAndVerses(reference).0, VerseParts(ChapterAndVerses(reference).1.value))
  {
    var (chapter, verseRef) := ChapterAndVerses(reference);
    if verseRef.None? then None else Some(VerseKeys(chapter, VerseParts(verseRef.value)))
  }

  /** A quote without the word `QUOTE_NOT_FOUND` does not contain the sentinel either. */
  lemma NoSentinelWord(q: string)
    requires !Contains(q, "QUOTE_NOT_FOUND")
    ensures !Contains(q, NotFoundPrefix)
  {
    if Contains(q, NotFoundPrefix) {
      var j := IndexOf(q, NotFoundPrefix);
      assert q[j..j + |NotFoundPrefix|][..15] == "QUOTE_NOT_FOUND";
      assert q[j..j + 15] == "QUOTE_NOT_FOUND";
      ContainsWitness(q, "QUOTE_NOT_FOUND", j);
    }
  }

  // ------------------------------------------------------------------ the written sheet

  /** `tsvContent.split('\n')[0].split('\t')`: the header line's column names. */
  function HeaderColumns(content: string): (columns: seq<string>)
    ensures |columns| >= 1
    ensures Join(columns, "\t") <= content
    ensures '\n' !in Join(columns, "\t")
  {
    var lines := Split(content, "\n");
    SplitOnChar(content, '\n');
    JoinFirstTwo(lines, "\n");
    JoinSplit(content, "\n");
    CharContains(lines[0], '\n');
    JoinSplit(lines[0], "\t");
    Split(lines[0], "\t")
  }

  /** The columns a driver writes, the rows in input order and the failures it reported. */
  datatype Sheet = Sheet(columns: seq<string>, rows: seq<Row>, failures: seq<Failure>)

  /** How a driver's promise settles: resolved with its sheet, rejected by a throw, or never
      when a resolver call does not return. */
  datatype Conversion = Done(sheet: Sheet) | Rejected | Pending

  /** `stringify(rows, { header: true, columns })` as a table: the header, then each row's
      cells in column order, a cell the row lacks written empty. */
  function Table(s: Sheet): (t: seq<seq<string>>)
    ensures |t| == |s.rows| + 1 && t[0] == s.columns
    ensures forall k, j :: 0 <= k < |s.rows| && 0 <= j < |s.columns| ==>
      |t[k + 1]| == |s.columns| && t[k + 1][j] == (if s.columns[j] in s.rows[k] then s.rows[k][s.columns[j]] else "")
  {
    [s.columns] + seq(|s.rows|, k requires 0 <= k < |s.rows| => Line(s.columns, s.rows[k]))
  }

  function Line(columns: seq<string>, row: Row): (cells: seq<string>)
    ensures |cells| == |columns|
    ensures forall j :: 0 <= j < |columns| ==> cells[j] == (if columns[j] in row then row[columns[j]] else "")
  {
    seq(|columns|, j requires 0 <= j < |columns| => if columns[j] in row then row[columns[j]] else "")
  }
}

=== FILE: gl_to_ol.dfy ===
/** `convertGLQuotes2OLQuotes` of src/core/convertGLQuotes2OLQuotes.js: every row whose quote
    is gateway-language text gets it replaced by the aligned original-language quote, or
    marked `QUOTE_NOT_FOUND` when the resolver cannot place it. */
module GlToOl {
  import opened Base
  import opened Text
  import opened Tokens
  import AlignmentQuery
  import opened QuotePrep
  import opened RowVerses
  import opened Resolver
  import opened GlRows

  /** The Bible used when no link is given: `unfoldingWord/en_ult/master`. */
  const DefaultLink: string := "unfoldingWord" + "/" + DefaultRepoName + "/" + "master"

  const DefaultRepoName: string := "en_ult"

  /** `if (!bibleLink) bibleLink = 'unfoldingWord/en_ult/master'`. */
  function LinkOrDefault(link: Option<string>): (r: string)
    ensures link.Some? && link.value != "" ==> r == link.value
    ensures link.None? || link.value == "" ==> LinkRepo(r) == DefaultRepoName
  {
    if link.None? || link.value == "" then
      DefaultRepo();
      DefaultLink
    else link.value
  }

  lemma DefaultRepo()
    ensures LinkRepo(DefaultLink) == DefaultRepoName
  {
    assert '/' !in "unfoldingWord" && '/' !in DefaultRepoName;
    LinkRepoOf("unfoldingWord", DefaultRepoName, "master");
  }

  // ------------------------------------------------------------------ one row

  /** Rows the loop passes over: no reference, no or a blank quote, no occurrence, the header
      row, or a quote already in Hebrew or Greek. */
  predicate Skipped(row: Row) {
    Falsy(row, "Reference") || "Quote" !in row || Trim(row["Quote"]) == "" || Falsy(row, "Occurrence")
    || row["Reference"] == "Reference" || ContainsHebrewOrGreek(row["Quote"])
  }

  /** A skipped row as written: the header row's occurrence cell reads `Occurrence`. */
  function SkippedRow(row: Row): (r: Row)
    ensures "Reference" in row && row["Reference"] == "Reference" ==> r == row["Occurrence" := "Occurrence"]
    ensures "Reference" !in row || row["Reference"] != "Reference" ==> r == row
  {
    if "Reference" in row && row["Reference"] == "Reference" then row["Occurrence" := "Occurrence"] else row
  }

  /** The first-group occurrence passed to the resolver: 1 for the text `1`, otherwise
      `parseInt` of the cell. */
  function OccurrenceArg(cell: string): Option<int> {
    if cell == "1" then Some(1) else ParseInt(cell)
  }

  /** The `'1'` shortcut gives what `parseInt` gives. */
  lemma OccurrenceArgIsParseInt(cell: string)
    ensures OccurrenceArg(cell) == ParseInt(cell)
  {
    if cell == "1" {
      assert IsCanonicalNumeral("1");
      ParseCanonicalNumeral("1");
      assert RadixValue("1", 10) == 1 by {
        assert "1"[..0] == "";
      }
    }
  }

  /** What one row comes to: the row as written and the failure it reports, if any; a throw,
      which rejects the conversion; or a resolver call that never returns. */
  datatype RowOutcome = Kept(row: Row, failure: Option<Failure>) | Throws | Hangs

  /** The source tokens from the link's Bible and the target tokens from the original-language
      Bible, verse by verse. A missing verse in either throws, whichever comes first, so the
      row throws exactly when either list cannot be gathered. */
  function RowTokens(t: Testament, lookup: AlignmentQuery.TokenLookup, book: string, repo: string, keys: seq<string>): (r: Option<(seq<Token>, seq<Token>)>)
    ensures r.None? <==> Gather(lookup, repo, book, keys).None? || Gather(lookup, OrigRepo(t), book, keys).None?
    ensures r.Some? ==> r.value == (Gather(lookup, repo, book, keys).value, Gather(lookup, OrigRepo(t), book, keys).value)
  {
    match (Gather(lookup, repo, book, keys), Gather(lookup, OrigRepo(t), book, keys))
    case (Some(source), Some(target)) => Some((source, target))
    case _ => None
  }

  /** The row outside its quote and occurrence cells: the same cells, no more, no fewer. */
  ghost predicate SameBesidesQuote(before: Row, after: Row) {
    forall c :: c != "Quote" && c != "Occurrence" ==> (c in after <==> c in before) && (c in before ==> after[c] == before[c])
  }

  /** The resolver's result, written into the row: the new quote and, unless the occurrence
      is -1, the new occurrence; or the sentinel in front of the quote and a failure. */
  function Rewrite(row: Row, attempt: Attempt): (r: RowOutcome)
    requires "Reference" in row && "Quote" in row && "Occurrence" in row
    ensures attempt.Loops? <==> r.Hangs?
    ensures r.Kept? ==> SameBesidesQuote(row, r.row) && "Quote" in r.row && "Occurrence" in r.row
  {
    match attempt
    case Loops => Hangs
    case Found(q, o) =>
      var quoted := row["Quote" := q];
      Kept(if LooseMinusOne(row["Occurrence"]) then quoted else quoted["Occurrence" := IntToString(o)], None)
    case Failed => Kept(row["Quote" := MarkNotFound(row["Quote"])], Some(FailureOf(row)))
  }

  /** The resolver call a row that is not skipped makes, once its tokens are gathered. */
  function RowAttempt(resolve: Resolve, row: Row, tokens: (seq<Token>, seq<Token>)): Attempt
    requires "Quote" in row && "Occurrence" in row
  {
    resolve(Some(tokens.0), Some(tokens.1), PrepareQuote(row["Quote"], MisencodedEllipsis), OccurrenceArg(row["Occurrence"]))
  }

  /** The body of `for (const tsvRecord of tsvRecords)`. */
  function GlToOlRow(resolve: Resolve, t: Testament, lookup: AlignmentQuery.TokenLookup, book: string, repo: string, row: Row): (r: RowOutcome)
    ensures Skipped(row) ==> r == Kept(SkippedRow(row), None)
    ensures !Skipped(row) ==> r == Resolved(resolve, t, lookup, book, repo, row)
  {
    if Skipped(row) then Kept(SkippedRow(row), None) else Resolved(resolve, t, lookup, book, repo, row)
  }

  /** A row that is not skipped: its verse keys, its tokens, the resolver call. */
  function Resolved(resolve: Resolve, t: Testament, lookup: AlignmentQuery.TokenLookup, book: string, repo: string, row: Row): (r: RowOutcome)
    requires !Skipped(row)
    ensures r.Kept? ==> SameBesidesQuote(row, r.row) && "Quote" in r.row
  {
    match RowKeys(row["Reference"])
    case None => Throws
    case Some(keys) =>
      match RowTokens(t, lookup, book, repo, keys)
      case None => Throws
      case Some(tokens) => Rewrite(row, RowAttempt(resolve, row, tokens))
  }

  /** A row that is not skipped and whose tokens are gathered is written as its resolver call
      says. */
  lemma ResolvedRewrites(resolve: Resolve, t: Testament, lookup: AlignmentQuery.TokenLookup, book: string, repo: string, row: Row)
    requires !Skipped(row) && RowKeys(row["Reference"]).Some?
    requires RowTokens(t, lookup, book, repo, RowKeys(row["Reference"]).value).Some?
    ensures GlToOlRow(resolve, t, lookup, book, repo, row)
            == Rewrite(row, RowAttempt(resolve, row, RowTokens(t, lookup, book, repo, RowKeys(row["Reference"]).value).value))
  {
  }

  /** A placed quote is written with its occurrence, unless the row's occurrence is -1. */
  lemma RewriteFound(row: Row, q: string, o: int)
    requires "Reference" in row && "Quote" in row && "Occurrence" in row
    ensures var r := Rewrite(row, Found(q, o));
      r.Kept? && r.failure.None? && r.row["Quote"] == q
      && r.row["Occurrence"] == (if LooseMinusOne(row["Occurrence"]) then row["Occurrence"] else IntToString(o))
  {
  }

  /** A quote the resolver cannot place is marked, and the row reports its reference and ID. */
  lemma RewriteFailed(row: Row)
    requires "Reference" in row && "Quote" in row && "Occurrence" in row
    ensures Rewrite(row, Failed) == Kept(row["Quote" := MarkNotFound(row["Quote"])], Some(FailureOf(row)))
  {
  }

  /** A row the resolver places gets the resolved quote, and the resolved occurrence unless
      its own occurrence is -1; it reports nothing. */
  lemma RowFound(resolve: Resolve, t: Testament, lookup: AlignmentQuery.TokenLookup, book: string, repo: string, row: Row)
    requires !Skipped(row) && RowKeys(row["Reference"]).Some?
    requires RowTokens(t, lookup, book, repo, RowKeys(row["Reference"]).value).Some?
    requires RowAttempt(resolve, row, RowTokens(t, lookup, book, repo, RowKeys(row["Reference"]).value).value).Found?
    ensures var a := RowAttempt(resolve, row, RowTokens(t, lookup, book, repo, RowKeys(row["Reference"]).value).value);
      var r := GlToOlRow(resolve, t, lookup, book, repo, row);
      r.Kept? && r.failure.None? && r.row["Quote"] == a.quote
      && r.row["Occurrence"] == (if LooseMinusOne(row["Occurrence"]) then row["Occurrence"] else IntToString(a.occurrence))
  {
    var a := RowAttempt(resolve, row, RowTokens(t, lookup, book, repo, RowKeys(row["Reference"]).value).value);
    ResolvedRewrites(resolve, t, lookup, book, repo, row);
    RewriteFound(row, a.quote, a.occurrence);
  }

  /** A row the resolver cannot place keeps its occurrence, gets exactly one sentinel in
      front of its quote with any earlier one removed, and reports its reference and ID. */
  lemma RowFails(resolve: Resolve, t: Testament, lookup: AlignmentQuery.TokenLookup, book: string, repo: string, row: Row)
    requires !Skipped(row) && RowKeys(row["Reference"]).Some?
    requires RowTokens(t, lookup, book, repo, RowKeys(row["Reference"]).value).Some?
    requires RowAttempt(resolve, row, RowTokens(t, lookup, book, repo, RowKeys(row["Reference"]).value).value).Failed?
    ensures var r := GlToOlRow(resolve, t, lookup, book, repo, row);
      r.Kept? && r.failure == Some(Failure(row["Reference"], if "ID" in row then Some(row["ID"]) else None))
      && r.row["Quote"] == NotFoundPrefix + StripNotFound(row["Quote"])
      && StripNotFound(r.row["Quote"]) == StripNotFound(row["Quote"])
      && r.row["Occurrence"] == row["Occurrence"]
  {
    FailedRow(resolve, t, lookup, book, repo, row);
    SentinelRestripped(row["Quote"]);
  }

  /** Converting a failed row again fails again and writes the same row: the sentinel is
      stripped before the resolver sees the quote, so the resolver gets the same call, and
      the written quote keeps a single sentinel. */
  lemma RetryStable(resolve: Resolve, t: Testament, lookup: AlignmentQuery.TokenLookup, book: string, repo: string, row: Row)
    requires !Skipped(row) && RowKeys(row["Reference"]).Some?
    requires RowTokens(t, lookup, book, repo, RowKeys(row["Reference"]).value).Some?
    requires RowAttempt(resolve, row, RowTokens(t, lookup, book, repo, RowKeys(row["Reference"]).value).value).Failed?
    ensures var r := GlToOlRow(resolve, t, lookup, book, repo, row);
      r.Kept? && GlToOlRow(resolve, t, lookup, book, repo, r.row) == r
  {
    var again := row["Quote" := MarkNotFound(row["Quote"])];
    var keys := RowKeys(row["Reference"]).value;
    var tokens := RowTokens(t, lookup, book, repo, keys).value;
    FailedRow(resolve, t, lookup, book, repo, row);
    NotSkippedAgain(row);
    assert RowKeys(again["Reference"]) == Some(keys);
    ResolvedRewrites(resolve, t, lookup, book, repo, again);
    assert RowAttempt(resolve, again, tokens) == RowAttempt(resolve, row, tokens) by {
      SentinelRestripped(row["Quote"]);
    }
    FailsAgain(row, MarkNotFound(row["Quote"]));
  }

  /** A row whose resolver call fails is written with its quote marked. */
  lemma FailedRow(resolve: Resolve, t: Testament, lookup: AlignmentQuery.TokenLookup, book: string, repo: string, row: Row)
    requires !Skipped(row) && RowKeys(row["Reference"]).Some?
    requires RowTokens(t, lookup, book, repo, RowKeys(row["Reference"]).value).Some?
    requires RowAttempt(resolve, row, RowTokens(t, lookup, book, repo, RowKeys(row["Reference"]).value).value).Failed?
    ensures GlToOlRow(resolve, t, lookup, book, repo, row) == Kept(row["Quote" := MarkNotFound(row["Quote"])], Some(FailureOf(row)))
  {
    ResolvedRewrites(resolve, t, lookup, book, repo, row);
    RewriteFailed(row);
  }

  /** Marking the quote of a row that is not skipped leaves it not skipped. */
  lemma NotSkippedAgain(row: Row)
    requires !Skipped(row)
    ensures !Skipped(row["Quote" := MarkNotFound(row["Quote"])])
  {
    MarkedStaysPending(row["Quote"]);
  }

  /** Stripping the sentinel from a marked quote gives what stripping it from the quote
      gives, so the resolver sees the same quote. */
  lemma SentinelRestripped(q: string)
    ensures StripNotFound(MarkNotFound(q)) == StripNotFound(q)
    ensures PrepareQuote(MarkNotFound(q), MisencodedEllipsis) == PrepareQuote(q, MisencodedEllipsis)
  {
    var x := StripNotFound(q);
    assert (NotFoundPrefix + x)[|NotFoundPrefix|..] == x;
  }

  /** Failing again on a marked row writes that row unchanged and reports the same failure. */
  lemma FailsAgain(row: Row, marked: string)
    requires "Reference" in row && "Quote" in row && "Occurrence" in row
    requires marked == MarkNotFound(row["Quote"])
    ensures Rewrite(row["Quote" := marked], Failed) == Kept(row["Quote" := marked], Some(FailureOf(row)))
  {
    MarkNotFoundIdempotent(row["Quote"]);
    var again := row["Quote" := marked];
    assert again["Quote" := MarkNotFound(marked)] == again;
    assert FailureOf(again) == FailureOf(row);
  }

  // ------------------------------------------------------------------ the whole file

  /** The rows in order; the header is written as it was read. */
  function GlToOlRows(resolve: Resolve, t: Testament, lookup: AlignmentQuery.TokenLookup, book: string, repo: string,
                      columns: seq<string>, rows: seq<Row>): (r: Conversion)
    ensures r.Done? ==> r.sheet.columns == columns && |r.sheet.rows| == |rows|
    decreases |rows|
  {
    if |rows| == 0 then Done(Sheet(columns, [], []))
    else
      var rest := GlToOlRows(resolve, t, lookup, book, repo, columns, rows[1..]);
      match GlToOlRow(resolve, t, lookup, book, repo, rows[0])
      case Throws => Rejected
      case Hangs => Pending
      case Kept(row, failure) =>
        match rest
        case Done(s) => Done(Sheet(columns, [row] + s.rows, (if failure.Some? then [failure.value] else []) + s.failures))
        case other => other
  }

  /** A finished conversion wrote every row as its own conversion left it, in input order;
      no row threw or hung. */
  lemma {:induction false} GlToOlRowsKept(resolve: Resolve, t: Testament, lookup: AlignmentQuery.TokenLookup, book: string, repo: string,
                                          columns: seq<string>, rows: seq<Row>, k: nat)
    requires GlToOlRows(resolve, t, lookup, book, repo, columns, rows).Done? && k < |rows|
    ensures GlToOlRow(resolve, t, lookup, book, repo, rows[k]).Kept?
    ensures GlToOlRows(resolve, t, lookup, book, repo, columns, rows).sheet.rows[k] == GlToOlRow(resolve, t, lookup, book, repo, rows[k]).row
    decreases |rows|
  {
    GlToOlRowsStep(resolve, t, lookup, book, repo, columns, rows);
    if k > 0 {
      GlToOlRowsKept(resolve, t, lookup, book, repo, columns, rows[1..], k - 1);
      assert rows[1..][k - 1] == rows[k];
    }
  }

  /** The conversion finishes when every row is kept: nothing throws and no resolver call
      hangs. */
  lemma {:induction false} GlToOlRowsDone(resolve: Resolve, t: Testament, lookup: AlignmentQuery.TokenLookup, book: string, repo: string,
                                          columns: seq<string>, rows: seq<Row>)
    requires forall k :: 0 <= k < |rows| ==> GlToOlRow(resolve, t, lookup, book, repo, rows[k]).Kept?
    ensures GlToOlRows(resolve, t, lookup, book, repo, columns, rows).Done?
    decreases |rows|
  {
    if |rows| > 0 {
      assert GlToOlRow(resolve, t, lookup, book, repo, rows[0]).Kept?;
      forall k | 0 <= k < |rows| - 1 ensures GlToOlRow(resolve, t, lookup, book, repo, rows[1..][k]).Kept? {
        assert rows[1..][k] == rows[k + 1];
      }
      GlToOlRowsDone(resolve, t, lookup, book, repo, columns, rows[1..]);
    }
  }

  /** A finished conversion of a non-empty list: the first row was kept and the rest finished. */
  lemma GlToOlRowsStep(resolve: Resolve, t: Testament, lookup: AlignmentQuery.TokenLookup, book: string, repo: string,
                       columns: seq<string>, rows: seq<Row>)
    requires GlToOlRows(resolve, t, lookup, book, repo, columns, rows).Done? && |rows| > 0
    ensures GlToOlRow(resolve, t, lookup, book, repo, rows[0]).Kept?
    ensures GlToOlRows(resolve, t, lookup, book, repo, columns, rows[1..]).Done?
    ensures GlToOlRows(resolve, t, lookup, book, repo, columns, rows).sheet.rows
            == [GlToOlRow(resolve, t, lookup, book, repo, rows[0]).row] + GlToOlRows(resolve, t, lookup, book, repo, columns, rows[1..]).sheet.rows
  {
  }

  /** `convertGLQuotes2OLQuotes({ bibleLink, bookCode, tsvContent })` once the token lookup is
      built, with the parsed rows: an unknown book (no testament) rejects; the lookups use the
      upper-cased book code. */
  function ConvertGlQuotes2OlQuotes(resolve: Resolve, testament: Option<Testament>, lookup: AlignmentQuery.TokenLookup, book: string,
                                    link: Option<string>, content: string, rows: seq<Row>): (r: Conversion)
    ensures testament.None? ==> r == Rejected
    ensures r.Done? ==> r.sheet.columns == HeaderColumns(content) && |r.sheet.rows| == |rows|
  {
    if testament.None? then Rejected
    else GlToOlRows(resolve, testament.value, lookup, Upper(book), LinkRepo(LinkOrDefault(link)), HeaderColumns(content), rows)
  }

  /** A lower-case book code converts exactly as its upper-case form does. */
  lemma ConvertGlQuotes2OlQuotesBookCase(resolve: Resolve, testament: Option<Testament>, lookup: AlignmentQuery.TokenLookup, book: string,
                                         link: Option<string>, content: string, rows: seq<Row>)
    ensures ConvertGlQuotes2OlQuotes(resolve, testament, lookup, book, link, content, rows)
            == ConvertGlQuotes2OlQuotes(resolve, testament, lookup, Upper(book), link, content, rows)
  {
    UpperIdempotent(book);
  }
}

=== FILE: phrase_occurrence.dfy ===
/** `findPhraseOccurrenceInSentence` (src/utils/findPhraseInSentence.js) over sentences and
    phrases that are already tokenised: which occurrence of a phrase starts at the n-th
    occurrence of its first word. */
module PhraseOccurrence {
  import opened Base
  import opened Text

  /** `phraseTokens[0]`, which is `undefined` for an empty phrase. */
  function FirstWord(phrase: seq<string>): (w: Option<string>)
    ensures w.Some? <==> |phrase| > 0
    ensures w.Some? ==> w.value == phrase[0]
  {
    if |phrase| == 0 then None else Some(phrase[0])
  }

  /** The token at index `i` is the phrase's first word (no token equals `undefined`). */
  predicate IsStarter(sentence: seq<string>, phrase: seq<string>, i: nat)
    requires i < |sentence|
  {
    FirstWord(phrase) == Some(sentence[i])
  }

  /** How many of the first `n` tokens are the phrase's first word. */
  function Starters(sentence: seq<string>, phrase: seq<string>, n: nat): nat
    requires n <= |sentence|
  {
    if n == 0 then 0
    else Starters(sentence, phrase, n - 1) + (if IsStarter(sentence, phrase, n - 1) then 1 else 0)
  }

  /** `sentenceTokens.slice(i, i + phraseTokens.length)`: cut short at the end of the sentence. */
  function Window(sentence: seq<string>, i: nat, m: nat): (w: seq<string>)
    requires i <= |sentence|
    ensures |w| == if i + m <= |sentence| then m else |sentence| - i
  {
    if i + m <= |sentence| then sentence[i..i + m] else sentence[i..]
  }

  /** The space-joined window at `i` equals the space-joined phrase. */
  predicate MatchesAt(sentence: seq<string>, phrase: seq<string>, i: nat)
    requires i <= |sentence|
  {
    Join(Window(sentence, i, |phrase|), " ") == Join(phrase, " ")
  }

  /** How many of the first `n` indices start a match; overlapping matches all count. */
  function Matches(sentence: seq<string>, phrase: seq<string>, n: nat): nat
    requires n <= |sentence|
  {
    if n == 0 then 0
    else Matches(sentence, phrase, n - 1) + (if MatchesAt(sentence, phrase, n - 1) then 1 else 0)
  }

  /** At index `i` the loop records a phrase occurrence under the starter count `f`. */
  predicate RecordedAt(sentence: seq<string>, phrase: seq<string>, i: nat, f: int)
    requires i < |sentence|
  {
    MatchesAt(sentence, phrase, i) && Starters(sentence, phrase, i + 1) == f
  }

  /** The last index below `n` that records under `f`: the entry the map keeps, since a later
      record overwrites an earlier one. */
  function LastRecorded(sentence: seq<string>, phrase: seq<string>, f: int, n: nat): (r: Option<nat>)
    requires n <= |sentence|
    ensures r.Some? ==> r.value < n
  {
    if n == 0 then None
    else if RecordedAt(sentence, phrase, n - 1, f) then Some(n - 1)
    else LastRecorded(sentence, phrase, f, n - 1)
  }

  /** The value `findPhraseOccurrenceInSentence` returns, `None` standing for `undefined`. */
  function PhraseOccurrence(sentence: seq<string>, phrase: seq<string>, f: int): Option<nat> {
    match LastRecorded(sentence, phrase, f, |sentence|)
    case None => None
    case Some(i) => Some(Matches(sentence, phrase, i + 1))
  }

  /** Index `i` records under `f` and no later index below `n` does. */
  predicate IsLastRecorded(sentence: seq<string>, phrase: seq<string>, f: int, n: nat, i: nat)
    requires n <= |sentence|
  {
    && i < n
    && RecordedAt(sentence, phrase, i, f)
    && forall j :: i < j < n ==> !RecordedAt(sentence, phrase, j, f)
  }

  /** What `LastRecorded` finds records under `f`, and no later index below `n` does. */
  lemma {:induction false} LastRecordedIsLast(sentence: seq<string>, phrase: seq<string>, f: int, n: nat)
    requires n <= |sentence|
    ensures LastRecorded(sentence, phrase, f, n).Some? ==>
      IsLastRecorded(sentence, phrase, f, n, LastRecorded(sentence, phrase, f, n).value)
  {
    if n > 0 && !RecordedAt(sentence, phrase, n - 1, f) {
      LastRecordedIsLast(sentence, phrase, f, n - 1);
    }
  }

  /** `LastRecorded` finds nothing only when no index below `n` records under `f`. */
  lemma {:induction false} LastRecordedComplete(sentence: seq<string>, phrase: seq<string>, f: int, n: nat, i: nat)
    requires i < n <= |sentence| && RecordedAt(sentence, phrase, i, f)
    ensures LastRecorded(sentence, phrase, f, n).Some?
  {
    if i < n - 1 && !RecordedAt(sentence, phrase, n - 1, f) {
      LastRecordedComplete(sentence, phrase, f, n - 1, i);
    }
  }

  /** The map the loop keeps after `n` indices: a key for every starter count some index
      recorded under, holding the match count at the last such index. */
  ghost predicate IsOccurrencesMap(sentence: seq<string>, phrase: seq<string>, n: nat, occurrences: map<int, nat>)
    requires n <= |sentence|
  {
    forall k :: IsOccurrenceEntry(sentence, phrase, n, occurrences, k)
  }

  /** The map's entry for the starter count `k` after `n` indices. */
  ghost predicate IsOccurrenceEntry(sentence: seq<string>, phrase: seq<string>, n: nat, occurrences: map<int, nat>, k: int)
    requires n <= |sentence|
  {
    && (k in occurrences <==> LastRecorded(sentence, phrase, k, n).Some?)
    && (k in occurrences ==>
          occurrences[k] == Matches(sentence, phrase, LastRecorded(sentence, phrase, k, n).value + 1))
  }

  /** One turn of the loop at index `i`. */
  method ScanIndex(sentence: seq<string>, phrase: seq<string>, i: nat, starters: nat, matches: nat, occurrences: map<int, nat>)
    returns (starters': nat, matches': nat, occurrences': map<int, nat>)
    requires i < |sentence|
    requires starters == Starters(sentence, phrase, i) && matches == Matches(sentence, phrase, i)
    requires IsOccurrencesMap(sentence, phrase, i, occurrences)
    ensures starters' == Starters(sentence, phrase, i + 1) && matches' == Matches(sentence, phrase, i + 1)
    ensures IsOccurrencesMap(sentence, phrase, i + 1, occurrences')
  {
    starters', matches', occurrences' := starters, matches, occurrences;
    if IsStarter(sentence, phrase, i) {
      starters' := starters' + 1;
    }
    if MatchesAt(sentence, phrase, i) {
      matches' := matches' + 1;
      occurrences' := occurrences'[starters' := matches'];
    }
    var n := i + 1;
    forall k
      ensures IsOccurrenceEntry(sentence, phrase, n, occurrences', k)
    {
      OccurrenceEntryStep(sentence, phrase, i, occurrences, occurrences', starters', matches', k);
    }
  }

  /** How one index changes the map's entry for `k`: a match at `i` under the starter count
      `k` overwrites it, and nothing else touches it. */
  lemma OccurrenceEntryStep(sentence: seq<string>, phrase: seq<string>, i: nat,
                            occurrences: map<int, nat>, occurrences': map<int, nat>,
                            starters': nat, matches': nat, k: int)
    requires i < |sentence| && IsOccurrenceEntry(sentence, phrase, i, occurrences, k)
    requires starters' == Starters(sentence, phrase, i + 1) && matches' == Matches(sentence, phrase, i + 1)
    requires occurrences' == if MatchesAt(sentence, phrase, i) then occurrences[starters' := matches'] else occurrences
    ensures IsOccurrenceEntry(sentence, phrase, i + 1, occurrences', k)
  {
    if RecordedAt(sentence, phrase, i, k) {
      assert k in occurrences' && occurrences'[k] == matches';
      assert LastRecorded(sentence, phrase, k, i + 1) == Some(i);
    } else {
      assert LastRecorded(sentence, phrase, k, i + 1) == LastRecorded(sentence, phrase, k, i);
      assert k in occurrences' <==> k in occurrences;
      if k in occurrences {
        assert occurrences'[k] == occurrences[k];
      }
    }
  }

  /** The loop of `findPhraseOccurrenceInSentence`: a starter count incremented before the
      match test, a match count, and a map from starter count to match count that a later
      match overwrites; the result is the map's entry for `firstWordOccurrence`. */
  method FindPhraseOccurrence(sentence: seq<string>, phrase: seq<string>, firstWordOccurrence: int)
    returns (r: Option<nat>)
    ensures r == PhraseOccurrence(sentence, phrase, firstWordOccurrence)
  {
    var occurrences: map<int, nat> := map[];
    var phraseOccurrence: nat := 0;
    var starterWordOccurrence: nat := 0;
    for i := 0 to |sentence|
      invariant starterWordOccurrence == Starters(sentence, phrase, i)
      invariant phraseOccurrence == Matches(sentence, phrase, i)
      invariant IsOccurrencesMap(sentence, phrase, i, occurrences)
    {
      starterWordOccurrence, phraseOccurrence, occurrences :=
        ScanIndex(sentence, phrase, i, starterWordOccurrence, phraseOccurrence, occurrences);
    }
    assert IsOccurrenceEntry(sentence, phrase, |sentence|, occurrences, firstWordOccurrence);
    r := if firstWordOccurrence in occurrences then Some(occurrences[firstWordOccurrence]) else None;
  }

  /** The result is defined exactly when some index records under `f`; it is then the match
      count at the last such index. */
  lemma PhraseOccurrenceSpec(sentence: seq<string>, phrase: seq<string>, f: int)
    ensures PhraseOccurrence(sentence, phrase, f).Some? <==>
      exists i :: 0 <= i < |sentence| && RecordedAt(sentence, phrase, i, f)
    ensures PhraseOccurrence(sentence, phrase, f).Some? ==>
      exists i: nat :: IsLastRecorded(sentence, phrase, f, |sentence|, i)
        && PhraseOccurrence(sentence, phrase, f).value == Matches(sentence, phrase, i + 1)
  {
    LastRecordedIsLast(sentence, phrase, f, |sentence|);
    forall i | 0 <= i < |sentence| && RecordedAt(sentence, phrase, i, f)
      ensures LastRecorded(sentence, phrase, f, |sentence|).Some?
    {
      LastRecordedComplete(sentence, phrase, f, |sentence|, i);
    }
  }

  // ------------------------------------------------------------------ bounds

  /** No token holds a space, as is the case for the tokeniser's words. */
  predicate SpaceFree(ts: seq<string>) {
    forall k :: 0 <= k < |ts| ==> ' ' !in ts[k]
  }

  /** With space-free tokens, a match of a non-empty phrase starts with its first word: the
      space-joined strings are equal only if the token lists are. */
  lemma MatchStartsWithFirstWord(sentence: seq<string>, phrase: seq<string>, i: nat)
    requires |phrase| > 0 && SpaceFree(sentence) && SpaceFree(phrase)
    requires i < |sentence| && MatchesAt(sentence, phrase, i)
    ensures IsStarter(sentence, phrase, i)
  {
    var w := Window(sentence, i, |phrase|);
    assert w[0] == sentence[i];
    forall k | 0 <= k < |w|
      ensures ' ' !in w[k]
    {
      assert w[k] == sentence[i + k];
    }
    SplitJoin(w, " ", 0);
    SplitJoin(phrase, " ", 0);
    assert w == phrase;
  }

  /** With space-free tokens and a non-empty phrase, no prefix holds more matches than
      starter words. */
  lemma {:induction false} MatchesAtMostStarters(sentence: seq<string>, phrase: seq<string>, n: nat)
    requires |phrase| > 0 && SpaceFree(sentence) && SpaceFree(phrase) && n <= |sentence|
    ensures Matches(sentence, phrase, n) <= Starters(sentence, phrase, n)
  {
    if n > 0 {
      assert Matches(sentence, phrase, n - 1) <= Starters(sentence, phrase, n - 1) by {
        MatchesAtMostStarters(sentence, phrase, n - 1);
      }
      if MatchesAt(sentence, phrase, n - 1) {
        assert IsStarter(sentence, phrase, n - 1) by {
          MatchStartsWithFirstWord(sentence, phrase, n - 1);
        }
      }
    }
  }

  lemma {:induction false} MatchesMonotone(sentence: seq<string>, phrase: seq<string>, m: nat, n: nat)
    requires m <= n <= |sentence|
    ensures Matches(sentence, phrase, m) <= Matches(sentence, phrase, n)
    decreases n - m
  {
    if m < n {
      MatchesMonotone(sentence, phrase, m, n - 1);
    }
  }

  /** A match recorded at index `i` under the starter count `f` is numbered between 1 and
      `f`, and no higher than the number of matches in the whole sentence. */
  lemma RecordedBounds(sentence: seq<string>, phrase: seq<string>, f: int, i: nat)
    requires |phrase| > 0 && SpaceFree(sentence) && SpaceFree(phrase)
    requires i < |sentence| && RecordedAt(sentence, phrase, i, f)
    ensures 1 <= Matches(sentence, phrase, i + 1) <= f
    ensures Matches(sentence, phrase, i + 1) <= Matches(sentence, phrase, |sentence|)
  {
    MatchesAtMostStarters(sentence, phrase, i + 1);
    MatchesMonotone(sentence, phrase, i + 1, |sentence|);
  }

  /** For a non-empty phrase over space-free tokens, a defined result lies between 1 and the
      requested starter occurrence and never exceeds the number of matches in the sentence. */
  lemma PhraseOccurrenceBounds(sentence: seq<string>, phrase: seq<string>, f: int)
    requires |phrase| > 0 && SpaceFree(sentence) && SpaceFree(phrase)
    requires PhraseOccurrence(sentence, phrase, f).Some?
    ensures 1 <= PhraseOccurrence(sentence, phrase, f).value <= f
    ensures PhraseOccurrence(sentence, phrase, f).value <= Matches(sentence, phrase, |sentence|)
  {
    LastRecordedIsLast(sentence, phrase, f, |sentence|);
    RecordedBounds(sentence, phrase, f, LastRecorded(sentence, phrase, f, |sentence|).value);
  }
}

=== FILE: projection.dfy ===
/** The target half of `getAlignedQuote` (src/core/getAlignedQuote.js): which target words the
    matched source words are aligned with, how the selected words are gathered into runs with
    the text between them, and the quote and occurrence that result. */
module Projection {
  import opened Base
  import opened Text
  import opened Tokens
  import opened AlignedQuote

  // ------------------------------------------------------------------ selection

  /** The text an alignment scope must contain to name a word: `/<payload>:<occurrence>:`. */
  function ScopeKey(payload: string, occurrence: int): string {
    "/" + payload + ":" + IntToString(occurrence) + ":"
  }

  /** The indices of all matched source tokens, group after group. */
  function MatchedIndices(ms: seq<Match>): seq<nat> {
    if |ms| == 0 then [] else ms[0].indices + MatchedIndices(ms[1..])
  }

  /** Every matched index is an index of the source. */
  predicate WithinSource(source: seq<Token>, matched: seq<nat>) {
    forall k :: 0 <= k < |matched| ==> matched[k] < |source|
  }

  /** The scopes of the matched source tokens, in order. */
  function MatchedScopes(source: seq<Token>, matched: seq<nat>): seq<string>
    requires WithinSource(source, matched)
  {
    if |matched| == 0 then [] else source[matched[0]].scopes + MatchedScopes(source, matched[1..])
  }

  /** Whether the target word at index `i` is aligned with the matched source words. With
      alignment scopes on the source side (a gateway-language source), some matched source
      scope must name the target word; otherwise (an original-language source), some scope of
      the target word must name a matched source word. */
  predicate Aligned(source: seq<Token>, matched: seq<nat>, target: seq<Token>, i: nat)
    requires WithinSource(source, matched) && i < |target|
  {
    var scopes := MatchedScopes(source, matched);
    if |scopes| > 0 then
      exists s :: s in scopes && Contains(s, ScopeKey(target[i].payload, WordOccurrence(target, i)))
    else
      exists j, s :: j in matched && s in target[i].scopes
        && Contains(s, ScopeKey(source[j].payload, WordOccurrence(source, j)))
  }

  /** For every target token, whether it is a selected word. */
  function Selection(source: seq<Token>, matched: seq<nat>, target: seq<Token>): (sel: seq<bool>)
    requires WithinSource(source, matched)
    ensures |sel| == |target|
    ensures forall i :: 0 <= i < |target| ==>
      (sel[i] <==> IsWordLike(target[i]) && Aligned(source, matched, target, i))
  {
    seq(|target|, i requires 0 <= i < |target| => IsWordLike(target[i]) && Aligned(source, matched, target, i))
  }

  // ------------------------------------------------------------------ building the runs

  /** The state of the loop over the target tokens: the finished groups, the run being
      built, the text seen since its last word, and the occurrence reported so far. */
  datatype Runs = Runs(groups: seq<string>, current: string, other: string, first: int)

  const Start := Runs([], "", "", 1)

  /** `otherText.replace(/\n+/, " ").replace(/\s+/g, " ")`: the first replacement turns a
      run of line breaks into a space, which the second would do anyway, so each run of
      white space becomes one space. */
  function CollapseSpaces(s: string): string {
    CollapseRuns(s, IsSpace)
  }

  /** One turn of the loop for the token `t` with its selection and occurrence. */
  function Step(st: Runs, t: Token, selected: bool, occurrence: int): Runs {
    if IsWordLike(t) then
      if selected then
        var first := if st.current == "" && |st.groups| == 0 then occurrence else st.first;
        if st.current != "" then
          Runs(st.groups, st.current + CollapseSpaces(st.other) + t.payload, "", if |st.groups| == 0 then 1 else first)
        else
          Runs(st.groups, t.payload, st.other, first)
      else if st.current != "" then Runs(st.groups + [st.current], "", "", st.first)
      else st
    else if st.current != "" then st.(other := st.other + t.payload)
    else st
  }

  /** The loop from index `i` to the end of the target tokens. */
  function Walk(ts: seq<Token>, sel: seq<bool>, i: nat, st: Runs): Runs
    requires |sel| == |ts| && i <= |ts|
    decreases |ts| - i
  {
    if i == |ts| then st
    else Walk(ts, sel, i + 1, Step(st, ts[i], sel[i], WordOccurrence(ts, i)))
  }

  /** The groups once the last run is pushed. */
  function Finish(st: Runs): seq<string> {
    if st.current != "" then st.groups + [st.current] else st.groups
  }

  // ------------------------------------------------------------------ the runs, declaratively

  /** Whether the nearest word-like token before index `i` is selected. */
  predicate PrevWordSelected(ts: seq<Token>, sel: seq<bool>, i: nat)
    requires |sel| == |ts| && i <= |ts|
  {
    i > 0 && (if IsWordLike(ts[i - 1]) then sel[i - 1] else PrevWordSelected(ts, sel, i - 1))
  }

  /** Whether the nearest word-like token at or after index `i` is selected. */
  predicate NextWordSelected(ts: seq<Token>, sel: seq<bool>, i: nat)
    requires |sel| == |ts| && i <= |ts|
    decreases |ts| - i
  {
    i < |ts| && (if IsWordLike(ts[i]) then sel[i] else NextWordSelected(ts, sel, i + 1))
  }

  /** A run starts at a selected word whose nearest word-like predecessor is not selected. */
  predicate IsRunStart(ts: seq<Token>, sel: seq<bool>, i: nat)
    requires |sel| == |ts| && i < |ts|
  {
    IsWordLike(ts[i]) && sel[i] && !PrevWordSelected(ts, sel, i)
  }

  /** The rest of a run from index `j`, with `other` the text since its last word: the
      following words as long as they are selected, each preceded by the collapsed text in
      between; the run ends at the first unselected word or at the end of the tokens. */
  function RunRest(ts: seq<Token>, sel: seq<bool>, j: nat, other: string): string
    requires |sel| == |ts| && j <= |ts|
    decreases |ts| - j
  {
    if j == |ts| then ""
    else if !IsWordLike(ts[j]) then RunRest(ts, sel, j + 1, other + ts[j].payload)
    else if sel[j] then CollapseSpaces(other) + ts[j].payload + RunRest(ts, sel, j + 1, "")
    else ""
  }

  /** The text of the run starting at index `i`. */
  function RunText(ts: seq<Token>, sel: seq<bool>, i: nat): string
    requires |sel| == |ts| && i < |ts|
  {
    ts[i].payload + RunRest(ts, sel, i + 1, "")
  }

  /** The texts of the runs that start at or after index `i`, in order. */
  function RunsFrom(ts: seq<Token>, sel: seq<bool>, i: nat): seq<string>
    requires |sel| == |ts| && i <= |ts|
    decreases |ts| - i
  {
    if i == |ts| then []
    else (if IsRunStart(ts, sel, i) then [RunText(ts, sel, i)] else []) + RunsFrom(ts, sel, i + 1)
  }

  /** The first selected word at or after index `i`. */
  function FirstSelectedFrom(ts: seq<Token>, sel: seq<bool>, i: nat): (r: Option<nat>)
    requires |sel| == |ts| && i <= |ts|
    ensures r.Some? ==> i <= r.value < |ts| && IsWordLike(ts[r.value]) && sel[r.value]
    decreases |ts| - i
  {
    if i == |ts| then None
    else if IsWordLike(ts[i]) && sel[i] then Some(i)
    else FirstSelectedFrom(ts, sel, i + 1)
  }

  /** The occurrence the loop reports when it continues from index `i` in state `st`. */
  function FirstFrom(ts: seq<Token>, sel: seq<bool>, i: nat, st: Runs): int
    requires |sel| == |ts| && i <= |ts|
  {
    if |st.groups| > 0 then st.first
    else if st.current != "" then (if NextWordSelected(ts, sel, i) then 1 else st.first)
    else match FirstSelectedFrom(ts, sel, i)
      case None => st.first
      case Some(s) => if NextWordSelected(ts, sel, s + 1) then 1 else WordOccurrence(ts, s)
  }

  /** The reported occurrence, declaratively: 1 when no word is selected or when the first
      run holds more than one word, and otherwise the occurrence of its single word. */
  function ExpectedOccurrence(ts: seq<Token>, sel: seq<bool>): int
    requires |sel| == |ts|
  {
    match FirstSelectedFrom(ts, sel, 0)
    case None => 1
    case Some(s) => if NextWordSelected(ts, sel, s + 1) then 1 else WordOccurrence(ts, s)
  }

  /** Every selected word has a non-empty payload (an empty one would leave no trace in
      the run being built). */
  predicate SelectedWordsNonEmpty(ts: seq<Token>, sel: seq<bool>)
    requires |sel| == |ts|
  {
    forall k :: 0 <= k < |ts| && IsWordLike(ts[k]) && sel[k] ==> ts[k].payload != ""
  }

  /** What the loop state must satisfy at index `i`: a run is open exactly when the nearest
      word before `i` is selected, and text is gathered only while a run is open. */
  predicate Consistent(ts: seq<Token>, sel: seq<bool>, i: nat, st: Runs)
    requires |sel| == |ts| && i <= |ts|
  {
    && (st.current != "" <==> PrevWordSelected(ts, sel, i))
    && (st.current == "" ==> st.other == "")
  }

  /** The groups the loop will end with, predicted from index `i` in state `st`: the groups
      already made, the open run completed, and then exactly the runs that start later. */
  function GroupsFrom(ts: seq<Token>, sel: seq<bool>, i: nat, st: Runs): seq<string>
    requires |sel| == |ts| && i <= |ts|
  {
    st.groups + (if st.current != "" then [st.current + RunRest(ts, sel, i, st.other)] else [])
    + RunsFrom(ts, sel, i)
  }

  /** The loop from index `i` finishes with the groups `GroupsFrom` predicts and reports the
      occurrence `FirstFrom` predicts. */
  lemma {:induction false} WalkGroups(ts: seq<Token>, sel: seq<bool>, i: nat, st: Runs)
    requires |sel| == |ts| && i <= |ts|
    requires SelectedWordsNonEmpty(ts, sel) && Consistent(ts, sel, i, st)
    ensures Finish(Walk(ts, sel, i, st)) == GroupsFrom(ts, sel, i, st)
    ensures Walk(ts, sel, i, st).first == FirstFrom(ts, sel, i, st)
    decreases |ts| - i
  {
    if i < |ts| {
      var next := Step(st, ts[i], sel[i], WordOccurrence(ts, i));
      StepConsistent(ts, sel, i, st);
      WalkGroups(ts, sel, i + 1, next);
      assert Walk(ts, sel, i, st) == Walk(ts, sel, i + 1, next);
      StepGroups(ts, sel, i, st);
      StepFirst(ts, sel, i, st);
    } else {
      assert st.current + RunRest(ts, sel, i, st.other) == st.current;
      assert GroupsFrom(ts, sel, i, st) == Finish(st);
    }
  }

  /** One step keeps the state consistent. */
  lemma StepConsistent(ts: seq<Token>, sel: seq<bool>, i: nat, st: Runs)
    requires |sel| == |ts| && i < |ts|
    requires SelectedWordsNonEmpty(ts, sel) && Consistent(ts, sel, i, st)
    ensures Consistent(ts, sel, i + 1, Step(st, ts[i], sel[i], WordOccurrence(ts, i)))
  {
  }

  /** One step moves the groups' prediction from index `i + 1` back to index `i`. */
  lemma StepGroups(ts: seq<Token>, sel: seq<bool>, i: nat, st: Runs)
    requires |sel| == |ts| && i < |ts|
    requires SelectedWordsNonEmpty(ts, sel) && Consistent(ts, sel, i, st)
    ensures GroupsFrom(ts, sel, i + 1, Step(st, ts[i], sel[i], WordOccurrence(ts, i))) == GroupsFrom(ts, sel, i, st)
  {
    if !IsWordLike(ts[i]) {
      assert RunsFrom(ts, sel, i) == RunsFrom(ts, sel, i + 1);
    } else if sel[i] && st.current != "" {
      StepGroupsExtend(ts, sel, i, st);
    } else if sel[i] {
      StepGroupsOpen(ts, sel, i, st);
    } else {
      StepGroupsClose(ts, sel, i, st);
    }
  }

  lemma StepGroupsExtend(ts: seq<Token>, sel: seq<bool>, i: nat, st: Runs)
    requires |sel| == |ts| && i < |ts| && IsWordLike(ts[i]) && sel[i] && st.current != ""
    requires Consistent(ts, sel, i, st)
    ensures GroupsFrom(ts, sel, i + 1, Step(st, ts[i], sel[i], WordOccurrence(ts, i))) == GroupsFrom(ts, sel, i, st)
  {
    var t := ts[i];
    assert RunsFrom(ts, sel, i) == RunsFrom(ts, sel, i + 1);
    assert RunRest(ts, sel, i, st.other) == CollapseSpaces(st.other) + t.payload + RunRest(ts, sel, i + 1, "");
    assert st.current + CollapseSpaces(st.other) + t.payload + RunRest(ts, sel, i + 1, "")
      == st.current + RunRest(ts, sel, i, st.other);
  }

  lemma StepGroupsOpen(ts: seq<Token>, sel: seq<bool>, i: nat, st: Runs)
    requires |sel| == |ts| && i < |ts| && IsWordLike(ts[i]) && sel[i] && st.current == ""
    requires SelectedWordsNonEmpty(ts, sel) && Consistent(ts, sel, i, st)
    ensures GroupsFrom(ts, sel, i + 1, Step(st, ts[i], sel[i], WordOccurrence(ts, i))) == GroupsFrom(ts, sel, i, st)
  {
    var run := RunText(ts, sel, i);
    assert IsRunStart(ts, sel, i);
    assert RunsFrom(ts, sel, i) == [run] + RunsFrom(ts, sel, i + 1);
    assert st.groups + [run] + RunsFrom(ts, sel, i + 1) == st.groups + [] + ([run] + RunsFrom(ts, sel, i + 1));
  }

  lemma StepGroupsClose(ts: seq<Token>, sel: seq<bool>, i: nat, st: Runs)
    requires |sel| == |ts| && i < |ts| && IsWordLike(ts[i]) && !sel[i]
    requires Consistent(ts, sel, i, st)
    ensures GroupsFrom(ts, sel, i + 1, Step(st, ts[i], sel[i], WordOccurrence(ts, i))) == GroupsFrom(ts, sel, i, st)
  {
    assert RunsFrom(ts, sel, i) == RunsFrom(ts, sel, i + 1);
    assert RunRest(ts, sel, i, st.other) == "";
    assert st.current + "" == st.current;
  }

  /** One step moves the occurrence's prediction from index `i + 1` back to index `i`. */
  lemma StepFirst(ts: seq<Token>, sel: seq<bool>, i: nat, st: Runs)
    requires |sel| == |ts| && i < |ts|
    requires SelectedWordsNonEmpty(ts, sel) && Consistent(ts, sel, i, st)
    ensures FirstFrom(ts, sel, i + 1, Step(st, ts[i], sel[i], WordOccurrence(ts, i))) == FirstFrom(ts, sel, i, st)
  {
  }

  /** When no target word is selected the loop produces no group and reports occurrence 1. */
  lemma {:induction false} WalkWithoutSelection(ts: seq<Token>, sel: seq<bool>, i: nat)
    requires |sel| == |ts| && i <= |ts|
    requires forall k :: i <= k < |ts| && IsWordLike(ts[k]) ==> !sel[k]
    ensures Walk(ts, sel, i, Start) == Start
    decreases |ts| - i
  {
    if i < |ts| {
      WalkWithoutSelection(ts, sel, i + 1);
    }
  }

  // ------------------------------------------------------------------ getAlignedQuote

  /** What `getAlignedQuote` does: returns a quote with its occurrence, throws, or never
      returns. */
  datatype Outcome = Resolved(quote: string, occurrence: int) | Thrown(failure: ResolveFailure) | Diverges

  /** The selection the resolved source groups induce on the target tokens. */
  function SelectionFor(source: seq<Token>, target: seq<Token>, ms: seq<Match>, groups: seq<seq<string>>): (sel: seq<bool>)
    requires |ms| == |groups|
    requires forall k :: 0 <= k < |groups| ==> IsMatch(source, groups[k], ms[k])
    ensures |sel| == |target|
  {
    MatchedIndicesWithin(source, ms, groups);
    Selection(source, MatchedIndices(ms), target)
  }

  /** The indices of genuine matches are indices of the source, and so are all of them
      together. */
  lemma MatchedIndicesWithin(source: seq<Token>, ms: seq<Match>, groups: seq<seq<string>>)
    requires |ms| == |groups|
    requires forall k :: 0 <= k < |groups| ==> IsMatch(source, groups[k], ms[k])
    ensures WithinSource(source, MatchedIndices(ms))
  {
    forall k | 0 <= k < |ms|
      ensures WithinSource(source, ms[k].indices)
    {
      assert IsMatch(source, groups[k], ms[k]);
    }
    ConcatenationWithin(source, ms);
  }

  lemma {:induction false} ConcatenationWithin(source: seq<Token>, ms: seq<Match>)
    requires forall k :: 0 <= k < |ms| ==> WithinSource(source, ms[k].indices)
    ensures WithinSource(source, MatchedIndices(ms))
    decreases |ms|
  {
    if |ms| > 0 {
      assert forall k :: 0 <= k < |ms| - 1 ==> ms[1..][k] == ms[k + 1];
      ConcatenationWithin(source, ms[1..]);
      var head := ms[0].indices;
      var rest := MatchedIndices(ms[1..]);
      assert WithinSource(source, head);
      assert forall k :: |head| <= k < |head| + |rest| ==> (head + rest)[k] == rest[k - |head|];
    }
  }

  /** The target selection for a quote whose groups are all found. */
  function ResolvedSelection(source: seq<Token>, target: seq<Token>, quote: string, firstOccurrence: int): (sel: seq<bool>)
    requires ResolveGroups(source, QuoteGroups(quote), firstOccurrence, 0, true).Ok?
    ensures |sel| == |target|
  {
    var groups := QuoteGroups(quote);
    ResolvedGroupsAreMatches(source, groups, firstOccurrence);
    SelectionFor(source, target, ResolveGroups(source, groups, firstOccurrence, 0, true).value, groups)
  }

  /** `getAlignedQuote(sourceTokens, targetTokens, sourceQuote, sourceFirstGroupOccurrence)`. */
  function GetAlignedQuote(source: seq<Token>, target: seq<Token>, quote: string, firstOccurrence: int): (r: Outcome)
    ensures firstOccurrence < 1 ==> !r.Resolved?
    ensures r.Thrown? ==> r.failure.OccurrenceNotFound? && r.failure.occurrence == firstOccurrence
    ensures r.Diverges? ==> QuoteGroups(quote)[0] == [] && firstOccurrence < 1 && |source| > 0
  {
    var groups := QuoteGroups(quote);
    match ResolveGroups(source, groups, firstOccurrence, 0, true)
    case Err(NeverReturns) => Diverges
    case Err(e) => Thrown(e)
    case Ok(ms) =>
      var sel := ResolvedSelection(source, target, quote, firstOccurrence);
      var st := Walk(target, sel, 0, Start);
      Resolved(Join(Finish(st), GroupSeparator), st.first)
  }

  /** The resolved quote is the selected target words gathered into runs: each run is a
      maximal stretch of selected words (only text that is not word-like between them), with
      that text collapsed to single spaces, and the runs are joined by `" & "`. The occurrence
      is 1 unless the first run is a single word, whose own occurrence it then is. */
  lemma AlignedQuoteIsRuns(source: seq<Token>, target: seq<Token>, quote: string, firstOccurrence: int)
    requires GetAlignedQuote(source, target, quote, firstOccurrence).Resolved?
    ensures ResolveGroups(source, QuoteGroups(quote), firstOccurrence, 0, true).Ok?
    ensures var sel := ResolvedSelection(source, target, quote, firstOccurrence);
      var r := GetAlignedQuote(source, target, quote, firstOccurrence);
      SelectedWordsNonEmpty(target, sel) ==>
        && r.quote == Join(RunsFrom(target, sel, 0), GroupSeparator)
        && r.occurrence == ExpectedOccurrence(target, sel)
  {
    var sel := ResolvedSelection(source, target, quote, firstOccurrence);
    if SelectedWordsNonEmpty(target, sel) {
      WalkFromStart(target, sel);
    }
  }

  /** The loop from the first token builds exactly the runs, and reports the expected
      occurrence. */
  lemma WalkFromStart(ts: seq<Token>, sel: seq<bool>)
    requires |sel| == |ts| && SelectedWordsNonEmpty(ts, sel)
    ensures Finish(Walk(ts, sel, 0, Start)) == RunsFrom(ts, sel, 0)
    ensures Walk(ts, sel, 0, Start).first == ExpectedOccurrence(ts, sel)
  {
    WalkGroups(ts, sel, 0, Start);
    assert GroupsFrom(ts, sel, 0, Start) == RunsFrom(ts, sel, 0);
  }
}

=== FILE: quote_combinations.dfy ===
/** `generateNextQuoteCombination` (src/utils/generateNextQuoteCombination.js): the
    alternative placements of `&` separators tried for a quote, modelled as the finite
    sequence of strings the generator yields. */
module QuoteCombinations {
  import opened Base
  import opened Text

  /** The separator class of the word split `/[\s&]+/`. */
  predicate IsQuoteBreak(c: char) {
    IsSpace(c) || c == '&'
  }

  /** The words of a quote, with white space and every `&` dropped. */
  function QuoteWords(s: string): seq<string> {
    Words(s, IsQuoteBreak)
  }

  /** `from, from + 1, ..., from + count - 1`. */
  function Consecutive(from: nat, count: nat): (r: seq<nat>)
    ensures |r| == count
    ensures forall j :: 0 <= j < count ==> r[j] == from + j
  {
    seq(count, j requires 0 <= j < count => from + j)
  }

  lemma ConsecutiveSnoc(k: nat)
    ensures Consecutive(0, k + 1) == Consecutive(0, k) + [k]
  {
  }

  // ------------------------------------------------------------------ candidates

  /** The separator written after word `i`: `" & "` at a listed gap, one space elsewhere. */
  function Gap(positions: seq<nat>, i: nat): string {
    if i in positions then " & " else " "
  }

  /** Words `i..` written out, each gap with its separator. */
  function RenderFrom(words: seq<string>, positions: seq<nat>, i: nat): string
    requires i < |words|
    decreases |words| - i
  {
    if i == |words| - 1 then words[i]
    else words[i] + Gap(positions, i) + RenderFrom(words, positions, i + 1)
  }

  /** The candidate the generator builds for a set of gap positions: the first word, then for
      every gap `i` either `" & "` or `" "` and word `i + 1`. */
  function Render(words: seq<string>, positions: seq<nat>): string
    requires |words| > 0
  {
    RenderFrom(words, positions, 0)
  }

  /** The single-separator candidate for gap `i`, built as the generator builds it: words
      `i` and `i + 1` joined by `" & "`, everything joined by spaces. */
  function SingleAmpersand(words: seq<string>, i: nat): string
    requires i + 2 <= |words|
  {
    Join(words[..i] + [Join(words[i..i + 2], " & ")] + words[i + 2..], " ")
  }

  /** A candidate is yielded only when it differs from the input. */
  function YieldIfNew(str: string, candidate: string): (r: seq<string>)
    ensures forall j :: 0 <= j < |r| ==> r[j] != str
  {
    if candidate != str then [candidate] else []
  }

  // ------------------------------------------------------------------ the generator

  /** The loop over single `&` positions, from gap `i` on. */
  function SinglePhase(words: seq<string>, str: string, i: nat): (r: seq<string>)
    ensures forall j :: 0 <= j < |r| ==> r[j] != str
    decreases |words| - i
  {
    if i + 1 >= |words| then []
    else YieldIfNew(str, SingleAmpersand(words, i)) + SinglePhase(words, str, i + 1)
  }

  /** Scanning `posIndex` down from `p`: the first index whose position has not reached
      `n - k + posIndex`, or `-1`. */
  function NextPosIndex(positions: seq<nat>, n: nat, k: nat, p: int): (q: int)
    requires -1 <= p < |positions|
    ensures -1 <= q <= p
    ensures q >= 0 ==> positions[q] != n - k + q
    ensures forall j :: q < j <= p ==> positions[j] == n - k + j
    decreases p + 1
  {
    if p < 0 then -1
    else if positions[p] == n - k + p then NextPosIndex(positions, n, k, p - 1)
    else p
  }

  /** "Move to next valid position combination": bump the position at `posIndex` and lay
      the later ones out consecutively after it, or stop (`None`, the `break`) when every
      position sits at its bound. */
  function Advance(positions: seq<nat>, n: nat): Option<seq<nat>>
    requires |positions| > 0
  {
    var k := |positions|;
    var p := NextPosIndex(positions, n, k, k - 1);
    if p < 0 then None
    else Some(positions[..p] + Consecutive(positions[p] + 1, k - p))
  }

  /** The positions the loop reaches: `0, 1, ..., k - 2` and a last one that moves. */
  predicate IsRunState(positions: seq<nat>) {
    && |positions| > 0
    && positions == Consecutive(0, |positions| - 1) + [positions[|positions| - 1]]
  }

  /** From a reachable state that passes the loop guard only the last position moves: its
      bound is `n - 1`, which the guard keeps it below, so `posIndex` never leaves the last
      index and the `break` is never taken. */
  lemma AdvanceMovesLast(positions: seq<nat>, n: nat)
    requires IsRunState(positions) && positions[|positions| - 1] < n - 1
    ensures var k := |positions|;
      Advance(positions, n) == Some(Consecutive(0, k - 1) + [positions[k - 1] + 1])
  {
    var k := |positions|;
    assert NextPosIndex(positions, n, k, k - 1) == k - 1;
    assert positions[..k - 1] == Consecutive(0, k - 1);
    assert Consecutive(positions[k - 1] + 1, 1) == [positions[k - 1] + 1];
  }

  /** The `while` loop for one number of `&` separators, from the current positions. */
  function MultiRun(words: seq<string>, str: string, positions: seq<nat>): (r: seq<string>)
    requires |words| > 0 && IsRunState(positions)
    ensures forall j :: 0 <= j < |r| ==> r[j] != str
    decreases |words| - positions[|positions| - 1]
  {
    var last := positions[|positions| - 1];
    if last >= |words| - 1 then []
    else
      var here := YieldIfNew(str, Render(words, positions));
      AdvanceMovesLast(positions, |words|);
      match Advance(positions, |words|)
      case None => here
      case Some(next) => here + MultiRun(words, str, next)
  }

  /** The outer loop over the number of separators `k`, from `k` up to `|words| - 1`. */
  function MultiPhase(words: seq<string>, str: string, k: nat): (r: seq<string>)
    requires |words| > 0 && k >= 1
    ensures forall j :: 0 <= j < |r| ==> r[j] != str
    decreases |words| - k
  {
    if k >= |words| then []
    else
      ConsecutiveSnoc(k - 1);
      MultiRun(words, str, Consecutive(0, k)) + MultiPhase(words, str, k + 1)
  }

  /** Everything `generateNextQuoteCombination(str)` yields, in order, for an input already
      in normal form. The input itself comes first and never again. */
  function QuoteCombinations(str: string): (r: seq<string>)
    ensures |r| >= 1 && r[0] == str
    ensures forall j :: 1 <= j < |r| ==> r[j] != str
    ensures |QuoteWords(str)| <= 1 ==> r == [str]
  {
    var words := QuoteWords(str);
    if |words| <= 1 then [str]
    else [str] + (YieldIfNew(str, Join(words, " ")) + (SinglePhase(words, str, 0) + MultiPhase(words, str, 2)))
  }

  // ------------------------------------------------------------------ reference enumeration

  /** The candidates that differ from the input, in order. */
  function Fresh(str: string, candidates: seq<string>): (r: seq<string>)
    decreases |candidates|
  {
    if |candidates| == 0 then []
    else YieldIfNew(str, candidates[0]) + Fresh(str, candidates[1..])
  }

  /** The candidates whose separators sit at `prefix` and one more gap, `j` or later. */
  function RunCandidates(words: seq<string>, prefix: seq<nat>, j: nat): seq<string>
    requires |words| > 0
    decreases |words| - j
  {
    if j + 1 >= |words| then []
    else [Render(words, prefix + [j])] + RunCandidates(words, prefix, j + 1)
  }

  /** The candidates with a single separator, at gap `i` or later. */
  function SingleCandidates(words: seq<string>, i: nat): seq<string>
    requires |words| > 0
    decreases |words| - i
  {
    if i + 1 >= |words| then []
    else [Render(words, [i])] + SingleCandidates(words, i + 1)
  }

  /** The candidates with `k, k + 1, ..., |words| - 1` separators: the first `k - 1` gaps
      stay fixed and only the last separator walks to the right. */
  function MultiCandidates(words: seq<string>, k: nat): seq<string>
    requires |words| > 0 && k >= 1
    decreases |words| - k
  {
    if k >= |words| then []
    else RunCandidates(words, Consecutive(0, k - 1), k - 1) + MultiCandidates(words, k + 1)
  }

  /** All candidates in the order the generator tries them: no separator, each single gap
      left to right, then the multi-separator placements. */
  function Candidates(words: seq<string>): seq<string>
    requires |words| > 0
  {
    [Render(words, [])] + (SingleCandidates(words, 0) + MultiCandidates(words, 2))
  }

  lemma {:induction false} FreshConcat(str: string, a: seq<string>, b: seq<string>)
    ensures Fresh(str, a + b) == Fresh(str, a) + Fresh(str, b)
    decreases |a|
  {
    if |a| > 0 {
      assert (a + b)[1..] == a[1..] + b;
      FreshConcat(str, a[1..], b);
    } else {
      assert a + b == b;
    }
  }

  /** Words from `j` on joined by single spaces are the rendering without separators there. */
  lemma {:induction false} RenderFromSpaces(words: seq<string>, positions: seq<nat>, j: nat)
    requires j < |words|
    requires forall g :: j <= g < |words| ==> g !in positions
    ensures RenderFrom(words, positions, j) == Join(words[j..], " ")
    decreases |words| - j
  {
    if j < |words| - 1 {
      RenderFromSpaces(words, positions, j + 1);
      assert words[j..][1..] == words[j + 1..];
    }
  }

  /** Joining the words with spaces is the candidate without separators. */
  lemma JoinIsRender(words: seq<string>)
    requires |words| > 0
    ensures Join(words, " ") == Render(words, [])
  {
    RenderFromSpaces(words, [], 0);
    assert words[0..] == words;
  }

  lemma {:induction false} SingleAmpersandFrom(words: seq<string>, i: nat, j: nat)
    requires j <= i && i + 2 <= |words|
    ensures Join(words[j..i] + [words[i] + " & " + words[i + 1]] + words[i + 2..], " ") == RenderFrom(words, [i], j)
    decreases i - j
  {
    var mid := words[i] + " & " + words[i + 1];
    var tail := words[i + 2..];
    if j == i {
      assert words[j..i] + [mid] + tail == [mid] + tail;
      if |tail| == 0 {
        assert RenderFrom(words, [i], i + 1) == words[i + 1];
      } else {
        RenderFromSpaces(words, [i], i + 2);
        assert ([mid] + tail)[1..] == tail;
      }
    } else {
      SingleAmpersandFrom(words, i, j + 1);
      var l := words[j..i] + [mid] + tail;
      assert l[0] == words[j];
      assert l[1..] == words[j + 1..i] + [mid] + tail;
      assert j !in [i];
    }
  }

  /** The generator's single-separator candidate for gap `i` is the candidate with `" & "`
      at gap `i` alone. */
  lemma SingleAmpersandIsRender(words: seq<string>, i: nat)
    requires i + 2 <= |words|
    ensures SingleAmpersand(words, i) == Render(words, [i])
  {
    assert Join(words[i..i + 2], " & ") == words[i] + " & " + words[i + 1] by {
      assert words[i..i + 2][1..] == [words[i + 1]];
    }
    assert words[..i] == words[0..i];
    SingleAmpersandFrom(words, i, 0);
  }

  lemma {:induction false} SinglePhaseIsFresh(words: seq<string>, str: string, i: nat)
    requires |words| > 0
    ensures SinglePhase(words, str, i) == Fresh(str, SingleCandidates(words, i))
    decreases |words| - i
  {
    if i + 1 < |words| {
      SingleAmpersandIsRender(words, i);
      SinglePhaseIsFresh(words, str, i + 1);
      var cs := SingleCandidates(words, i);
      assert cs[0] == Render(words, [i]) && cs[1..] == SingleCandidates(words, i + 1);
    }
  }

  lemma {:induction false} MultiRunIsFresh(words: seq<string>, str: string, k: nat, j: nat)
    requires |words| > 0 && k >= 1
    ensures MultiRun(words, str, Consecutive(0, k - 1) + [j]) == Fresh(str, RunCandidates(words, Consecutive(0, k - 1), j))
    decreases |words| - j
  {
    var ps := Consecutive(0, k - 1) + [j];
    assert ps[|ps| - 1] == j;
    assert ps[..|ps| - 1] == Consecutive(0, k - 1);
    if j + 1 < |words| {
      AdvanceMovesLast(ps, |words|);
      MultiRunIsFresh(words, str, k, j + 1);
      var cs := RunCandidates(words, Consecutive(0, k - 1), j);
      assert cs[0] == Render(words, ps) && cs[1..] == RunCandidates(words, Consecutive(0, k - 1), j + 1);
    }
  }

  lemma {:induction false} MultiPhaseIsFresh(words: seq<string>, str: string, k: nat)
    requires |words| > 0 && k >= 1
    ensures MultiPhase(words, str, k) == Fresh(str, MultiCandidates(words, k))
    decreases |words| - k
  {
    if k < |words| {
      var run := RunCandidates(words, Consecutive(0, k - 1), k - 1);
      ConsecutiveSnoc(k - 1);
      assert MultiPhase(words, str, k) == MultiRun(words, str, Consecutive(0, k - 1) + [k - 1]) + MultiPhase(words, str, k + 1);
      assert MultiCandidates(words, k) == run + MultiCandidates(words, k + 1);
      MultiRunIsFresh(words, str, k, k - 1);
      MultiPhaseIsFresh(words, str, k + 1);
      FreshConcat(str, run, MultiCandidates(words, k + 1));
    }
  }

  /** After the input itself the generator yields exactly the reference candidates that
      differ from it, in the reference order. */
  lemma CombinationsAreCandidates(str: string)
    requires |QuoteWords(str)| >= 2
    ensures QuoteCombinations(str) == [str] + Fresh(str, Candidates(QuoteWords(str)))
  {
    var words := QuoteWords(str);
    var none := [Render(words, [])];
    var singles := SingleCandidates(words, 0);
    var multi := MultiCandidates(words, 2);
    var y := YieldIfNew(str, Join(words, " "));
    var s := SinglePhase(words, str, 0);
    var m := MultiPhase(words, str, 2);
    assert QuoteCombinations(str) == [str] + (y + (s + m));
    JoinIsRender(words);
    SinglePhaseIsFresh(words, str, 0);
    MultiPhaseIsFresh(words, str, 2);
    assert Fresh(str, none) == y by {
      assert none[1..] == [];
    }
    FreshConcat(str, singles, multi);
    FreshConcat(str, none, singles + multi);
  }

  // ------------------------------------------------------------------ every candidate keeps the words

  /** A candidate's words, separators dropped, are the words it was built from. */
  lemma {:induction false} WordsOfRenderFrom(words: seq<string>, positions: seq<nat>, i: nat)
    requires i < |words| && PlainWords(words)
    ensures QuoteWords(RenderFrom(words, positions, i)) == words[i..]
    decreases |words| - i
  {
    if i == |words| - 1 {
      WordAlone(words[i], IsQuoteBreak);
      assert words[i..] == [words[i]];
    } else {
      var gap := Gap(positions, i);
      assert forall j :: 0 <= j < |gap| ==> IsQuoteBreak(gap[j]);
      WordThenSeparators(words[i], gap, RenderFrom(words, positions, i + 1), IsQuoteBreak);
      WordsOfRenderFrom(words, positions, i + 1);
      DropCons(words, i);
    }
  }

  lemma WordsOfRender(words: seq<string>, positions: seq<nat>)
    requires |words| > 0 && PlainWords(words)
    ensures QuoteWords(Render(words, positions)) == words
  {
    WordsOfRenderFrom(words, positions, 0);
    assert words[0..] == words;
  }

  /** Every string of `cs` has exactly the words `words`. */
  predicate AllHaveWords(cs: seq<string>, words: seq<string>) {
    forall j :: 0 <= j < |cs| ==> QuoteWords(cs[j]) == words
  }

  /** Words that can be rendered back: non-empty and free of separator characters. */
  predicate PlainWords(words: seq<string>) {
    && (forall k :: 0 <= k < |words| ==> words[k] != "")
    && (forall k, j :: 0 <= k < |words| && 0 <= j < |words[k]| ==> !IsQuoteBreak(words[k][j]))
  }

  lemma AllHaveWordsConcat(a: seq<string>, b: seq<string>, words: seq<string>)
    requires AllHaveWords(a, words) && AllHaveWords(b, words)
    ensures AllHaveWords(a + b, words)
  {
    assert forall j :: |a| <= j < |a| + |b| ==> (a + b)[j] == b[j - |a|];
  }

  lemma {:induction false} FreshKeepsWords(str: string, cs: seq<string>, words: seq<string>)
    requires AllHaveWords(cs, words)
    ensures AllHaveWords(Fresh(str, cs), words)
    decreases |cs|
  {
    if |cs| > 0 {
      assert AllHaveWords(cs[1..], words) by {
        assert forall j :: 0 <= j < |cs| - 1 ==> cs[1..][j] == cs[j + 1];
      }
      FreshKeepsWords(str, cs[1..], words);
      AllHaveWordsConcat(YieldIfNew(str, cs[0]), Fresh(str, cs[1..]), words);
    }
  }

  lemma {:induction false} RunCandidatesKeepWords(words: seq<string>, prefix: seq<nat>, j: nat)
    requires |words| > 0 && PlainWords(words)
    ensures AllHaveWords(RunCandidates(words, prefix, j), words)
    decreases |words| - j
  {
    if j + 1 < |words| {
      WordsOfRender(words, prefix + [j]);
      RunCandidatesKeepWords(words, prefix, j + 1);
      AllHaveWordsConcat([Render(words, prefix + [j])], RunCandidates(words, prefix, j + 1), words);
    }
  }

  lemma {:induction false} SingleCandidatesKeepWords(words: seq<string>, i: nat)
    requires |words| > 0 && PlainWords(words)
    ensures AllHaveWords(SingleCandidates(words, i), words)
    decreases |words| - i
  {
    if i + 1 < |words| {
      WordsOfRender(words, [i]);
      SingleCandidatesKeepWords(words, i + 1);
      AllHaveWordsConcat([Render(words, [i])], SingleCandidates(words, i + 1), words);
    }
  }

  lemma {:induction false} MultiCandidatesKeepWords(words: seq<string>, k: nat)
    requires |words| > 0 && k >= 1 && PlainWords(words)
    ensures AllHaveWords(MultiCandidates(words, k), words)
    decreases |words| - k
  {
    if k < |words| {
      RunCandidatesKeepWords(words, Consecutive(0, k - 1), k - 1);
      MultiCandidatesKeepWords(words, k + 1);
      AllHaveWordsConcat(RunCandidates(words, Consecutive(0, k - 1), k - 1), MultiCandidates(words, k + 1), words);
    }
  }

  /** Every yielded string has the input's words once white space and `&` are dropped: the
      generator only moves separators. */
  lemma CombinationsKeepWords(str: string)
    ensures AllHaveWords(QuoteCombinations(str), QuoteWords(str))
  {
    var words := QuoteWords(str);
    if |words| >= 2 {
      CombinationsAreCandidates(str);
      WordsOfRender(words, []);
      SingleCandidatesKeepWords(words, 0);
      MultiCandidatesKeepWords(words, 2);
      AllHaveWordsConcat(SingleCandidates(words, 0), MultiCandidates(words, 2), words);
      AllHaveWordsConcat([Render(words, [])], SingleCandidates(words, 0) + MultiCandidates(words, 2), words);
      FreshKeepsWords(str, Candidates(words), words);
      AllHaveWordsConcat([str], Fresh(str, Candidates(words)), words);
    }
  }

  /** For four words and two separators the loop yields the candidates for gaps {0, 1} and
      {0, 2} only: the pair {1, 2} is never produced. */
  lemma FourWordsTwoSeparators(words: seq<string>, str: string)
    requires |words| == 4
    ensures MultiRun(words, str, [0, 1]) == Fresh(str, [Render(words, [0, 1]), Render(words, [0, 2])])
  {
    assert Consecutive(0, 1) + [1] == [0, 1];
    assert Consecutive(0, 1) + [2] == [0, 2];
    assert Consecutive(0, 1) == [0];
    MultiRunIsFresh(words, str, 2, 1);
    assert RunCandidates(words, [0], 3) == [];
    assert RunCandidates(words, [0], 1) == [Render(words, [0, 1]), Render(words, [0, 2])];
  }
}

=== FILE: quote_prep.dfy ===
/** What the three TSV drivers share before they call the resolver: the Hebrew/Greek test,
    the quote clean-up, the `QUOTE_NOT_FOUND` sentinel, the verse lists a reference's verse
    part expands to, and the token lookups (src/core/tsvQuoteConverters.js,
    src/core/convertGLQuotes2OLQuotes.js, src/core/addGLQuoteCols.js). */
module QuotePrep {
  import opened Base
  import opened Text
  import opened Tokens
  import AlignedQuote
  import AlignmentQuery

  // ------------------------------------------------------------------ Hebrew or Greek

  /** The Hebrew block, the Hebrew presentation forms, Greek and Coptic, Greek Extended. */
  predicate IsHebrewOrGreek(c: char) {
    ('\U{0590}' <= c <= '\U{05FF}') || ('\U{FB1D}' <= c <= '\U{FB4F}')
    || ('\U{0370}' <= c <= '\U{03FF}') || ('\U{1F00}' <= c <= '\U{1FFF}')
  }

  /** `containsHebrewOrGreek`: the character-class regular expression, scanned left to right. */
  function ContainsHebrewOrGreek(s: string): (r: bool)
    ensures r <==> exists i :: 0 <= i < |s| && IsHebrewOrGreek(s[i])
  {
    if |s| == 0 then false
    else if IsHebrewOrGreek(s[0]) then true
    else
      var r := ContainsHebrewOrGreek(s[1..]);
      assert r <==> exists i :: 1 <= i < |s| && IsHebrewOrGreek(s[i]) by {
        if r {
          var i :| 0 <= i < |s[1..]| && IsHebrewOrGreek(s[1..][i]);
          assert s[i + 1] == s[1..][i];
        } else {
          forall i | 1 <= i < |s| ensures !IsHebrewOrGreek(s[i]) {
            assert s[i] == s[1..][i - 1];
          }
        }
      }
      r
  }

  /** A piece of a string without Hebrew or Greek has none either. */
  lemma NoHebrewOrGreekIn(s: string, i: nat, j: nat)
    requires i <= j <= |s| && !ContainsHebrewOrGreek(s)
    ensures !ContainsHebrewOrGreek(s[i..j])
  {
    forall k | 0 <= k < j - i ensures !IsHebrewOrGreek(s[i..j][k]) {
      assert s[i..j][k] == s[i + k];
    }
  }

  /** Two strings without Hebrew or Greek joined have none either. */
  lemma NoHebrewOrGreekJoined(a: string, b: string)
    requires !ContainsHebrewOrGreek(a) && !ContainsHebrewOrGreek(b)
    ensures !ContainsHebrewOrGreek(a + b)
  {
    forall k | 0 <= k < |a + b| ensures !IsHebrewOrGreek((a + b)[k]) {
      if k < |a| {
        assert (a + b)[k] == a[k];
      } else {
        assert (a + b)[k] == b[k - |a|];
      }
    }
  }

  // ------------------------------------------------------------------ ellipsis to separator

  /** U+2026 HORIZONTAL ELLIPSIS. */
  const Ellipsis: string := "\U{2026}"
  /** The three characters U+2026 turns into when its UTF-8 bytes are read as Windows-1252. */
  const MisencodedEllipsis: string := "\U{E2}\U{20AC}\U{A6}"

  /** A match of the pattern starts at the front of `s`: white space, then the marker. */
  predicate MarkAhead(s: string, mark: string)
    decreases |s|
  {
    if |s| > 0 && IsSpace(s[0]) then MarkAhead(s[1..], mark) else mark <= s
  }

  /** Where that match ends: past the white space, the marker and the white space after. */
  function MarkEnd(s: string, mark: string): (n: nat)
    requires MarkAhead(s, mark)
    ensures 0 < |mark| ==> 0 < n
    ensures n <= |s|
    decreases |s|
  {
    if |s| > 0 && IsSpace(s[0]) then 1 + MarkEnd(s[1..], mark)
    else |mark| + LeadingSpaces(s[|mark|..])
  }

  /** The global replace of (white space, marker `M`, white space) by ` & `, as the drivers
      write it with a regular expression: where white space and the marker start, the
      match is replaced together with the white space after it; elsewhere one character is
      kept. The marker must not start with white space, which holds for both markers the
      drivers use. */
  function ReplaceMarked(s: string, mark: string): string
    requires |mark| > 0
    decreases |s|
  {
    if |s| == 0 then ""
    else if MarkAhead(s, mark) then
      AlignedQuote.GroupSeparator + ReplaceMarked(s[MarkEnd(s, mark)..], mark)
    else [s[0]] + ReplaceMarked(s[1..], mark)
  }

  /** No match starts anywhere in `x` when `rest` follows it. */
  predicate NoMarkIn(x: string, rest: string, mark: string)
    decreases |x|
  {
    |x| == 0 || (!MarkAhead(x + rest, mark) && NoMarkIn(x[1..], rest, mark))
  }

  /** Where no match starts, one character is kept and the scan moves on. */
  lemma MarkSkip(s: string, mark: string)
    requires |mark| > 0 && |s| > 0 && !MarkAhead(s, mark)
    ensures ReplaceMarked(s, mark) == [s[0]] + ReplaceMarked(s[1..], mark)
  {
  }

  lemma NoMarkStep(x: string, rest: string, mark: string)
    requires |mark| > 0 && |x| > 0 && NoMarkIn(x, rest, mark)
    ensures ReplaceMarked(x + rest, mark) == [x[0]] + ReplaceMarked(x[1..] + rest, mark)
    ensures NoMarkIn(x[1..], rest, mark)
  {
    var s := x + rest;
    assert s[1..] == x[1..] + rest && s[0] == x[0];
    MarkSkip(s, mark);
  }

  /** Text in which no match starts is kept as it is. */
  lemma {:induction false} MarkedKeeps(x: string, rest: string, mark: string)
    requires |mark| > 0 && NoMarkIn(x, rest, mark)
    ensures ReplaceMarked(x + rest, mark) == x + ReplaceMarked(rest, mark)
    decreases |x|
  {
    if |x| > 0 {
      NoMarkStep(x, rest, mark);
      MarkedKeeps(x[1..], rest, mark);
      assert [x[0]] + (x[1..] + ReplaceMarked(rest, mark)) == x + ReplaceMarked(rest, mark) by {
        assert x == [x[0]] + x[1..];
      }
    } else {
      assert x + rest == rest;
    }
  }

  /** White space followed by a character that cannot start the marker starts no match. */
  lemma {:induction false} NoMarkAhead(s: string, mark: string, j: nat)
    requires |mark| > 0 && j < |s| && !IsSpace(s[j]) && s[j] != mark[0]
    requires mark[0] !in s[..j]
    ensures !MarkAhead(s, mark)
    decreases j
  {
    if j > 0 && IsSpace(s[0]) {
      assert s[1..][..j - 1] == s[1..j];
      assert forall i :: 0 <= i < j - 1 ==> s[1..j][i] == s[..j][i + 1];
      NoMarkAhead(s[1..], mark, j - 1);
    } else if j > 0 {
      assert s[0] == s[..j][0];
    }
  }

  /** Without the marker's first character, only white space can lead up to the end. */
  lemma {:induction false} NoMarkWithout(s: string, mark: string)
    requires |mark| > 0 && mark[0] !in s
    ensures !MarkAhead(s, mark)
    decreases |s|
  {
    if |s| > 0 && IsSpace(s[0]) {
      assert forall i :: 0 <= i < |s[1..]| ==> s[1..][i] == s[i + 1];
      NoMarkWithout(s[1..], mark);
    } else if |s| > 0 {
      assert mark[0] != s[0];
    }
  }

  /** A text whose last character is not white space and which lacks the marker's first
      character starts no match. */
  lemma {:induction false} PlainNoMark(x: string, rest: string, mark: string)
    requires |mark| > 0 && mark[0] !in x && (|x| > 0 ==> !IsSpace(x[|x| - 1]))
    ensures NoMarkIn(x, rest, mark)
    decreases |x|
  {
    if |x| > 0 {
      var s := x + rest;
      assert s[..|x| - 1] == x[..|x| - 1];
      assert s[|x| - 1] == x[|x| - 1];
      NoMarkAhead(s, mark, |x| - 1);
      assert x[1..] + rest == s[1..];
      PlainNoMark(x[1..], rest, mark);
    }
  }

  /** A text without the marker's first character is returned unchanged. */
  lemma {:induction false} MarkFree(s: string, mark: string)
    requires |mark| > 0 && mark[0] !in s
    ensures ReplaceMarked(s, mark) == s
    decreases |s|
  {
    if |s| > 0 {
      NoMarkWithout(s, mark);
      assert mark[0] !in s[1..] by {
        assert forall i :: 0 <= i < |s[1..]| ==> s[1..][i] == s[i + 1];
      }
      MarkSkip(s, mark);
      MarkFree(s[1..], mark);
      assert s == [s[0]] + s[1..];
    }
  }

  /** The text between separators: not blank at either end, no marker character inside. */
  predicate PlainPart(p: string, mark: string) {
    |p| > 0 && !IsSpace(p[0]) && !IsSpace(p[|p| - 1]) && |mark| > 0 && mark[0] !in p
  }

  /** One separator ` M ` before a part that starts with a non-space is replaced by ` & `. */
  lemma MarkedSeparator(mark: string, y: string)
    requires |mark| > 0 && !IsSpace(mark[0]) && |y| > 0 && !IsSpace(y[0])
    ensures ReplaceMarked(" " + mark + " " + y, mark) == AlignedQuote.GroupSeparator + ReplaceMarked(y, mark)
  {
    var t := mark + (" " + y);
    var s := " " + t;
    assert s == " " + mark + " " + y;
    assert s[1..] == t;
    assert t[..|mark|] == mark;
    assert MarkAhead(t, mark);
    assert t[|mark|..] == " " + y;
    assert (" " + y)[1..] == y;
    assert LeadingSpaces(" " + y) == 1;
    assert MarkEnd(t, mark) == |mark| + 1;
    assert s[MarkEnd(s, mark)..] == y;
  }

  /** Parts joined by ` M ` come out joined by ` & `: an elided quote becomes word groups. */
  lemma {:induction false} MarkedJoin(parts: seq<string>, mark: string)
    requires |mark| > 0 && !IsSpace(mark[0])
    requires forall k :: 0 <= k < |parts| ==> PlainPart(parts[k], mark)
    ensures ReplaceMarked(Join(parts, " " + mark + " "), mark) == Join(parts, AlignedQuote.GroupSeparator)
    decreases |parts|
  {
    var sep := " " + mark + " ";
    if |parts| == 1 {
      MarkFree(parts[0], mark);
    } else if |parts| > 1 {
      var tail := Join(parts[1..], sep);
      assert PlainPart(parts[1], mark);
      JoinFirst(parts[1..], sep);
      MarkedJoinStep(parts[0], tail, mark);
      MarkedJoin(parts[1..], mark);
      AppendAssoc(parts[0], sep, tail);
      AppendAssoc(parts[0], AlignedQuote.GroupSeparator, Join(parts[1..], AlignedQuote.GroupSeparator));
    }
  }

  /** One part, then a separator, then the rest of the quote. */
  lemma MarkedJoinStep(p: string, tail: string, mark: string)
    requires PlainPart(p, mark) && !IsSpace(mark[0]) && |tail| > 0 && !IsSpace(tail[0])
    ensures ReplaceMarked(p + (" " + mark + " " + tail), mark)
      == p + (AlignedQuote.GroupSeparator + ReplaceMarked(tail, mark))
  {
    var rest := " " + mark + " " + tail;
    PlainNoMark(p, rest, mark);
    MarkedKeeps(p, rest, mark);
    MarkedSeparator(mark, tail);
  }

  // ------------------------------------------------------------------ the sentinel

  const NotFoundPrefix: string := "QUOTE_NOT_FOUND: "

  /** `q.replace('QUOTE_NOT_FOUND: ', '')`: only the first occurrence goes. */
  function StripNotFound(q: string): string {
    ReplaceFirst(q, NotFoundPrefix, "")
  }

  /** A failed quote: one sentinel prefix, any earlier one removed first. */
  function MarkNotFound(q: string): (r: string)
    ensures NotFoundPrefix <= r
  {
    NotFoundPrefix + StripNotFound(q)
  }

  /** Marking twice is marking once: the prefix never doubles. */
  lemma MarkNotFoundIdempotent(q: string)
    ensures MarkNotFound(MarkNotFound(q)) == MarkNotFound(q)
  {
    var x := StripNotFound(q);
    assert (NotFoundPrefix + x)[|NotFoundPrefix|..] == x;
  }

  /** A quote without the sentinel just gains the prefix. */
  lemma MarkNotFoundPlain(q: string)
    requires !Contains(q, NotFoundPrefix)
    ensures MarkNotFound(q) == NotFoundPrefix + q
  {
  }

  /** A marked quote is not blank, and it holds Hebrew or Greek only when the quote did. */
  lemma MarkedStaysPending(q: string)
    requires !ContainsHebrewOrGreek(q)
    ensures Trim(MarkNotFound(q)) != "" && !ContainsHebrewOrGreek(MarkNotFound(q))
  {
    var m := MarkNotFound(q);
    assert !IsBlank(m) by { assert m[0] == 'Q'; }
    StrippedNoHebrewOrGreek(q);
    SentinelNoHebrewOrGreek();
    NoHebrewOrGreekJoined(NotFoundPrefix, StripNotFound(q));
  }

  lemma StrippedNoHebrewOrGreek(q: string)
    requires !ContainsHebrewOrGreek(q)
    ensures !ContainsHebrewOrGreek(StripNotFound(q))
  {
    var i := IndexOf(q, NotFoundPrefix);
    if i >= 0 {
      assert StripNotFound(q) == q[..i] + q[i + |NotFoundPrefix|..];
      NoHebrewOrGreekIn(q, 0, i);
      NoHebrewOrGreekIn(q, i + |NotFoundPrefix|, |q|);
      assert q[0..i] == q[..i] && q[i + |NotFoundPrefix|..|q|] == q[i + |NotFoundPrefix|..];
      NoHebrewOrGreekJoined(q[..i], q[i + |NotFoundPrefix|..]);
    }
  }

  /** The sentinel is plain ASCII. */
  lemma SentinelNoHebrewOrGreek()
    ensures !ContainsHebrewOrGreek(NotFoundPrefix)
  {
    assert forall c :: c in NotFoundPrefix ==> c <= '_';
    forall k | 0 <= k < |NotFoundPrefix| ensures !IsHebrewOrGreek(NotFoundPrefix[k]) {
      assert NotFoundPrefix[k] in NotFoundPrefix;
    }
  }

  /** The quote handed to the resolver: sentinel stripped, `M` separators made ` & `. */
  function PrepareQuote(q: string, mark: string): string
    requires |mark| > 0
  {
    ReplaceMarked(StripNotFound(q), mark)
  }

  // ------------------------------------------------------------------ references

  /** A reference's chapter text and, when it has a `:`, its verse text. */
  type ChapterSplit = (string, Option<string>)

  /** `ref.split(':')` destructured into `[chapter, verseRef]`: the text before the first
      `:` and the text between it and the next; without `:`, `verseRef` is undefined. */
  function ChapterAndVerses(reference: string): (r: ChapterSplit)
    ensures ':' !in reference <==> r.1.None?
    ensures r.1.None? ==> r.0 == reference
    ensures r.1.Some? ==> ':' !in r.0 && ':' !in r.1.value && r.0 + ":" + r.1.value <= reference
  {
    var parts := Split(reference, ":");
    SplitOnChar(reference, ':');
    if |parts| == 1 then (parts[0], None)
    else
      CharContains(parts[0], ':');
      CharContains(parts[1], ':');
      JoinSplit(reference, ":");
      JoinPrefix(parts, ":");
      (parts[0], Some(parts[1]))
  }

  /** A join of two or more parts starts with the first two and the separator between. */
  lemma JoinPrefix(parts: seq<string>, sep: string)
    requires |parts| >= 2
    ensures parts[0] + sep + parts[1] <= Join(parts, sep)
  {
    if |parts| > 2 {
      JoinFirstTwo(parts[1..], sep);
    }
  }

  lemma JoinFirstTwo(parts: seq<string>, sep: string)
    requires |parts| >= 1
    ensures parts[0] <= Join(parts, sep)
  {
  }
}

=== FILE: references.dfy ===
/** The three expanders of Bible references into single `chapter:verse` labels:
    `parseBibleReference`, `getSingleCVsFromReference` and `getAllCVsFromReference`
    (src/utils/). */
module References {
  import opened Base
  import opened Text

  /** What the expanders throw. */
  datatype RefError =
      /** `new Error('Verse reference without chapter')`. */
    | VerseWithoutChapter
      /** The `TypeError` of `verseRef.trim()` when a `;` part has no `:`. */
    | MissingVerseText

  // ------------------------------------------------------------------ labels

  /** A verse as the loops push it: text as written, or a number from a range loop. */
  datatype Verse = Written(text: string) | Numbered(number: int)

  /** One pushed label, `${chapter}:${verse}`, before it is printed. */
  datatype Pushed = Pushed(chapter: string, verse: Verse)

  /** `${chapter}:${verse}` for a verse given as text. */
  function Label(chapter: string, verse: string): string {
    chapter + ":" + verse
  }

  /** The text of a verse: a number prints as a template literal prints it. */
  function VerseString(verse: Verse): string {
    match verse
    case Written(t) => t
    case Numbered(n) => IntToString(n)
  }

  function Show(p: Pushed): string {
    Label(p.chapter, VerseString(p.verse))
  }

  function ShowAll(ps: seq<Pushed>): (r: seq<string>)
    ensures |r| == |ps|
    ensures forall k :: 0 <= k < |ps| ==> r[k] == Show(ps[k])
  {
    seq(|ps|, k requires 0 <= k < |ps| => Show(ps[k]))
  }

  /** A label splits on `:` into its chapter and verse again. */
  lemma LabelParts(chapter: string, verse: string)
    requires ':' !in chapter && ':' !in verse
    ensures Split(Label(chapter, verse), ":") == [chapter, verse]
  {
    assert Join([chapter, verse], ":") == Label(chapter, verse);
    SplitJoin([chapter, verse], ":", 0);
  }

  /** A printed verse number contains no `:`. */
  lemma NoColonInNumber(i: int)
    ensures ':' !in IntToString(i)
  {
    var m: nat := if i < 0 then -i else i;
    var d := NatToString(m);
    NatToStringCanonical(m);
    assert ':' !in d by {
      forall j | 0 <= j < |d|
        ensures d[j] != ':'
      {
        assert IsDigit(d[j]);
      }
    }
  }

  // ------------------------------------------------------------------ verse ranges

  /** What the inclusive loop `for (v = start; v <= end; v++)` pushes. */
  function RangeItems(chapter: string, start: int, end: int): seq<Pushed>
    decreases end - start
  {
    if start > end then []
    else [Pushed(chapter, Numbered(start))] + RangeItems(chapter, start + 1, end)
  }

  /** A range `a-b` has `b - a + 1` labels, and none when `a > b`. */
  lemma {:induction false} RangeItemsLength(chapter: string, start: int, end: int)
    ensures |RangeItems(chapter, start, end)| == if start <= end then end - start + 1 else 0
    decreases end - start
  {
    if start <= end {
      RangeItemsLength(chapter, start + 1, end);
    }
  }

  /** The `k`-th label of a range is verse `start + k` of the chapter: the range is
      inclusive and ascending. */
  lemma {:induction false} RangeItemAt(chapter: string, start: int, end: int, k: nat)
    requires k < |RangeItems(chapter, start, end)|
    ensures RangeItems(chapter, start, end)[k] == Pushed(chapter, Numbered(start + k))
    decreases end - start
  {
    if k > 0 {
      assert RangeItems(chapter, start, end)[k] == RangeItems(chapter, start + 1, end)[k - 1];
      RangeItemAt(chapter, start + 1, end, k - 1);
    }
  }

  /** Each printed label of a range reads back as its chapter and the verse number
      `start + k`. */
  lemma RangeLabelReadBack(chapter: string, start: int, end: int, k: nat)
    requires ':' !in chapter && k < |RangeItems(chapter, start, end)|
    ensures Split(ShowAll(RangeItems(chapter, start, end))[k], ":") == [chapter, IntToString(start + k)]
    ensures ParseInt(IntToString(start + k)) == Some(start + k)
  {
    RangeItemAt(chapter, start, end, k);
    NoColonInNumber(start + k);
    LabelParts(chapter, IntToString(start + k));
    ParseIntOfIntToString(start + k);
  }

  /** The verse text of a comma part, as the loop uses it: either pushed as it stands, or,
      when it holds `-`, a range whose bounds went through `parseInt` (`None` is `NaN`). */
  datatype VerseText = Single(text: string) | Range(start: Option<int>, end: Option<int>)

  /** `text.split('-').map(parseInt)` destructured as `[start, end]`. */
  function ReadRange(text: string): (r: VerseText)
    requires '-' in text
    ensures r.Range?
  {
    SplitOnChar(text, '-');
    var pieces := Split(text, "-");
    Range(ParseInt(pieces[0]), ParseInt(pieces[1]))
  }

  /** What a verse text pushes under a chapter. A `NaN` bound fails every comparison of
      the inclusive loop, so its body never runs. */
  function VerseItems(chapter: string, verse: VerseText): (r: seq<Pushed>)
    ensures verse.Single? ==> r == [Pushed(chapter, Written(verse.text))]
    ensures verse.Range? && (verse.start.None? || verse.end.None?) ==> r == []
  {
    match verse
    case Single(t) => [Pushed(chapter, Written(t))]
    case Range(Some(a), Some(b)) => RangeItems(chapter, a, b)
    case Range(_, _) => []
  }

  // ------------------------------------------------------------------ parseBibleReference

  /** A comma part as the loop reads it. One that includes `:` is trimmed and destructured
      as `[chapter, verse] = part.trim().split(':')`, its verse text kept as it stands; any
      other is trimmed. */
  datatype CommaPart = Chaptered(chapter: string, verse: VerseText) | Bare(verse: VerseText)

  /** A verse text, read as a range when it includes `-`. */
  function ReadVerse(text: string): (r: VerseText)
    ensures r.Single? <==> '-' !in text
    ensures r.Single? ==> r.text == text
  {
    if '-' in text then ReadRange(text) else Single(text)
  }

  function ReadCommaPart(part: string): (r: CommaPart)
    ensures r.Chaptered? <==> ':' in part
    ensures r.Chaptered? ==> ':' !in r.chapter
    ensures r.Bare? ==> r.verse == ReadVerse(Trim(part))
  {
    if ':' in part then
      TrimChars(part, ':');
      SplitOnChar(Trim(part), ':');
      var pieces := Split(Trim(part), ":");
      assert ':' !in pieces[0] by {
        CharContains(pieces[0], ':');
      }
      Chaptered(pieces[0], ReadVerse(pieces[1]))
    else Bare(ReadVerse(Trim(part)))
  }

  function ReadCommaParts(parts: seq<string>): (r: seq<CommaPart>)
    ensures |r| == |parts|
    ensures forall k :: 0 <= k < |parts| ==> r[k] == ReadCommaPart(parts[k])
  {
    seq(|parts|, k requires 0 <= k < |parts| => ReadCommaPart(parts[k]))
  }

  /** What one comma part pushes, given the chapter in force (`""` stands for both `null`
      and an empty chapter: the code only tests whether it is truthy). */
  function PartItems(part: CommaPart, chapter: string): (r: Result<seq<Pushed>, RefError>)
    ensures r.Err? <==> part.Bare? && chapter == ""
    ensures r.Ok? ==> r.value == VerseItems(if part.Chaptered? then part.chapter else chapter, part.verse)
  {
    match part
    case Chaptered(c, v) => Ok(VerseItems(c, v))
    case Bare(v) =>
      if chapter == "" then Err(VerseWithoutChapter)
      else Ok(VerseItems(chapter, v))
  }

  /** `currentChapter` after a comma part. */
  function NextChapter(part: CommaPart, chapter: string): string {
    if part.Chaptered? then part.chapter else chapter
  }

  /** `currentChapter` once the first `n` comma parts have been read. */
  function ChapterAfter(parts: seq<CommaPart>, n: nat): string
    requires n <= |parts|
  {
    if n == 0 then "" else NextChapter(parts[n - 1], ChapterAfter(parts, n - 1))
  }

  /** What the first `n` comma parts push, or what the loop threw. */
  function Expand(parts: seq<CommaPart>, n: nat): Result<seq<Pushed>, RefError>
    requires n <= |parts|
  {
    if n == 0 then Ok([])
    else
      var prev :- Expand(parts, n - 1);
      var more :- PartItems(parts[n - 1], ChapterAfter(parts, n - 1));
      Ok(prev + more)
  }

  /** The comma parts of the trimmed `;` parts, in order. */
  function CommaParts(scParts: seq<string>): seq<string> {
    if |scParts| == 0 then []
    else Split(Trim(scParts[0]), ",") + CommaParts(scParts[1..])
  }

  /** The comma parts of a reference, as read. */
  function ReferenceParts(reference: string): seq<CommaPart> {
    ReadCommaParts(CommaParts(Split(reference, ";")))
  }

  /** `parseBibleReference(reference)`. */
  function ParseBibleReference(reference: string): (r: Result<seq<string>, RefError>)
    ensures reference == "" || ':' !in reference ==> r == Ok([])
  {
    if reference == "" || ':' !in reference then Ok([])
    else
      ExpandAll(ReferenceParts(reference))
  }

  /** The labels of all the comma parts, printed, or what the loop threw. */
  function ExpandAll(parts: seq<CommaPart>): (r: Result<seq<string>, RefError>)
    ensures r.Err? <==> Expand(parts, |parts|).Err?
  {
    var items :- Expand(parts, |parts|);
    Ok(ShowAll(items))
  }

  /** Part `j` is the last part before part `i` that names a chapter. */
  predicate IsLastChapterPart(parts: seq<CommaPart>, i: nat, j: nat) {
    j < i <= |parts| && parts[j].Chaptered? && forall m :: j < m < i ==> parts[m].Bare?
  }

  /** The chapter in force when part `i` is read: the one named by the last chapter part
      before it, or none (`""`) when no earlier part names one. */
  ghost predicate ChapterInForce(parts: seq<CommaPart>, i: nat, chapter: string)
    requires i <= |parts|
  {
    (exists j: nat :: IsLastChapterPart(parts, i, j) && chapter == parts[j].chapter)
    || ((forall j :: 0 <= j < i ==> parts[j].Bare?) && chapter == "")
  }

  /** At most one chapter is in force at a time. */
  lemma ChapterInForceUnique(parts: seq<CommaPart>, i: nat, c1: string, c2: string)
    requires i <= |parts| && ChapterInForce(parts, i, c1) && ChapterInForce(parts, i, c2)
    ensures c1 == c2
  {
    if j1: nat :| IsLastChapterPart(parts, i, j1) && c1 == parts[j1].chapter {
      var j2: nat :| IsLastChapterPart(parts, i, j2) && c2 == parts[j2].chapter;
      assert !(j1 < j2) && !(j2 < j1);
    }
  }

  /** A chapter part sets the chapter, which carries forward across every later part
      without one, over comma and semicolon boundaries alike. */
  lemma {:induction false} ChapterCarriesForward(parts: seq<CommaPart>, n: nat)
    requires n <= |parts|
    ensures ChapterInForce(parts, n, ChapterAfter(parts, n))
  {
    if n > 0 {
      ChapterCarriesForward(parts, n - 1);
      var c := ChapterAfter(parts, n);
      if parts[n - 1].Chaptered? {
        assert IsLastChapterPart(parts, n, n - 1);
      } else {
        assert c == ChapterAfter(parts, n - 1);
        if j: nat :| IsLastChapterPart(parts, n - 1, j) && c == parts[j].chapter {
          assert IsLastChapterPart(parts, n, j);
        }
      }
    }
  }

  /** The chapter the loop holds is the chapter in force. */
  lemma ChapterInForceIsHeld(parts: seq<CommaPart>, i: nat, c: string)
    requires i <= |parts|
    ensures ChapterInForce(parts, i, c) <==> c == ChapterAfter(parts, i)
  {
    ChapterCarriesForward(parts, i);
    if ChapterInForce(parts, i, c) {
      ChapterInForceUnique(parts, i, c, ChapterAfter(parts, i));
    }
  }

  /** Order follows the input: what a prefix of the parts pushes comes first. */
  lemma {:induction false} ExpandPrefix(parts: seq<CommaPart>, n: nat, m: nat)
    requires n <= m <= |parts| && Expand(parts, m).Ok?
    ensures Expand(parts, n).Ok? && Expand(parts, n).value <= Expand(parts, m).value
    decreases m - n
  {
    if n < m {
      assert Expand(parts, m - 1).Ok?;
      ExpandPrefix(parts, n, m - 1);
    }
  }

  /** The expansion throws at part `i` when that part has no chapter and none is held. */
  predicate ThrowsAt(parts: seq<CommaPart>, i: nat)
    requires i < |parts|
  {
    parts[i].Bare? && ChapterAfter(parts, i) == ""
  }

  lemma {:induction false} ExpandFailsAt(parts: seq<CommaPart>, n: nat)
    requires n <= |parts|
    ensures Expand(parts, n).Err? <==> exists i: nat :: i < n && ThrowsAt(parts, i)
  {
    if n > 0 {
      ExpandFailsAt(parts, n - 1);
      if Expand(parts, n - 1).Ok? {
        var step := PartItems(parts[n - 1], ChapterAfter(parts, n - 1));
        assert Expand(parts, n).Err? <==> step.Err?;
        assert step.Err? <==> ThrowsAt(parts, n - 1);
        assert forall i: nat :: i < n - 1 ==> !ThrowsAt(parts, i);
      } else {
        var i: nat :| i < n - 1 && ThrowsAt(parts, i);
        assert Expand(parts, n).Err?;
      }
    }
  }

  /** The expansion throws exactly when some part without a chapter is read while no
      (non-empty) chapter is in force. */
  lemma ExpandFails(parts: seq<CommaPart>, n: nat)
    requires n <= |parts|
    ensures Expand(parts, n).Err? <==>
      exists i: nat :: i < n && parts[i].Bare? && ChapterInForce(parts, i, "")
  {
    ExpandFailsAt(parts, n);
    forall i: nat | i < n
      ensures ThrowsAt(parts, i) <==> parts[i].Bare? && ChapterInForce(parts, i, "")
    {
      ChapterInForceIsHeld(parts, i, "");
    }
  }

  // ------------------------------------------------------------------ getSingleCVsFromReference

  /** `getSingleCVsFromReference(reference)`: the `return` sits inside the loop over `;`
      parts, so only the first `;` part is expanded. */
  function GetSingleCVsFromReference(reference: string): (r: Result<seq<string>, RefError>)
    ensures reference == "" || ':' !in reference ==> r == Ok([])
  {
    if reference == "" || ':' !in reference then Ok([])
    else
      ExpandAll(ReadCommaParts(Split(Trim(Split(reference, ";")[0]), ",")))
  }

  /** A string without `;` is its own only `;` part. */
  lemma FirstPartAlone(reference: string)
    ensures ';' !in Split(reference, ";")[0]
    ensures Split(Split(reference, ";")[0], ";") == [Split(reference, ";")[0]]
  {
    var first := Split(reference, ";")[0];
    assert !Contains(first, ";");
    CharContains(first, ';');
    SplitOnChar(first, ';');
  }

  /** `getSingleCVsFromReference` is `parseBibleReference` of the first `;` part, whenever
      that part holds a chapter. */
  lemma SingleIsFirstPart(reference: string)
    requires ':' in Split(reference, ";")[0]
    ensures GetSingleCVsFromReference(reference) == ParseBibleReference(Split(reference, ";")[0])
  {
    var first := Split(reference, ";")[0];
    assert ':' in reference by {
      SplitPieceChars(reference, ";", 0, ':');
    }
    assert ReferenceParts(first) == ReadCommaParts(Split(Trim(first), ",")) by {
      FirstPartAlone(reference);
      assert CommaParts([first]) == Split(Trim(first), ",") + CommaParts([]);
    }
  }

  /** Whatever follows the first `;` is ignored. */
  lemma SingleIgnoresLaterParts(head: string, tail: string)
    requires ':' in head && ';' !in head
    ensures GetSingleCVsFromReference(head + ";" + tail) == GetSingleCVsFromReference(head)
  {
    assert Split(head + ";" + tail, ";")[0] == head by {
      SplitAtFirstSeparator(head, ";", tail, 0);
    }
    assert Split(head, ";")[0] == head by {
      SplitOnChar(head, ';');
    }
    SingleIsFirstPart(head + ";" + tail);
    SingleIsFirstPart(head);
  }

  // ------------------------------------------------------------------ getAllCVsFromReference

  /** A single reference: a chapter and a verse, as text. */
  datatype ChapterVerse = ChapterVerse(chapter: string, verse: string)

  /** A `;` part destructured as `[chapter, verseRef] = part.split(':')`, untrimmed;
      `None` when `verseRef` is undefined. */
  function ReadSemicolonPart(scPart: string): (r: Option<ChapterVerse>)
    ensures r.Some? <==> ':' in scPart
    ensures r.Some? ==> ':' !in r.value.chapter && ':' !in r.value.verse
  {
    SplitOnChar(scPart, ':');
    var pieces := Split(scPart, ":");
    if |pieces| < 2 then None
    else
      assert ':' !in pieces[0] && ':' !in pieces[1] by {
        CharContains(pieces[0], ':');
        CharContains(pieces[1], ':');
      }
      Some(ChapterVerse(pieces[0], pieces[1]))
  }

  /** A comma part of `verseRef`: one holding `-` is trimmed and read as a range; any other
      is kept verbatim, untrimmed. */
  function ReadAllVerse(commaPart: string): (r: VerseText)
    ensures r.Single? <==> '-' !in commaPart
    ensures r.Single? ==> r.text == commaPart
  {
    if '-' in commaPart then
      TrimChars(commaPart, '-');
      ReadRange(Trim(commaPart))
    else Single(commaPart)
  }

  /** A `;` part as `getAllCVsFromReference` reads it: its untrimmed chapter and the verse
      texts of the comma parts of `verseRef.trim()`. */
  datatype VerseList = VerseList(chapter: string, verses: seq<VerseText>)

  function ReadAllPart(scPart: string): (r: Option<VerseList>)
    ensures r.Some? <==> ':' in scPart
  {
    match ReadSemicolonPart(scPart)
    case None => None
    case Some(cv) =>
      Some(VerseList(cv.chapter, ReadAllVerses(Split(Trim(cv.verse), ","))))
  }

  function ReadAllVerses(commaParts: seq<string>): (r: seq<VerseText>)
    ensures |r| == |commaParts|
    ensures forall k :: 0 <= k < |commaParts| ==> r[k] == ReadAllVerse(commaParts[k])
  {
    seq(|commaParts|, k requires 0 <= k < |commaParts| => ReadAllVerse(commaParts[k]))
  }

  function ReadAllParts(scParts: seq<string>): (r: seq<Option<VerseList>>)
    ensures |r| == |scParts|
    ensures forall k :: 0 <= k < |scParts| ==> r[k] == ReadAllPart(scParts[k])
  {
    seq(|scParts|, k requires 0 <= k < |scParts| => ReadAllPart(scParts[k]))
  }

  /** What a list of verse texts pushes under one chapter, in order. */
  function VersesItems(chapter: string, verses: seq<VerseText>): seq<Pushed> {
    if |verses| == 0 then []
    else VerseItems(chapter, verses[0]) + VersesItems(chapter, verses[1..])
  }

  /** What the `;` parts push in order, or the throw of the first part without `:`. */
  function SemicolonItems(lists: seq<Option<VerseList>>): (r: Result<seq<Pushed>, RefError>)
    ensures r.Err? <==> exists i :: 0 <= i < |lists| && lists[i].None?
    ensures r.Err? ==> r.error == MissingVerseText
  {
    if |lists| == 0 then Ok([])
    else
      match lists[0]
      case None => Err(MissingVerseText)
      case Some(l) =>
        var rest :- SemicolonItems(lists[1..]);
        assert forall i :: 1 <= i < |lists| ==> lists[i] == lists[1..][i - 1];
        Ok(VersesItems(l.chapter, l.verses) + rest)
  }

  /** `getAllCVsFromReference(reference)`. A blank reference throws, unlike the other two
      expanders. */
  function GetAllCVsFromReference(reference: string): (r: Result<seq<string>, RefError>)
    ensures IsBlank(reference) ==> r == Err(MissingVerseText)
  {
    var lists := ReadAllParts(Split(Trim(reference), ";"));
    assert IsBlank(reference) ==> lists[0].None? by {
      if IsBlank(reference) {
        SplitOnChar("", ';');
        assert ':' !in Split(Trim(reference), ";")[0];
      }
    }
    ShowItems(SemicolonItems(lists))
  }

  /** Printed labels, or the error. */
  function ShowItems(items: Result<seq<Pushed>, RefError>): (r: Result<seq<string>, RefError>)
    ensures r.Err? <==> items.Err?
    ensures r.Err? ==> r.error == items.error
  {
    var ps :- items;
    Ok(ShowAll(ps))
  }

  /** `getAllCVsFromReference` throws exactly when some `;` part of the trimmed reference
      has no `:`. */
  lemma AllFails(reference: string)
    ensures GetAllCVsFromReference(reference).Err?
        <==> exists i :: 0 <= i < |Split(Trim(reference), ";")| && ':' !in Split(Trim(reference), ";")[i]
  {
    assert GetAllCVsFromReference(reference).Err?
        <==> SemicolonItems(ReadAllParts(Split(Trim(reference), ";"))).Err?;
    SemicolonPartsFail(Split(Trim(reference), ";"));
  }

  /** The `;` loop throws exactly when one of its parts has no `:`. */
  lemma SemicolonPartsFail(scParts: seq<string>)
    ensures SemicolonItems(ReadAllParts(scParts)).Err? <==> exists i :: 0 <= i < |scParts| && ':' !in scParts[i]
  {
    var lists := ReadAllParts(scParts);
    if exists i :: 0 <= i < |lists| && lists[i].None? {
      var i :| 0 <= i < |lists| && lists[i].None?;
      assert ':' !in scParts[i];
    }
    if exists i :: 0 <= i < |scParts| && ':' !in scParts[i] {
      var i :| 0 <= i < |scParts| && ':' !in scParts[i];
      assert lists[i].None?;
    }
  }

  /** The branch that re-splits a comma part on `:` is dead: the verse text lies between
      the first and second `:`, so no comma part of it holds one. */
  lemma VerseTextHasNoColon(scPart: string, k: nat)
    requires ReadSemicolonPart(scPart).Some?
    requires k < |Split(Trim(ReadSemicolonPart(scPart).value.verse), ",")|
    ensures ':' !in Split(Trim(ReadSemicolonPart(scPart).value.verse), ",")[k]
  {
    var verseText := ReadSemicolonPart(scPart).value.verse;
    TrimChars(verseText, ':');
    if ':' in Split(Trim(verseText), ",")[k] {
      SplitPieceChars(Trim(verseText), ",", k, ':');
    }
  }

  // ------------------------------------------------------------------ plain references

  /** A chapter or verse as written in a plain reference: non-empty, without white space
      and without any of `:;,-`. */
  predicate IsPlainField(s: string) {
    |s| > 0 && forall k :: 0 <= k < |s| ==> !IsSpace(s[k]) && s[k] != ':' && s[k] != ';' && s[k] != ',' && s[k] != '-'
  }

  predicate IsPlain(cvs: seq<ChapterVerse>) {
    forall k :: 0 <= k < |cvs| ==> IsPlainField(cvs[k].chapter) && IsPlainField(cvs[k].verse)
  }

  function Labels(cvs: seq<ChapterVerse>): (r: seq<string>)
    ensures |r| == |cvs|
    ensures forall k :: 0 <= k < |cvs| ==> r[k] == Label(cvs[k].chapter, cvs[k].verse)
  {
    seq(|cvs|, k requires 0 <= k < |cvs| => Label(cvs[k].chapter, cvs[k].verse))
  }

  /** What the loops push for plain labels. */
  function Writtens(cvs: seq<ChapterVerse>): (r: seq<Pushed>)
    ensures |r| == |cvs|
    ensures forall k :: 0 <= k < |cvs| ==> r[k] == Pushed(cvs[k].chapter, Written(cvs[k].verse))
  {
    seq(|cvs|, k requires 0 <= k < |cvs| => Pushed(cvs[k].chapter, Written(cvs[k].verse)))
  }

  lemma ShowWrittens(cvs: seq<ChapterVerse>)
    ensures ShowAll(Writtens(cvs)) == Labels(cvs)
  {
    forall k | 0 <= k < |cvs|
      ensures ShowAll(Writtens(cvs))[k] == Labels(cvs)[k]
    {
      assert Show(Writtens(cvs)[k]) == Label(cvs[k].chapter, cvs[k].verse);
    }
  }

  /** A plain verse is its own trim and its own single comma part, and is not a range. */
  lemma PlainVerse(v: string)
    requires IsPlainField(v)
    ensures Trim(v) == v && Split(v, ",") == [v] && '-' !in v
  {
    TrimUnchanged(v);
    SplitOnChar(v, ',');
  }

  /** The characters of a plain label. */
  lemma PlainLabelChars(cv: ChapterVerse)
    requires IsPlainField(cv.chapter) && IsPlainField(cv.verse)
    ensures var l := Label(cv.chapter, cv.verse);
      ':' in l && ';' !in l && ',' !in l && Trim(l) == l
  {
    var l := Label(cv.chapter, cv.verse);
    assert l[|cv.chapter|] == ':';
    assert ';' !in l && ',' !in l by {
      forall k | 0 <= k < |l|
        ensures l[k] != ';' && l[k] != ','
      {
        if k < |cv.chapter| {
          assert l[k] == cv.chapter[k];
        } else if k > |cv.chapter| {
          assert l[k] == cv.verse[k - |cv.chapter| - 1];
        }
      }
    }
    assert l[0] == cv.chapter[0];
    assert l[|l| - 1] == cv.verse[|cv.verse| - 1];
    TrimUnchanged(l);
  }

  /** `parseBibleReference`'s loop reads a plain label back as its chapter and verse. */
  lemma PlainCommaRead(cv: ChapterVerse)
    requires IsPlainField(cv.chapter) && IsPlainField(cv.verse)
    ensures ReadCommaPart(Label(cv.chapter, cv.verse)) == Chaptered(cv.chapter, Single(cv.verse))
  {
    var l := Label(cv.chapter, cv.verse);
    assert Split(Trim(l), ":") == [cv.chapter, cv.verse] by {
      PlainLabelChars(cv);
      LabelParts(cv.chapter, cv.verse);
    }
    assert ReadVerse(cv.verse) == Single(cv.verse) by {
      PlainVerse(cv.verse);
    }
  }

  /** `getAllCVsFromReference`'s loop reads a plain label back as its chapter and verse. */
  lemma PlainSemicolonRead(cv: ChapterVerse)
    requires IsPlainField(cv.chapter) && IsPlainField(cv.verse)
    ensures ReadAllPart(Label(cv.chapter, cv.verse)) == Some(VerseList(cv.chapter, [Single(cv.verse)]))
  {
    var l := Label(cv.chapter, cv.verse);
    assert ReadSemicolonPart(l) == Some(cv) by {
      LabelParts(cv.chapter, cv.verse);
    }
    var verses := ReadAllVerses(Split(Trim(cv.verse), ","));
    assert verses == [Single(cv.verse)] by {
      PlainVerse(cv.verse);
      assert |verses| == 1 && verses[0] == ReadAllVerse(cv.verse);
    }
  }

  /** The comma parts of plain labels, as read. */
  function Chaptereds(cvs: seq<ChapterVerse>): (r: seq<CommaPart>)
    ensures |r| == |cvs|
    ensures forall k :: 0 <= k < |cvs| ==> r[k] == Chaptered(cvs[k].chapter, Single(cvs[k].verse))
  {
    seq(|cvs|, k requires 0 <= k < |cvs| => Chaptered(cvs[k].chapter, Single(cvs[k].verse)))
  }

  /** The `;` parts of plain labels, as `getAllCVsFromReference` reads them. */
  function VerseLists(cvs: seq<ChapterVerse>): (r: seq<Option<VerseList>>)
    ensures |r| == |cvs|
    ensures forall k :: 0 <= k < |cvs| ==> r[k] == Some(VerseList(cvs[k].chapter, [Single(cvs[k].verse)]))
  {
    seq(|cvs|, k requires 0 <= k < |cvs| => Some(VerseList(cvs[k].chapter, [Single(cvs[k].verse)])))
  }

  /** Comma-free parts are their own comma parts. */
  lemma {:induction false} PlainCommaParts(cvs: seq<ChapterVerse>)
    requires IsPlain(cvs)
    ensures CommaParts(Labels(cvs)) == Labels(cvs)
    decreases |cvs|
  {
    if |cvs| > 0 {
      var ls := Labels(cvs);
      PlainCommaSplit(cvs[0]);
      assert ls[1..] == Labels(cvs[1..]);
      PlainCommaParts(cvs[1..]);
      assert CommaParts(ls) == [ls[0]] + CommaParts(ls[1..]);
      assert ls == [ls[0]] + ls[1..];
    }
  }

  /** A plain label is its own only comma part. */
  lemma PlainCommaSplit(cv: ChapterVerse)
    requires IsPlainField(cv.chapter) && IsPlainField(cv.verse)
    ensures Split(Trim(Label(cv.chapter, cv.verse)), ",") == [Label(cv.chapter, cv.verse)]
  {
    PlainLabelChars(cv);
    SplitOnChar(Label(cv.chapter, cv.verse), ',');
  }

  /** Plain labels expand to themselves, one each. */
  lemma {:induction false} ExpandPlain(cvs: seq<ChapterVerse>, n: nat)
    requires n <= |cvs|
    ensures Expand(Chaptereds(cvs), n) == Ok(Writtens(cvs)[..n])
  {
    if n > 0 {
      ExpandPlain(cvs, n - 1);
      assert Writtens(cvs)[..n] == Writtens(cvs)[..n - 1] + [Writtens(cvs)[n - 1]];
    }
  }

  /** The joined labels split on `;` into the labels again. */
  lemma PlainJoinSplits(cvs: seq<ChapterVerse>)
    requires |cvs| > 0 && IsPlain(cvs)
    ensures Split(Join(Labels(cvs), ";"), ";") == Labels(cvs)
    ensures ':' in Join(Labels(cvs), ";")
  {
    var ls := Labels(cvs);
    forall i | 0 <= i < |ls|
      ensures ';' !in ls[i]
    {
      PlainLabelChars(cvs[i]);
    }
    SplitJoin(ls, ";", 0);
    PlainLabelChars(cvs[0]);
    SplitPieceChars(Join(ls, ";"), ";", 0, ':');
  }

  /** Plain labels are read as chapter parts by both loops. */
  lemma PlainReads(cvs: seq<ChapterVerse>)
    requires IsPlain(cvs)
    ensures ReadCommaParts(Labels(cvs)) == Chaptereds(cvs)
    ensures ReadAllParts(Labels(cvs)) == VerseLists(cvs)
  {
    forall k | 0 <= k < |cvs|
      ensures ReadCommaPart(Labels(cvs)[k]) == Chaptereds(cvs)[k]
      ensures ReadAllPart(Labels(cvs)[k]) == VerseLists(cvs)[k]
    {
      PlainCommaRead(cvs[k]);
      PlainSemicolonRead(cvs[k]);
    }
  }

  /** The labels of plain chapter parts are printed back as they were written. */
  lemma ExpandPlainAll(cvs: seq<ChapterVerse>)
    ensures ExpandAll(Chaptereds(cvs)) == Ok(Labels(cvs))
  {
    assert Expand(Chaptereds(cvs), |cvs|) == Ok(Writtens(cvs)) by {
      ExpandPlain(cvs, |cvs|);
      assert Writtens(cvs)[..|cvs|] == Writtens(cvs);
    }
    ShowWrittens(cvs);
  }

  /** A `;`-separated list of plain single references expands to itself. */
  lemma ParsePlainList(cvs: seq<ChapterVerse>)
    requires |cvs| > 0 && IsPlain(cvs)
    ensures ParseBibleReference(Join(Labels(cvs), ";")) == Ok(Labels(cvs))
  {
    var reference := Join(Labels(cvs), ";");
    assert reference != "" && ':' in reference by {
      PlainJoinSplits(cvs);
    }
    assert ReferenceParts(reference) == Chaptereds(cvs) by {
      PlainJoinSplits(cvs);
      PlainCommaParts(cvs);
      PlainReads(cvs);
    }
    ExpandPlainAll(cvs);
  }

  /** On the same list `getSingleCVsFromReference` keeps only the first reference. */
  lemma SinglePlainList(cvs: seq<ChapterVerse>)
    requires |cvs| > 0 && IsPlain(cvs)
    ensures GetSingleCVsFromReference(Join(Labels(cvs), ";")) == Ok([Labels(cvs)[0]])
  {
    var first := Labels(cvs)[0];
    assert Split(Join(Labels(cvs), ";"), ";")[0] == first by {
      PlainJoinSplits(cvs);
    }
    assert ':' in first by {
      PlainLabelChars(cvs[0]);
    }
    SingleIsFirstPart(Join(Labels(cvs), ";"));
    assert Labels([cvs[0]]) == [first];
    assert Join([first], ";") == first;
    ParsePlainList([cvs[0]]);
  }

  /** Plain `;` parts push one label each through `getAllCVsFromReference`'s loop. */
  lemma {:induction false} SemicolonPlain(cvs: seq<ChapterVerse>)
    ensures SemicolonItems(VerseLists(cvs)) == Ok(Writtens(cvs))
    decreases |cvs|
  {
    if |cvs| > 0 {
      assert VerseLists(cvs)[1..] == VerseLists(cvs[1..]);
      SemicolonPlain(cvs[1..]);
      assert VersesItems(cvs[0].chapter, [Single(cvs[0].verse)]) == [Writtens(cvs)[0]];
      assert Writtens(cvs) == [Writtens(cvs)[0]] + Writtens(cvs[1..]);
    }
  }

  /** `getAllCVsFromReference` also expands a plain list to itself. */
  lemma AllPlainList(cvs: seq<ChapterVerse>)
    requires |cvs| > 0 && IsPlain(cvs)
    ensures GetAllCVsFromReference(Join(Labels(cvs), ";")) == Ok(Labels(cvs))
  {
    var joined := Join(Labels(cvs), ";");
    assert ReadAllParts(Split(Trim(joined), ";")) == VerseLists(cvs) by {
      PlainJoinTrim(cvs);
      PlainJoinSplits(cvs);
      PlainReads(cvs);
    }
    assert ShowItems(SemicolonItems(VerseLists(cvs))) == Ok(Labels(cvs)) by {
      SemicolonPlain(cvs);
      ShowWrittens(cvs);
    }
  }

  /** Joined plain labels begin and end with a character other than white space. */
  lemma PlainJoinTrim(cvs: seq<ChapterVerse>)
    requires |cvs| > 0 && IsPlain(cvs)
    ensures Trim(Join(Labels(cvs), ";")) == Join(Labels(cvs), ";")
  {
    var ls := Labels(cvs);
    var joined := Join(ls, ";");
    var first := cvs[0];
    var last := cvs[|cvs| - 1];
    assert ls[0] == first.chapter + ":" + first.verse;
    assert ls[|ls| - 1] == last.chapter + ":" + last.verse;
    JoinFirst(ls, ";");
    JoinLast(ls, ";");
    assert joined[0] == first.chapter[0];
    assert joined[|joined| - 1] == last.verse[|last.verse| - 1];
    TrimUnchanged(joined);
  }

  /** A canonical numeral holds neither `:` nor `-`. */
  lemma NumeralChars(a: string)
    requires IsCanonicalNumeral(a)
    ensures ':' !in a && '-' !in a && ';' !in a && ',' !in a
  {
    assert forall k :: 0 <= k < |a| ==> IsDigit(a[k]);
  }

  /** `a-b` splits on `-` into its two numerals, and holds no `:`. */
  lemma RangeVerseParts(a: string, b: string)
    requires IsCanonicalNumeral(a) && IsCanonicalNumeral(b)
    ensures ':' !in a + "-" + b && '-' in a + "-" + b && ';' !in a + "-" + b && ',' !in a + "-" + b
    ensures Split(a + "-" + b, "-") == [a, b]
  {
    var verse := a + "-" + b;
    NumeralChars(a);
    NumeralChars(b);
    assert verse == a + ['-'] + b;
    assert verse[|a|] == '-';
    assert Join([a, b], "-") == verse;
    SplitJoin([a, b], "-", 0);
  }

  /** `c:a-b` is its own trim, its own `;` part and its own comma part. */
  lemma RangeLabelChars(c: string, a: string, b: string)
    requires IsPlainField(c) && IsCanonicalNumeral(a) && IsCanonicalNumeral(b)
    ensures var s := Label(c, a + "-" + b);
      ':' in s && ';' !in s && ',' !in s && Trim(s) == s
  {
    var verse := a + "-" + b;
    var s := Label(c, verse);
    RangeVerseParts(a, b);
    assert s == c + [':'] + verse;
    assert s[|c|] == ':';
    assert ';' !in c && ',' !in c by {
      forall k | 0 <= k < |c| ensures c[k] != ';' && c[k] != ',' { }
    }
    assert s[0] == c[0] && s[|s| - 1] == b[|b| - 1];
    assert IsDigit(b[|b| - 1]);
    TrimUnchanged(s);
  }

  /** The range of two canonical numerals, as the loop reads it. */
  function NumeralRange(a: string, b: string): VerseText
    requires IsCanonicalNumeral(a) && IsCanonicalNumeral(b)
  {
    Range(Some(RadixValue(a, 10) as int), Some(RadixValue(b, 10) as int))
  }

  /** `c:a-b` is read as a chapter part holding the range of the two numerals. */
  lemma RangeCommaPart(c: string, a: string, b: string)
    requires IsPlainField(c) && IsCanonicalNumeral(a) && IsCanonicalNumeral(b)
    ensures ReadCommaPart(Label(c, a + "-" + b)) == Chaptered(c, NumeralRange(a, b))
  {
    var verse := a + "-" + b;
    RangeLabelChars(c, a, b);
    RangeVerseParts(a, b);
    assert ReadVerse(verse) == NumeralRange(a, b) by {
      ParseCanonicalNumeral(a);
      ParseCanonicalNumeral(b);
    }
    LabelParts(c, verse);
  }

  /** `c:a-b` is its own only comma part. */
  lemma RangeCommaParts(c: string, a: string, b: string)
    requires IsPlainField(c) && IsCanonicalNumeral(a) && IsCanonicalNumeral(b)
    ensures CommaParts(Split(Label(c, a + "-" + b), ";")) == [Label(c, a + "-" + b)]
  {
    var s := Label(c, a + "-" + b);
    RangeLabelChars(c, a, b);
    SplitOnChar(s, ';');
    SplitOnChar(s, ',');
    assert CommaParts([s]) == [s] + CommaParts([]);
  }

  /** `c:a-b` is read as one chapter part holding the range of the two numerals. */
  lemma RangeReferenceParts(c: string, a: string, b: string)
    requires IsPlainField(c) && IsCanonicalNumeral(a) && IsCanonicalNumeral(b)
    ensures ':' in Label(c, a + "-" + b)
    ensures ReferenceParts(Label(c, a + "-" + b)) == [Chaptered(c, NumeralRange(a, b))]
  {
    var s := Label(c, a + "-" + b);
    RangeLabelChars(c, a, b);
    RangeCommaParts(c, a, b);
    RangeCommaPart(c, a, b);
    assert ReferenceParts(s) == ReadCommaParts([s]);
  }

  /** A single range reference `c:a-b` with canonical numerals expands to the verses a..b
      of chapter c. */
  lemma ParseRangeReference(c: string, a: string, b: string)
    requires IsPlainField(c) && IsCanonicalNumeral(a) && IsCanonicalNumeral(b)
    ensures ParseBibleReference(c + ":" + a + "-" + b)
         == Ok(ShowAll(RangeItems(c, RadixValue(a, 10), RadixValue(b, 10))))
  {
    assert c + ":" + a + "-" + b == Label(c, a + "-" + b);
    RangeReferenceParts(c, a, b);
    ExpandOneRange(c, RadixValue(a, 10), RadixValue(b, 10));
  }

  /** One chapter part holding a range expands to the labels of that range. */
  lemma ExpandOneRange(c: string, x: int, y: int)
    ensures ExpandAll([Chaptered(c, Range(Some(x), Some(y)))]) == Ok(ShowAll(RangeItems(c, x, y)))
  {
    var parts := [Chaptered(c, Range(Some(x), Some(y)))];
    assert Expand(parts, 0) == Ok([]);
    assert PartItems(parts[0], ChapterAfter(parts, 0)) == Ok(RangeItems(c, x, y));
    assert [] + RangeItems(c, x, y) == RangeItems(c, x, y);
    assert Expand(parts, |parts|) == Ok(RangeItems(c, x, y));
  }
}

=== FILE: rejig.dfy ===
/** `rejigAlignment` (src/utils/rejig_alignment.js): every
    ` x-occurrence="O" x-occurrences="N" x-content="C"` becomes ` x-align="C:O:N"`, scanning
    left to right as a global regular-expression replace does. */
module Rejig {
  import opened Base
  import opened Text

  /** The three captured groups: `(\d+)`, `(\d+)` and `([^"]+)`. */
  datatype Attr = Attr(occurrence: string, occurrences: string, content: string)

  const OccurrenceOpen: string := " x-occurrence=\""
  const OccurrencesOpen: string := "\" x-occurrences=\""
  const ContentOpen: string := "\" x-content=\""

  predicate AllDigits(s: string) {
    forall k :: 0 <= k < |s| ==> IsDigit(s[k])
  }

  /** Groups the pattern can capture: non-empty ASCII digit runs and non-empty text
      without `"`. */
  predicate IsAttr(a: Attr) {
    |a.occurrence| > 0 && AllDigits(a.occurrence)
    && |a.occurrences| > 0 && AllDigits(a.occurrences)
    && |a.content| > 0 && '"' !in a.content
  }

  /** The text the pattern matches for these groups. */
  function Attributes(a: Attr): string {
    OccurrenceOpen + OccurrenceTail(a)
  }

  /** The replacement ` x-align="$3:$1:$2"`. */
  function Rewritten(a: Attr): string {
    " x-align=\"" + a.content + ":" + a.occurrence + ":" + a.occurrences + "\""
  }

  // ------------------------------------------------------------------ matching at a position

  /** The longest run of digits at the front of `t`: what greedy `\d+` tries first, and the
      only length after which `"` can follow. */
  function DigitRun(t: string): (r: string)
    ensures r <= t && AllDigits(r)
    ensures |r| == |t| || !IsDigit(t[|r|])
  {
    if |t| == 0 || !IsDigit(t[0]) then ""
    else [t[0]] + DigitRun(t[1..])
  }

  /** The longest run without `"` at the front of `t`, as greedy `[^"]+` takes it. */
  function NonQuoteRun(t: string): (r: string)
    ensures r <= t && '"' !in r
    ensures |r| == |t| || t[|r|] == '"'
  {
    if |t| == 0 || t[0] == '"' then ""
    else [t[0]] + NonQuoteRun(t[1..])
  }

  /** `C"`: the content group and its closing quote. */
  function ContentTail(c: string): string {
    c + "\""
  }

  /** `N" x-content="C"`. */
  function OccurrencesTail(n: string, c: string): string {
    n + (ContentOpen + ContentTail(c))
  }

  /** `O" x-occurrences="N" x-content="C"`. */
  function OccurrenceTail(a: Attr): string {
    a.occurrence + (OccurrencesOpen + OccurrencesTail(a.occurrences, a.content))
  }

  /** `([^"]+)"` at the front of `t`: the content group, when a `"` closes it. */
  function MatchContent(t: string): (r: Option<string>)
    ensures r.Some? ==> |r.value| > 0 && '"' !in r.value && ContentTail(r.value) <= t
  {
    var c := NonQuoteRun(t);
    if c == "" || |c| == |t| then None
    else
      assert t[..|c| + 1] == c + "\"" by {
        assert t[..|c|] == c;
      }
      Some(c)
  }

  /** `(\d+)" x-content="([^"]+)"` at the front of `t`. */
  function MatchOccurrences(t: string): (r: Option<(string, string)>)
    ensures r.Some? ==> |r.value.0| > 0 && AllDigits(r.value.0) && |r.value.1| > 0 && '"' !in r.value.1
    ensures r.Some? ==> OccurrencesTail(r.value.0, r.value.1) <= t
  {
    var n := DigitRun(t);
    var t4 := t[|n|..];
    if n == "" || !(ContentOpen <= t4) then None
    else match MatchContent(t4[|ContentOpen|..])
      case None => None
      case Some(c) =>
        PrefixThen(ContentOpen, ContentTail(c), t4);
        PrefixThen(n, ContentOpen + ContentTail(c), t);
        Some((n, c))
  }

  /** `(\d+)" x-occurrences="(\d+)" x-content="([^"]+)"` at the front of `t`. */
  function MatchOccurrence(t: string): (r: Option<Attr>)
    ensures r.Some? ==> IsAttr(r.value) && OccurrenceTail(r.value) <= t
  {
    var o := DigitRun(t);
    var t2 := t[|o|..];
    if o == "" || !(OccurrencesOpen <= t2) then None
    else match MatchOccurrences(t2[|OccurrencesOpen|..])
      case None => None
      case Some((n, c)) =>
        PrefixThen(OccurrencesOpen, OccurrencesTail(n, c), t2);
        PrefixThen(o, OccurrencesOpen + OccurrencesTail(n, c), t);
        Some(Attr(o, n, c))
  }

  /** The match of the pattern at the front of `t`, if any: what it captures, and the text
      it consumes is `Attributes` of that. */
  function MatchPrefix(t: string): (r: Option<Attr>)
    ensures r.Some? ==> IsAttr(r.value) && Attributes(r.value) <= t
  {
    if !(OccurrenceOpen <= t) then None
    else match MatchOccurrence(t[|OccurrenceOpen|..])
      case None => None
      case Some(a) =>
        PrefixThen(OccurrenceOpen, OccurrenceTail(a), t);
        Some(a)
  }

  /** Two prefixes in a row make a prefix. */
  lemma PrefixThen(x: string, y: string, t: string)
    requires x <= t && y <= t[|x|..]
    ensures x + y <= t
  {
    assert t[..|x| + |y|] == x + y by {
      assert t[..|x|] == x;
      assert t[|x|..][..|y|] == y;
    }
  }

  /** A digit run stops at the first non-digit. */
  lemma {:induction false} DigitRunOf(d: string, rest: string)
    requires AllDigits(d) && |rest| > 0 && !IsDigit(rest[0])
    ensures DigitRun(d + rest) == d
    decreases |d|
  {
    if |d| > 0 {
      assert (d + rest)[1..] == d[1..] + rest;
      DigitRunOf(d[1..], rest);
    } else {
      assert d + rest == rest;
    }
  }

  /** A run without `"` stops at the first `"`. */
  lemma {:induction false} NonQuoteRunOf(c: string, rest: string)
    requires '"' !in c && |rest| > 0 && rest[0] == '"'
    ensures NonQuoteRun(c + rest) == c
    decreases |c|
  {
    if |c| > 0 {
      assert (c + rest)[1..] == c[1..] + rest;
      NonQuoteRunOf(c[1..], rest);
    } else {
      assert c + rest == rest;
    }
  }

  /** Splitting off a literal prefix leaves the rest. */
  lemma DropPrefix(x: string, y: string, rest: string)
    ensures (x + y) + rest == x + (y + rest)
    ensures (x + (y + rest))[|x|..] == y + rest
  {
  }

  lemma ContentComplete(c: string, rest: string)
    requires |c| > 0 && '"' !in c
    ensures MatchContent(ContentTail(c) + rest) == Some(c)
  {
    DropPrefix(c, "\"", rest);
    NonQuoteRunOf(c, "\"" + rest);
  }

  lemma OccurrencesComplete(n: string, c: string, rest: string)
    requires |n| > 0 && AllDigits(n) && |c| > 0 && '"' !in c
    ensures MatchOccurrences(OccurrencesTail(n, c) + rest) == Some((n, c))
  {
    var t4 := ContentOpen + (ContentTail(c) + rest);
    assert OccurrencesTail(n, c) + rest == n + t4 by {
      DropPrefix(n, ContentOpen + ContentTail(c), rest);
      DropPrefix(ContentOpen, ContentTail(c), rest);
    }
    DigitRunOf(n, t4);
    DropPrefix(n, t4, "");
    assert (n + t4)[|n|..] == t4;
    DropPrefix(ContentOpen, ContentTail(c), rest);
    ContentComplete(c, rest);
  }

  lemma OccurrenceComplete(a: Attr, rest: string)
    requires IsAttr(a)
    ensures MatchOccurrence(OccurrenceTail(a) + rest) == Some(a)
  {
    var tail := OccurrencesTail(a.occurrences, a.content);
    var t2 := OccurrencesOpen + (tail + rest);
    assert OccurrenceTail(a) + rest == a.occurrence + t2 by {
      DropPrefix(a.occurrence, OccurrencesOpen + tail, rest);
      DropPrefix(OccurrencesOpen, tail, rest);
    }
    DigitRunOf(a.occurrence, t2);
    assert (a.occurrence + t2)[|a.occurrence|..] == t2;
    DropPrefix(OccurrencesOpen, tail, rest);
    OccurrencesComplete(a.occurrences, a.content, rest);
  }

  /** Text that begins with the attributes of valid groups matches with exactly those
      groups. */
  lemma MatchComplete(a: Attr, rest: string)
    requires IsAttr(a)
    ensures MatchPrefix(Attributes(a) + rest) == Some(a)
  {
    DropPrefix(OccurrenceOpen, OccurrenceTail(a), rest);
    OccurrenceComplete(a, rest);
  }

  // ------------------------------------------------------------------ the global replace

  /** `rejigAlignment(s)`: at each position, a match is replaced and skipped; otherwise one
      character is kept and the scan moves on. */
  function Rejig(s: string): string
    decreases |s|
  {
    if |s| == 0 then ""
    else match MatchPrefix(s)
      case Some(a) =>
        Rewritten(a) + Rejig(s[|Attributes(a)|..])
      case None => [s[0]] + Rejig(s[1..])
  }

  /** No match starts anywhere in `x` when the rest of the text follows it. */
  predicate NoMatchIn(x: string, rest: string)
    decreases |x|
  {
    |x| == 0 || (MatchPrefix(x + rest).None? && NoMatchIn(x[1..], rest))
  }

  /** Where no match starts, one character is copied and the scan moves on. */
  lemma RejigSkip(s: string)
    requires |s| > 0 && MatchPrefix(s).None?
    ensures Rejig(s) == [s[0]] + Rejig(s[1..])
  {
  }

  /** The first character of `x` is copied, and no match starts in the rest of `x`. */
  lemma NoMatchStep(x: string, rest: string)
    requires |x| > 0 && NoMatchIn(x, rest)
    ensures Rejig(x + rest) == [x[0]] + Rejig(x[1..] + rest)
    ensures NoMatchIn(x[1..], rest)
  {
    var s := x + rest;
    RejigSkip(s);
    assert s[1..] == x[1..] + rest;
  }

  lemma ConsAppend(x: string, t: string)
    requires |x| > 0
    ensures [x[0]] + (x[1..] + t) == x + t
  {
    assert x == [x[0]] + x[1..];
  }

  /** Text in which no match starts is copied unchanged. */
  lemma {:induction false} RejigKeeps(x: string, rest: string)
    requires NoMatchIn(x, rest)
    ensures Rejig(x + rest) == x + Rejig(rest)
    decreases |x|
  {
    if |x| > 0 {
      NoMatchStep(x, rest);
      RejigKeeps(x[1..], rest);
      ConsAppend(x, Rejig(rest));
    } else {
      assert x + rest == rest;
    }
  }

  /** A match is rewritten and the scan resumes right after it. */
  lemma RejigRewrites(a: Attr, rest: string)
    requires IsAttr(a)
    ensures Rejig(Attributes(a) + rest) == Rewritten(a) + Rejig(rest)
  {
    MatchComplete(a, rest);
    assert (Attributes(a) + rest)[|Attributes(a)|..] == rest;
  }

  /** Input without ` x-occurrence="` is returned unchanged. */
  lemma {:induction false} RejigNoMatch(s: string)
    requires !Contains(s, OccurrenceOpen)
    ensures Rejig(s) == s
    decreases |s|
  {
    if |s| > 0 {
      assert MatchPrefix(s).None? by {
        assert !OccursAt(s, OccurrenceOpen, 0);
      }
      assert !Contains(s[1..], OccurrenceOpen) by {
        if Contains(s[1..], OccurrenceOpen) {
          var j := IndexOf(s[1..], OccurrenceOpen);
          assert s[1..][j..j + |OccurrenceOpen|] == s[j + 1..j + 1 + |OccurrenceOpen|];
          assert OccursAt(s, OccurrenceOpen, j + 1);
        }
      }
      RejigSkip(s);
      RejigNoMatch(s[1..]);
      assert s == [s[0]] + s[1..];
    }
  }

  /** A space-free text cannot start a match: the pattern begins with a space. */
  lemma {:induction false} SpaceFreeNoMatch(x: string, rest: string)
    requires ' ' !in x
    ensures NoMatchIn(x, rest)
    decreases |x|
  {
    if |x| > 0 {
      assert MatchPrefix(x + rest).None? by {
        assert (x + rest)[0] == x[0];
      }
      assert x[1..] + rest == (x + rest)[1..];
      SpaceFreeNoMatch(x[1..], rest);
    }
  }

  // ------------------------------------------------------------------ whole documents

  /** Texts interleaved with attribute triples: `texts[0] attrs[0] texts[1] … texts[n]`. */
  function Interleave(texts: seq<string>, attrs: seq<Attr>, render: Attr -> string): string
    requires |texts| == |attrs| + 1
    decreases |attrs|
  {
    if |attrs| == 0 then texts[0]
    else texts[0] + (render(attrs[0]) + Interleave(texts[1..], attrs[1..], render))
  }

  /** One stretch of space-free text followed by a triple: the text is kept and the triple
      rewritten. */
  lemma DocumentStep(x: string, a: Attr, tail: string)
    requires ' ' !in x && IsAttr(a)
    ensures Rejig(x + (Attributes(a) + tail)) == x + (Rewritten(a) + Rejig(tail))
  {
    SpaceFreeNoMatch(x, Attributes(a) + tail);
    RejigKeeps(x, Attributes(a) + tail);
    RejigRewrites(a, tail);
  }

  /** Every triple is rewritten, in order, and the text around them is kept, provided the
      surrounding text holds no space (so no other match can start in it). */
  lemma {:induction false} RejigDocument(texts: seq<string>, attrs: seq<Attr>)
    requires |texts| == |attrs| + 1
    requires forall k :: 0 <= k < |attrs| ==> IsAttr(attrs[k])
    requires forall k :: 0 <= k < |texts| ==> ' ' !in texts[k]
    ensures Rejig(Interleave(texts, attrs, Attributes)) == Interleave(texts, attrs, Rewritten)
    decreases |attrs|
  {
    if |attrs| == 0 {
      SpaceFreeNoMatch(texts[0], "");
      RejigKeeps(texts[0], "");
      assert texts[0] + "" == texts[0];
    } else {
      var tail := Interleave(texts[1..], attrs[1..], Attributes);
      DocumentStep(texts[0], attrs[0], tail);
      RejigDocument(texts[1..], attrs[1..]);
    }
  }
}

=== FILE: resolver.dfy ===
/** The resolver the TSV row drivers call per verse, and the loop over verses in which the
    first verse that resolves wins (src/core/tsvQuoteConverters.js). */
module Resolver {
  import opened Base
  import opened Tokens
  import Projection

  /** What one resolver call ends in: a quote with its occurrence, a throw, or a call that
      never returns. */
  datatype Attempt = Found(quote: string, occurrence: int) | Failed | Loops

  /** A resolver: source tokens, target tokens (either may be `undefined`), the quote and the
      first group's occurrence (`None` is `NaN`). */
  type Resolve = (Option<seq<Token>>, Option<seq<Token>>, string, Option<int>) -> Attempt

  /** The same resolver with source and target exchanged. */
  function Swapped(resolve: Resolve): (r: Resolve)
    ensures forall s, t, q, o :: r(s, t, q, o) == resolve(t, s, q, o)
  {
    (s, t, q, o) => resolve(t, s, q, o)
  }

  /** `getAlignedQuote` as the TSV7/TSV9 drivers call it. An undefined source throws at
      `sourceTokens.length`; an undefined target throws at `targetTokens.length` once the
      groups are found; `NaN` is never equal to a count, so it behaves as an occurrence
      below 1. */
  function AlignedQuoteAttempt(source: Option<seq<Token>>, target: Option<seq<Token>>, quote: string, occurrence: Option<int>): (r: Attempt)
    ensures source.None? ==> r == Failed
    ensures occurrence.None? || occurrence.value < 1 ==> !r.Found?
    ensures r.Found? ==> target.Some?
    ensures r.Found? ==> Projection.GetAlignedQuote(source.value, target.value, quote, occurrence.value) == Projection.Resolved(r.quote, r.occurrence)
    ensures r.Loops? ==> source.Some? && Projection.GetAlignedQuote(source.value, [], quote, occurrence.GetOr(0)).Diverges?
  {
    if source.None? then Failed
    else
      match Projection.GetAlignedQuote(source.value, target.GetOr([]), quote, occurrence.GetOr(0))
      case Diverges => Loops
      case Thrown(_) => Failed
      case Resolved(q, o) => if target.None? then Failed else Found(q, o)
  }

  // ------------------------------------------------------------------ first success wins

  /** One verse of the loop: a lookup outside the `try` throws, or the resolver is called. */
  datatype Step = Crash | Tried(attempt: Attempt)

  /** How the loop over a record's verses ends. */
  datatype Verdict =
    | NoVerses
    | Success(index: nat, quote: string, occurrence: int)
    | AllFailed
    | Crashed(index: nat)
    | Looped(index: nat)

  /** Every verse in `[from, to)` was tried and its resolver call threw. */
  predicate FailedBetween(steps: seq<Step>, from: nat, to: nat)
    requires to <= |steps|
  {
    forall j :: from <= j < to ==> steps[j] == Tried(Failed)
  }

  /** The loop from verse `i` on: a failure moves to the next verse, anything else ends it. */
  function ScanFrom(steps: seq<Step>, i: nat): (r: Verdict)
    requires i <= |steps|
    ensures !r.NoVerses?
    ensures r.AllFailed? ==> FailedBetween(steps, i, |steps|)
    ensures r.Success? ==> i <= r.index < |steps| && steps[r.index] == Tried(Found(r.quote, r.occurrence)) && FailedBetween(steps, i, r.index)
    ensures r.Crashed? ==> i <= r.index < |steps| && steps[r.index] == Crash && FailedBetween(steps, i, r.index)
    ensures r.Looped? ==> i <= r.index < |steps| && steps[r.index] == Tried(Loops) && FailedBetween(steps, i, r.index)
    decreases |steps| - i
  {
    if i == |steps| then AllFailed
    else
      match steps[i]
      case Crash => Crashed(i)
      case Tried(Loops) => Looped(i)
      case Tried(Found(q, o)) => Success(i, q, o)
      case Tried(Failed) => ScanFrom(steps, i + 1)
  }

  /** `for (const verseIdx in verses)` with its `break` on success and its failure line on
      the last verse. */
  function FirstSuccess(steps: seq<Step>): (r: Verdict)
    ensures r.NoVerses? <==> |steps| == 0
    ensures r.AllFailed? ==> FailedBetween(steps, 0, |steps|)
    ensures r.Success? ==> r.index < |steps| && steps[r.index] == Tried(Found(r.quote, r.occurrence)) && FailedBetween(steps, 0, r.index)
    ensures r.Crashed? ==> r.index < |steps| && steps[r.index] == Crash && FailedBetween(steps, 0, r.index)
    ensures r.Looped? ==> r.index < |steps| && steps[r.index] == Tried(Loops) && FailedBetween(steps, 0, r.index)
  {
    if |steps| == 0 then NoVerses else ScanFrom(steps, 0)
  }

  /** The verdict a verse that did not fail gives. */
  function Ending(k: nat, s: Step): Verdict {
    match s
    case Crash => Crashed(k)
    case Tried(Loops) => Looped(k)
    case Tried(Found(q, o)) => Success(k, q, o)
    case Tried(Failed) => AllFailed
  }

  lemma {:induction false} ScanStopsAt(steps: seq<Step>, i: nat, k: nat)
    requires i <= k < |steps| && FailedBetween(steps, i, k) && steps[k] != Tried(Failed)
    ensures ScanFrom(steps, i) == Ending(k, steps[k])
    decreases k - i
  {
    if i < k {
      assert steps[i] == Tried(Failed);
      ScanStopsAt(steps, i + 1, k);
    }
  }

  lemma {:induction false} ScanExhausts(steps: seq<Step>, i: nat)
    requires i <= |steps| && FailedBetween(steps, i, |steps|)
    ensures ScanFrom(steps, i) == AllFailed
    decreases |steps| - i
  {
    if i < |steps| {
      assert steps[i] == Tried(Failed);
      ScanExhausts(steps, i + 1);
    }
  }

  /** The first verse that does not fail decides: its result wins, and the verses after it
      are never looked at. */
  lemma FirstSuccessWins(steps: seq<Step>, k: nat)
    requires k < |steps| && FailedBetween(steps, 0, k) && steps[k] != Tried(Failed)
    ensures FirstSuccess(steps) == Ending(k, steps[k])
  {
    ScanStopsAt(steps, 0, k);
  }

  /** The loop reports a failure exactly when there are verses and every one of them
      failed. */
  lemma AllFailedExactly(steps: seq<Step>)
    ensures FirstSuccess(steps).AllFailed? <==> |steps| > 0 && FailedBetween(steps, 0, |steps|)
  {
    if |steps| > 0 && FailedBetween(steps, 0, |steps|) {
      ScanExhausts(steps, 0);
    }
  }

  /** Only the verses up to the deciding one matter: changing later verses changes nothing. */
  lemma LaterVersesIgnored(steps: seq<Step>, more: seq<Step>, k: nat)
    requires k < |steps| && FailedBetween(steps, 0, k) && steps[k] != Tried(Failed)
    ensures FirstSuccess(steps + more) == FirstSuccess(steps)
  {
    FirstSuccessWins(steps, k);
    assert FailedBetween(steps + more, 0, k) by {
      assert forall j :: 0 <= j < k ==> (steps + more)[j] == steps[j];
    }
    FirstSuccessWins(steps + more, k);
  }
}

=== FILE: row_verses.dfy ===
/** Verse lists, lookup keys and token gathering shared by the three TSV row drivers
    (src/core/tsvQuoteConverters.js, src/core/addGLQuoteCols.js and
    src/core/convertGLQuotes2OLQuotes.js). */
module RowVerses {
  import opened Base
  import opened Text
  import opened Tokens
  import opened AlignmentQuery

  /** The testament of the book being converted, which picks the original-language Bible. */
  datatype Testament = Old | New

  // ------------------------------------------------------------------ verse lists

  /** `for (let i = parseInt(a); i <= parseInt(b); i++)`: the numbers from `a` up to `b`,
      none when a bound is `NaN` or `a > b`. */
  function RangeNumbers(a: Option<int>, b: Option<int>): (r: seq<int>)
    ensures forall k :: 0 <= k < |r| ==> a.Some? && r[k] == a.value + k
  {
    if a.Some? && b.Some? && a.value <= b.value then seq(b.value - a.value + 1, k => a.value + k)
    else []
  }

  /** A number is listed exactly when both bounds are numbers and it lies between them. */
  lemma RangeMembers(a: Option<int>, b: Option<int>, i: int)
    ensures i in RangeNumbers(a, b) <==> a.Some? && b.Some? && a.value <= i <= b.value
  {
    if a.Some? && b.Some? && a.value <= i <= b.value {
      assert RangeNumbers(a, b)[i - a.value] == i;
    }
  }

  /** One comma part of the verse text: a range, or a single verse as written. */
  datatype VersePart = Span(first: Option<int>, last: Option<int>) | Lone(text: string)

  /** How the drivers read a comma part: when it contains `-`, the trimmed part is split on
      `-` and its first two pieces are read with `parseInt`; otherwise it stays as it is,
      untrimmed. */
  function ReadPart(part: string): (r: VersePart)
    ensures r.Lone? <==> '-' !in part
    ensures r.Lone? ==> r.text == part
  {
    if '-' in part then
      var range := Split(Trim(part), "-");
      if |range| > 1 then Span(ParseInt(range[0]), ParseInt(range[1])) else Span(None, None)
    else Lone(part)
  }

  /** The `verseRange.length > 1` test never fails, since trimming keeps the `-`: a part
      with `-` is always read as the range of its first two pieces. */
  lemma RangeTestHolds(part: string)
    requires '-' in part
    ensures |Split(Trim(part), "-")| > 1
    ensures ReadPart(part) == Span(ParseInt(Split(Trim(part), "-")[0]), ParseInt(Split(Trim(part), "-")[1]))
  {
    TrimChars(part, '-');
    SplitOnChar(Trim(part), '-');
  }

  /** `verseRef.trim().split(',')`, each part read: part k is a single verse exactly when the
      k-th comma part has no `-`, and then it holds that comma part untrimmed. */
  function VerseParts(verseRef: string): (r: seq<VersePart>)
    ensures |r| == |Split(Trim(verseRef), ",")|
    ensures forall k :: 0 <= k < |r| ==> (r[k].Lone? <==> '-' !in Split(Trim(verseRef), ",")[k])
    ensures forall k :: 0 <= k < |r| && r[k].Lone? ==> r[k].text == Split(Trim(verseRef), ",")[k]
  {
    var parts := Split(Trim(verseRef), ",");
    seq(|parts|, k requires 0 <= k < |parts| => ReadPart(parts[k]))
  }

  /** Without a `-` every part is a single verse, and their texts joined by `,` give the
      trimmed reference back. */
  lemma VersePartsWithoutRange(verseRef: string)
    requires '-' !in verseRef
    ensures var parts := Split(Trim(verseRef), ",");
      Join(parts, ",") == Trim(verseRef)
      && forall k :: 0 <= k < |parts| ==> VerseParts(verseRef)[k] == Lone(parts[k])
  {
    var parts := Split(Trim(verseRef), ",");
    JoinSplit(Trim(verseRef), ",");
    forall k | 0 <= k < |parts|
      ensures '-' !in parts[k]
    {
      if '-' in parts[k] {
        SplitPieceChars(Trim(verseRef), ",", k, '-');
        TrimChars(verseRef, '-');
      }
    }
  }

  /** The verse numbers one part contributes, `NaN` being `None`. */
  function PartNumbers(p: VersePart): (r: seq<Option<int>>)
    ensures p.Lone? ==> r == [ParseInt(p.text)]
    ensures p.Span? ==> |r| == |RangeNumbers(p.first, p.last)|
    ensures p.Span? ==> forall k :: 0 <= k < |r| ==> r[k] == Some(RangeNumbers(p.first, p.last)[k])
  {
    match p
    case Lone(t) => [ParseInt(t)]
    case Span(a, b) =>
      var ns := RangeNumbers(a, b);
      seq(|ns|, k requires 0 <= k < |ns| => Some(ns[k]))
  }

  /** The `verses` list the TSV7/TSV9 drivers build: ranges expanded, single parts read with
      `parseInt`, in the order of the parts. */
  function VerseNumbers(ps: seq<VersePart>): (r: seq<Option<int>>)
    decreases |ps|
  {
    if |ps| == 0 then [] else PartNumbers(ps[0]) + VerseNumbers(ps[1..])
  }

  /** A verse as `${verse}` prints it. */
  function VerseLabel(v: Option<int>): string {
    match v
    case Some(i) => IntToString(i)
    case None => "NaN"
  }

  /** `${chapter}:${verse}`. */
  function CvKey(chapter: string, v: Option<int>): string {
    chapter + ":" + VerseLabel(v)
  }

  function CvKeys(chapter: string, vs: seq<Option<int>>): (r: seq<string>)
    ensures |r| == |vs|
    ensures forall k :: 0 <= k < |vs| ==> r[k] == CvKey(chapter, vs[k])
  {
    seq(|vs|, k requires 0 <= k < |vs| => CvKey(chapter, vs[k]))
  }

  /** The keys the GL drivers look up for one part: `${chapter}:${i}` along a range, and
      `${chapter}:${commaPart}` with the part untrimmed otherwise. */
  function PartKeys(chapter: string, p: VersePart): (r: seq<string>)
    ensures p.Lone? ==> r == [chapter + ":" + p.text]
    ensures p.Span? ==> r == CvKeys(chapter, PartNumbers(p))
  {
    match p
    case Lone(t) => [chapter + ":" + t]
    case Span(_, _) => CvKeys(chapter, PartNumbers(p))
  }

  function VerseKeys(chapter: string, ps: seq<VersePart>): seq<string>
    decreases |ps|
  {
    if |ps| == 0 then [] else PartKeys(chapter, ps[0]) + VerseKeys(chapter, ps[1..])
  }

  lemma CvKeysAppend(chapter: string, a: seq<Option<int>>, b: seq<Option<int>>)
    ensures CvKeys(chapter, a + b) == CvKeys(chapter, a) + CvKeys(chapter, b)
  {
  }

  /** A single part written as a plain numeral. */
  predicate NumeralPart(p: VersePart) {
    p.Lone? ==> IsCanonicalNumeral(p.text)
  }

  /** A plain numeral, read with `parseInt` and printed again, is itself. */
  lemma NumeralLabel(t: string)
    requires IsCanonicalNumeral(t)
    ensures VerseLabel(ParseInt(t)) == t
  {
    ParseCanonicalNumeral(t);
    CanonicalNumeralRoundTrip(t);
  }

  /** When every single part is a plain numeral, the keys the GL drivers look up are the keys
      of the verse numbers the TSV7/TSV9 drivers build: the two readings agree. */
  lemma {:induction false} KeysAgree(chapter: string, ps: seq<VersePart>)
    requires forall k :: 0 <= k < |ps| ==> NumeralPart(ps[k])
    ensures VerseKeys(chapter, ps) == CvKeys(chapter, VerseNumbers(ps))
    decreases |ps|
  {
    if |ps| > 0 {
      assert NumeralPart(ps[0]);
      KeysAgree(chapter, ps[1..]);
      CvKeysAppend(chapter, PartNumbers(ps[0]), VerseNumbers(ps[1..]));
      if ps[0].Lone? {
        NumeralLabel(ps[0].text);
      }
    }
  }

  /** A single part with a space in front, as in `1, 3`, reads as verse 3 for the TSV7/TSV9
      drivers but as the key `c: 3` for the GL drivers. */
  lemma UntrimmedPartKey(chapter: string, t: string)
    requires IsCanonicalNumeral(t)
    ensures CvKeys(chapter, PartNumbers(Lone(" " + t))) == [chapter + ":" + t]
    ensures PartKeys(chapter, Lone(" " + t)) == [chapter + ": " + t]
  {
    SpaceBeforeNumeral(t);
    NumeralLabel(t);
    assert PartNumbers(Lone(" " + t)) == [ParseInt(t)];
    ColonSpace(chapter, t);
  }

  lemma ColonSpace(chapter: string, t: string)
    ensures chapter + ":" + (" " + t) == chapter + ": " + t
  {
    assert ":" + " " == ": ";
    AppendAssoc(chapter, ":", " ");
    AppendAssoc(chapter + ":", " ", t);
  }

  /** `parseInt` skips a leading space. */
  lemma SpaceBeforeNumeral(t: string)
    requires IsCanonicalNumeral(t)
    ensures ParseInt(" " + t) == ParseInt(t)
  {
    var s := " " + t;
    assert s[1..] == t;
    assert LeadingSpaces(s) == 1 + LeadingSpaces(t);
    TrimStartUnchanged(t);
    assert TrimStart(s) == t;
  }

  // ------------------------------------------------------------------ token lookups

  /** What reading `lookup[repo][book][cv]` gives: a throw, or the verse's tokens, `None`
      when the verse is not listed. */
  datatype Fetch = Threw | Fetched(tokens: Option<seq<Token>>)

  /** `source[book][cv]` with no optional chaining: a missing repository or book throws. */
  function FetchStrict(lookup: TokenLookup, repo: string, book: string, cv: string): (r: Fetch)
    ensures r.Threw? <==> repo !in lookup || book !in lookup[repo]
    ensures r.Fetched? ==> (r.tokens.Some? <==> cv in lookup[repo][book])
    ensures r.Fetched? && r.tokens.Some? ==> r.tokens.value == lookup[repo][book][cv]
  {
    if repo !in lookup || book !in lookup[repo] then Threw
    else if cv in lookup[repo][book] then Fetched(Some(lookup[repo][book][cv]))
    else Fetched(None)
  }

  /** `tokenLookup.ult?.[book][cv]`: a missing repository gives `undefined`, but a present
      repository without the book still throws. */
  function FetchOptional(lookup: TokenLookup, repo: string, book: string, cv: string): (r: Fetch)
    ensures repo !in lookup ==> r == Fetched(None)
  {
    if repo !in lookup then Fetched(None) else FetchStrict(lookup, repo, book, cv)
  }

  /** The optional chain differs from the strict read only for a missing repository. */
  lemma FetchOptionalThrows(lookup: TokenLookup, repo: string, book: string, cv: string)
    ensures FetchOptional(lookup, repo, book, cv).Threw? <==> repo in lookup && book !in lookup[repo]
    ensures repo in lookup ==> FetchOptional(lookup, repo, book, cv) == FetchStrict(lookup, repo, book, cv)
  {
  }

  /** `tokens.push(...tokenLookup[repo]?.[book][key])` for each key in turn. Spreading
      `undefined` throws (`None`), so gathering succeeds only when every key is present;
      with no key nothing is looked up at all. */
  function Gather(lookup: TokenLookup, repo: string, book: string, keys: seq<string>): (r: Option<seq<Token>>)
    ensures r.Some? <==> |keys| == 0 || (repo in lookup && book in lookup[repo] && forall k :: 0 <= k < |keys| ==> keys[k] in lookup[repo][book])
    decreases |keys|
  {
    if |keys| == 0 then Some([])
    else if repo in lookup && book in lookup[repo] && keys[0] in lookup[repo][book] then
      var rest := Gather(lookup, repo, book, keys[1..]);
      assert forall k :: 0 <= k < |keys| - 1 ==> keys[1..][k] == keys[k + 1];
      if rest.None? then None else Some(lookup[repo][book][keys[0]] + rest.value)
    else None
  }

  /** Gathering one key gives that verse's tokens. */
  lemma GatherOne(lookup: TokenLookup, repo: string, book: string, key: string)
    requires repo in lookup && book in lookup[repo] && key in lookup[repo][book]
    ensures Gather(lookup, repo, book, [key]) == Some(lookup[repo][book][key])
  {
    assert [key][1..] == [];
    assert lookup[repo][book][key] + [] == lookup[repo][book][key];
  }

  /** Gathering a list of keys is gathering each half and concatenating, in reference order. */
  lemma {:induction false} GatherAppend(lookup: TokenLookup, repo: string, book: string, a: seq<string>, b: seq<string>)
    requires Gather(lookup, repo, book, a).Some? && Gather(lookup, repo, book, b).Some?
    ensures Gather(lookup, repo, book, a + b) == Some(Gather(lookup, repo, book, a).value + Gather(lookup, repo, book, b).value)
    decreases |a|
  {
    if |a| == 0 {
      assert a + b == b;
      assert [] + Gather(lookup, repo, book, b).value == Gather(lookup, repo, book, b).value;
    } else {
      assert (a + b)[1..] == a[1..] + b;
      assert (a + b)[0] == a[0];
      assert Gather(lookup, repo, book, a[1..]).Some?;
      GatherAppend(lookup, repo, book, a[1..], b);
      AppendAssoc(lookup[repo][book][a[0]], Gather(lookup, repo, book, a[1..]).value, Gather(lookup, repo, book, b).value);
    }
  }
}

=== FILE: search.dfy ===
/** `searchWordRecords` and `contentForSearchWords` (src/utils/search.js): the legacy search
    of an original-language quote, with `…` standing for any run of skipped words. */
module Search {
  import opened Base
  import opened Text
  import opened Tokens

  const Ellipsis: string := "\U{2026}"
  const Paseq: string := "\U{5C0}"

  /** One entry of a search list: a word, and whether an ellipsis comes before it. */
  datatype SearchTuple = SearchTuple(word: string, followsEllipsis: bool)

  /** The class `[\s־]`: white space and the Hebrew maqaf. */
  predicate IsSearchSeparator(c: char) {
    IsSpace(c) || c == '\U{5BE}'
  }

  /** The class `[,’?;.!׃]`. */
  predicate IsSearchPunctuation(c: char) {
    c == ',' || c == '\U{2019}' || c == '?' || c == ';' || c == '.' || c == '!' || c == '\U{5C3}'
  }

  /** The tuples one piece contributes: the text before the first ellipsis unflagged, every
      later part flagged as following an ellipsis. */
  function EllipsisTuples(piece: string): (r: seq<SearchTuple>)
    ensures |r| >= 1 && !r[0].followsEllipsis
    ensures forall k :: 1 <= k < |r| ==> r[k].followsEllipsis
    ensures forall k :: 0 <= k < |r| ==> !Contains(r[k].word, Ellipsis)
    ensures |r| > 1 <==> Contains(piece, Ellipsis)
  {
    if Contains(piece, Ellipsis) then
      var parts := Split(piece, Ellipsis);
      assert |parts| > 1 by {
        if |parts| == 1 {
          JoinSplit(piece, Ellipsis);
        }
      }
      [SearchTuple(parts[0], false)]
      + seq(|parts| - 1, k requires 0 <= k < |parts| - 1 => SearchTuple(parts[k + 1], true))
    else [SearchTuple(piece, false)]
  }

  function TupleWords(ts: seq<SearchTuple>): (r: seq<string>)
    ensures |r| == |ts|
    ensures forall k :: 0 <= k < |ts| ==> r[k] == ts[k].word
  {
    seq(|ts|, k requires 0 <= k < |ts| => ts[k].word)
  }

  /** Joining a piece's words with the ellipsis gives the piece back. */
  lemma EllipsisTuplesRoundTrip(piece: string)
    ensures Join(TupleWords(EllipsisTuples(piece)), Ellipsis) == piece
  {
    if Contains(piece, Ellipsis) {
      var parts := Split(piece, Ellipsis);
      assert TupleWords(EllipsisTuples(piece)) == parts;
      JoinSplit(piece, Ellipsis);
    }
  }

  /** The tuples of every piece, in order. */
  function PiecesTuples(pieces: seq<string>): seq<SearchTuple> {
    if |pieces| == 0 then [] else EllipsisTuples(pieces[0]) + PiecesTuples(pieces[1..])
  }

  /** `filter(t => t[0] !== '׀')`: exactly the tuples whose word is not the paseq survive;
      `DropPaseqConcat` adds that they keep their order. */
  function DropPaseq(ts: seq<SearchTuple>): (r: seq<SearchTuple>)
    ensures |r| <= |ts|
    ensures forall k :: 0 <= k < |r| ==> r[k].word != Paseq && r[k] in ts
    ensures forall k :: 0 <= k < |ts| && ts[k].word != Paseq ==> ts[k] in r
    ensures (forall k :: 0 <= k < |ts| ==> ts[k].word != Paseq) ==> r == ts
  {
    if |ts| == 0 then []
    else
      assert forall k :: 1 <= k < |ts| ==> ts[k] == ts[1..][k - 1];
      assert ts == [ts[0]] + ts[1..];
      (if ts[0].word == Paseq then [] else [ts[0]]) + DropPaseq(ts[1..])
  }

  /** Filtering a concatenation filters each half in place, so the survivors keep their
      order. */
  lemma {:induction false} DropPaseqConcat(a: seq<SearchTuple>, b: seq<SearchTuple>)
    ensures DropPaseq(a + b) == DropPaseq(a) + DropPaseq(b)
    decreases |a|
  {
    if |a| == 0 {
      assert a + b == b;
    } else {
      assert (a + b)[1..] == a[1..] + b;
      DropPaseqConcat(a[1..], b);
    }
  }

  /** Each piece with the first character of `[,’?;.!׃]` removed. */
  function CleanedPieces(pieces: seq<string>): (r: seq<string>)
    ensures |r| == |pieces|
    ensures forall k :: 0 <= k < |pieces| ==> r[k] == RemoveFirstWhere(pieces[k], IsSearchPunctuation)
  {
    seq(|pieces|, k requires 0 <= k < |pieces| => RemoveFirstWhere(pieces[k], IsSearchPunctuation))
  }

  /** `searchWordRecords(origString)`. */
  function SearchWordRecords(origString: string): (r: seq<SearchTuple>)
    ensures forall k :: 0 <= k < |r| ==> r[k].word != Paseq && !Contains(r[k].word, Ellipsis)
  {
    var tuples := PiecesTuples(CleanedPieces(SplitWhere(origString, IsSearchSeparator)));
    assert forall t :: t in tuples ==> !Contains(t.word, Ellipsis) by {
      PiecesTuplesWithoutEllipsis(CleanedPieces(SplitWhere(origString, IsSearchSeparator)));
    }
    DropPaseq(tuples)
  }

  lemma {:induction false} PiecesTuplesWithoutEllipsis(pieces: seq<string>)
    ensures forall t :: t in PiecesTuples(pieces) ==> !Contains(t.word, Ellipsis)
  {
    if |pieces| > 0 {
      PiecesTuplesWithoutEllipsis(pieces[1..]);
    }
  }

  /** A word the search treats as a plain word: no separator, no punctuation it strips, no
      ellipsis and not the paseq. */
  predicate IsPlainSearchWord(w: string) {
    && (forall j :: 0 <= j < |w| ==> !IsSearchSeparator(w[j]) && !IsSearchPunctuation(w[j]))
    && !Contains(w, Ellipsis)
    && w != Paseq
  }

  function Unflagged(ws: seq<string>): (r: seq<SearchTuple>)
    ensures |r| == |ws|
    ensures forall k :: 0 <= k < |ws| ==> r[k] == SearchTuple(ws[k], false)
  {
    seq(|ws|, k requires 0 <= k < |ws| => SearchTuple(ws[k], false))
  }

  lemma {:induction false} PlainPiecesTuples(ws: seq<string>)
    requires forall k :: 0 <= k < |ws| ==> IsPlainSearchWord(ws[k])
    ensures CleanedPieces(ws) == ws
    ensures DropPaseq(PiecesTuples(ws)) == Unflagged(ws)
  {
    forall k | 0 <= k < |ws|
      ensures RemoveFirstWhere(ws[k], IsSearchPunctuation) == ws[k]
    {
      NoneRemoved(ws[k], IsSearchPunctuation);
    }
    if |ws| > 0 {
      PlainPiecesTuples(ws[1..]);
      assert PiecesTuples(ws) == [SearchTuple(ws[0], false)] + PiecesTuples(ws[1..]);
      assert ([SearchTuple(ws[0], false)] + PiecesTuples(ws[1..]))[1..] == PiecesTuples(ws[1..]);
    }
  }

  lemma {:induction false} NoneRemoved(s: string, p: char -> bool)
    requires forall j :: 0 <= j < |s| ==> !p(s[j])
    ensures RemoveFirstWhere(s, p) == s
    decreases |s|
  {
    if |s| > 0 {
      NoneRemoved(s[1..], p);
    }
  }

  /** Plain words separated by single spaces search as themselves, in order, none flagged. */
  lemma SearchPlainWords(ws: seq<string>)
    requires |ws| >= 1 && forall k :: 0 <= k < |ws| ==> IsPlainSearchWord(ws[k])
    ensures SearchWordRecords(Join(ws, " ")) == Unflagged(ws)
  {
    SplitWhereJoin(ws, ' ', IsSearchSeparator);
    PlainPiecesTuples(ws);
  }

  // ------------------------------------------------------------------ contentForSearchWords

  /** One entry of the content: a token's payload and occurrence. */
  datatype ContentEntry = ContentEntry(payload: string, occurrence: nat)

  function Entries(ts: seq<SlimToken>): (r: seq<ContentEntry>)
    ensures |r| == |ts|
    ensures forall k :: 0 <= k < |ts| ==> r[k] == ContentEntry(ts[k].payload, ts[k].occurrence)
  {
    seq(|ts|, k requires 0 <= k < |ts| => ContentEntry(ts[k].payload, ts[k].occurrence))
  }

  /** The inner `lfsw1` as written: the content accumulated so far is passed along. */
  function MatchFrom(tuples: seq<SearchTuple>, tokens: seq<SlimToken>, content: seq<ContentEntry>): Option<seq<ContentEntry>>
    decreases |tokens|
  {
    if |tuples| == 0 then Some(content)
    else if |tokens| == 0 then None
    else if tokens[0].payload == tuples[0].word then
      MatchFrom(tuples[1..], tokens[1..], content + [ContentEntry(tokens[0].payload, tokens[0].occurrence)])
    else if tuples[0].followsEllipsis then
      MatchFrom(tuples, tokens[1..], content + [ContentEntry(tokens[0].payload, tokens[0].occurrence)])
    else None
  }

  /** How many tokens from the front a match of the search list uses: a word must equal the
      next payload, and a word after an ellipsis may first skip any number of tokens. */
  function Consumed(tuples: seq<SearchTuple>, tokens: seq<SlimToken>): (r: Option<nat>)
    ensures r.Some? ==> |tuples| <= r.value <= |tokens|
    decreases |tokens|
  {
    if |tuples| == 0 then Some(0)
    else if |tokens| == 0 then None
    else if tokens[0].payload == tuples[0].word then
      match Consumed(tuples[1..], tokens[1..])
      case Some(m) => Some(m + 1)
      case None => None
    else if tuples[0].followsEllipsis then
      match Consumed(tuples, tokens[1..])
      case Some(m) => Some(m + 1)
      case None => None
    else None
  }

  /** `lfsw1` returns the accumulated content followed by the entries of exactly the tokens a
      match uses, and fails exactly when there is no match. */
  lemma {:induction false} MatchFromConsumes(tuples: seq<SearchTuple>, tokens: seq<SlimToken>, content: seq<ContentEntry>)
    ensures MatchFrom(tuples, tokens, content).Some? <==> Consumed(tuples, tokens).Some?
    ensures Consumed(tuples, tokens).Some? ==>
      MatchFrom(tuples, tokens, content).value == content + Entries(tokens[..Consumed(tuples, tokens).value])
    decreases |tokens|
  {
    if |tuples| > 0 && |tokens| > 0 {
      var e := ContentEntry(tokens[0].payload, tokens[0].occurrence);
      if tokens[0].payload == tuples[0].word {
        MatchFromConsumes(tuples[1..], tokens[1..], content + [e]);
      } else if tuples[0].followsEllipsis {
        MatchFromConsumes(tuples, tokens[1..], content + [e]);
      }
      if Consumed(tuples, tokens).Some? {
        var m := Consumed(tuples, tokens).value;
        assert Entries(tokens[..m]) == [e] + Entries(tokens[1..][..m - 1]);
      }
    } else if |tuples| == 0 {
      assert Entries(tokens[..0]) == [];
    }
  }

  /** A match of a non-empty search list ends on a token equal to its last word. */
  lemma {:induction false} ConsumedEndsOnLastWord(tuples: seq<SearchTuple>, tokens: seq<SlimToken>)
    requires |tuples| > 0 && Consumed(tuples, tokens).Some?
    ensures Consumed(tuples, tokens).value >= 1
    ensures tokens[Consumed(tuples, tokens).value - 1].payload == tuples[|tuples| - 1].word
    decreases |tokens|
  {
    if tokens[0].payload == tuples[0].word {
      if |tuples| > 1 {
        ConsumedEndsOnLastWord(tuples[1..], tokens[1..]);
      }
    } else {
      ConsumedEndsOnLastWord(tuples, tokens[1..]);
    }
  }

  /** No tuple follows an ellipsis. */
  predicate NoWildcards(tuples: seq<SearchTuple>) {
    forall k :: 0 <= k < |tuples| ==> !tuples[k].followsEllipsis
  }

  /** Without ellipses a match is exactly the words, payload for payload, at the front. */
  lemma {:induction false} ConsumedWithoutWildcards(tuples: seq<SearchTuple>, tokens: seq<SlimToken>)
    requires NoWildcards(tuples)
    ensures Consumed(tuples, tokens).Some? <==>
      |tuples| <= |tokens| && forall k :: 0 <= k < |tuples| ==> tokens[k].payload == tuples[k].word
    ensures Consumed(tuples, tokens).Some? ==> Consumed(tuples, tokens).value == |tuples|
    decreases |tokens|
  {
    if |tuples| > 0 && |tokens| > 0 {
      assert NoWildcards(tuples[1..]) by {
        forall k | 0 <= k < |tuples[1..]|
          ensures !tuples[1..][k].followsEllipsis
        {
          assert tuples[1..][k] == tuples[k + 1];
        }
      }
      ConsumedWithoutWildcards(tuples[1..], tokens[1..]);
      if tokens[0].payload == tuples[0].word {
        if |tuples| <= |tokens| && forall k :: 0 <= k < |tuples| - 1 ==> tokens[1..][k].payload == tuples[1..][k].word {
          forall k | 0 <= k < |tuples|
            ensures tokens[k].payload == tuples[k].word
          {
            if k > 0 {
              assert tokens[1..][k - 1] == tokens[k];
              assert tuples[1..][k - 1] == tuples[k];
            }
          }
        }
      } else {
        assert !tuples[0].followsEllipsis;
      }
    }
  }

  /** `contentForSearchWords(searchTuples, tokens)`: `null` for no tokens, otherwise the
      content of the first start position where `lfsw1` succeeds. */
  function ContentForSearchWords(tuples: seq<SearchTuple>, tokens: seq<SlimToken>): (r: Option<seq<ContentEntry>>)
    ensures |tokens| == 0 ==> r.None?
    ensures |tokens| > 0 && |tuples| == 0 ==> r == Some([])
    decreases |tokens|
  {
    if |tokens| == 0 then None
    else
      match MatchFrom(tuples, tokens, [])
      case Some(content) => Some(content)
      case None => ContentForSearchWords(tuples, tokens[1..])
  }

  /** `start` is the first position from which the search list matches, and `content` is
      the entries of the tokens that match uses. */
  predicate IsFirstContent(tuples: seq<SearchTuple>, tokens: seq<SlimToken>, start: nat, content: seq<ContentEntry>) {
    && start < |tokens|
    && Consumed(tuples, tokens[start..]).Some?
    && content == Entries(tokens[start..][..Consumed(tuples, tokens[start..]).value])
    && forall s :: 0 <= s < start ==> Consumed(tuples, tokens[s..]).None?
  }

  /** The content is `null` exactly when no start position matches, and otherwise belongs
      to the first one that does. */
  lemma {:induction false} ContentIsFirstMatch(tuples: seq<SearchTuple>, tokens: seq<SlimToken>)
    ensures ContentForSearchWords(tuples, tokens).None? <==>
      forall s :: 0 <= s < |tokens| ==> Consumed(tuples, tokens[s..]).None?
    ensures ContentForSearchWords(tuples, tokens).Some? ==>
      exists start: nat :: IsFirstContent(tuples, tokens, start, ContentForSearchWords(tuples, tokens).value)
    decreases |tokens|
  {
    if |tokens| > 0 {
      MatchFromConsumes(tuples, tokens, []);
      assert tokens[0..] == tokens;
      if Consumed(tuples, tokens).Some? {
        assert [] + Entries(tokens[..Consumed(tuples, tokens).value]) == Entries(tokens[..Consumed(tuples, tokens).value]);
        assert IsFirstContent(tuples, tokens, 0, ContentForSearchWords(tuples, tokens).value);
      } else {
        var rest := tokens[1..];
        ContentIsFirstMatch(tuples, rest);
        forall s | 1 <= s <= |tokens|
          ensures rest[s - 1..] == tokens[s..]
        {
        }
        if ContentForSearchWords(tuples, rest).Some? {
          var content := ContentForSearchWords(tuples, rest).value;
          var start: nat :| IsFirstContent(tuples, rest, start, content);
          assert IsFirstContent(tuples, tokens, start + 1, content);
        }
      }
    }
  }
}

=== FILE: split_string.dfy ===
/** `splitStringBySpaces` (src/splitString.js): every way of grouping the space-separated
    words of a string into consecutive groups, each rendering joined by `" & "`. */
module SplitString {
  import opened Base
  import opened Text

  // ------------------------------------------------------------------ the recursion as written

  /** `generateSplits(start, currentSplit)`: every completion of the groups chosen so far. */
  function GenerateSplits(words: seq<string>, start: nat, current: seq<string>): seq<string>
    requires start <= |words|
    decreases |words| - start, |words| - start + 1
  {
    if start >= |words| then [Join(current, " & ")]
    else SplitLoop(words, start, start, current)
  }

  /** The `for` loop of `generateSplits`: the next group is `words[start..i + 1]`, for `i`
      from its current value to the last word. */
  function SplitLoop(words: seq<string>, start: nat, i: nat, current: seq<string>): seq<string>
    requires start <= i <= |words|
    decreases |words| - start, |words| - i
  {
    if i >= |words| then []
    else
      GenerateSplits(words, i + 1, current + [Join(words[start..i + 1], " ")])
      + SplitLoop(words, start, i + 1, current)
  }

  /** `results.reverse()`. */
  function Reverse<T>(s: seq<T>): (r: seq<T>)
    ensures |r| == |s|
    ensures forall k :: 0 <= k < |s| ==> r[k] == s[|s| - 1 - k]
  {
    if |s| == 0 then [] else Reverse(s[1..]) + [s[0]]
  }

  /** `splitStringBySpaces(str)`. */
  function SplitStringBySpaces(str: string): seq<string> {
    Reverse(GenerateSplits(Split(str, " "), 0, []))
  }

  // ------------------------------------------------------------------ compositions

  /** The ways to cut `ws` into consecutive non-empty chunks, ordered by the length of the
      first chunk and then by the ways to cut the rest. */
  function Compositions(ws: seq<string>): seq<seq<seq<string>>>
    decreases |ws|, 1
  {
    if |ws| == 0 then [[]] else WithFirstChunk(ws, 1)
  }

  /** The compositions of `ws` whose first chunk has length `len` or more. */
  function WithFirstChunk(ws: seq<string>, len: nat): seq<seq<seq<string>>>
    requires 1 <= len
    decreases |ws|, 0, |ws| + 1 - len
  {
    if len > |ws| then []
    else Prepend(ws[..len], Compositions(ws[len..])) + WithFirstChunk(ws, len + 1)
  }

  function Prepend(chunk: seq<string>, cs: seq<seq<seq<string>>>): (r: seq<seq<seq<string>>>)
    ensures |r| == |cs|
    ensures forall k :: 0 <= k < |cs| ==> r[k] == [chunk] + cs[k]
  {
    seq(|cs|, k requires 0 <= k < |cs| => [chunk] + cs[k])
  }

  /** The chunks of a composition, each joined by single spaces. */
  function Groups(c: seq<seq<string>>): (r: seq<string>)
    ensures |r| == |c|
    ensures forall j :: 0 <= j < |c| ==> r[j] == Join(c[j], " ")
  {
    seq(|c|, j requires 0 <= j < |c| => Join(c[j], " "))
  }

  /** Each composition rendered after the groups already chosen. */
  function RenderAll(current: seq<string>, cs: seq<seq<seq<string>>>): (r: seq<string>)
    ensures |r| == |cs|
    ensures forall k :: 0 <= k < |cs| ==> r[k] == Join(current + Groups(cs[k]), " & ")
  {
    seq(|cs|, k requires 0 <= k < |cs| => Join(current + Groups(cs[k]), " & "))
  }

  /** The chunks laid end to end. */
  function Flatten(c: seq<seq<string>>): seq<string> {
    if |c| == 0 then [] else c[0] + Flatten(c[1..])
  }

  /** `c` cuts `ws` into non-empty consecutive chunks. */
  predicate IsComposition(c: seq<seq<string>>, ws: seq<string>) {
    && Flatten(c) == ws
    && forall j :: 0 <= j < |c| ==> |c[j]| > 0
  }

  function Pow2(n: nat): (p: nat)
    ensures p >= 1
  {
    if n == 0 then 1 else 2 * Pow2(n - 1)
  }

  // ------------------------------------------------------------------ the recursion enumerates compositions

  lemma {:induction false} RenderAllConcat(current: seq<string>, a: seq<seq<seq<string>>>, b: seq<seq<seq<string>>>)
    ensures RenderAll(current, a + b) == RenderAll(current, a) + RenderAll(current, b)
  {
    var l := RenderAll(current, a + b);
    var r := RenderAll(current, a) + RenderAll(current, b);
    forall k | 0 <= k < |l|
      ensures l[k] == r[k]
    {
      if k < |a| {
        assert (a + b)[k] == a[k];
      } else {
        assert (a + b)[k] == b[k - |a|];
      }
    }
  }

  /** Rendering compositions that all start with `chunk` is rendering the rest after that
      chunk's group. */
  lemma RenderAllPrepend(current: seq<string>, chunk: seq<string>, cs: seq<seq<seq<string>>>)
    ensures RenderAll(current, Prepend(chunk, cs)) == RenderAll(current + [Join(chunk, " ")], cs)
  {
    var l := RenderAll(current, Prepend(chunk, cs));
    var r := RenderAll(current + [Join(chunk, " ")], cs);
    forall k | 0 <= k < |cs|
      ensures l[k] == r[k]
    {
      GroupsCons(chunk, cs[k]);
      AppendAssoc(current, [Join(chunk, " ")], Groups(cs[k]));
    }
  }

  lemma GroupsCons(chunk: seq<string>, c: seq<seq<string>>)
    ensures Groups([chunk] + c) == [Join(chunk, " ")] + Groups(c)
  {
    var l := Groups([chunk] + c);
    var r := [Join(chunk, " ")] + Groups(c);
    forall j | 0 <= j < |l|
      ensures l[j] == r[j]
    {
      if j > 0 {
        assert ([chunk] + c)[j] == c[j - 1];
      }
    }
  }

  lemma {:induction false} GenerateSplitsRendersCompositions(words: seq<string>, start: nat, current: seq<string>)
    requires start <= |words|
    ensures GenerateSplits(words, start, current) == RenderAll(current, Compositions(words[start..]))
    decreases |words| - start, |words| - start + 1
  {
    if start == |words| {
      assert words[start..] == [];
      assert Groups([]) == [];
      assert current + [] == current;
    } else {
      SplitLoopRendersCompositions(words, start, start, current);
    }
  }

  lemma {:induction false} SplitLoopRendersCompositions(words: seq<string>, start: nat, i: nat, current: seq<string>)
    requires start <= i <= |words|
    ensures SplitLoop(words, start, i, current) == RenderAll(current, WithFirstChunk(words[start..], i - start + 1))
    decreases |words| - start, |words| - i
  {
    var ws := words[start..];
    var len := i - start + 1;
    if i < |words| {
      var chunk := words[start..i + 1];
      var rest := Compositions(words[i + 1..]);
      var more := WithFirstChunk(ws, len + 1);
      assert WithFirstChunk(ws, len) == Prepend(chunk, rest) + more by {
        assert ws[..len] == chunk;
        assert ws[len..] == words[i + 1..];
      }
      assert GenerateSplits(words, i + 1, current + [Join(chunk, " ")]) == RenderAll(current, Prepend(chunk, rest)) by {
        GenerateSplitsRendersCompositions(words, i + 1, current + [Join(chunk, " ")]);
        RenderAllPrepend(current, chunk, rest);
      }
      assert SplitLoop(words, start, i + 1, current) == RenderAll(current, more) by {
        SplitLoopRendersCompositions(words, start, i + 1, current);
      }
      RenderAllConcat(current, Prepend(chunk, rest), more);
    }
  }

  /** Before the reverse, the recursion lists every composition of the words, each rendered
      with its groups joined by `" & "`. */
  lemma SplitsAreCompositions(words: seq<string>)
    ensures GenerateSplits(words, 0, []) == RenderAll([], Compositions(words))
  {
    GenerateSplitsRendersCompositions(words, 0, []);
    assert words[0..] == words;
  }

  // ------------------------------------------------------------------ counting

  lemma {:induction false} CompositionsCount(ws: seq<string>)
    ensures |ws| > 0 ==> |Compositions(ws)| == Pow2(|ws| - 1)
    ensures |ws| == 0 ==> |Compositions(ws)| == 1
    decreases |ws|, 1
  {
    if |ws| > 0 {
      WithFirstChunkCount(ws, 1);
    }
  }

  lemma {:induction false} WithFirstChunkCount(ws: seq<string>, len: nat)
    requires 1 <= len <= |ws| + 1
    ensures len <= |ws| ==> |WithFirstChunk(ws, len)| == Pow2(|ws| - len)
    ensures len == |ws| + 1 ==> |WithFirstChunk(ws, len)| == 0
    decreases |ws|, 0, |ws| + 1 - len
  {
    if len <= |ws| {
      CompositionsCount(ws[len..]);
      WithFirstChunkCount(ws, len + 1);
      if len < |ws| {
        assert Pow2(|ws| - len) == 2 * Pow2(|ws| - len - 1);
      }
    }
  }

  /** `n` words give `2^(n - 1)` groupings. */
  lemma SplitCount(str: string)
    ensures |SplitStringBySpaces(str)| == Pow2(|Split(str, " ")| - 1)
  {
    var words := Split(str, " ");
    SplitsAreCompositions(words);
    CompositionsCount(words);
  }

  // ------------------------------------------------------------------ shape of the compositions

  lemma {:induction false} FlattenPrepend(chunk: seq<string>, c: seq<seq<string>>)
    ensures Flatten([chunk] + c) == chunk + Flatten(c)
  {
    assert ([chunk] + c)[1..] == c;
  }

  lemma {:induction false} CompositionsAreCompositions(ws: seq<string>)
    ensures forall k :: 0 <= k < |Compositions(ws)| ==> IsComposition(Compositions(ws)[k], ws)
    decreases |ws|, 1
  {
    if |ws| > 0 {
      WithFirstChunkAreCompositions(ws, 1);
    }
  }

  lemma {:induction false} WithFirstChunkAreCompositions(ws: seq<string>, len: nat)
    requires 1 <= len
    ensures forall k :: 0 <= k < |WithFirstChunk(ws, len)| ==>
      IsComposition(WithFirstChunk(ws, len)[k], ws) && |WithFirstChunk(ws, len)[k][0]| >= len
    decreases |ws|, 0, |ws| + 1 - len
  {
    if len <= |ws| {
      var head := Prepend(ws[..len], Compositions(ws[len..]));
      var rest := WithFirstChunk(ws, len + 1);
      CompositionsAreCompositions(ws[len..]);
      WithFirstChunkAreCompositions(ws, len + 1);
      forall k | 0 <= k < |head|
        ensures IsComposition(head[k], ws) && |head[k][0]| >= len
      {
        var tail := Compositions(ws[len..])[k];
        FlattenPrepend(ws[..len], tail);
        assert ws[..len] + ws[len..] == ws;
        assert forall j :: 1 <= j < |head[k]| ==> head[k][j] == tail[j - 1];
      }
      assert forall k :: |head| <= k < |head| + |rest| ==> (head + rest)[k] == rest[k - |head|];
    }
  }

  /** Pairwise different entries. */
  predicate Distinct<T(==)>(s: seq<T>) {
    forall a, b :: 0 <= a < b < |s| ==> s[a] != s[b]
  }

  lemma {:induction false} CompositionsDistinct(ws: seq<string>)
    ensures Distinct(Compositions(ws))
    decreases |ws|, 1
  {
    if |ws| > 0 {
      WithFirstChunkDistinct(ws, 1);
    }
  }

  lemma {:induction false} WithFirstChunkDistinct(ws: seq<string>, len: nat)
    requires 1 <= len
    ensures Distinct(WithFirstChunk(ws, len))
    decreases |ws|, 0, |ws| + 1 - len
  {
    if len <= |ws| {
      var tails := Compositions(ws[len..]);
      var head := Prepend(ws[..len], tails);
      var rest := WithFirstChunk(ws, len + 1);
      CompositionsDistinct(ws[len..]);
      WithFirstChunkDistinct(ws, len + 1);
      WithFirstChunkAreCompositions(ws, len + 1);
      var all := head + rest;
      forall a, b | 0 <= a < b < |all|
        ensures all[a] != all[b]
      {
        if b < |head| {
          assert head[a][1..] == tails[a] && head[b][1..] == tails[b];
        } else if a >= |head| {
          assert all[a] == rest[a - |head|] && all[b] == rest[b - |head|];
        } else {
          assert all[a][0] == ws[..len];
          assert |all[b][0]| >= len + 1 by {
            assert all[b] == rest[b - |head|];
          }
        }
      }
    }
  }

  // ------------------------------------------------------------------ reading a rendering back

  /** The groups of a rendering, each split back into its words. */
  function Decode(r: string): seq<seq<string>> {
    var gs := Split(r, " & ");
    seq(|gs|, j requires 0 <= j < |gs| => Split(gs[j], " "))
  }

  /** Words with neither spaces nor `&`. */
  predicate PlainWords(ws: seq<string>) {
    forall k :: 0 <= k < |ws| ==> ' ' !in ws[k] && '&' !in ws[k]
  }

  lemma {:induction false} PlainFlatten(c: seq<seq<string>>, j: nat, k: nat)
    requires PlainWords(Flatten(c)) && j < |c| && k < |c[j]|
    ensures ' ' !in c[j][k] && '&' !in c[j][k]
    decreases |c|
  {
    FlattenPrepend(c[0], c[1..]);
    assert c == [c[0]] + c[1..];
    if j == 0 {
      assert Flatten(c)[k] == c[0][k];
    } else {
      assert forall i :: 0 <= i < |Flatten(c[1..])| ==> Flatten(c)[|c[0]| + i] == Flatten(c[1..])[i];
      PlainFlatten(c[1..], j - 1, k);
    }
  }

  /** A rendering of a composition of plain words reads back as that composition. */
  lemma DecodeRendering(c: seq<seq<string>>)
    requires |c| > 0 && forall j :: 0 <= j < |c| ==> |c[j]| > 0
    requires PlainWords(Flatten(c))
    ensures Split(Rendering(c), " & ") == Groups(c)
    ensures Decode(Rendering(c)) == c
  {
    var gs := Groups(c);
    forall j | 0 <= j < |c|
      ensures '&' !in gs[j] && Split(gs[j], " ") == c[j]
    {
      forall k | 0 <= k < |c[j]|
        ensures ' ' !in c[j][k] && '&' !in c[j][k]
      {
        PlainFlatten(c, j, k);
      }
      CharNotInJoin(c[j], " ", '&');
      SplitJoin(c[j], " ", 0);
    }
    SplitJoin(gs, " & ", 1);
  }

  /** One grouping written out: its groups joined by `" & "`. */
  function Rendering(c: seq<seq<string>>): string {
    Join(Groups(c), " & ")
  }

  /** The compositions of the space-separated words of `str`. */
  function Groupings(str: string): seq<seq<seq<string>>> {
    Compositions(Split(str, " "))
  }

  /** Entry `k` of the reversed recursion renders the composition `k` places from the end
      of the enumeration. */
  lemma ReversedSplitsAt(words: seq<string>, k: nat)
    requires k < |Compositions(words)|
    ensures RendersReversedAt(Reverse(GenerateSplits(words, 0, [])), Compositions(words), words, k)
  {
    var cs := Compositions(words);
    var g := GenerateSplits(words, 0, []);
    assert g == RenderAll([], cs) by {
      SplitsAreCompositions(words);
    }
    var i := |cs| - 1 - k;
    assert IsComposition(cs[i], words) by {
      CompositionsAreCompositions(words);
    }
    assert Reverse(g)[k] == g[i];
    assert g[i] == Join([] + Groups(cs[i]), " & ");
    assert [] + Groups(cs[i]) == Groups(cs[i]);
  }

  /** Entry `k` of the result renders the grouping `k` places from the end of the
      enumeration. */
  lemma GroupingAt(str: string, k: nat)
    requires k < |SplitStringBySpaces(str)|
    ensures RendersReversedAt(SplitStringBySpaces(str), Groupings(str), Split(str, " "), k)
  {
    GroupingsLength(str);
    ReversedSplitsAt(Split(str, " "), k);
  }

  /** Different groupings of the same plain words are different strings. */
  lemma RenderingInjective(c1: seq<seq<string>>, c2: seq<seq<string>>, words: seq<string>)
    requires IsComposition(c1, words) && IsComposition(c2, words)
    requires |words| > 0 && PlainWords(words) && c1 != c2
    ensures Rendering(c1) != Rendering(c2)
  {
    CompositionNonEmpty(c1, words);
    CompositionNonEmpty(c2, words);
    DecodeRendering(c1);
    DecodeRendering(c2);
  }

  /** Two entries of a distinct sequence at different places differ. */
  lemma DistinctAt<T>(s: seq<T>, a: nat, b: nat)
    requires Distinct(s) && a < |s| && b < |s| && a != b
    ensures s[a] != s[b]
  {
    if b < a {
      assert s[b] != s[a];
    }
  }

  /** Entry `k` of `r` renders the composition of `words` that is `k` places from the end
      of `cs`. */
  predicate RendersReversed(r: seq<string>, cs: seq<seq<seq<string>>>, words: seq<string>) {
    && |cs| == |r|
    && forall k :: 0 <= k < |r| ==> RendersReversedAt(r, cs, words, k)
  }

  predicate RendersReversedAt(r: seq<string>, cs: seq<seq<seq<string>>>, words: seq<string>, k: nat) {
    && k < |r| == |cs|
    && IsComposition(cs[|cs| - 1 - k], words)
    && r[k] == Rendering(cs[|cs| - 1 - k])
  }

  /** Renderings of distinct compositions of plain words are distinct. */
  lemma RenderedDistinct(r: seq<string>, cs: seq<seq<seq<string>>>, words: seq<string>)
    requires RendersReversed(r, cs, words) && Distinct(cs)
    requires |words| > 0 && PlainWords(words)
    ensures Distinct(r)
  {
    forall a, b | 0 <= a < b < |r|
      ensures r[a] != r[b]
    {
      assert RendersReversedAt(r, cs, words, a) && RendersReversedAt(r, cs, words, b);
      DistinctAt(cs, |cs| - 1 - a, |cs| - 1 - b);
      RenderingInjective(cs[|cs| - 1 - a], cs[|cs| - 1 - b], words);
    }
  }

  /** There are as many results as groupings. */
  lemma GroupingsLength(str: string)
    ensures |Groupings(str)| == |SplitStringBySpaces(str)|
  {
    SplitsAreCompositions(Split(str, " "));
  }

  /** The result of `splitStringBySpaces` renders the groupings of its words, last first. */
  lemma SplitsRenderGroupings(str: string)
    ensures RendersReversed(SplitStringBySpaces(str), Groupings(str), Split(str, " "))
  {
    var r := SplitStringBySpaces(str);
    var words := Split(str, " ");
    var cs := Groupings(str);
    GroupingsLength(str);
    forall k | 0 <= k < |r|
      ensures RendersReversedAt(r, cs, words, k)
    {
      GroupingAt(str, k);
    }
  }

  /** For a string without `&`, no two groupings are the same string. */
  lemma SplitsDistinct(str: string)
    requires '&' !in str
    ensures Distinct(SplitStringBySpaces(str))
  {
    SplitsRenderGroupings(str);
    CompositionsDistinct(Split(str, " "));
    PlainSplit(str);
    RenderedDistinct(SplitStringBySpaces(str), Groupings(str), Split(str, " "));
  }

  /** The words of a string without `&` are plain. */
  lemma PlainSplit(str: string)
    requires '&' !in str
    ensures PlainWords(Split(str, " "))
  {
    var words := Split(str, " ");
    JoinSplit(str, " ");
    forall k | 0 <= k < |words|
      ensures ' ' !in words[k] && '&' !in words[k]
    {
      if ' ' in words[k] {
        var j :| 0 <= j < |words[k]| && words[k][j] == ' ';
        assert words[k][j..j + 1] == " ";
        ContainsWitness(words[k], " ", j);
      }
      JoinContainsPart(words, " ", k);
    }
  }

  /** A composition of at least one word has at least one chunk. */
  lemma CompositionNonEmpty(c: seq<seq<string>>, ws: seq<string>)
    requires IsComposition(c, ws) && |ws| > 0
    ensures |c| > 0
  {
  }

  /** Every part's characters occur in the join. */
  lemma {:induction false} JoinContainsPart(parts: seq<string>, sep: string, k: nat)
    requires k < |parts|
    ensures forall x :: x in parts[k] ==> x in Join(parts, sep)
    decreases |parts|
  {
    if |parts| > 1 {
      if k > 0 {
        JoinContainsPart(parts[1..], sep, k - 1);
      }
    }
  }

  // ------------------------------------------------------------------ joining the groups back

  lemma {:induction false} JoinGroups(c: seq<seq<string>>)
    requires |c| > 0 && forall j :: 0 <= j < |c| ==> |c[j]| > 0
    ensures Join(Groups(c), " ") == Join(Flatten(c), " ")
    decreases |c|
  {
    FlattenPrepend(c[0], c[1..]);
    assert c == [c[0]] + c[1..];
    if |c| > 1 {
      JoinGroups(c[1..]);
      assert Groups(c)[1..] == Groups(c[1..]);
      assert |Flatten(c[1..])| > 0 by {
        FlattenPrepend(c[1], c[2..]);
        assert c[1..] == [c[1]] + c[2..];
      }
      JoinConcat(c[0], Flatten(c[1..]), " ");
    } else {
      assert Flatten(c[1..]) == [];
      assert c[0] + [] == c[0];
    }
  }

  /** For a string without `&`, turning every `" & "` of a grouping back into a space gives
      the string again. */
  lemma SplitsRoundTrip(str: string, k: nat)
    requires '&' !in str && k < |SplitStringBySpaces(str)|
    ensures ReplaceAll(SplitStringBySpaces(str)[k], " & ", " ") == str
  {
    GroupingsLength(str);
    PlainSplit(str);
    ReversedRoundTrip(Split(str, " "), k);
    JoinSplit(str, " ");
  }

  /** Entry `k` of the reversed recursion over plain words gives the words joined by spaces
      once its `" & "` are spaces again. */
  lemma ReversedRoundTrip(words: seq<string>, k: nat)
    requires |words| > 0 && PlainWords(words) && k < |Compositions(words)|
    ensures |Reverse(GenerateSplits(words, 0, []))| == |Compositions(words)|
    ensures ReplaceAll(Reverse(GenerateSplits(words, 0, []))[k], " & ", " ") == Join(words, " ")
  {
    var cs := Compositions(words);
    ReversedSplitsAt(words, k);
    RenderingRoundTrip(cs[|cs| - 1 - k], words);
  }

  /** Turning the `" & "` of a grouping of plain words back into spaces joins the words. */
  lemma RenderingRoundTrip(c: seq<seq<string>>, words: seq<string>)
    requires IsComposition(c, words) && |words| > 0 && PlainWords(words)
    ensures ReplaceAll(Rendering(c), " & ", " ") == Join(words, " ")
  {
    CompositionNonEmpty(c, words);
    DecodeRendering(c);
    JoinGroups(c);
  }

  // ------------------------------------------------------------------ first and last

  lemma {:induction false} LastCompositionIsWhole(ws: seq<string>, len: nat)
    requires 1 <= len <= |ws|
    ensures |WithFirstChunk(ws, len)| > 0
    ensures WithFirstChunk(ws, len)[|WithFirstChunk(ws, len)| - 1] == [ws]
    decreases |ws| - len
  {
    var head := Prepend(ws[..len], Compositions(ws[len..]));
    var rest := WithFirstChunk(ws, len + 1);
    assert WithFirstChunk(ws, len) == head + rest;
    if len == |ws| {
      assert rest == [];
      assert ws[len..] == [] && ws[..len] == ws;
      assert Compositions(ws[len..]) == [[]];
      assert head == [[ws] + []];
    } else {
      LastCompositionIsWhole(ws, len + 1);
      assert (head + rest)[|head| + |rest| - 1] == rest[|rest| - 1];
    }
  }

  /** All singleton chunks. */
  function Singletons(ws: seq<string>): (c: seq<seq<string>>)
    ensures |c| == |ws|
    ensures forall j :: 0 <= j < |ws| ==> c[j] == [ws[j]]
  {
    seq(|ws|, j requires 0 <= j < |ws| => [ws[j]])
  }

  lemma {:induction false} FirstCompositionIsSingletons(ws: seq<string>)
    ensures |Compositions(ws)| > 0
    ensures Compositions(ws)[0] == Singletons(ws)
    decreases |ws|
  {
    CompositionsCount(ws);
    if |ws| > 0 {
      CompositionsCount(ws[1..]);
      FirstCompositionIsSingletons(ws[1..]);
      var head := Prepend(ws[..1], Compositions(ws[1..]));
      assert WithFirstChunk(ws, 1)[0] == head[0];
      assert ws[..1] == [ws[0]];
      assert Singletons(ws) == [[ws[0]]] + Singletons(ws[1..]);
    }
  }

  /** After the reverse, the first grouping is the whole string (one group) and the last puts
      `" & "` between every two words. */
  lemma SplitsFirstAndLast(str: string)
    ensures var r := SplitStringBySpaces(str);
      |r| > 0 && r[0] == str && r[|r| - 1] == Join(Split(str, " "), " & ")
  {
    var words := Split(str, " ");
    var cs := Compositions(words);
    var rs := GenerateSplits(words, 0, []);
    SplitsAreCompositions(words);
    CompositionsCount(words);
    LastCompositionIsWhole(words, 1);
    FirstCompositionIsSingletons(words);
    assert [] + Groups([words]) == [Join(words, " ")];
    JoinSplit(str, " ");
    assert rs[|rs| - 1] == str;
    assert [] + Groups(Singletons(words)) == words by {
      forall j | 0 <= j < |words|
        ensures Groups(Singletons(words))[j] == words[j]
      {
        assert Join([words[j]], " ") == words[j];
      }
    }
  }
}

=== FILE: text.dfy ===
/** The JavaScript string operations the repository relies on (`indexOf`, `includes`,
    `split`, `join`, `replace`, `trim`, `toLowerCase`, `toUpperCase`, `parseInt` and number formatting in
    template literals), with their semantics written out over `seq<char>`. */
module Text {
  import opened Base

  // ------------------------------------------------------------------ characters

  /** The characters of JavaScript's `\s` class; `trim` removes exactly these. */
  predicate IsSpace(c: char) {
    var n := c as int;
    n == 0x09 || n == 0x0A || n == 0x0B || n == 0x0C || n == 0x0D || n == 0x20
    || n == 0xA0 || n == 0x1680 || (0x2000 <= n <= 0x200A) || n == 0x2028
    || n == 0x2029 || n == 0x202F || n == 0x205F || n == 0x3000 || n == 0xFEFF
  }

  predicate IsDigit(c: char) {
    '0' <= c <= '9'
  }

  /** Every character of `s` is white space (this includes the empty string). */
  predicate IsBlank(s: string) {
    forall i :: 0 <= i < |s| ==> IsSpace(s[i])
  }

  /** How far `toLowerCase` moves one code point, for the capitals the model covers: Basic
      Latin, Latin-1 Supplement, Latin Extended-A (without U+0130, which lowers to two
      characters), the Greek capitals with and without tonos, and the Greek Extended
      capitals. Every other character keeps its place (offset 0). */
  function LowerOffset(n: int): int {
    if 0x41 <= n <= 0x5A || (0xC0 <= n <= 0xDE && n != 0xD7) then 32
    else if (0x100 <= n <= 0x12F || 0x132 <= n <= 0x137 || 0x14A <= n <= 0x177) && n % 2 == 0 then 1
    else if (0x139 <= n <= 0x148 || 0x179 <= n <= 0x17E) && n % 2 == 1 then 1
    else if n == 0x178 then 0xFF - 0x178
    else if n == 0x386 then 0x3AC - 0x386
    else if 0x388 <= n <= 0x38A then 0x3AD - 0x388
    else if n == 0x38C then 0x3CC - 0x38C
    else if n == 0x38E || n == 0x38F then 0x3CD - 0x38E
    else if 0x391 <= n <= 0x3AB && n != 0x3A2 then 32
    else if (0x1F08 <= n <= 0x1F0F || 0x1F18 <= n <= 0x1F1D || 0x1F28 <= n <= 0x1F2F
             || 0x1F38 <= n <= 0x1F3F || 0x1F48 <= n <= 0x1F4D || 0x1F68 <= n <= 0x1F6F
             || 0x1F88 <= n <= 0x1F8F || 0x1F98 <= n <= 0x1F9F || 0x1FA8 <= n <= 0x1FAF
             || n == 0x1F59 || n == 0x1F5B || n == 0x1F5D || n == 0x1F5F
             || n == 0x1FB8 || n == 0x1FB9 || n == 0x1FD8 || n == 0x1FD9
             || n == 0x1FE8 || n == 0x1FE9) then -8
    else if n == 0x1FBA || n == 0x1FBB then 0x1F70 - 0x1FBA
    else if 0x1FC8 <= n <= 0x1FCB then 0x1F72 - 0x1FC8
    else if n == 0x1FDA || n == 0x1FDB then 0x1F76 - 0x1FDA
    else if n == 0x1FEA || n == 0x1FEB then 0x1F7A - 0x1FEA
    else if n == 0x1FF8 || n == 0x1FF9 then 0x1F78 - 0x1FF8
    else if n == 0x1FFA || n == 0x1FFB then 0x1F7C - 0x1FFA
    else if n == 0x1FBC || n == 0x1FCC || n == 0x1FFC then -9
    else if n == 0x1FEC then -7
    else 0
  }

  /** `toLowerCase` of one character, apart from the final-sigma rule. */
  function LowerChar(c: char): (r: char)
    ensures 'A' <= c <= 'Z' ==> r as int == c as int + 32
    ensures c as int < 0xD800 ==> r as int < 0xD800
  {
    (c as int + LowerOffset(c as int)) as char
  }

  const CapitalSigma: char := '\U{3A3}'
  const FinalSigma: char := '\U{3C2}'

  /** A letter that has case: the Latin letters of the blocks up to Latin Extended-B, the
      Greek letters and the letters of Greek Extended. */
  predicate IsCased(c: char) {
    var n := c as int;
    || 0x41 <= n <= 0x5A || 0x61 <= n <= 0x7A || n == 0xAA || n == 0xB5 || n == 0xBA
    || (0xC0 <= n <= 0x24F && n != 0xD7 && n != 0xF7)
    || n == 0x386 || (0x388 <= n <= 0x3FF && n != 0x3F6)
    || (0x1F00 <= n <= 0x1FFC && n != 0x1FBD && !(0x1FBF <= n <= 0x1FC1) && !(0x1FCD <= n <= 0x1FCF)
        && !(0x1FDD <= n <= 0x1FDF) && !(0x1FED <= n <= 0x1FEF))
  }

  /** The final-sigma context: a capital sigma right after a cased letter and not right before
      one lowers to `ς` rather than `σ`. */
  predicate FinalSigmaAt(s: string, i: int)
    requires 0 <= i < |s|
  {
    s[i] == CapitalSigma && 0 < i && IsCased(s[i - 1]) && (i + 1 == |s| || !IsCased(s[i + 1]))
  }

  /** `toLowerCase` on the blocks `LowerChar` covers. The final-sigma context is judged on the
      direct neighbours only; the skipping of case-ignorable characters such as combining
      marks is not modelled, and U+0130 keeps its case. */
  function Lower(s: string): (r: string)
    ensures |r| == |s|
    ensures forall i :: 0 <= i < |s| ==> r[i] == if FinalSigmaAt(s, i) then FinalSigma else LowerChar(s[i])
  {
    seq(|s|, i requires 0 <= i < |s| => if FinalSigmaAt(s, i) then FinalSigma else LowerChar(s[i]))
  }

  /** A lowered character lowers to itself. */
  lemma LowerCharIdempotent(c: char)
    ensures LowerChar(LowerChar(c)) == LowerChar(c)
  {
  }

  /** No capital sigma survives lowering. */
  lemma LowerCharNoCapitalSigma(c: char)
    ensures LowerChar(c) != CapitalSigma
  {
  }

  /** Lowering is idempotent: a lowered string has nothing left to lower, final sigmas
      included. */
  lemma LowerIdempotent(s: string)
    ensures Lower(Lower(s)) == Lower(s)
  {
    var t := Lower(s);
    forall i | 0 <= i < |s|
      ensures Lower(t)[i] == t[i]
    {
      LowerCharIdempotent(s[i]);
      LowerCharNoCapitalSigma(s[i]);
    }
  }

  /** Accented Latin capitals, Greek capitals with breathing marks and a word-final capital
      sigma lower as `toLowerCase` lowers them. */
  lemma LowerExamples()
    ensures Lower("\U{C9}l") == Lower("\U{E9}l")
    ensures Lower("\U{1F38}") == "\U{1F30}"
    ensures Lower("\U{386}") == "\U{3AC}"
    ensures Lower("\U{39F}\U{3A3}") == "\U{3BF}\U{3C2}"
    ensures Lower("\U{3A3}\U{39F}") == "\U{3C3}\U{3BF}"
  {
  }

  /** `toUpperCase`, restricted to the ASCII letters: what the drivers apply to book codes. */
  function UpperChar(c: char): (r: char)
    ensures !('a' <= r <= 'z')
    ensures 'a' <= c <= 'z' ==> 'A' <= r <= 'Z' && LowerChar(r) == c
    ensures !('a' <= c <= 'z') ==> r == c
  {
    if 'a' <= c <= 'z' then (c as int - 32) as char else c
  }

  function Upper(s: string): (r: string)
    ensures |r| == |s|
    ensures forall i :: 0 <= i < |s| ==> r[i] == UpperChar(s[i])
  {
    seq(|s|, i requires 0 <= i < |s| => UpperChar(s[i]))
  }

  /** Upper-casing twice is upper-casing once, so a code in either case finds the same key. */
  lemma UpperIdempotent(s: string)
    ensures Upper(Upper(s)) == Upper(s)
  {
    assert forall i :: 0 <= i < |s| ==> Upper(Upper(s))[i] == Upper(s)[i];
  }

  /** Codes that differ only in the case of ASCII letters upper-case to the same key. */
  lemma UpperIgnoresCase(s: string, t: string)
    requires |s| == |t|
    requires forall i :: 0 <= i < |s| ==> s[i] == t[i] || UpperChar(s[i]) == t[i] || s[i] == UpperChar(t[i])
    ensures Upper(s) == Upper(t)
  {
    assert forall i :: 0 <= i < |s| ==> Upper(s)[i] == Upper(t)[i];
  }

  // ------------------------------------------------------------------ searching

  /** `sub` occurs in `s` starting at index `j`. */
  predicate OccursAt(s: string, sub: string, j: int) {
    0 <= j && j + |sub| <= |s| && s[j..j + |sub|] == sub
  }

  function IndexFrom(s: string, sub: string, k: nat): (r: int)
    ensures r == -1 || (k <= r && OccursAt(s, sub, r))
    ensures r == -1 ==> forall j :: k <= j ==> !OccursAt(s, sub, j)
    ensures r >= 0 ==> forall j :: k <= j < r ==> !OccursAt(s, sub, j)
    decreases |s| - k
  {
    if k + |sub| > |s| then -1
    else if s[k..k + |sub|] == sub then k
    else IndexFrom(s, sub, k + 1)
  }

  /** `s.indexOf(sub)`: the first index where `sub` occurs, or -1. */
  function IndexOf(s: string, sub: string): (r: int)
    ensures r == -1 || OccursAt(s, sub, r)
    ensures r == -1 ==> forall j :: !OccursAt(s, sub, j)
    ensures r >= 0 ==> forall j :: 0 <= j < r ==> !OccursAt(s, sub, j)
  {
    IndexFrom(s, sub, 0)
  }

  /** `s.includes(sub)`. */
  predicate Contains(s: string, sub: string) {
    IndexOf(s, sub) >= 0
  }

  lemma ContainsWitness(s: string, sub: string, j: int)
    requires OccursAt(s, sub, j)
    ensures Contains(s, sub)
  {
  }

  /** A prefix that ends before the first occurrence of `sub` does not contain it. */
  lemma NoOccurrenceBefore(s: string, sub: string, i: int)
    requires |sub| > 0 && 0 <= i <= |s|
    requires forall j :: 0 <= j < i ==> !OccursAt(s, sub, j)
    ensures !Contains(s[..i], sub)
  {
    forall j | 0 <= j
      ensures !OccursAt(s[..i], sub, j)
    {
      if j + |sub| <= i {
        assert !OccursAt(s, sub, j);
        assert s[..i][j..j + |sub|] == s[j..j + |sub|];
      }
    }
  }

  /** A character `sub` contains cannot be missing from a string that contains `sub`. */
  lemma ContainsChar(s: string, sub: string, k: int)
    requires 0 <= k < |sub| && Contains(s, sub)
    ensures sub[k] in s
  {
    var j := IndexOf(s, sub);
    assert s[j..j + |sub|][k] == s[j + k];
  }

  // ------------------------------------------------------------------ split and join

  /** `s.split(sep)` for a non-empty literal separator. */
  function Split(s: string, sep: string): (parts: seq<string>)
    requires |sep| > 0
    ensures |parts| >= 1
    ensures forall i :: 0 <= i < |parts| ==> !Contains(parts[i], sep)
    decreases |s|
  {
    var i := IndexOf(s, sep);
    if i < 0 then [s]
    else
      NoOccurrenceBefore(s, sep, i);
      [s[..i]] + Split(s[i + |sep|..], sep)
  }

  /** `parts.join(sep)`. */
  function Join(parts: seq<string>, sep: string): string {
    if |parts| == 0 then ""
    else if |parts| == 1 then parts[0]
    else parts[0] + sep + Join(parts[1..], sep)
  }

  /** A join starts with the first part's first character. */
  lemma JoinFirst(parts: seq<string>, sep: string)
    requires |parts| >= 1 && |parts[0]| > 0
    ensures |Join(parts, sep)| > 0 && Join(parts, sep)[0] == parts[0][0]
  {
  }

  /** A join ends with the last part's last character. */
  lemma {:induction false} JoinLast(parts: seq<string>, sep: string)
    requires |parts| >= 1 && |parts[|parts| - 1]| > 0
    ensures |Join(parts, sep)| > 0
    ensures Join(parts, sep)[|Join(parts, sep)| - 1] == parts[|parts| - 1][|parts[|parts| - 1]| - 1]
    decreases |parts|
  {
    if |parts| > 1 {
      var tail := parts[1..];
      assert tail[|tail| - 1] == parts[|parts| - 1];
      JoinLast(tail, sep);
      assert Join(parts, sep) == parts[0] + sep + Join(tail, sep);
    }
  }

  /** Joining two non-empty lists puts one separator at the seam. */
  lemma {:induction false} JoinConcat(a: seq<string>, b: seq<string>, sep: string)
    requires |a| > 0 && |b| > 0
    ensures Join(a + b, sep) == Join(a, sep) + sep + Join(b, sep)
    decreases |a|
  {
    if |a| == 1 {
      assert (a + b)[1..] == b;
    } else {
      assert (a + b)[1..] == a[1..] + b;
      JoinConcat(a[1..], b, sep);
    }
  }

  /** Joining the pieces of a split with the same separator restores the string. */
  lemma {:induction false} JoinSplit(s: string, sep: string)
    requires |sep| > 0
    ensures Join(Split(s, sep), sep) == s
    decreases |s|
  {
    var i := IndexOf(s, sep);
    if i >= 0 {
      var rest := Split(s[i + |sep|..], sep);
      assert Split(s, sep) == [s[..i]] + rest;
      assert ([s[..i]] + rest)[1..] == rest;
      JoinSplit(s[i + |sep|..], sep);
      assert s[i..i + |sep|] == sep;
      assert s == s[..i] + sep + s[i + |sep|..];
    }
  }

  /** A character of `sep` that occurs neither in a part nor earlier in `sep` pins every
      occurrence of `sep` in `part + sep + rest` to the end of `part`. */
  lemma FirstSeparatorAfterPart(part: string, sep: string, rest: string, k: int)
    requires 0 <= k < |sep| && sep[k] !in sep[..k] && sep[k] !in part
    ensures IndexOf(part + sep + rest, sep) == |part|
  {
    var s := part + sep + rest;
    assert s[|part|..|part| + |sep|] == sep;
    assert OccursAt(s, sep, |part|);
    forall j | 0 <= j < |part|
      ensures !OccursAt(s, sep, j)
    {
      if j + |sep| <= |s| {
        assert s[j..j + |sep|][k] == s[j + k];
        if j + k < |part| {
          assert s[j + k] == part[j + k];
        } else {
          assert s[j + k] == sep[j + k - |part|];
          assert sep[..k][j + k - |part|] == sep[j + k - |part|];
        }
        assert s[j + k] != sep[k];
      }
    }
  }

  /** Splitting a join recovers the parts, provided some character of the separator (not
      repeated before it inside the separator) never occurs in a part. */
  lemma {:induction false} SplitJoin(parts: seq<string>, sep: string, k: int)
    requires |parts| >= 1 && 0 <= k < |sep| && sep[k] !in sep[..k]
    requires forall i :: 0 <= i < |parts| ==> sep[k] !in parts[i]
    ensures Split(Join(parts, sep), sep) == parts
    decreases |parts|
  {
    if |parts| == 1 {
      SplitWithoutSeparator(parts[0], sep, k);
    } else {
      var rest := Join(parts[1..], sep);
      SplitAtFirstSeparator(parts[0], sep, rest, k);
      SplitJoin(parts[1..], sep, k);
      assert parts == [parts[0]] + parts[1..];
    }
  }

  /** A string lacking a character of the separator splits into itself. */
  lemma SplitWithoutSeparator(s: string, sep: string, k: int)
    requires 0 <= k < |sep| && sep[k] !in s
    ensures Split(s, sep) == [s]
  {
    if Contains(s, sep) {
      ContainsChar(s, sep, k);
    }
  }

  /** The first piece of `part + sep + rest` is `part` when the separator cannot start inside
      `part`. */
  lemma SplitAtFirstSeparator(part: string, sep: string, rest: string, k: int)
    requires 0 <= k < |sep| && sep[k] !in sep[..k] && sep[k] !in part
    ensures Split(part + sep + rest, sep) == [part] + Split(rest, sep)
  {
    var s := part + sep + rest;
    FirstSeparatorAfterPart(part, sep, rest, k);
    assert s[..|part|] == part;
    assert s[|part| + |sep|..] == rest;
  }

  /** A one-character string is included exactly where its character occurs. */
  lemma CharContains(s: string, c: char)
    ensures Contains(s, [c]) <==> c in s
  {
    if c in s {
      var j :| 0 <= j < |s| && s[j] == c;
      assert s[j..j + 1] == [c];
      ContainsWitness(s, [c], j);
    } else if Contains(s, [c]) {
      ContainsChar(s, [c], 0);
    }
  }

  /** Splitting on a character splits in two or more exactly when the character occurs. */
  lemma SplitOnChar(s: string, c: char)
    ensures c in s <==> |Split(s, [c])| >= 2
    ensures c !in s ==> Split(s, [c]) == [s]
  {
    CharContains(s, c);
    if c !in s {
      SplitWithoutSeparator(s, [c], 0);
    }
  }

  /** Every character of a piece of a split occurs in the string that was split. */
  lemma {:induction false} SplitPieceChars(s: string, sep: string, k: nat, c: char)
    requires |sep| > 0 && k < |Split(s, sep)| && c in Split(s, sep)[k]
    ensures c in s
    decreases |s|
  {
    var i := IndexOf(s, sep);
    if i >= 0 {
      var rest := s[i + |sep|..];
      assert Split(s, sep) == [s[..i]] + Split(rest, sep);
      if k == 0 {
        assert c in s[..i];
      } else {
        SplitPieceChars(rest, sep, k - 1, c);
        assert c in rest;
      }
    }
  }

  /** `s.split(sep).join(rep)`, which is JavaScript's `replaceAll(sep, rep)`. */
  function ReplaceAll(s: string, sep: string, rep: string): string
    requires |sep| > 0
  {
    Join(Split(s, sep), rep)
  }

  /** `s.replace(pat, rep)` with a string pattern: only the first occurrence is replaced. */
  function ReplaceFirst(s: string, pat: string, rep: string): (r: string)
    requires |pat| > 0
    ensures !Contains(s, pat) ==> r == s
    ensures pat <= s ==> r == rep + s[|pat|..]
  {
    var i := IndexOf(s, pat);
    if i < 0 then s
    else
      assert pat <= s ==> OccursAt(s, pat, 0);
      s[..i] + rep + s[i + |pat|..]
  }

  // ------------------------------------------------------------------ splitting on a character class

  /** The index of the first character satisfying `p`, or `|s|`. */
  function FirstWhere(s: string, p: char -> bool): (i: nat)
    ensures i <= |s|
    ensures i < |s| ==> p(s[i])
    ensures forall j :: 0 <= j < i ==> !p(s[j])
  {
    if |s| == 0 then 0
    else if p(s[0]) then 0
    else 1 + FirstWhere(s[1..], p)
  }

  /** `s.split(/[class]/)`: every character satisfying `p` is a separator. */
  function SplitWhere(s: string, p: char -> bool): (parts: seq<string>)
    ensures |parts| >= 1
    ensures forall k, j :: 0 <= k < |parts| && 0 <= j < |parts[k]| ==> !p(parts[k][j])
    decreases |s|
  {
    var i := FirstWhere(s, p);
    if i == |s| then [s]
    else [s[..i]] + SplitWhere(s[i + 1..], p)
  }

  /** Pieces without separator characters, joined by one separator character, split back
      into the same pieces (empty pieces included). */
  lemma {:induction false} SplitWhereJoin(ws: seq<string>, sep: char, p: char -> bool)
    requires p(sep) && |ws| >= 1
    requires forall k, j :: 0 <= k < |ws| && 0 <= j < |ws[k]| ==> !p(ws[k][j])
    ensures SplitWhere(Join(ws, [sep]), p) == ws
    decreases |ws|
  {
    if |ws| == 1 {
      FirstWhereAfterWord(ws[0], "", p);
      assert ws[0] + "" == ws[0];
    } else {
      var rest := Join(ws[1..], [sep]);
      var s := ws[0] + [sep] + rest;
      assert Join(ws, [sep]) == s;
      assert FirstWhere(s, p) == |ws[0]| by {
        FirstWhereAfterWord(ws[0], [sep] + rest, p);
        assert s == ws[0] + ([sep] + rest);
      }
      assert s[..|ws[0]|] == ws[0];
      assert s[|ws[0]| + 1..] == rest;
      assert SplitWhere(s, p) == [ws[0]] + SplitWhere(rest, p);
      assert SplitWhere(rest, p) == ws[1..] by {
        forall k, j | 0 <= k < |ws[1..]| && 0 <= j < |ws[1..][k]|
          ensures !p(ws[1..][k][j])
        {
          assert ws[1..][k] == ws[k + 1];
        }
        SplitWhereJoin(ws[1..], sep, p);
      }
      assert ws == [ws[0]] + ws[1..];
    }
  }

  /** `parts.filter(w => w !== '')`. */
  function NonEmpty(parts: seq<string>): (r: seq<string>)
    ensures |r| <= |parts|
    ensures forall k :: 0 <= k < |r| ==> r[k] != "" && r[k] in parts
  {
    if |parts| == 0 then []
    else (if parts[0] == "" then [] else [parts[0]]) + NonEmpty(parts[1..])
  }

  /** `s.split(/[class]+/).filter(w => w !== '')`: the maximal runs of characters outside
      the class. Splitting on single characters and dropping the empty pieces gives the
      same words as splitting on runs. */
  function Words(s: string, p: char -> bool): (ws: seq<string>)
    ensures forall k :: 0 <= k < |ws| ==> ws[k] != ""
    ensures forall k, j :: 0 <= k < |ws| && 0 <= j < |ws[k]| ==> !p(ws[k][j])
  {
    NonEmpty(SplitWhere(s, p))
  }

  /** Separator characters in front of the text add no word. */
  lemma {:induction false} WordsAfterSeparators(x: string, rest: string, p: char -> bool)
    requires |x| > 0 && forall j :: 0 <= j < |x| ==> p(x[j])
    ensures Words(x + rest, p) == Words(rest, p)
    decreases |x|
  {
    var s := x + rest;
    assert FirstWhere(s, p) == 0;
    assert s[1..] == x[1..] + rest;
    assert SplitWhere(s, p) == [""] + SplitWhere(x[1..] + rest, p);
    assert NonEmpty([""] + SplitWhere(x[1..] + rest, p)) == NonEmpty(SplitWhere(x[1..] + rest, p)) by {
      assert ([""] + SplitWhere(x[1..] + rest, p))[1..] == SplitWhere(x[1..] + rest, p);
    }
    if |x| > 1 {
      WordsAfterSeparators(x[1..], rest, p);
    } else {
      assert x[1..] + rest == rest;
    }
  }

  /** A word followed by separator characters is one word of the text. */
  lemma WordThenSeparators(w: string, x: string, rest: string, p: char -> bool)
    requires w != "" && forall j :: 0 <= j < |w| ==> !p(w[j])
    requires |x| > 0 && forall j :: 0 <= j < |x| ==> p(x[j])
    ensures Words(w + x + rest, p) == [w] + Words(rest, p)
  {
    var s := w + x + rest;
    FirstWhereAfterWord(w, x + rest, p);
    assert s == w + (x + rest);
    assert s[..|w|] == w;
    assert s[|w| + 1..] == x[1..] + rest;
    var tail := SplitWhere(x[1..] + rest, p);
    assert SplitWhere(s, p) == [w] + tail;
    assert ([w] + tail)[1..] == tail;
    assert Words(s, p) == [w] + NonEmpty(tail);
    if |x| > 1 {
      WordsAfterSeparators(x[1..], rest, p);
    } else {
      assert x[1..] + rest == rest;
    }
  }

  /** A non-empty text without separator characters is a single word. */
  lemma WordAlone(w: string, p: char -> bool)
    requires w != "" && forall j :: 0 <= j < |w| ==> !p(w[j])
    ensures Words(w, p) == [w]
  {
    FirstWhereAfterWord(w, "", p);
    assert w + "" == w;
    assert SplitWhere(w, p) == [w];
  }

  /** Words that contain no separator character, joined by a separator character, split
      back into the same words. */
  lemma {:induction false} WordsOfJoin(ws: seq<string>, sep: char, p: char -> bool)
    requires p(sep)
    requires forall k :: 0 <= k < |ws| ==> ws[k] != ""
    requires forall k, j :: 0 <= k < |ws| && 0 <= j < |ws[k]| ==> !p(ws[k][j])
    ensures Words(Join(ws, [sep]), p) == ws
    decreases |ws|
  {
    if |ws| == 0 {
      assert SplitWhere("", p) == [""];
    } else if |ws| == 1 {
      WordAlone(ws[0], p);
    } else {
      WordThenSeparators(ws[0], [sep], Join(ws[1..], [sep]), p);
      WordsOfJoin(ws[1..], sep, p);
      assert ws == [ws[0]] + ws[1..];
    }
  }

  /** A character found in no part and not equal to the separator's is absent from the join. */
  lemma {:induction false} CharNotInJoin(parts: seq<string>, sep: string, c: char)
    requires c !in sep
    requires forall k :: 0 <= k < |parts| ==> c !in parts[k]
    ensures c !in Join(parts, sep)
    decreases |parts|
  {
    if |parts| > 1 {
      CharNotInJoin(parts[1..], sep, c);
    }
  }

  lemma FirstWhereAfterWord(w: string, t: string, p: char -> bool)
    requires forall j :: 0 <= j < |w| ==> !p(w[j])
    requires |t| > 0 ==> p(t[0])
    ensures FirstWhere(w + t, p) == |w|
  {
    var s := w + t;
    assert forall j :: 0 <= j < |w| ==> s[j] == w[j];
    if |t| > 0 {
      assert s[|w|] == t[0];
    }
  }

  /** The characters of `s` outside the class, in order. */
  function RemoveAll(s: string, p: char -> bool): (r: string)
    ensures |r| <= |s|
    ensures forall j :: 0 <= j < |r| ==> !p(r[j])
  {
    if |s| == 0 then ""
    else (if p(s[0]) then "" else [s[0]]) + RemoveAll(s[1..], p)
  }

  lemma RemoveAllConcat(a: string, b: string, p: char -> bool)
    ensures RemoveAll(a + b, p) == RemoveAll(a, p) + RemoveAll(b, p)
  {
    if |a| > 0 {
      assert (a + b)[1..] == a[1..] + b;
      RemoveAllConcat(a[1..], b, p);
    } else {
      assert a + b == b;
    }
  }

  /** How many characters of `s` lie in the class. */
  function CountWhere(s: string, p: char -> bool): nat {
    if |s| == 0 then 0
    else (if p(s[0]) then 1 else 0) + CountWhere(s[1..], p)
  }

  /** `s.replace(/[class]/, "")`: only the first class character is removed. */
  function RemoveFirstWhere(s: string, p: char -> bool): (r: string)
    ensures RemoveAll(r, p) == RemoveAll(s, p)
    ensures CountWhere(r, p) == if CountWhere(s, p) == 0 then 0 else CountWhere(s, p) - 1
    ensures |r| == if CountWhere(s, p) == 0 then |s| else |s| - 1
    decreases |s|
  {
    if |s| == 0 then s
    else if p(s[0]) then s[1..]
    else
      var r := [s[0]] + RemoveFirstWhere(s[1..], p);
      assert r[1..] == RemoveFirstWhere(s[1..], p);
      r
  }

  /** `s` without its leading characters of the class. */
  function DropWhere(s: string, p: char -> bool): (r: string)
    ensures |r| <= |s| && r == s[|s| - |r|..]
    ensures r == "" || !p(r[0])
    ensures RemoveAll(r, p) == RemoveAll(s, p)
  {
    if |s| == 0 || !p(s[0]) then s
    else DropWhere(s[1..], p)
  }

  /** `s.replace(/[class]+/g, " ")`: every maximal run of class characters becomes one
      space. */
  function CollapseRuns(s: string, p: char -> bool): (r: string)
    requires p(' ')
    ensures |r| <= |s|
    ensures |s| > 0 ==> |r| > 0 && (if p(s[0]) then r[0] == ' ' else r[0] == s[0])
    decreases |s|
  {
    if |s| == 0 then ""
    else if p(s[0]) then " " + CollapseRuns(DropWhere(s[1..], p), p)
    else [s[0]] + CollapseRuns(s[1..], p)
  }

  /** After collapsing, every class character left is a single space. */
  lemma {:induction false} CollapsedRunsAreSingleSpaces(s: string, p: char -> bool)
    requires p(' ')
    ensures IsCollapsed(CollapseRuns(s, p), p)
    decreases |s|
  {
    if |s| > 0 {
      if p(s[0]) {
        var t := DropWhere(s[1..], p);
        CollapsedRunsAreSingleSpaces(t, p);
        SpaceBeforeCollapsed(CollapseRuns(t, p), p);
      } else {
        CollapsedRunsAreSingleSpaces(s[1..], p);
        CharBeforeCollapsed(s[0], CollapseRuns(s[1..], p), p);
      }
    }
  }

  /** Every class character of `r` is a space, and no two class characters are adjacent. */
  predicate IsCollapsed(r: string, p: char -> bool) {
    && (forall j :: 0 <= j < |r| && p(r[j]) ==> r[j] == ' ')
    && (forall j :: 0 <= j < |r| - 1 ==> !(p(r[j]) && p(r[j + 1])))
  }

  /** A space in front of a collapsed string that does not start with a class character
      keeps it collapsed. */
  lemma SpaceBeforeCollapsed(rest: string, p: char -> bool)
    requires p(' ') && IsCollapsed(rest, p)
    requires rest == "" || !p(rest[0])
    ensures IsCollapsed(" " + rest, p)
  {
    var r := " " + rest;
    assert forall j :: 1 <= j < |r| ==> r[j] == rest[j - 1];
  }

  /** A character outside the class in front of a collapsed string keeps it collapsed. */
  lemma CharBeforeCollapsed(c: char, rest: string, p: char -> bool)
    requires !p(c) && IsCollapsed(rest, p)
    ensures IsCollapsed([c] + rest, p)
  {
    var r := [c] + rest;
    assert forall j :: 1 <= j < |r| ==> r[j] == rest[j - 1];
  }

  /** Collapsing keeps every character outside the class, in order. */
  lemma {:induction false} CollapseRunsKeeps(s: string, p: char -> bool)
    requires p(' ')
    ensures RemoveAll(CollapseRuns(s, p), p) == RemoveAll(s, p)
    decreases |s|
  {
    if |s| > 0 {
      var t := if p(s[0]) then DropWhere(s[1..], p) else s[1..];
      CollapseRunsKeeps(t, p);
      var rest := CollapseRuns(t, p);
      RemoveAllConcat([CollapseRuns(s, p)[0]], rest, p);
      assert CollapseRuns(s, p) == [CollapseRuns(s, p)[0]] + rest;
    }
  }

  // ------------------------------------------------------------------ trimming

  /** The number of white-space characters at the front of `s`. */
  function LeadingSpaces(s: string): (n: nat)
    ensures n <= |s|
    ensures forall j :: 0 <= j < n ==> IsSpace(s[j])
    ensures n == |s| || !IsSpace(s[n])
  {
    if |s| == 0 || !IsSpace(s[0]) then 0
    else 1 + LeadingSpaces(s[1..])
  }

  /** The number of white-space characters at the end of `s`. */
  function TrailingSpaces(s: string): (n: nat)
    ensures n <= |s|
    ensures forall j :: |s| - n <= j < |s| ==> IsSpace(s[j])
    ensures n == |s| || !IsSpace(s[|s| - n - 1])
  {
    if |s| == 0 || !IsSpace(s[|s| - 1]) then 0
    else 1 + TrailingSpaces(s[..|s| - 1])
  }

  /** `s.trimStart()`. */
  function TrimStart(s: string): (r: string)
    ensures r == "" || !IsSpace(r[0])
    ensures IsBlank(s) <==> r == ""
  {
    var n := LeadingSpaces(s);
    if n == |s| then ""
    else s[n..]
  }

  /** `s.trim()`. */
  function Trim(s: string): (r: string)
    ensures |r| <= |s|
    ensures r == "" || (!IsSpace(r[0]) && !IsSpace(r[|r| - 1]))
    ensures IsBlank(s) <==> r == ""
  {
    var n := LeadingSpaces(s);
    var t := s[n..];
    var m := TrailingSpaces(t);
    if n == |s| then ""
    else
      assert t[0] == s[n];
      assert !IsBlank(s) by { assert !IsSpace(s[n]); }
      t[..|t| - m]
  }

  /** Trimming leaves a string that neither starts nor ends with white space unchanged. */
  lemma TrimUnchanged(s: string)
    requires s != "" && !IsSpace(s[0]) && !IsSpace(s[|s| - 1])
    ensures Trim(s) == s
  {
    assert LeadingSpaces(s) == 0;
    assert s[0..] == s;
    assert TrailingSpaces(s) == 0;
  }

  /** Trimming keeps exactly the characters of `s` other than some white space. */
  lemma TrimChars(s: string, c: char)
    ensures c in Trim(s) ==> c in s
    ensures !IsSpace(c) && c in s ==> c in Trim(s)
  {
    var n := LeadingSpaces(s);
    var t := s[n..];
    var m := TrailingSpaces(t);
    if c in Trim(s) {
      assert Trim(s) == t[..|t| - m];
      var j :| 0 <= j < |Trim(s)| && Trim(s)[j] == c;
      assert s[n + j] == c;
    }
    if !IsSpace(c) && c in s {
      var j :| 0 <= j < |s| && s[j] == c;
      assert n <= j;
      assert t[j - n] == c;
      assert j - n < |t| - m;
      assert Trim(s)[j - n] == c;
    }
  }

  // ------------------------------------------------------------------ numbers

  function DigitChar(d: nat): (c: char)
    requires d < 10
    ensures IsDigit(c)
  {
    ('0' as int + d) as char
  }

  function RadixDigitValue(c: char): nat {
    if '0' <= c <= '9' then c as int - '0' as int
    else if 'a' <= c <= 'z' then c as int - 'a' as int + 10
    else if 'A' <= c <= 'Z' then c as int - 'A' as int + 10
    else 36
  }

  predicate IsRadixDigit(c: char, radix: nat) {
    RadixDigitValue(c) < radix
  }

  /** The length of the longest prefix of `s` made of digits of the radix. */
  function LeadingRadixDigits(s: string, radix: nat): (n: nat)
    ensures n <= |s|
    ensures forall j :: 0 <= j < n ==> IsRadixDigit(s[j], radix)
    ensures n == |s| || !IsRadixDigit(s[n], radix)
  {
    if |s| == 0 || !IsRadixDigit(s[0], radix) then 0
    else 1 + LeadingRadixDigits(s[1..], radix)
  }

  /** The value of a digit string, most significant digit first. */
  function RadixValue(d: string, radix: nat): nat {
    if |d| == 0 then 0
    else RadixValue(d[..|d| - 1], radix) * radix + RadixDigitValue(d[|d| - 1])
  }

  /** The longest run of digits of the radix at the front of `v`, read as a number;
      `None` when there is none. */
  function ParseDigitRun(v: string, radix: nat): (r: Option<nat>)
    ensures r.None? <==> (|v| == 0 || !IsRadixDigit(v[0], radix))
  {
    var n := LeadingRadixDigits(v, radix);
    if n == 0 then None else Some(RadixValue(v[..n], radix))
  }

  /** An unsigned numeral: `0x`/`0X` selects base 16, anything else is read in base 10. */
  function ParseUnsigned(u: string): Option<nat> {
    if |u| >= 2 && u[0] == '0' && (u[1] == 'x' || u[1] == 'X') then ParseDigitRun(u[2..], 16)
    else ParseDigitRun(u, 10)
  }

  /** `parseInt(s)` without a radix: leading white space, an optional sign, an optional
      `0x`/`0X` prefix selecting base 16, then the longest run of digits. `None` is `NaN`. */
  function ParseInt(s: string): Option<int> {
    var t := TrimStart(s);
    if |t| > 0 && t[0] == '-' then
      match ParseUnsigned(t[1..])
      case None => None
      case Some(m) => Some(-(m as int))
    else if |t| > 0 && t[0] == '+' then
      match ParseUnsigned(t[1..])
      case None => None
      case Some(m) => Some(m as int)
    else
      match ParseUnsigned(t)
      case None => None
      case Some(m) => Some(m as int)
  }

  /** `parseInt(s) || 0`: `NaN` (and zero) become 0. */
  function ParseIntOrZero(s: string): int {
    ParseInt(s).GetOr(0)
  }

  /** The decimal digits of a natural number, as `${n}` prints it. */
  function NatToString(n: nat): string {
    if n < 10 then [DigitChar(n)]
    else NatToString(n / 10) + [DigitChar(n % 10)]
  }

  /** An integer as a template literal prints it. */
  function IntToString(i: int): string {
    if i < 0 then "-" + NatToString(-i) else NatToString(i)
  }

  /** A decimal numeral without sign or superfluous leading zero. */
  predicate IsCanonicalNumeral(s: string) {
    |s| >= 1 && (forall j :: 0 <= j < |s| ==> IsDigit(s[j])) && (s[0] == '0' ==> |s| == 1)
  }

  /** Printing a natural number gives a canonical numeral, which starts with `0` only for
      zero. */
  lemma {:induction false} NatToStringCanonical(n: nat)
    ensures IsCanonicalNumeral(NatToString(n))
    ensures NatToString(n)[0] == '0' ==> n == 0
  {
    if n >= 10 {
      NatToStringCanonical(n / 10);
      var s := NatToString(n);
      assert s == NatToString(n / 10) + [DigitChar(n % 10)];
      assert forall j :: 0 <= j < |s| - 1 ==> s[j] == NatToString(n / 10)[j];
    }
  }

  lemma {:induction false} NatToStringValue(n: nat)
    ensures RadixValue(NatToString(n), 10) == n
  {
    var s := NatToString(n);
    if n >= 10 {
      NatToStringValue(n / 10);
      assert s[..|s| - 1] == NatToString(n / 10);
    }
  }

  lemma {:induction false} CanonicalNumeralPositive(s: string)
    requires IsCanonicalNumeral(s) && s[0] != '0'
    ensures RadixValue(s, 10) >= 1
    decreases |s|
  {
    if |s| > 1 {
      CanonicalNumeralPositive(s[..|s| - 1]);
    }
  }

  /** Printing the value of a canonical numeral gives the numeral back. */
  lemma {:induction false} CanonicalNumeralRoundTrip(s: string)
    requires IsCanonicalNumeral(s)
    ensures NatToString(RadixValue(s, 10)) == s
    decreases |s|
  {
    if |s| > 1 {
      var x := s[..|s| - 1];
      CanonicalNumeralRoundTrip(x);
      CanonicalNumeralPositive(x);
      var v := RadixValue(s, 10);
      var d := RadixDigitValue(s[|s| - 1]);
      assert v == RadixValue(x, 10) * 10 + d;
      assert v / 10 == RadixValue(x, 10) && v % 10 == d;
      assert DigitChar(d) == s[|s| - 1];
      assert s == x + [s[|s| - 1]];
    }
  }

  /** A run of decimal digits is read whole, in base 10. */
  lemma ParseUnsignedDigits(d: string)
    requires |d| >= 1 && forall j :: 0 <= j < |d| ==> IsDigit(d[j])
    ensures ParseUnsigned(d) == Some(RadixValue(d, 10))
  {
    assert LeadingRadixDigits(d, 10) == |d|;
    assert d[..|d|] == d;
  }

  /** A string that does not start with white space is its own `trimStart`. */
  lemma TrimStartUnchanged(s: string)
    requires |s| > 0 && !IsSpace(s[0])
    ensures TrimStart(s) == s
  {
    assert LeadingSpaces(s) == 0;
    assert s[0..] == s;
  }

  /** Without white space or sign in front, `parseInt` reads an unsigned numeral. */
  lemma ParseUnsignedFront(d: string)
    requires |d| >= 1 && IsDigit(d[0])
    ensures ParseInt(d) == (match ParseUnsigned(d) case None => None case Some(m) => Some(m as int))
  {
    TrimStartUnchanged(d);
  }

  /** A minus sign in front of an unsigned numeral negates it. */
  lemma ParseNegativeFront(d: string)
    requires |d| >= 1 && IsDigit(d[0])
    ensures ParseInt("-" + d) == (match ParseUnsigned(d) case None => None case Some(m) => Some(-(m as int)))
  {
    var s := "-" + d;
    TrimStartUnchanged(s);
    assert s[1..] == d;
  }

  /** `parseInt` reads a canonical numeral as its value. */
  lemma ParseCanonicalNumeral(s: string)
    requires IsCanonicalNumeral(s)
    ensures ParseInt(s) == Some(RadixValue(s, 10))
  {
    ParseUnsignedFront(s);
    ParseUnsignedDigits(s);
  }

  /** `parseInt` inverts number printing. */
  lemma ParseIntOfIntToString(i: int)
    ensures ParseInt(IntToString(i)) == Some(i)
  {
    var m: nat := if i < 0 then -i else i;
    var d := NatToString(m);
    NatToStringValue(m);
    NatToStringCanonical(m);
    ParseUnsignedDigits(d);
    if i < 0 {
      ParseNegativeFront(d);
    } else {
      ParseUnsignedFront(d);
    }
  }
}

=== FILE: tokens.dfy ===
/** Verse tokens as the document engine reports them, the occurrence numbering the matchers
    use, and `slimSourceTokens` (src/utils/tokens.js). */
module Tokens {
  import opened Base
  import opened Text

  /** One token of a verse: its kind (`subType`), its text (`payload`), its alignment scope
      strings, and the chapter and verse labels the alignment query writes onto it. */
  datatype Token = Token(
    subType: string,
    payload: string,
    position: int,
    scopes: seq<string>,
    chapter: string,
    verse: string)

  /** Only word-like tokens take part in matching; the rest are punctuation, spaces, ... */
  predicate IsWordLike(t: Token) {
    t.subType == "wordLike"
  }

  /** The number of word-like tokens of `ts` whose payload is `w`. */
  function CountWordLike(ts: seq<Token>, w: string): nat {
    if |ts| == 0 then 0
    else CountWordLike(ts[..|ts| - 1], w)
         + (if IsWordLike(ts[|ts| - 1]) && ts[|ts| - 1].payload == w then 1 else 0)
  }

  /** The occurrence number the matchers write onto the word-like token at index `i`: how
      many word-like tokens with its payload there are up to and including it. */
  function WordOccurrence(ts: seq<Token>, i: nat): nat
    requires i < |ts|
  {
    CountWordLike(ts[..i + 1], ts[i].payload)
  }

  lemma {:induction false} CountWordLikeMonotone(ts: seq<Token>, w: string, i: nat, j: nat)
    requires i <= j <= |ts|
    ensures CountWordLike(ts[..i], w) <= CountWordLike(ts[..j], w)
    decreases j - i
  {
    if i < j {
      CountWordLikeMonotone(ts, w, i, j - 1);
      assert ts[..j][..j - 1] == ts[..j - 1];
    }
  }

  /** A word-like token's occurrence number is at least 1, and two word-like tokens with the
      same payload never share one: the occurrence names the token among its namesakes. */
  lemma {:induction false} OccurrenceIdentifiesToken(ts: seq<Token>, i: nat, j: nat)
    requires i < j < |ts| && IsWordLike(ts[i]) && IsWordLike(ts[j])
    requires ts[i].payload == ts[j].payload
    ensures 1 <= WordOccurrence(ts, i) < WordOccurrence(ts, j)
  {
    var w := ts[i].payload;
    assert ts[..i + 1][..i] == ts[..i];
    assert ts[..j + 1][..j] == ts[..j];
    CountWordLikeMonotone(ts, w, i + 1, j);
  }

  // ------------------------------------------------------------------ slimSourceTokens

  /** A token stripped of its scopes, with its payload's line white space collapsed and its
      occurrence among equal payloads. */
  datatype SlimToken = SlimToken(
    subType: string,
    payload: string,
    position: int,
    chapter: string,
    verse: string,
    occurrence: nat)

  /** The characters of the class `[ \t\r\n]`. */
  predicate IsLineSpace(c: char) {
    c == ' ' || c == '\t' || c == '\r' || c == '\n'
  }

  /** `payload.replace(/[ \t\r\n]+/g, " ")`. */
  function NormalizePayload(payload: string): string {
    CollapseRuns(payload, IsLineSpace)
  }

  /** How many entries of `ps` equal `p`. */
  function CountEqual(ps: seq<string>, p: string): nat {
    if |ps| == 0 then 0
    else CountEqual(ps[..|ps| - 1], p) + (if ps[|ps| - 1] == p then 1 else 0)
  }

  /** The running tally `slimSourceTokens` keeps: for every payload seen, how often. */
  function Tally(ps: seq<string>): map<string, nat> {
    if |ps| == 0 then map[]
    else
      var m := Tally(ps[..|ps| - 1]);
      var p := ps[|ps| - 1];
      m[p := (if p in m then m[p] else 0) + 1]
  }

  /** The tally holds exactly the counts of the payloads seen. */
  lemma {:induction false} TallyCounts(ps: seq<string>, p: string)
    ensures (if p in Tally(ps) then Tally(ps)[p] else 0) == CountEqual(ps, p)
  {
    if |ps| > 0 {
      TallyCounts(ps[..|ps| - 1], p);
    }
  }

  /** The normalised payloads of a token list. */
  function NormalizedPayloads(ts: seq<Token>): seq<string> {
    seq(|ts|, i requires 0 <= i < |ts| => NormalizePayload(ts[i].payload))
  }

  /** The slim token `slimSourceTokens` makes of the token at index `i`. */
  function SlimAt(ts: seq<Token>, i: nat): SlimToken
    requires i < |ts|
  {
    var ps := NormalizedPayloads(ts);
    SlimToken(ts[i].subType, ps[i], ts[i].position, ts[i].chapter, ts[i].verse, CountEqual(ps[..i + 1], ps[i]))
  }

  /** One turn of the loop of `slimSourceTokens`: the slim token for index `i` and the tally
      updated with its payload. */
  method SlimStep(ts: seq<Token>, i: nat, occurrences: map<string, nat>) returns (slim: SlimToken, next: map<string, nat>)
    requires i < |ts| && occurrences == Tally(NormalizedPayloads(ts)[..i])
    ensures slim == SlimAt(ts, i)
    ensures next == Tally(NormalizedPayloads(ts)[..i + 1])
  {
    ghost var ps := NormalizedPayloads(ts);
    var t := ts[i];
    var payload := NormalizePayload(t.payload);
    var count := if payload in occurrences then occurrences[payload] + 1 else 1;
    assert ps[..i + 1][..i] == ps[..i];
    TallyCounts(ps[..i + 1], payload);
    next := occurrences[payload := count];
    slim := SlimToken(t.subType, payload, t.position, t.chapter, t.verse, count);
  }

  /** `slimSourceTokens(tokens)`: `null` for a missing list; otherwise one slim token per
      input token, in order, each with its normalised payload and the 1-based count of equal
      normalised payloads up to and including it, and without scopes. */
  method SlimSourceTokens(tokens: Option<seq<Token>>) returns (r: Option<seq<SlimToken>>)
    ensures tokens.None? <==> r.None?
    ensures tokens.Some? ==> |r.value| == |tokens.value|
    ensures tokens.Some? ==> forall i :: 0 <= i < |tokens.value| ==>
      var t := tokens.value[i];
      var s := r.value[i];
      && s.payload == NormalizePayload(t.payload)
      && s.occurrence == CountEqual(NormalizedPayloads(tokens.value)[..i + 1], s.payload)
      && s.subType == t.subType && s.position == t.position
      && s.chapter == t.chapter && s.verse == t.verse
  {
    if tokens.None? {
      return None;
    }
    var ts := tokens.value;
    var out: seq<SlimToken> := [];
    var occurrences: map<string, nat> := map[];
    for i := 0 to |ts|
      invariant |out| == i
      invariant occurrences == Tally(NormalizedPayloads(ts)[..i])
      invariant forall k :: 0 <= k < i ==> out[k] == SlimAt(ts, k)
    {
      var slim;
      slim, occurrences := SlimStep(ts, i, occurrences);
      out := out + [slim];
    }
    return Some(out);
  }
}

=== FILE: tsv.dfy ===
/** The TSV row parser and the TSV7/TSV9 writers (src/utils/tsv.js). */
module Tsv {
  import opened Base
  import opened Text

  /** A field read from a split row; `None` is `undefined`, read past the end of a short
      row. */
  type Field = Option<string>

  /** An occurrence column: the parser stores numbers, the drivers also store header text
      such as `'Occurrence'`. */
  datatype Value = Number(number: int) | Text(text: string)

  /** The object `tsvRowToObject` builds. */
  datatype Record = Record(
    n: nat,
    ref: Field,
    id: Field,
    tags: Field,
    supportReference: Field,
    quote: Field,
    occurrence: Value,
    glQuote: Field,
    glOccurrence: Value,
    note: Field)

  // ------------------------------------------------------------------ parsing

  /** `row[k]`. */
  function At(row: seq<string>, k: nat): (r: Field)
    ensures r.Some? <==> k < |row|
    ensures r.Some? ==> r.value == row[k]
  {
    if k < |row| then Some(row[k]) else None
  }

  /** A 7-field row gets `''` and `0` spliced in at positions 6 and 7; the number `0` is
      written `"0"` here, which `parseInt` reads alike. */
  function PadRow(items: seq<string>): (r: seq<string>)
    ensures |items| == 7 ==> r == items[..6] + ["", "0"] + items[6..]
    ensures |items| != 7 ==> r == items
  {
    if |items| == 7 then items[..6] + ["", "0"] + items[6..] else items
  }

  /** `parseInt(field) || 0`: a missing or non-numeric field, and zero, give 0. */
  function OccurrenceOf(f: Field): (r: int)
    ensures f.None? || ParseInt(f.value).None? ==> r == 0
    ensures f.Some? && ParseInt(f.value).Some? ==> r == ParseInt(f.value).value
  {
    match f
    case None => 0
    case Some(s) => ParseIntOrZero(s)
  }

  /** `tsvRowToObject([n, row])`. */
  function RowToRecord(n: nat, row: seq<string>): Record {
    Record(n, At(row, 0), At(row, 1), At(row, 2), At(row, 3), At(row, 4),
           Number(OccurrenceOf(At(row, 5))), At(row, 6), Number(OccurrenceOf(At(row, 7))), At(row, 8))
  }

  /** One line of the file as a record: split on tabs, padded, mapped. */
  function ParseRow(n: nat, line: string): (r: Record)
    ensures r.n == n
    ensures r.ref == Some(Split(line, "\t")[0])
  {
    RowToRecord(n, PadRow(Split(line, "\t")))
  }

  /** The lines that `.filter(r => r.trim())` keeps: those not wholly white space. */
  function NonBlankLines(lines: seq<string>): (r: seq<string>)
    ensures |r| <= |lines|
    ensures forall k :: 0 <= k < |r| ==> !IsBlank(r[k])
    ensures forall k :: 0 <= k < |r| ==> r[k] in lines
  {
    if |lines| == 0 then []
    else if IsBlank(lines[0]) then NonBlankLines(lines[1..])
    else [lines[0]] + NonBlankLines(lines[1..])
  }

  /** The records of kept lines, numbered from 0 in order. */
  function Records(lines: seq<string>): (r: seq<Record>)
    ensures |r| == |lines|
    ensures forall k :: 0 <= k < |lines| ==> r[k] == ParseRow(k, lines[k])
  {
    seq(|lines|, k requires 0 <= k < |lines| => ParseRow(k, lines[k]))
  }

  /** `parseTsvToObjects(content)`. */
  function ParseTsvToObjects(content: string): (r: seq<Record>)
    ensures forall k :: 0 <= k < |r| ==> r[k].n == k
  {
    Records(NonBlankLines(Split(content, "\n")))
  }

  // ------------------------------------------------------------------ writing

  /** A field as a template literal prints it. */
  function ShowField(f: Field): string {
    match f
    case None => "undefined"
    case Some(s) => s
  }

  function ShowValue(v: Value): string {
    match v
    case Number(i) => IntToString(i)
    case Text(s) => s
  }

  /** The seven columns of the TSV7 format, in order. */
  function Tsv7Fields(r: Record): (fs: seq<string>)
    ensures |fs| == 7
  {
    [ShowField(r.ref), ShowField(r.id), ShowField(r.tags), ShowField(r.supportReference),
     ShowField(r.quote), ShowValue(r.occurrence), ShowField(r.note)]
  }

  /** The nine columns of the TSV9 format, in order. */
  function Tsv9Fields(r: Record): (fs: seq<string>)
    ensures |fs| == 9
  {
    [ShowField(r.ref), ShowField(r.id), ShowField(r.tags), ShowField(r.supportReference),
     ShowField(r.quote), ShowValue(r.occurrence), ShowField(r.glQuote), ShowValue(r.glOccurrence),
     ShowField(r.note)]
  }

  /** `tsvRecordToTSV7String(record)`. */
  function Tsv7String(r: Record): string {
    Join(Tsv7Fields(r), "\t")
  }

  /** `tsvRecordToTSV9String(record)`. */
  function Tsv9String(r: Record): string {
    Join(Tsv9Fields(r), "\t")
  }

  /** TSV9 is TSV7 with the GL quote and GL occurrence inserted after the occurrence. */
  lemma Tsv9ExtendsTsv7(r: Record)
    ensures Tsv9Fields(r) == Tsv7Fields(r)[..6] + [ShowField(r.glQuote), ShowValue(r.glOccurrence)] + Tsv7Fields(r)[6..]
  {
  }

  /** No part holds a tab. */
  predicate TabFree(parts: seq<string>) {
    forall k :: 0 <= k < |parts| ==> '\t' !in parts[k]
  }

  /** Splitting tab-free parts joined by tabs recovers the parts. */
  lemma TabSplitJoin(parts: seq<string>)
    requires |parts| >= 1 && TabFree(parts)
    ensures Split(Join(parts, "\t"), "\t") == parts
  {
    SplitJoin(parts, "\t", 0);
  }

  /** A written line splits back into its columns: the writers join with single tabs. */
  lemma WrittenColumns(r: Record)
    requires TabFree(Tsv9Fields(r))
    ensures Split(Tsv7String(r), "\t") == Tsv7Fields(r)
    ensures Split(Tsv9String(r), "\t") == Tsv9Fields(r)
  {
    Tsv9ExtendsTsv7(r);
    assert forall k :: 0 <= k < 7 ==> Tsv7Fields(r)[k] in Tsv9Fields(r);
    TabSplitJoin(Tsv7Fields(r));
    TabSplitJoin(Tsv9Fields(r));
  }

  // ------------------------------------------------------------------ row layout

  /** Columns 0–4 map to ref, id, tags, supportReference and quote in every row. */
  lemma LeadingColumns(n: nat, items: seq<string>)
    ensures var r := RowToRecord(n, PadRow(items));
      r.ref == At(items, 0) && r.id == At(items, 1) && r.tags == At(items, 2)
      && r.supportReference == At(items, 3) && r.quote == At(items, 4)
      && r.occurrence == Number(OccurrenceOf(At(items, 5)))
  {
  }

  /** In a 7-field row the note moves to column 8, with an empty GL quote and a GL
      occurrence of 0 before it. */
  lemma SevenFieldRow(n: nat, items: seq<string>)
    requires |items| == 7
    ensures var r := RowToRecord(n, PadRow(items));
      r.glQuote == Some("") && r.glOccurrence == Number(0) && r.note == Some(items[6])
  {
    var row := PadRow(items);
    assert row[6] == "" && row[7] == "0" && row[8] == items[6];
    assert ParseInt("0") == Some(0) by {
      assert "0" == IntToString(0);
      ParseIntOfIntToString(0);
    }
  }

  /** Any other row keeps its columns where they are: glQuote at 6, glOccurrence at 7, note
      at 8, and whatever lies beyond is ignored. */
  lemma OtherRow(n: nat, items: seq<string>)
    requires |items| != 7
    ensures var r := RowToRecord(n, PadRow(items));
      r.glQuote == At(items, 6) && r.glOccurrence == Number(OccurrenceOf(At(items, 7)))
      && r.note == At(items, 8)
  {
  }

  // ------------------------------------------------------------------ blank lines

  /** Blank lines never reach the records. */
  lemma {:induction false} NonBlankAround(a: seq<string>, b: string, c: seq<string>)
    requires IsBlank(b)
    ensures NonBlankLines(a + [b] + c) == NonBlankLines(a + c)
    decreases |a|
  {
    if |a| == 0 {
      assert a + [b] + c == [b] + c;
      assert ([b] + c)[1..] == c;
      assert a + c == c;
    } else {
      NonBlankAround(a[1..], b, c);
      assert (a + [b] + c)[1..] == a[1..] + [b] + c;
      assert (a + c)[1..] == a[1..] + c;
    }
  }

  /** Lines none of which is blank are all kept. */
  lemma {:induction false} NonBlankKeepsAll(lines: seq<string>)
    requires forall k :: 0 <= k < |lines| ==> !IsBlank(lines[k])
    ensures NonBlankLines(lines) == lines
    decreases |lines|
  {
    if |lines| > 0 {
      NonBlankKeepsAll(lines[1..]);
    }
  }

  /** A file of newline-free lines is read line by line, blank lines skipped and the
      others numbered from 0. */
  lemma ParseLines(lines: seq<string>)
    requires NewlineFree(lines)
    ensures ParseTsvToObjects(Join(lines, "\n")) == Records(NonBlankLines(lines))
  {
    if |lines| == 0 {
      assert Split("", "\n") == [""] by {
        SplitOnChar("", '\n');
      }
      assert NonBlankLines([""]) == [] by {
        assert IsBlank("");
      }
    } else {
      SplitJoin(lines, "\n", 0);
    }
  }

  /** No line holds a line break. */
  predicate NewlineFree(lines: seq<string>) {
    forall k :: 0 <= k < |lines| ==> '\n' !in lines[k]
  }

  lemma NewlineFreeAround(a: seq<string>, b: string, c: seq<string>)
    requires NewlineFree(a) && '\n' !in b && NewlineFree(c)
    ensures NewlineFree(a + [b] + c) && NewlineFree(a + c)
  {
    var withBlank := a + [b] + c;
    forall k | 0 <= k < |withBlank|
      ensures '\n' !in withBlank[k]
    {
      if k < |a| { assert withBlank[k] == a[k]; }
      else if k > |a| { assert withBlank[k] == c[k - |a| - 1]; }
    }
    var without := a + c;
    forall k | 0 <= k < |without|
      ensures '\n' !in without[k]
    {
      if k < |a| { assert without[k] == a[k]; }
      else { assert without[k] == c[k - |a|]; }
    }
  }

  /** Inserting a blank line anywhere changes nothing, not even the numbering. */
  lemma BlankLineIgnored(a: seq<string>, b: string, c: seq<string>)
    requires IsBlank(b) && '\n' !in b && NewlineFree(a) && NewlineFree(c)
    ensures ParseTsvToObjects(Join(a + [b] + c, "\n")) == ParseTsvToObjects(Join(a + c, "\n"))
  {
    NewlineFreeAround(a, b, c);
    ParseLines(a + [b] + c);
    ParseLines(a + c);
    NonBlankAround(a, b, c);
  }

  // ------------------------------------------------------------------ round trips

  /** A field `parseInt` reads as an integer that prints back as the same text. */
  predicate IsIntegerText(s: string) {
    ParseInt(s).Some? && IntToString(ParseInt(s).value) == s
  }

  /** A TSV7 data row: seven cells free of tabs and line breaks, the occurrence an integer
      in canonical form. */
  predicate IsTsv7Row(fields: seq<string>) {
    |fields| == 7 && TabFree(fields) && NewlineFree(fields) && IsIntegerText(fields[5])
  }

  /** A TSV9 data row: nine such cells, both occurrences integers in canonical form. */
  predicate IsTsv9Row(fields: seq<string>) {
    |fields| == 9 && TabFree(fields) && NewlineFree(fields)
    && IsIntegerText(fields[5]) && IsIntegerText(fields[7])
  }

  /** A canonical integer field is read back as the number it prints. */
  lemma IntegerTextValue(s: string)
    requires IsIntegerText(s)
    ensures ShowValue(Number(OccurrenceOf(Some(s)))) == s
  {
    var i := ParseInt(s).value;
    if i == 0 {
      assert ParseIntOrZero(s) == 0;
    }
  }

  /** A line of canonical integer text is never blank: the occurrence holds a digit. */
  lemma IntegerTextNotBlank(s: string)
    requires IsIntegerText(s)
    ensures !IsBlank(s)
  {
    var i := ParseInt(s).value;
    var m: nat := if i < 0 then -i else i;
    NatToStringCanonical(m);
    var d := NatToString(m);
    if i < 0 {
      assert s == "-" + d;
      assert s[1] == d[0];
      assert IsDigit(s[1]);
    } else {
      assert s == d;
      assert IsDigit(s[0]);
    }
  }

  /** A joined line containing a non-blank cell is not blank. */
  lemma JoinNotBlank(parts: seq<string>, sep: string, i: nat)
    requires i < |parts| && !IsBlank(parts[i])
    ensures !IsBlank(Join(parts, sep))
    decreases |parts|
  {
    var j :| 0 <= j < |parts[i]| && !IsSpace(parts[i][j]);
    if |parts| > 1 {
      if i == 0 {
        assert Join(parts, sep)[j] == parts[0][j];
      } else {
        JoinNotBlank(parts[1..], sep, i - 1);
        var rest := Join(parts[1..], sep);
        var k :| 0 <= k < |rest| && !IsSpace(rest[k]);
        assert Join(parts, sep)[|parts[0]| + |sep| + k] == rest[k];
      }
    }
  }

  /** The columns the TSV7 writer prints for a parsed 7-field row. */
  lemma SevenFieldColumns(n: nat, fields: seq<string>)
    requires |fields| == 7
    ensures Tsv7Fields(RowToRecord(n, PadRow(fields)))
         == fields[..5] + [ShowValue(Number(OccurrenceOf(Some(fields[5])))), fields[6]]
  {
    var r := RowToRecord(n, PadRow(fields));
    LeadingColumns(n, fields);
    SevenFieldRow(n, fields);
  }

  /** The columns the TSV9 writer prints for a parsed 9-field row. */
  lemma NineFieldColumns(n: nat, fields: seq<string>)
    requires |fields| == 9
    ensures Tsv9Fields(RowToRecord(n, PadRow(fields)))
         == fields[..5] + [ShowValue(Number(OccurrenceOf(Some(fields[5])))), fields[6],
                           ShowValue(Number(OccurrenceOf(Some(fields[7])))), fields[8]]
  {
    var r := RowToRecord(n, PadRow(fields));
    LeadingColumns(n, fields);
    OtherRow(n, fields);
  }

  /** A row joined with tabs is read back column for column. */
  lemma ParseJoinedRow(n: nat, fields: seq<string>)
    requires |fields| >= 1 && TabFree(fields)
    ensures ParseRow(n, Join(fields, "\t")) == RowToRecord(n, PadRow(fields))
  {
    TabSplitJoin(fields);
  }

  /** The TSV7 writer prints the columns of a TSV7 data row back unchanged. */
  lemma Tsv7ColumnsBack(n: nat, fields: seq<string>)
    requires IsTsv7Row(fields)
    ensures Tsv7Fields(RowToRecord(n, PadRow(fields))) == fields
  {
    SevenFieldColumns(n, fields);
    IntegerTextValue(fields[5]);
    assert fields == fields[..5] + [fields[5], fields[6]];
  }

  /** The TSV9 writer prints the columns of a TSV9 data row back unchanged. */
  lemma Tsv9ColumnsBack(n: nat, fields: seq<string>)
    requires IsTsv9Row(fields)
    ensures Tsv9Fields(RowToRecord(n, PadRow(fields))) == fields
  {
    NineFieldColumns(n, fields);
    IntegerTextValue(fields[5]);
    IntegerTextValue(fields[7]);
    assert fields == fields[..5] + [fields[5], fields[6], fields[7], fields[8]];
  }

  /** One TSV7 data row is read as a record that the TSV7 writer prints as the same line. */
  lemma Tsv7RowRoundTrip(n: nat, fields: seq<string>)
    requires IsTsv7Row(fields)
    ensures Tsv7String(ParseRow(n, Join(fields, "\t"))) == Join(fields, "\t")
  {
    ParseJoinedRow(n, fields);
    Tsv7ColumnsBack(n, fields);
  }

  /** One TSV9 data row is read as a record that the TSV9 writer prints as the same line. */
  lemma Tsv9RowRoundTrip(n: nat, fields: seq<string>)
    requires IsTsv9Row(fields)
    ensures Tsv9String(ParseRow(n, Join(fields, "\t"))) == Join(fields, "\t")
  {
    ParseJoinedRow(n, fields);
    Tsv9ColumnsBack(n, fields);
  }

  /** The lines of a file of rows. */
  function RowLines(rows: seq<seq<string>>): (r: seq<string>)
    ensures |r| == |rows|
    ensures forall k :: 0 <= k < |rows| ==> r[k] == Join(rows[k], "\t")
  {
    seq(|rows|, k requires 0 <= k < |rows| => Join(rows[k], "\t"))
  }

  /** A line of a TSV7 data row is newline-free and not blank. */
  lemma Tsv7Line(fields: seq<string>)
    requires IsTsv7Row(fields)
    ensures '\n' !in Join(fields, "\t") && !IsBlank(Join(fields, "\t"))
  {
    CharNotInJoin(fields, "\t", '\n');
    IntegerTextNotBlank(fields[5]);
    JoinNotBlank(fields, "\t", 5);
  }

  /** A file of TSV7 data rows parses to records that the TSV7 writer prints back as the
      file's lines, in order. */
  lemma Tsv7FileRoundTrip(rows: seq<seq<string>>)
    requires forall k :: 0 <= k < |rows| ==> IsTsv7Row(rows[k])
    ensures var records := ParseTsvToObjects(Join(RowLines(rows), "\n"));
      |records| == |rows| && forall k :: 0 <= k < |rows| ==> Tsv7String(records[k]) == RowLines(rows)[k]
  {
    var lines := RowLines(rows);
    forall k | 0 <= k < |lines|
      ensures '\n' !in lines[k] && !IsBlank(lines[k])
    {
      Tsv7Line(rows[k]);
    }
    ParseLines(lines);
    NonBlankKeepsAll(lines);
    forall k | 0 <= k < |rows|
      ensures Tsv7String(Records(lines)[k]) == lines[k]
    {
      Tsv7RowRoundTrip(k, rows[k]);
    }
  }
}

=== FILE: tsv_converters.dfy ===
/** The two row loops of src/core/tsvQuoteConverters.js: `convertULTQuotes2OL` rewrites each
    TSV7 row's ULT quote into the original language, and `addGLQuoteCols` adds the
    gateway-language quote columns of TSV9. Both try a row's verses in order and keep the
    first one the resolver succeeds on. */
module TsvConverters {
  import opened Base
  import opened Text
  import opened Tokens
  import opened Tsv
  import opened AlignmentQuery
  import opened QuotePrep
  import opened RowVerses
  import opened Resolver

  /** The docSet abbreviations the module's own query registers tokens under. */
  const UltAbbr: string := "ult"

  function OrigAbbr(t: Testament): string {
    if t.Old? then "uhb" else "ugnt"
  }

  // ------------------------------------------------------------------ record fields

  /** `!field` for a text field: `undefined` or empty. */
  predicate Missing(f: Field) {
    f.None? || f.value == ""
  }

  /** `!field` for an occurrence: the number 0 or the empty string. */
  predicate Falsy(v: Value) {
    match v
    case Number(n) => n == 0
    case Text(s) => s == ""
  }

  /** The first-group occurrence `convertULTQuotes2OL` passes: `1` for the text `'1'`,
      otherwise `parseInt` of the field, a number being printed first. */
  function CallOccurrence(v: Value): Option<int> {
    if v == Value.Text("1") then Some(1) else ParseInt(ShowValue(v))
  }

  /** The `'1'` case changes nothing, and a number is passed as itself. */
  lemma CallOccurrenceIsParseInt(v: Value)
    ensures CallOccurrence(v) == ParseInt(ShowValue(v))
    ensures v.Number? ==> CallOccurrence(v) == Some(v.number)
  {
    if v == Value.Text("1") {
      assert IsCanonicalNumeral("1");
      ParseCanonicalNumeral("1");
      assert RadixValue("1", 10) == 1 by {
        assert "1"[..0] == "";
      }
    }
    if v.Number? {
      ParseIntOfIntToString(v.number);
    }
  }

  /** The occurrence `addGLQuoteCols` passes untouched: a number, or text that is never
      `===` to a count and so behaves as `NaN`. */
  function RawOccurrence(v: Value): (r: Option<int>)
    ensures v.Number? <==> r.Some?
    ensures v.Number? ==> r.value == v.number
  {
    match v
    case Number(n) => Some(n)
    case Text(_) => None
  }

  // ------------------------------------------------------------------ verses of a row

  /** `ref.split(':')` and the `verses` list built from `verseRef`; `None` when the
      reference has no `:`, where `verseRef.trim()` throws. */
  function VerseList(reference: string): (r: Option<(string, seq<Option<int>>)>)
    ensures r.None? <==> ':' !in reference
    ensures r.Some? ==> r.value.0 == ChapterAndVerses(reference).0
    ensures r.Some? ==> r.value.1 == VerseNumbers(VerseParts(ChapterAndVerses(reference).1.value))
  {
    var (chapter, verseRef) := ChapterAndVerses(reference);
    if verseRef.None? then None
    else Some((chapter, VerseNumbers(VerseParts(verseRef.value))))
  }

  /** Which token stream is the resolver's source. */
  datatype Direction = UltToOrig | OrigToUlt

  /** The original-language and ULT tokens of one verse: `source[book][cv]` throws without
      the repository or book, `tokenLookup.ult?.[book][cv]` only without the book. */
  function VerseTokens(t: Testament, lookup: TokenLookup, book: string, cv: string): (r: Option<(Option<seq<Token>>, Option<seq<Token>>)>)
    ensures r.None? <==> FetchStrict(lookup, OrigAbbr(t), book, cv).Threw? || FetchOptional(lookup, UltAbbr, book, cv).Threw?
    ensures r.Some? ==> r.value == (FetchStrict(lookup, OrigAbbr(t), book, cv).tokens, FetchOptional(lookup, UltAbbr, book, cv).tokens)
  {
    match (FetchStrict(lookup, OrigAbbr(t), book, cv), FetchOptional(lookup, UltAbbr, book, cv))
    case (Fetched(orig), Fetched(ult)) => Some((orig, ult))
    case _ => None
  }

  /** One verse of the loop: the lookups, then the resolver call inside the `try`. */
  function VerseStep(resolve: Resolve, dir: Direction, t: Testament, lookup: TokenLookup, book: string,
                     chapter: string, quote: string, occurrence: Option<int>, v: Option<int>): (r: Step)
    ensures r.Crash? <==> VerseTokens(t, lookup, book, CvKey(chapter, v)).None?
  {
    match VerseTokens(t, lookup, book, CvKey(chapter, v))
    case None => Crash
    case Some((orig, ult)) =>
      if dir.UltToOrig? then Tried(resolve(ult, orig, quote, occurrence))
      else Tried(resolve(orig, ult, quote, occurrence))
  }

  /** `convertULTQuotes2OL` resolves from the ULT to the original language and
      `addGLQuoteCols` the other way: the same call with the resolver's roles exchanged. */
  lemma RolesSwapped(resolve: Resolve, t: Testament, lookup: TokenLookup, book: string,
                     chapter: string, quote: string, occurrence: Option<int>, v: Option<int>)
    ensures VerseStep(resolve, UltToOrig, t, lookup, book, chapter, quote, occurrence, v)
         == VerseStep(Swapped(resolve), OrigToUlt, t, lookup, book, chapter, quote, occurrence, v)
  {
  }

  function VerseSteps(resolve: Resolve, dir: Direction, t: Testament, lookup: TokenLookup, book: string,
                      chapter: string, quote: string, occurrence: Option<int>, verses: seq<Option<int>>): (r: seq<Step>)
    ensures |r| == |verses|
    ensures forall k :: 0 <= k < |verses| ==> r[k] == VerseStep(resolve, dir, t, lookup, book, chapter, quote, occurrence, verses[k])
  {
    seq(|verses|, k requires 0 <= k < |verses| => VerseStep(resolve, dir, t, lookup, book, chapter, quote, occurrence, verses[k]))
  }

  // ------------------------------------------------------------------ one record

  /** The error a record whose last verse failed reports. */
  datatype RowError = RowError(cv: string, id: Field)

  /** What one record contributes: a written record and perhaps an error, nothing, a throw
      that rejects the whole conversion, or a resolver call that never returns. */
  datatype RowOutcome = Emit(record: Record, error: Option<RowError>) | NoLine | RowThrows | RowLoops

  /** How the loop over a record's verses ends, as a record outcome: `found` updates the
      record on success, `missed` on failure of the last verse. */
  function Settle(v: Verdict, chapter: string, verses: seq<Option<int>>, id: Field,
                  found: (string, int) -> Record, missed: Record): (o: RowOutcome)
    requires v.AllFailed? ==> |verses| > 0
    ensures v.NoVerses? <==> o.NoLine?
    ensures v.Success? ==> o == Emit(found(v.quote, v.occurrence), None)
    ensures v.AllFailed? ==> o == Emit(missed, Some(RowError(CvKey(chapter, verses[|verses| - 1]), id)))
    ensures v.Crashed? <==> o.RowThrows?
    ensures v.Looped? <==> o.RowLoops?
  {
    match v
    case NoVerses => NoLine
    case Success(_, q, occ) => Emit(found(q, occ), None)
    case AllFailed => Emit(missed, Some(RowError(CvKey(chapter, verses[|verses| - 1]), id)))
    case Crashed(_) => RowThrows
    case Looped(_) => RowLoops
  }

  /** Rows `convertULTQuotes2OL` writes back unchanged: no reference, no quote, no
      occurrence, the header row, or a quote already in Hebrew or Greek. */
  predicate SkippedToOrig(r: Record) {
    Missing(r.ref) || r.quote.None? || Trim(r.quote.value) == "" || Falsy(r.occurrence)
    || r.ref == Some("Reference") || ContainsHebrewOrGreek(r.quote.value)
  }

  function ToOrigHeader(r: Record): Record {
    if r.ref == Some("Reference") then r.(occurrence := Value.Text("Occurrence")) else r
  }

  /** The quote `convertULTQuotes2OL` hands to the resolver. */
  function ToOrigQuote(r: Record): string
    requires r.quote.Some?
  {
    PrepareQuote(r.quote.value, Ellipsis)
  }

  /** The body of the `for (const tsvRecord of tsvRecords)` loop of `convertULTQuotes2OL`. */
  function ToOrigRecord(resolve: Resolve, t: Testament, lookup: TokenLookup, book: string, r: Record): (o: RowOutcome)
    ensures SkippedToOrig(r) ==> o == Emit(ToOrigHeader(r), None)
    ensures !SkippedToOrig(r) && ':' !in r.ref.value ==> o == RowThrows
    ensures o.Emit? && !SkippedToOrig(r) ==> o.record.ref == r.ref && o.record.id == r.id && o.record.note == r.note
  {
    if SkippedToOrig(r) then Emit(ToOrigHeader(r), None)
    else
      match VerseList(r.ref.value)
      case None => RowThrows
      case Some((chapter, verses)) =>
        Settle(FirstSuccess(ToOrigSteps(resolve, t, lookup, book, r)), chapter, verses, r.id,
               (q, occ) => r.(quote := Some(q), occurrence := Number(occ)),
               r.(quote := Some(NotFoundPrefix + r.quote.value)))
  }

  /** The header row keeps its place with `Occurrence` as its occurrence column. */
  lemma ToOrigHeaderRow(resolve: Resolve, t: Testament, lookup: TokenLookup, book: string, r: Record)
    requires r.ref == Some("Reference")
    ensures ToOrigRecord(resolve, t, lookup, book, r) == Emit(r.(occurrence := Value.Text("Occurrence")), None)
  {
  }

  /** The verses tried for a record that is not skipped. */
  function ToOrigSteps(resolve: Resolve, t: Testament, lookup: TokenLookup, book: string, r: Record): (steps: seq<Step>)
    requires !SkippedToOrig(r) && VerseList(r.ref.value).Some?
    ensures |steps| == |VerseList(r.ref.value).value.1|
  {
    var (chapter, verses) := VerseList(r.ref.value).value;
    VerseSteps(resolve, UltToOrig, t, lookup, book, chapter, ToOrigQuote(r), CallOccurrence(r.occurrence), verses)
  }

  /** The first verse that resolves gives the record its new quote and occurrence, whatever
      the later verses would give. */
  lemma ToOrigFirstSuccess(resolve: Resolve, t: Testament, lookup: TokenLookup, book: string, r: Record, k: nat, q: string, occ: int)
    requires !SkippedToOrig(r) && VerseList(r.ref.value).Some?
    requires k < |ToOrigSteps(resolve, t, lookup, book, r)|
    requires FailedBetween(ToOrigSteps(resolve, t, lookup, book, r), 0, k)
    requires ToOrigSteps(resolve, t, lookup, book, r)[k] == Tried(Found(q, occ))
    ensures ToOrigRecord(resolve, t, lookup, book, r) == Emit(r.(quote := Some(q), occurrence := Number(occ)), None)
  {
    FirstSuccessWins(ToOrigSteps(resolve, t, lookup, book, r), k);
  }

  /** When every verse fails, the record is written once, with `QUOTE_NOT_FOUND: ` put in
      front of its quote as it stood, and the error names the last verse. */
  lemma ToOrigAllFail(resolve: Resolve, t: Testament, lookup: TokenLookup, book: string, r: Record)
    requires !SkippedToOrig(r) && VerseList(r.ref.value).Some?
    requires |ToOrigSteps(resolve, t, lookup, book, r)| > 0
    requires FailedBetween(ToOrigSteps(resolve, t, lookup, book, r), 0, |ToOrigSteps(resolve, t, lookup, book, r)|)
    ensures var (chapter, verses) := VerseList(r.ref.value).value;
      ToOrigRecord(resolve, t, lookup, book, r)
      == Emit(r.(quote := Some(NotFoundPrefix + r.quote.value)), Some(RowError(CvKey(chapter, verses[|verses| - 1]), r.id)))
  {
    AllFailedExactly(ToOrigSteps(resolve, t, lookup, book, r));
  }

  /** Unlike the GL drivers, a quote that already carries the sentinel gets a second one when
      it fails again: the prefix is stripped only from the copy handed to the resolver. */
  lemma ToOrigPrefixDoubles(resolve: Resolve, t: Testament, lookup: TokenLookup, book: string, r: Record)
    requires !SkippedToOrig(r) && VerseList(r.ref.value).Some?
    requires NotFoundPrefix <= r.quote.value
    requires |ToOrigSteps(resolve, t, lookup, book, r)| > 0
    requires FailedBetween(ToOrigSteps(resolve, t, lookup, book, r), 0, |ToOrigSteps(resolve, t, lookup, book, r)|)
    ensures ToOrigRecord(resolve, t, lookup, book, r).Emit?
    ensures NotFoundPrefix + NotFoundPrefix <= ToOrigRecord(resolve, t, lookup, book, r).record.quote.value
  {
    ToOrigAllFail(resolve, t, lookup, book, r);
    PrefixTwice(r.quote.value);
  }

  lemma PrefixTwice(x: string)
    requires NotFoundPrefix <= x
    ensures NotFoundPrefix + NotFoundPrefix <= NotFoundPrefix + x
  {
    assert (NotFoundPrefix + x)[..2 * |NotFoundPrefix|] == NotFoundPrefix + x[..|NotFoundPrefix|];
  }

  /** A reference whose verses list no verse, as a descending range `1:5-3` does, writes no
      line at all for the record. */
  lemma ToOrigNoVerses(resolve: Resolve, t: Testament, lookup: TokenLookup, book: string, r: Record)
    requires !SkippedToOrig(r) && VerseList(r.ref.value).Some? && VerseList(r.ref.value).value.1 == []
    ensures ToOrigRecord(resolve, t, lookup, book, r) == NoLine
  {
  }

  /** Rows `addGLQuoteCols` writes back without resolving: no reference, a blank quote, no
      occurrence, or the header row. There is no Hebrew/Greek test here. */
  predicate SkippedToGl(r: Record)
    requires !Missing(r.ref) ==> r.quote.Some?
  {
    Missing(r.ref) || Trim(r.quote.value) == "" || Falsy(r.occurrence) || r.ref == Some("Reference")
  }

  function GlHeader(r: Record): Record {
    if r.ref == Some("Reference")
    then r.(occurrence := Value.Text("Occurrence"), glQuote := Some("GLQuote"), glOccurrence := Value.Text("GLOccurrence"))
    else r
  }

  /** The body of the `for (const tsvRecord of tsvRecords)` loop of `addGLQuoteCols`: the
      quote must be defined once there is a reference (`quote.trim()` has no `?.`). */
  function GlRecord(resolve: Resolve, t: Testament, lookup: TokenLookup, book: string, r: Record): (o: RowOutcome)
    ensures !Missing(r.ref) && r.quote.None? ==> o == RowThrows
    ensures (Missing(r.ref) || r.quote.Some?) && SkippedToGl(r) ==> o == Emit(GlHeader(r), None)
    ensures o.Emit? ==> o.record.ref == r.ref && o.record.id == r.id && o.record.quote == r.quote && o.record.note == r.note
  {
    if !Missing(r.ref) && r.quote.None? then RowThrows
    else if SkippedToGl(r) then Emit(GlHeader(r), None)
    else
      match VerseList(r.ref.value)
      case None => RowThrows
      case Some((chapter, verses)) =>
        Settle(FirstSuccess(GlSteps(resolve, t, lookup, book, r)), chapter, verses, r.id, GlFound(r),
               r.(glQuote := Some(NotFoundPrefix + r.quote.value)))
  }

  /** A record whose GL columns take a resolved quote and occurrence. */
  function GlFound(r: Record): (found: (string, int) -> Record)
    ensures forall q, occ :: found(q, occ) == r.(glQuote := Some(q), glOccurrence := Number(occ))
  {
    (q, occ) => r.(glQuote := Some(q), glOccurrence := Number(occ))
  }

  /** The verses tried for a record `addGLQuoteCols` does not skip. */
  function GlSteps(resolve: Resolve, t: Testament, lookup: TokenLookup, book: string, r: Record): (steps: seq<Step>)
    requires r.ref.Some? && r.quote.Some? && VerseList(r.ref.value).Some?
    ensures |steps| == |VerseList(r.ref.value).value.1|
  {
    var (chapter, verses) := VerseList(r.ref.value).value;
    VerseSteps(resolve, OrigToUlt, t, lookup, book, chapter, PrepareQuote(r.quote.value, Ellipsis), RawOccurrence(r.occurrence), verses)
  }

  /** On success the GL columns hold the resolved quote and occurrence; the source columns
      are left alone. */
  lemma GlFirstSuccess(resolve: Resolve, t: Testament, lookup: TokenLookup, book: string, r: Record, k: nat, q: string, occ: int)
    requires !Missing(r.ref) && r.quote.Some? && !SkippedToGl(r) && VerseList(r.ref.value).Some?
    requires k < |GlSteps(resolve, t, lookup, book, r)|
    requires FailedBetween(GlSteps(resolve, t, lookup, book, r), 0, k)
    requires GlSteps(resolve, t, lookup, book, r)[k] == Tried(Found(q, occ))
    ensures GlRecord(resolve, t, lookup, book, r) == Emit(r.(glQuote := Some(q), glOccurrence := Number(occ)), None)
  {
    FirstSuccessWins(GlSteps(resolve, t, lookup, book, r), k);
    GlRecordSettles(resolve, t, lookup, book, r);
  }

  /** A record `addGLQuoteCols` resolves ends as its verse loop does. */
  lemma GlRecordSettles(resolve: Resolve, t: Testament, lookup: TokenLookup, book: string, r: Record)
    requires !Missing(r.ref) && r.quote.Some? && !SkippedToGl(r) && VerseList(r.ref.value).Some?
    ensures GlRecord(resolve, t, lookup, book, r)
         == Settle(FirstSuccess(GlSteps(resolve, t, lookup, book, r)), VerseList(r.ref.value).value.0, VerseList(r.ref.value).value.1,
                   r.id, GlFound(r), r.(glQuote := Some(NotFoundPrefix + r.quote.value)))
  {
  }

  /** When every verse fails, the GL quote is the quote as it stood behind the sentinel, and
      the error names the last verse. */
  lemma GlAllFail(resolve: Resolve, t: Testament, lookup: TokenLookup, book: string, r: Record)
    requires !Missing(r.ref) && r.quote.Some? && !SkippedToGl(r) && VerseList(r.ref.value).Some?
    requires |GlSteps(resolve, t, lookup, book, r)| > 0
    requires FailedBetween(GlSteps(resolve, t, lookup, book, r), 0, |GlSteps(resolve, t, lookup, book, r)|)
    ensures var (chapter, verses) := VerseList(r.ref.value).value;
      GlRecord(resolve, t, lookup, book, r)
      == Emit(r.(glQuote := Some(NotFoundPrefix + r.quote.value)), Some(RowError(CvKey(chapter, verses[|verses| - 1]), r.id)))
  {
    AllFailedExactly(GlSteps(resolve, t, lookup, book, r));
  }

  // ------------------------------------------------------------------ the whole file

  /** How a conversion settles: resolved with its lines and errors, rejected, or never. */
  datatype Run<T> = Settled(output: seq<T>, errors: seq<RowError>) | Rejected | Pending

  function ErrorList(e: Option<RowError>): seq<RowError> {
    match e
    case Some(x) => [x]
    case None => []
  }

  /** Records count as lines when they emit or stay silent. */
  predicate Quiet(o: RowOutcome) {
    o.Emit? || o.NoLine?
  }

  /** The records processed in order: the first throw rejects, the first call that never
      returns leaves the conversion pending, and otherwise every emitted record is written
      with its error, if any. */
  function Assemble(outs: seq<RowOutcome>): (r: Run<Record>)
    ensures r.Settled? <==> forall k :: 0 <= k < |outs| ==> Quiet(outs[k])
    ensures r.Settled? ==> |r.output| <= |outs| && |r.errors| <= |r.output|
    decreases |outs|
  {
    if |outs| == 0 then Settled([], [])
    else
      var rest := Assemble(outs[1..]);
      assert forall k :: 0 <= k < |outs| - 1 ==> outs[1..][k] == outs[k + 1];
      match outs[0]
      case RowThrows => Rejected
      case RowLoops => Pending
      case NoLine => rest
      case Emit(rec, e) =>
        if rest.Settled? then Settled([rec] + rest.output, ErrorList(e) + rest.errors) else rest
  }

  /** Records writing exactly one line each come out one per record, in order. */
  lemma {:induction false} AssembleAllEmit(outs: seq<RowOutcome>)
    requires forall k :: 0 <= k < |outs| ==> outs[k].Emit?
    ensures Assemble(outs).Settled?
    ensures |Assemble(outs).output| == |outs|
    ensures forall k :: 0 <= k < |outs| ==> Assemble(outs).output[k] == outs[k].record
    decreases |outs|
  {
    if |outs| > 0 {
      assert forall k :: 0 <= k < |outs| - 1 ==> outs[1..][k] == outs[k + 1];
      AssembleAllEmit(outs[1..]);
    }
  }

  function Written<T>(run: Run<Record>, write: Record -> T): (r: Run<T>)
    ensures r.Settled? <==> run.Settled?
    ensures r.Settled? ==> |r.output| == |run.output| && r.errors == run.errors
    ensures r.Settled? ==> forall k :: 0 <= k < |r.output| ==> r.output[k] == write(run.output[k])
  {
    match run
    case Settled(out, errs) => Settled(seq(|out|, k requires 0 <= k < |out| => write(out[k])), errs)
    case Rejected => Rejected
    case Pending => Pending
  }

  function ToOrigOutcomes(resolve: Resolve, t: Testament, lookup: TokenLookup, book: string, records: seq<Record>): (r: seq<RowOutcome>)
    ensures |r| == |records|
    ensures forall k :: 0 <= k < |records| ==> r[k] == ToOrigRecord(resolve, t, lookup, book, records[k])
  {
    seq(|records|, k requires 0 <= k < |records| => ToOrigRecord(resolve, t, lookup, book, records[k]))
  }

  /** `convertULTQuotes2OL(book, tsvContent)` once the token lookup is built: an unknown book
      (no testament) rejects; otherwise the TSV7 lines and errors of the records. Every lookup
      uses the upper-cased book code. */
  function ConvertUltQuotes2Ol(resolve: Resolve, testament: Option<Testament>, lookup: TokenLookup, book: string, content: string): (r: Run<string>)
    ensures testament.None? ==> r == Rejected
  {
    if testament.None? then Rejected
    else
      var outs := ToOrigOutcomes(resolve, testament.value, lookup, Upper(book), ParseTsvToObjects(content));
      Written(Assemble(outs), Tsv7String)
  }

  function GlOutcomes(resolve: Resolve, t: Testament, lookup: TokenLookup, book: string, records: seq<Record>): (r: seq<RowOutcome>)
    ensures |r| == |records|
    ensures forall k :: 0 <= k < |records| ==> r[k] == GlRecord(resolve, t, lookup, book, records[k])
  {
    seq(|records|, k requires 0 <= k < |records| => GlRecord(resolve, t, lookup, book, records[k]))
  }

  /** `addGLQuoteCols(book, tsvContent)` of this module, once the lookup is built: the TSV9
      lines and errors of the records, looked up under the upper-cased book code. */
  function AddGlQuoteCols(resolve: Resolve, testament: Option<Testament>, lookup: TokenLookup, book: string, content: string): (r: Run<string>)
    ensures testament.None? ==> r == Rejected
  {
    if testament.None? then Rejected
    else
      var outs := GlOutcomes(resolve, testament.value, lookup, Upper(book), ParseTsvToObjects(content));
      Written(Assemble(outs), Tsv9String)
  }

  /** Both drivers look the book up by its upper-cased code, so a lower-case code converts
      exactly as the upper-case one does. */
  lemma BookCodeCaseIgnored(resolve: Resolve, testament: Option<Testament>, lookup: TokenLookup, book: string, content: string)
    ensures ConvertUltQuotes2Ol(resolve, testament, lookup, book, content) == ConvertUltQuotes2Ol(resolve, testament, lookup, Upper(book), content)
    ensures AddGlQuoteCols(resolve, testament, lookup, book, content) == AddGlQuoteCols(resolve, testament, lookup, Upper(book), content)
  {
    UpperIdempotent(book);
  }

  /** When every record is skipped (no resolving at all), `convertULTQuotes2OL` writes each
      one back, in order, with only the header's occurrence changed. */
  lemma SkippedRecordsPassThrough(resolve: Resolve, t: Testament, lookup: TokenLookup, book: string, content: string)
    requires forall k :: 0 <= k < |ParseTsvToObjects(content)| ==> SkippedToOrig(ParseTsvToObjects(content)[k])
    ensures var recs := ParseTsvToObjects(content);
      var r := ConvertUltQuotes2Ol(resolve, Some(t), lookup, book, content);
      r.Settled? && |r.output| == |recs| && r.errors == []
      && forall k :: 0 <= k < |recs| ==> r.output[k] == Tsv7String(ToOrigHeader(recs[k]))
  {
    var recs := ParseTsvToObjects(content);
    var outs := ToOrigOutcomes(resolve, t, lookup, Upper(book), recs);
    AssembleAllEmit(outs);
    NoErrorsWhenSkipped(outs);
  }

  lemma {:induction false} NoErrorsWhenSkipped(outs: seq<RowOutcome>)
    requires forall k :: 0 <= k < |outs| ==> outs[k].Emit? && outs[k].error.None?
    ensures Assemble(outs).Settled? && Assemble(outs).errors == []
    decreases |outs|
  {
    if |outs| > 0 {
      assert forall k :: 0 <= k < |outs| - 1 ==> outs[1..][k] == outs[k + 1];
      NoErrorsWhenSkipped(outs[1..]);
    }
  }
}

=== FILE: ult_to_orig.dfy ===
/** `searchULTWordRecords`, `origLFromGLQuote` and `getTidiedData`
    (src/core/TSV7ULTQuotesToOrigLQuotes.js): the legacy conversion of a translation quote
    into the original-language words aligned to it. */
module UltToOrig {
  import opened Base
  import opened Text
  import opened Tokens
  import opened Search

  /** The class `[-\s־]`: hyphen, white space and the Hebrew maqaf. */
  predicate IsUltSeparator(c: char) {
    c == '-' || IsSpace(c) || c == '\U{5BE}'
  }

  /** The class `[“‘(),”’?:;.!]`, removed everywhere in a piece. */
  predicate IsUltPunctuation(c: char) {
    c == '\U{201C}' || c == '\U{2018}' || c == '(' || c == ')' || c == ',' || c == '\U{201D}'
    || c == '\U{2019}' || c == '?' || c == ':' || c == ';' || c == '.' || c == '!'
  }

  /** Each piece with every character of the punctuation class removed. */
  function StrippedPieces(pieces: seq<string>): (r: seq<string>)
    ensures |r| == |pieces|
    ensures forall k :: 0 <= k < |pieces| ==> r[k] == RemoveAll(pieces[k], IsUltPunctuation)
  {
    seq(|pieces|, k requires 0 <= k < |pieces| => RemoveAll(pieces[k], IsUltPunctuation))
  }

  /** The search list before scopes are attached (`intermediateSearchList`). */
  function UltSearchList(searchString: string): (r: seq<SearchTuple>)
    ensures forall k :: 0 <= k < |r| ==> r[k].word != Paseq
  {
    DropPaseq(PiecesTuples(StrippedPieces(SplitWhere(searchString, IsUltSeparator))))
  }

  /** A search word with the scopes of the token it was paired with, if any. */
  datatype UltTuple = UltTuple(word: string, followsEllipsis: bool, scopes: Option<seq<string>>)

  /** `getFirstWordIndex(searchWord, tokens, startAt)`. */
  function FirstWordIndex(word: string, tokens: seq<Token>, startAt: nat): (r: int)
    ensures r == -1 || (startAt <= r < |tokens| && tokens[r].payload == word)
    ensures r == -1 ==> forall j :: startAt <= j < |tokens| ==> tokens[j].payload != word
    ensures r >= 0 ==> forall j :: startAt <= j < r ==> tokens[j].payload != word
    decreases |tokens| - startAt
  {
    if startAt >= |tokens| then -1
    else if tokens[startAt].payload == word then startAt
    else FirstWordIndex(word, tokens, startAt + 1)
  }

  /** The inner comparison loop: it stops at the first mismatch, or when either the tokens
      or the search words run out, which still counts as found. */
  function ComparesFrom(list: seq<SearchTuple>, tokens: seq<Token>, searchIndex: nat, ultIndex: nat): bool
    decreases |tokens| - ultIndex
  {
    if ultIndex >= |tokens| || searchIndex >= |list| then true
    else if tokens[ultIndex].payload != list[searchIndex].word then false
    else ComparesFrom(list, tokens, searchIndex + 1, ultIndex + 1)
  }

  /** The outer loop: the next start where the first word occurs and the comparison holds. */
  function FindStart(list: seq<SearchTuple>, tokens: seq<Token>, startAt: nat): (r: Option<nat>)
    requires |list| > 0
    ensures r.Some? ==> startAt <= r.value < |tokens|
    decreases |tokens| - startAt
  {
    var s := FirstWordIndex(list[0].word, tokens, startAt);
    if s == -1 then None
    else if ComparesFrom(list, tokens, 1, s + 1) then Some(s)
    else FindStart(list, tokens, s + 1)
  }

  /** The search list starts at `s`: the first word is there, and every later word that
      still has a token to pair with equals that token's payload. */
  predicate StartsAt(list: seq<SearchTuple>, tokens: seq<Token>, s: nat) {
    && |list| > 0 && s < |tokens|
    && tokens[s].payload == list[0].word
    && forall j :: 1 <= j < |list| && s + j < |tokens| ==> tokens[s + j].payload == list[j].word
  }

  lemma {:induction false} ComparesFromMeans(list: seq<SearchTuple>, tokens: seq<Token>, s: nat, j: nat)
    requires 1 <= j
    ensures ComparesFrom(list, tokens, j, s + j) <==>
      forall i :: j <= i < |list| && s + i < |tokens| ==> tokens[s + i].payload == list[i].word
    decreases |tokens| - (s + j)
  {
    if s + j < |tokens| && j < |list| {
      ComparesFromMeans(list, tokens, s, j + 1);
    }
  }

  /** The loops find the least start position, or none when there is none. */
  lemma {:induction false} FindStartIsLeast(list: seq<SearchTuple>, tokens: seq<Token>, startAt: nat)
    requires |list| > 0
    ensures FindStart(list, tokens, startAt).Some? ==>
      var s := FindStart(list, tokens, startAt).value;
      StartsAt(list, tokens, s) && forall t :: startAt <= t < s ==> !StartsAt(list, tokens, t)
    ensures FindStart(list, tokens, startAt).None? ==>
      forall t :: startAt <= t < |tokens| ==> !StartsAt(list, tokens, t)
    decreases |tokens| - startAt
  {
    var s := FirstWordIndex(list[0].word, tokens, startAt);
    if s != -1 {
      ComparesFromMeans(list, tokens, s, 1);
      if !ComparesFrom(list, tokens, 1, s + 1) {
        FindStartIsLeast(list, tokens, s + 1);
      }
    }
  }

  /** The tuples with the scopes of the tokens from `start` attached, as far as tokens last. */
  function AttachScopes(list: seq<SearchTuple>, tokens: seq<Token>, start: nat): (r: seq<UltTuple>)
    ensures |r| == |list|
    ensures forall k :: 0 <= k < |list| ==>
      && r[k].word == list[k].word && r[k].followsEllipsis == list[k].followsEllipsis
      && (r[k].scopes.Some? <==> start + k < |tokens|)
      && (start + k < |tokens| ==> r[k].scopes == Some(tokens[start + k].scopes))
  {
    seq(|list|, k requires 0 <= k < |list| =>
      UltTuple(list[k].word, list[k].followsEllipsis,
               if start + k < |tokens| then Some(tokens[start + k].scopes) else None))
  }

  /** The error `searchULTWordRecords` runs into when its search list is empty:
      `intermediateSearchList[0][0]` reads past the end. */
  datatype SearchError = EmptySearchList

  /** `searchULTWordRecords(searchString, tokens)`: `[]` when the words occur nowhere. */
  function SearchUltWordRecords(searchString: string, tokens: seq<Token>): Result<seq<UltTuple>, SearchError> {
    var list := UltSearchList(searchString);
    if |list| == 0 then Err(EmptySearchList)
    else
      match FindStart(list, tokens, 0)
      case None => Ok([])
      case Some(s) => Ok(AttachScopes(list, tokens, s))
  }

  /** The search succeeds, with scopes from the least start, exactly when a start exists. */
  lemma SearchUltWordRecordsSpec(searchString: string, tokens: seq<Token>)
    requires |UltSearchList(searchString)| > 0
    ensures SearchUltWordRecords(searchString, tokens).Ok?
    ensures SearchUltWordRecords(searchString, tokens).value == [] <==>
      forall t :: 0 <= t < |tokens| ==> !StartsAt(UltSearchList(searchString), tokens, t)
    ensures SearchUltWordRecords(searchString, tokens).value != [] ==>
      exists s :: 0 <= s < |tokens| && StartsAt(UltSearchList(searchString), tokens, s)
        && (forall t :: 0 <= t < s ==> !StartsAt(UltSearchList(searchString), tokens, t))
        && SearchUltWordRecords(searchString, tokens).value == AttachScopes(UltSearchList(searchString), tokens, s)
  {
    FindStartIsLeast(UltSearchList(searchString), tokens, 0);
  }

  // ------------------------------------------------------------------ origLFromGLQuote

  /** `/<word>:`, the key an alignment scope holds for an original-language word. */
  function ScopeKey(word: string): string {
    "/" + word + ":"
  }

  /** A tuple's scopes array names the word: one or two scopes, one of them holding its key;
      other lengths are only warned about. */
  predicate TupleNames(t: UltTuple, word: string) {
    && t.scopes.Some?
    && ((|t.scopes.value| == 1 && Contains(t.scopes.value[0], ScopeKey(word)))
        || (|t.scopes.value| == 2
            && (Contains(t.scopes.value[0], ScopeKey(word)) || Contains(t.scopes.value[1], ScopeKey(word)))))
  }

  /** Some tuple names the word: the test of the inner loop, which stops at the first. */
  predicate Included(tuples: seq<UltTuple>, word: string) {
    exists k :: 0 <= k < |tuples| && TupleNames(tuples[k], word)
  }

  /** The inner loop over the tuples, as written: the first tuple naming the word ends it. */
  function NamedBy(tuples: seq<UltTuple>, word: string): (r: bool)
    ensures r <==> Included(tuples, word)
  {
    if |tuples| == 0 then false
    else if TupleNames(tuples[0], word) then true
    else
      assert forall k :: 1 <= k < |tuples| ==> tuples[k] == tuples[1..][k - 1];
      NamedBy(tuples[1..], word)
  }

  /** The outer loop over the original-language words, in their order. */
  function IncludedWords(words: seq<string>, tuples: seq<UltTuple>): (r: seq<string>)
    ensures forall k :: 0 <= k < |r| ==> Included(tuples, r[k]) && r[k] in words
  {
    if |words| == 0 then []
    else (if NamedBy(tuples, words[0]) then [words[0]] else []) + IncludedWords(words[1..], tuples)
  }

  /** How many times `w` occurs in `ws`. */
  function CountOf(ws: seq<string>, w: string): nat {
    if |ws| == 0 then 0 else (if ws[0] == w then 1 else 0) + CountOf(ws[1..], w)
  }

  /** Inclusion depends only on the payload: an included word keeps every one of its
      occurrences, and any other word disappears. */
  lemma {:induction false} IncludedWordsCount(words: seq<string>, tuples: seq<UltTuple>, w: string)
    ensures CountOf(IncludedWords(words, tuples), w) == if Included(tuples, w) then CountOf(words, w) else 0
  {
    if |words| > 0 {
      IncludedWordsCount(words[1..], tuples, w);
      var head := if NamedBy(tuples, words[0]) then [words[0]] else [];
      CountOfConcat(head, IncludedWords(words[1..], tuples), w);
    }
  }

  lemma {:induction false} CountOfConcat(a: seq<string>, b: seq<string>, w: string)
    ensures CountOf(a + b, w) == CountOf(a, w) + CountOf(b, w)
  {
    if |a| > 0 {
      assert (a + b)[1..] == a[1..] + b;
      CountOfConcat(a[1..], b, w);
    } else {
      assert a + b == b;
    }
  }

  /** The words keep the order of the original-language tokens: filtering two stretches of
      the verse is filtering each in turn. */
  lemma {:induction false} IncludedWordsConcat(a: seq<string>, b: seq<string>, tuples: seq<UltTuple>)
    ensures IncludedWords(a + b, tuples) == IncludedWords(a, tuples) + IncludedWords(b, tuples)
  {
    if |a| > 0 {
      var head := if NamedBy(tuples, a[0]) then [a[0]] else [];
      assert (a + b)[0] == a[0];
      assert (a + b)[1..] == a[1..] + b;
      assert IncludedWords(a + b, tuples) == head + IncludedWords(a[1..] + b, tuples);
      assert IncludedWords(a[1..] + b, tuples) == IncludedWords(a[1..], tuples) + IncludedWords(b, tuples) by {
        IncludedWordsConcat(a[1..], b, tuples);
      }
      AppendAssoc(head, IncludedWords(a[1..], tuples), IncludedWords(b, tuples));
    } else {
      assert a + b == b;
    }
  }

  /** The normalised payloads of the word-like tokens, in order (`slimSourceTokens` of the
      word-like tokens, then their payloads). */
  function WordLikePayloads(tokens: seq<Token>): seq<string> {
    if |tokens| == 0 then []
    else (if IsWordLike(tokens[0]) then [NormalizePayload(tokens[0].payload)] else [])
         + WordLikePayloads(tokens[1..])
  }

  /** What `origLFromGLQuote` reports: an error when no word matched, the words otherwise. */
  datatype OrigLResult = NoMatch | Words(words: seq<string>) | SearchFailed(error: SearchError)

  /** `origLFromGLQuote(…, sourceTokens, ULTTokens, ULTSearchString, …)`. */
  function OrigLFromGLQuote(sourceTokens: seq<Token>, ultTokens: seq<Token>, searchString: string): (r: OrigLResult)
    ensures r.Words? ==> |r.words| > 0
    ensures r.Words? ==> forall k :: 0 <= k < |r.words| ==> r.words[k] in WordLikePayloads(sourceTokens)
  {
    match SearchUltWordRecords(searchString, ultTokens)
    case Err(e) => SearchFailed(e)
    case Ok(tuples) =>
      var words := IncludedWords(WordLikePayloads(sourceTokens), tuples);
      if |words| == 0 then NoMatch else Words(words)
  }

  /** The error is reported exactly when no original-language word is named by a tuple. */
  lemma NoMatchExactly(sourceTokens: seq<Token>, ultTokens: seq<Token>, searchString: string)
    requires SearchUltWordRecords(searchString, ultTokens).Ok?
    ensures OrigLFromGLQuote(sourceTokens, ultTokens, searchString).NoMatch? <==>
      forall w :: w in WordLikePayloads(sourceTokens) ==>
        !Included(SearchUltWordRecords(searchString, ultTokens).value, w)
  {
    var tuples := SearchUltWordRecords(searchString, ultTokens).value;
    var payloads := WordLikePayloads(sourceTokens);
    var r := IncludedWords(payloads, tuples);
    if |r| > 0 {
      assert Included(tuples, r[0]) && r[0] in payloads;
    } else {
      forall w | w in payloads
        ensures !Included(tuples, w)
      {
        IncludedWordsCount(payloads, tuples, w);
        CountPositive(payloads, w);
      }
    }
  }

  lemma {:induction false} CountPositive(ws: seq<string>, w: string)
    requires w in ws
    ensures CountOf(ws, w) > 0
  {
    if ws[0] != w {
      CountPositive(ws[1..], w);
    }
  }

  // ------------------------------------------------------------------ getTidiedData

  /** `wordList.join(' ').replace(/ … /, '…')`: only the first spaced ellipsis closes up. */
  function TidiedData(words: seq<string>): string {
    ReplaceFirst(Join(words, " "), " " + Ellipsis + " ", Ellipsis)
  }

  /** Without an ellipsis word the words are only joined by spaces. */
  lemma TidiedWithoutEllipsis(words: seq<string>)
    requires forall k :: 0 <= k < |words| ==> '\U{2026}' !in words[k]
    ensures TidiedData(words) == Join(words, " ")
  {
    CharNotInJoin(words, " ", '\U{2026}');
    if Contains(Join(words, " "), " " + Ellipsis + " ") {
      ContainsChar(Join(words, " "), " " + Ellipsis + " ", 1);
    }
  }

  /** With an ellipsis word between two others and none before it, that ellipsis closes up
      onto its neighbours and everything after it, later ellipses included, keeps its
      spaces. */
  lemma TidiedFirstEllipsis(words: seq<string>, i: nat)
    requires 0 < i < |words| - 1 && words[i] == Ellipsis
    requires forall k :: 0 <= k < i ==> '\U{2026}' !in words[k]
    ensures TidiedData(words) == Join(words[..i], " ") + Ellipsis + Join(words[i + 1..], " ")
  {
    var before, after := words[..i], words[i + 1..];
    assert words == before + ([words[i]] + after);
    JoinConcat([words[i]], after, " ");
    JoinConcat(before, [words[i]] + after, " ");
    var pat := " " + Ellipsis + " ";
    assert Join(words, " ") == Join(before, " ") + pat + Join(after, " ");
    CharNotInJoin(before, " ", '\U{2026}');
    FirstSeparatorAfterPart(Join(before, " "), pat, Join(after, " "), 1);
  }

  /** Two ellipses: the first closes up and the second keeps its spaces. */
  lemma TidiedFirstEllipsisOnly()
    ensures TidiedData(["a", Ellipsis, "b", Ellipsis, "c"]) == "a" + Ellipsis + "b " + Ellipsis + " c"
  {
    var words := ["a", Ellipsis, "b", Ellipsis, "c"];
    TidiedFirstEllipsis(words, 1);
    assert words[..1] == ["a"];
    assert words[2..] == ["b", Ellipsis, "c"];
    assert words[2..][1..] == [Ellipsis, "c"];
    assert words[2..][1..][1..] == ["c"];
    assert Join(words[2..][1..], " ") == Ellipsis + " c";
    assert Join(words[2..], " ") == "b " + Ellipsis + " c";
  }
}
